=== FILE: README.md ===
# JIRA ticket generator — core model in Dafny

This project models the core of a tool that turns free-text requirements into
JIRA tickets. It covers five parts of the tool:

- **Models** (`models.py`): the ticket entities and the validation pydantic
  applies to them. The entities are `Task`, `Epic`, `Environment`,
  `TechnicalDetails`, `Bug`, `UserStory` and the `TicketStructure` container.
  Each validating constructor returns `Ok` exactly when pydantic would accept
  the arguments.
- **Extraction** (`agents/extraction_agent.py`): `extract` with no language
  model configured, and its `_extract_simple` fallback. The fallback builds one
  epic holding one task from the first non-blank line of the text.
- **Review** (`agents/review_agent.py`):
  - `ReviewResult`, with `has_issues`, `to_dict` and `__str__`;
  - `_review_simple`, the rule-based review with its gaps, questions and suggestions;
  - `review` and `apply_feedback` with no client;
  - `_structure_to_text`.
- **Render** (`markdown_utils.py`): `write_markdown` and its
  `_format_epics`, `_format_bugs` and `_format_stories`, plus
  `generate_filename`. Entries are built as lists of strings and joined with
  line breaks.
- **Parser** (`markdown_parser.py`): `parse_markdown` and the per-type section
  parsers, down to the line loops. The `re.split` on the numbered heading
  patterns is modelled with its leftmost, non-overlapping matching.

On top of the operations, the project proves what writing a structure and
reading it back does:

- The header round-trips: the key and the issue type come back.
- Epic documents come back with every task effort lost. Each epic's
  description and priority are replaced by those of its last task.
- Story documents come back with every story effort lost.
- Inside a section, task, story and bug field loops recover the written fields.
  This holds for the writer's effort-on-one-line variant (see Findings).
- Headings are numbered from 1 in order.

Python strings are modelled as `seq<char>` (code points), and `str.strip()`
and `\s` use Python's full whitespace set.

Modules:

| module | file | models |
|---|---|---|
| `Wrappers` | wrappers.dfy | `Option`, `Result` and the error kinds the source raises |
| `Strings` | strings.dfy | the Python `str` operations used: strip, split, join, replace, find, lower and slicing |
| `Models` | models.dfy | the entities, their literals and validity, and the `TicketStructure` counters |
| `Extraction` | extraction.dfy | `extract` without a client, and `_extract_simple` |
| `Review` | review.dfy | `ReviewResult`, `_review_simple`, `review`, `apply_feedback` and `_structure_to_text` |
| `Render` | render.dfy | `write_markdown`, the `_format_*` functions and `generate_filename` |
| `Parser` | parser.dfy | `parse_markdown` and the epic, task, bug and story section parsers |
| `Numbering` | numbering.dfy | heading numbering of the written document |
| `Splitting` | splitting.dfy | how `re.split` cuts a written document into sections |
| `RoundTrip`, `StoryRoundTrip`, `BugRoundTrip` | roundtrip.dfy, story_roundtrip.dfy, bug_roundtrip.dfy | the field loops over the lines the writer emits |
| `Document`, `DocumentTrip` | document.dfy, document_trip.dfy | the header and whole-document write/read |

## Model

| member | source | states |
|---|---|---|
| Models.ParseLevel | models.py:16-17 | A priority or severity string is accepted exactly when it is one of Critical, High, Medium or Low, and it maps to that level. |
| Models.ParseEffort | models.py:18 | An effort string is accepted exactly when it is Small, Medium or Large. |
| Models.ParseIssueType | models.py:15 | An issue type is accepted exactly when it is task, bug, story or epic-only. |
| Models.ParseEffortArgument | models.py:32 | An accepted optional effort is kept as the value it was given. |
| Models.NewTask | models.py:25-32 | A task validates iff the title has 5 to 200 characters, the priority is a level and the effort is absent or a size. A valid task keeps every field; otherwise the error is a Task validation error. |
| Models.NewEpic | models.py:35-41 | An epic validates iff the title has 5 to 200 characters and the priority is a level. It keeps its fields and tasks; the failure names Epic. |
| Models.NewBug | models.py:68-78 | A bug validates iff the summary has 10 to 200 characters, the description at least 20, severity and priority are levels, and there are at least three reproduction steps. A valid bug keeps every field. |
| Models.NewUserStory | models.py:85-94 | A story validates iff the title has 10 to 200 characters, the role at least 5, the goal and the benefit at least 10, there are at least three criteria, and priority and effort are valid. A valid story keeps every field. |
| Models.NewTicketStructure | models.py:101-107 | A container validates iff the key matches `^[A-Z][A-Z0-9]{1,9}$` and the issue type is supported. It keeps the key, the type and all three lists. |
| Models.TicketStructure.CountTotalItems | models.py:109-115 | The total counts epics, every task of every epic, bugs and stories. It is positive exactly when `has_content` holds. |
| Models.AllTasksCount | models.py:113-115 | Summing the task counts of the epics counts exactly the tasks the epics hold. |
| Models.ValidKeyShape | models.py:103 | A key that matches the pattern has no underscore, space or line break, and stripping leaves it unchanged. |
| Extraction.NonBlankLines | agents/extraction_agent.py:135 | The filtered lines are non-empty and stripped. There are none exactly when the text is all whitespace. |
| Extraction.FirstNonBlankLine | agents/extraction_agent.py:135-139 | The first filtered line is the first line of the text that is not blank, stripped. |
| Extraction.NoLinesIffBlank | agents/extraction_agent.py:135-137 | The `if lines:` branch is taken exactly when the text has a non-whitespace character. |
| Extraction.ExtractSimple | agents/extraction_agent.py:121-158 | A bad key fails as a TicketStructure validation error. Blank text gives an empty container. Otherwise there is one epic built from the first non-blank line; it fails as an Epic validation error exactly when that line has fewer than 5 characters. |
| Extraction.FallbackParts | agents/extraction_agent.py:138-155 | The fallback task always validates. The fallback epic validates exactly when the first line has at least 5 characters. |
| Extraction.FallbackContent | agents/extraction_agent.py:137-158 | A fallback result holds 2 items: an epic titled with the first 200 characters of the first line, holding one Medium task titled "Implement " plus up to 150 characters. The descriptions are the first 1000 and 500 characters, with the three fixed criteria. |
| Extraction.Extract | agents/extraction_agent.py:34-48 | The fallback runs exactly when no client is configured. |
| Extraction.ShortFirstLineTitles | agents/extraction_agent.py:139-145 | A first line of 5 to 150 characters is taken whole into both titles. |
| Extraction.OpeningLine | agents/extraction_agent.py:135 | A text that opens with a stripped, non-empty line has that line as its first filtered line. |
| Extraction.OpeningLineTitles | agents/extraction_agent.py:135-145 | Such an opening line of 5 to 150 characters titles the epic, and after "Implement " the task. |
| Review.ToDict | agents/review_agent.py:42-52 | The dictionary has the six list keys and `has_issues`. Each list is stored under its key, and the flag is `has_issues`. |
| Review.DictRoundTrip | agents/review_agent.py:191-198 | Reading the dictionary of `to_dict` back as a review answer gives the same review. |
| Review.DisplayLines | agents/review_agent.py:54-88 | There are no lines exactly when all six lists are empty. Otherwise the first line opens a section heading. |
| Review.Display | agents/review_agent.py:54-88 | The text is the no-issues banner exactly when all six lists are empty. |
| Review.CriteriaNotes | agents/review_agent.py:209-214 | A task gets at most one gap, paired with one question. It gets none exactly when it has at least three criteria. |
| Review.TermsIn | agents/review_agent.py:217-222 | The found terms are exactly the listed words the text contains, in list order. |
| Review.VagueNotes | agents/review_agent.py:216-222 | Each vague word found in the lower-cased description gives one gap and one question naming it, in list order. |
| Review.BugNotes | agents/review_agent.py:225-232 | A bug gets at most two gaps, each paired with a question. It gets none exactly when it has three steps and a browser or OS. |
| Review.StoryNotes | agents/review_agent.py:235-238 | A story gets a gap and a question exactly when it has fewer than three criteria. |
| Review.ReviewSimple | agents/review_agent.py:200-252 | Gaps and questions pair up. Missing tasks, ambiguities and readiness concerns are empty. The suggestions are the three fixed ones exactly when there are epics. |
| Review.TasksNotesEmpty | agents/review_agent.py:206-222 | The task rules report nothing iff every task has three criteria and no vague word. |
| Review.BugsNotesEmpty | agents/review_agent.py:224-232 | The bug rules report nothing iff every bug has three steps and a browser or OS. |
| Review.StoriesNotesEmpty | agents/review_agent.py:234-238 | The story rule reports nothing iff every story has three criteria. |
| Review.HasIssuesIffNotClean | agents/review_agent.py:33-40 | The rule-based review has issues exactly when some task, bug or story breaks a rule. |
| Review.ValidStructureGaps | agents/review_agent.py:224-238 | On a valid structure the story rule never fires and each bug gives at most one gap. |
| Review.ValidStoriesQuiet | agents/review_agent.py:234-238 | Valid stories never trigger the story rule. |
| Review.ValidBugsAtMostOne | agents/review_agent.py:224-232 | Valid bugs give at most one gap each. |
| Review.SingleBareTask | agents/review_agent.py:209-211 | One task without criteria or vague words gives exactly the "no acceptance criteria" gap and question for it. |
| Review.TasksGapCount | agents/review_agent.py:206-222 | The task gaps number one per criteria rule fired plus one per vague word found. |
| Review.BugsGapCount | agents/review_agent.py:225-232 | The bug gaps number one per rule fired. |
| Review.StoriesGapCount | agents/review_agent.py:235-238 | The story gaps number one per story with fewer than three criteria. |
| Review.GapCount | agents/review_agent.py:200-252 | The review's gaps number exactly the rules fired over all tasks, bugs and stories, and each gap has its question. |
| Review.ReviewStructure | agents/review_agent.py:113-126 | The rules run exactly when no client is configured. |
| Review.ApplyFeedback | agents/review_agent.py:254-273 | Without a client the structure is returned unchanged, whatever the answers. |
| Review.FeedbackWithoutClientKeepsReview | agents/review_agent.py:269-273 | Reviewing after feedback without a client gives the same review as before. |
| Review.StructureLines | agents/review_agent.py:350-412 | The lines open with the project and the issue type, and every story contributes its title and role lines. |
| Review.StructureToTextAsWritten | agents/review_agent.py:348-418 | The conversion fails with an AttributeError on `definition_of_done` exactly when there is a story. |
| Review.StructureToText | agents/review_agent.py:348-418 | Every structure has a text, and it opens with the project and issue-type lines. |
| Review.StoriesInText | agents/review_agent.py:401-407 | The text names every story by title and role. |
| Review.StructureTextAgreement | agents/review_agent.py:401-418 | Without stories the code as written and the corrected conversion give the same text. With a story, only the corrected one gives a text. |
| Render.Bullets | markdown_utils.py:70-71 | One `- ` line per item, in order. |
| Render.CriteriaBlock | markdown_utils.py:68-72 | A criteria block is written exactly when there are criteria: the label, the bullets and a blank entry. |
| Render.NotesLine | markdown_utils.py:75-76 | The notes line is written exactly when the notes are set and non-empty. |
| Render.EffortEntry | markdown_utils.py:63-64 | The effort entry is written exactly when there is an effort. |
| Render.TaskLinesAsWritten | markdown_utils.py:59-78 | A task opens with its numbered heading and closes with the separator. A set effort is an entry of its own, after the priority. |
| Render.PriorityEntry | markdown_utils.py:61-65 | The priority entry starts with the priority. It is the bare priority exactly when there is no effort. |
| Render.TaskLines | markdown_utils.py:59-78 | The corrected task entries: the same heading and separator, with the effort on the priority line. |
| Render.TaskLinesWithoutEffort | markdown_utils.py:61-65 | Without an effort, the writer as written and the corrected writer emit the same entries. |
| Render.EpicLines | markdown_utils.py:46-80 | An epic opens with its numbered heading and closes with a line break. |
| Render.NumberedFrom | markdown_utils.py:97-98 | Steps are written `j. step`, numbered consecutively from `j`. |
| Render.EntryLine | markdown_utils.py:105-114 | An optional `- Label: value` entry is written exactly when the value is set and non-empty. |
| Render.BugLines | markdown_utils.py:90-144 | A bug opens with its numbered heading and closes with the separator. |
| Render.StoryLinesAsWritten | markdown_utils.py:154-165 | A story opens with its heading and the four user-story entries. A set effort is an entry of its own. |
| Render.StoryLines | markdown_utils.py:154-178 | The corrected story entries: heading, the four user-story entries, then priority and effort on one line, then the separator. |
| Render.StoryLinesWithoutEffort | markdown_utils.py:162-165 | Without an effort, the two story writers agree. |
| Render.DocumentOpening | markdown_utils.py:24-25 | Every document opens with the title line, a blank line and the generation time. |
| Render.GenerateFilename | markdown_utils.py:212-224 | The name starts with `jira_tickets_`. Its length is that of its parts plus the separators and the extension. The issue type defaults to `task`, as the source's keyword default does. |
| Render.DecodeFilename | markdown_utils.py:224 | A name that decodes starts with the filename prefix. |
| Render.FilenameRoundTrip | markdown_utils.py:224 | For a key and a type without `_`, the name decodes back to the key, type and timestamp. |
| Render.FilenameInjective | markdown_utils.py:224 | Two names coincide only for the same key, type and timestamp. |
| Numbering.EpicNumbering | markdown_utils.py:45-46 | The epic headings are numbered from 1, in order, one per epic. |
| Numbering.BugNumbering | markdown_utils.py:89-90 | The bug headings are numbered from 1, in order, one per bug. |
| Numbering.StoryNumbering | markdown_utils.py:153-154 | The story headings are numbered from 1, in order, one per story. |
| Numbering.DocumentSections | markdown_utils.py:29-35 | A document holds exactly the section headings of its issue type's list. The other lists are not written. |
| Parser.DigitRun | markdown_parser.py:71 | The run of leading digits is maximal. |
| Parser.MatchLength | markdown_parser.py:101 | A heading pattern matches only where the keyword starts, and past it. |
| Parser.RegexSplit | markdown_parser.py:71 | A split gives at least one piece. |
| Parser.RegexSplitNoMatch | markdown_parser.py:71 | Text without a heading match splits into itself alone. |
| Parser.NoMatchWithoutOpening | markdown_parser.py:168 | Text lacking the keyword's first two characters has no heading match. |
| Parser.Sections | markdown_parser.py:71 | The sections are the pieces after the first. |
| Parser.SectionLines | markdown_parser.py:74-76 | A stripped section splits into at least one line, so the `if not lines` guard never fires. |
| Parser.FieldValue | markdown_parser.py:88 | A field value after its label is stripped. |
| Parser.BeforeBar | markdown_parser.py:93-97 | A value without a bar character is kept whole. |
| Parser.Run | markdown_parser.py:134-136 | An inner bullet loop consumes the longest prefix of lines that satisfy its test. |
| Parser.BulletTexts | markdown_parser.py:134-136 | One criterion per bullet line: the text after the dash. |
| Parser.StepTexts | markdown_parser.py:203-206 | One step per numbered line: the text after the number. |
| Parser.ScanEpicKeepsDescription | markdown_parser.py:86-88 | Only a description line changes the epic description. |
| Parser.ScanEpicHeadAgrees | markdown_parser.py:86-97 | Without a task heading, the loop stopped at the first task reads the same as the full loop. |
| Parser.ScanTask | markdown_parser.py:115-141 | The task loop only appends criteria and keeps the ones already read. |
| Parser.ParseTaskSection | markdown_parser.py:103-151 | A task is built only with a non-empty title and description, and then it is valid. A section whose title or description is empty is dropped (`Ok(None)`), never an error, and only such a section is dropped. A failure is a Task validation error. |
| Parser.ParseTasks | markdown_parser.py:101-151 | At most one task per section, each valid with a description. A failure is a Task validation error. |
| Parser.ParseEpicSection | markdown_parser.py:73-160 | An epic is built only with a description, valid and holding valid tasks. When its tasks parse, a section whose title or description is empty is dropped (`Ok(None)`), and only such a section is dropped. A failure is an Epic or Task validation error. |
| Parser.ParseEpicSections | markdown_parser.py:73-160 | At most one epic per section, each valid. |
| Parser.ParseEpics | markdown_parser.py:68-162 | At most one epic per epic section, each valid with a description. |
| Parser.ScanBug | markdown_parser.py:186-247 | The bug loop only appends steps and keeps the ones already read. |
| Parser.ParseBugSection | markdown_parser.py:170-260 | A bug is built only when it is valid. A section with an empty summary or description, or fewer than three steps, is dropped (`Ok(None)`), never an error, and only such a section is dropped. A failure is a Bug validation error. |
| Parser.ParseBugSections | markdown_parser.py:170-260 | At most one bug per section, each valid. |
| Parser.ParseBugs | markdown_parser.py:165-262 | At most one bug per bug section, each valid. |
| Parser.AfterLabel | markdown_parser.py:288-293 | The value after a contained label is stripped. |
| Parser.ScanStory | markdown_parser.py:285-312 | The story loop never loses criteria already read: they stay a prefix of the criteria it returns. |
| Parser.ParseStorySection | markdown_parser.py:270-324 | A story is built only when it is valid. A section with an empty title, role, goal or benefit, or fewer than three criteria, is dropped (`Ok(None)`), never an error, and only such a section is dropped. A failure is a UserStory validation error. |
| Parser.ParseStorySections | markdown_parser.py:270-324 | At most one story per section, each valid. |
| Parser.ParseStories | markdown_parser.py:265-326 | At most one story per story section, each valid. |
| Parser.ScanHeader | markdown_parser.py:33-37 | Only a title line sets the key. A key found means a title line was read. |
| Parser.ParseMarkdown | markdown_parser.py:16-65 | No key gives the "Could not extract project key" error, and only then. An unknown type gives the "Unsupported issue type" error. A result carries the header's key and type, is valid, and holds only the list of its type. |
| Document.HeaderEntryLines | markdown_utils.py:24-27 | The four header entries break into the seven physical header lines. |
| Document.HeaderScan | markdown_parser.py:33-37 | The header loop reads back the written key and issue-type name. |
| Document.HeaderReadBack | markdown_parser.py:27-37 | The header of any written document gives back its key and type. |
| Document.DocumentLines | markdown_utils.py:13-38 | A written document splits into the header lines followed by the body lines. |
| Document.HeaderRoundTrip | markdown_parser.py:16-65 | Reading a written valid structure gives back its key and type. Otherwise it fails only at an invalid entity. |
| Document.ParseAfterHeader | markdown_parser.py:39-65 | Content with a valid key and a supported type parses to that key and type, or fails only at an entity. |
| RoundTrip.PriorityEntryBack | markdown_parser.py:121-130 | A one-line priority entry is read back as the priority and, when present, the effort. |
| RoundTrip.EffortLost | markdown_parser.py:121-130 | A priority line followed by an effort line gives the priority. The effort line is skipped. |
| RoundTrip.TaskRoundTrip | markdown_parser.py:115-141 | The task loop over the corrected writer's lines recovers description, priority, effort, criteria and notes. |
| RoundTrip.EffortLostInTask | markdown_utils.py:61-65 | Over the lines as written, the task loop recovers everything except a set effort, which it loses. |
| RoundTrip.EpicFieldsOverwritten | markdown_parser.py:86-97 | For an epic with tasks, the full epic loop returns the last task's description and priority. |
| RoundTrip.EpicFieldsRecovered | markdown_parser.py:86-97 | The loop stopped at the first task heading recovers the epic's own description, business value and priority. |
| StoryRoundTrip.StoryEffortLost | markdown_parser.py:294-302 | A story priority line followed by an effort line gives the priority and skips the effort. |
| StoryRoundTrip.StoryRoundTrip | markdown_parser.py:285-312 | The story loop over the corrected lines recovers role, goal, benefit, priority, effort, criteria and notes. |
| StoryRoundTrip.StoryEffortLostInStory | markdown_utils.py:162-165 | Over the lines as written, the story loop recovers everything except a set effort. |
| BugRoundTrip.EnvironmentDict | markdown_parser.py:208-218 | The environment bullets fill the dictionary under the model's field names, one key per written entry. |
| BugRoundTrip.TechnicalDict | markdown_parser.py:219-237 | The technical-details bullets fill the dictionary under the model's field names. |
| BugRoundTrip.BugRoundTrip | markdown_parser.py:186-247 | The bug loop over the written lines recovers the description, severity, priority, steps and fix criteria. It recovers every environment and technical-details entry the writer emits. The environment's `version` and the technical `database_state` are never written, so they come back unset. An empty optional value, suggested fix included, comes back unset. |
| Splitting.SplitBlocks | markdown_parser.py:71 | The text of well-marked blocks splits into an empty first piece and one piece per block. |
| Splitting.SectionsOfBlocks | markdown_parser.py:71 | After a heading-free header, the sections are exactly the pieces of the blocks. |
| DocumentTrip.TaskPiece | markdown_parser.py:103-151 | A written task, read back from its section, comes back without its effort. Empty technical notes come back unset. Every other field comes back as written. |
| DocumentTrip.EpicPiece | markdown_parser.py:73-160 | A written epic, read back from its section, comes back as its read-back form. |
| DocumentTrip.EpicDocumentEpics | markdown_parser.py:68-162 | The epic parser over a written epic document gives the read-back epics. |
| DocumentTrip.EpicsReadBackFacts | markdown_parser.py:86-97 | Read-back epics keep task titles, lose every task effort, and take the last task's description and priority. |
| DocumentTrip.ParseEpicContent | markdown_parser.py:43-49 | Content with a key and the task or epic-only type parses to the epics of its sections. |
| DocumentTrip.EpicDocumentParsed | markdown_parser.py:16-65 | Reading a written epic document gives the structure with its epics in read-back form. |
| DocumentTrip.EpicDocumentAsWritten | markdown_utils.py:41-82 | Writing then reading an epic document loses every task effort. Each epic with tasks comes back with its last task's description and priority. |
| DocumentTrip.StoryPiece | markdown_parser.py:270-324 | A written story, read back from its section, comes back without its effort. Empty technical notes come back unset. Every other field comes back as written. |
| DocumentTrip.StoryDocumentStories | markdown_parser.py:265-326 | The story parser over a written story document gives the read-back stories. |
| DocumentTrip.ParseBugContent | markdown_parser.py:50-56 | Content with a key and the bug type parses to the bugs of its sections. |
| DocumentTrip.ParseStoryContent | markdown_parser.py:57-63 | Content with a key and the story type parses to the stories of its sections. |
| DocumentTrip.StoryDocumentParsed | markdown_parser.py:16-65 | Reading a written story document gives the structure with its stories in read-back form. |
| DocumentTrip.StoryDocumentAsWritten | markdown_utils.py:149-180 | Writing then reading a story document keeps titles, criteria and priorities, and loses every effort. |

## Left out

- Strings.Lower: lower-cases ASCII letters only. Python's `str.lower()` is Unicode-aware: a header type written `TASK` (its last letter U+212A KELVIN SIGN) lowers to `task` in Python, but the model reports it as unsupported. This affects the issue-type header (`Parser.HeaderStep`) and the environment and technical-details keys.
- Parser.DigitRun: `\d` is modelled as the ASCII digits, here and in the step and heading patterns. Python's `re` also matches other Unicode decimal digits.
- Extraction.Extract: with a client configured, the result is the client's answer, taken as a parameter and unchecked. The prompt, the API call, the JSON parsing and the fallback to `_extract_simple` on an exception are not modelled.
- Review.ReviewStructure: with a client, the review is the client's answer, taken as given. The prompt, `json.loads` and the fallback to `_review_simple` on bad JSON are not modelled; `Review.DictRoundTrip` states the dictionary-to-review step separately.
- Review.ApplyFeedback: with a client, the contract says nothing. The prompt, the answer text, the parsing through the extraction agent and the fallback on an exception are not modelled.
- Clock: `datetime.now()` in `write_markdown` and `generate_filename` becomes a `timestamp` parameter. Its format is not checked.
- File I/O: `write_markdown` returns the text it would write, and `parse_markdown` takes the file's content. `read_markdown` and `list_markdown_files` are pure I/O and are not modelled.
- `agents/prompts.py`, `jira_client.py`, `jira_gen.py`, `app.py` and `config.py` are not part of this model. They are prompts, HTTP calls and the command-line and web front ends.
- Round trips are proved only for fields that fit the lines the writer gives them:
  - single-line values, stripped where the reader strips;
  - no `*` in free-text values;
  - for the document lemmas, non-empty titles and descriptions (`DocumentTrip.ReadableEpic`, `ReadableStory`).
  Other values can split or shift the reader's line loops. The model does not state what comes back for them.
- Bugs: only the bug section loop has a round trip (`BugRoundTrip.BugRoundTrip`). For a whole bug document, `Document.HeaderRoundTrip` gives back the key and the type, and `DocumentTrip.ParseBugContent` shows that the bugs are those `_parse_bugs_from_markdown` reads. No lemma composes the bug writer with that reader over a whole document.
- BugRoundTrip.BugRoundTrip: `environment.version` and `technical_details.database_state` do not come back, because `_format_bugs` (markdown_utils.py:101-131) never writes them. An empty optional value (an environment or technical entry, or the suggested fix) is not written, so it comes back unset.
- DocumentTrip.TaskPiece: besides the effort, empty `technical_notes` come back unset, because the writer leaves out an empty notes line. `DocumentTrip.StoryPiece` loses the same for stories.
- pydantic's type coercion of non-string inputs is not modelled; every field is already of its declared type. `structure.epics = [epic]` in `_extract_simple` assigns without re-validating, as pydantic does by default.

## Findings

| source | as written | input that shows it | evidently intended | confidence | as-written member | corrected member |
|---|---|---|---|---|---|---|
| agents/review_agent.py:413 | `_structure_to_text` reads `story.definition_of_done`, which `UserStory` does not declare | any structure with one story | skip or guard the definition-of-done block | high, not executed | Review.StructureToTextAsWritten | Review.StructureToText (with Review.StructureTextAgreement) |
| markdown_utils.py:61-65 | the task effort is appended as an entry of its own, so the join puts ` \| **Effort**: M` on its own line, and the parser, which reads the effort only from the priority line, loses it | a task with priority High and effort Medium; reading the written epic back gives effort None | priority and effort on one line, `**Priority**: High \| **Effort**: Medium` | high, not executed | RoundTrip.EffortLostInTask (on Render.TaskLinesAsWritten) | RoundTrip.TaskRoundTrip (on Render.TaskLines) |
| markdown_utils.py:162-165 | the same split for stories | a story with effort Small; reading it back gives effort None | one line for priority and effort | high, not executed | StoryRoundTrip.StoryEffortLostInStory (on Render.StoryLinesAsWritten) | StoryRoundTrip.StoryRoundTrip (on Render.StoryLines) |
| markdown_parser.py:86-97 | the epic field loop runs over every line of the section, the task lines included, so each task's description and priority overwrite the epic's | an epic described "Epic-level description" holding a task described "Task description" with priority High reads back with the task's description and priority | stop at the first task heading | high, not executed | RoundTrip.EpicFieldsOverwritten (on Parser.ScanEpic) | RoundTrip.EpicFieldsRecovered (on Parser.ScanEpicHead) |

The document writer `Render.WriteMarkdown` and the parser `Parser.ParseMarkdown` model the code as written: they use the as-written writers and `Parser.ScanEpic`. Their combined effect is stated by `DocumentTrip.EpicDocumentAsWritten` and `DocumentTrip.StoryDocumentAsWritten`. The corrected definitions carry the intended per-section round trips.

=== FILE: bug_roundtrip.dfy ===
/** A bug written by the bug writer and read back by the bug loop. The
    environment and technical-details blocks carry one `- Label: value`
    entry per set field, and the parser maps each label back to the field
    it came from; `version` and `database_state` have no entry and come
    back unset. */
module BugRoundTrip {
  import opened Wrappers
  import opened Strings
  import opened Models
  import Render
  import Parser
  import RoundTrip
  import Document

  // ---------------------------------------------------------------------
  // What comes back
  // ---------------------------------------------------------------------

  /** An optional field as it is read back: its value when it was written,
      nothing when it was unset or empty. */
  function Kept(o: Option<string>): (r: Option<string>)
    ensures r.Some? <==> Truthy(o)
    ensures r.Some? ==> r == o
  {
    if Truthy(o) then o else None
  }

  function EnvironmentRead(env: Environment): Environment {
    Environment(Kept(env.browser), Kept(env.os), Kept(env.device), None,
                Kept(env.userRole), Kept(env.dataConditions))
  }

  function TechnicalRead(t: TechnicalDetails): TechnicalDetails {
    TechnicalDetails(Kept(t.errorMessage), Kept(t.stackTrace), Kept(t.consoleLogs),
                     Kept(t.affectedCode), Kept(t.apiCalls), None)
  }

  /** A value that fits on its entry line and reads back unchanged. */
  predicate EntryValue(o: Option<string>) {
    Truthy(o) ==> IsStripped(o.value) && SingleLine(o.value)
  }

  predicate PlainEnvironment(env: Environment) {
    && EntryValue(env.browser) && EntryValue(env.os) && EntryValue(env.device)
    && EntryValue(env.userRole) && EntryValue(env.dataConditions)
  }

  predicate PlainTechnical(t: TechnicalDetails) {
    && EntryValue(t.errorMessage) && EntryValue(t.consoleLogs) && EntryValue(t.affectedCode)
    && EntryValue(t.apiCalls) && EntryValue(t.stackTrace)
  }

  /** A bug whose fields each fit on the lines the writer gives them. */
  predicate PlainBug(b: Bug) {
    && SingleLine(b.summary)
    && RoundTrip.Plain(b.description)
    && (forall x <- b.reproductionSteps :: IsStripped(x) && SingleLine(x))
    && PlainEnvironment(b.environment)
    && (b.technicalDetails.Some? ==> PlainTechnical(b.technicalDetails.value))
    && (forall x <- b.acceptanceCriteria :: IsStripped(x) && SingleLine(x))
    && (b.suggestedFix.Some? ==> RoundTrip.Plain(b.suggestedFix.value))
  }

  /** What the bug loop should collect for a bug. */
  function BugFieldsOf(b: Bug): Parser.BugFields {
    Parser.BugFields(
      b.description, LevelName(b.severity), LevelName(b.priority), b.reproductionSteps,
      EnvironmentRead(b.environment),
      if b.technicalDetails.Some? then Some(TechnicalRead(b.technicalDetails.value)) else None,
      b.acceptanceCriteria, Kept(b.suggestedFix))
  }

  // ---------------------------------------------------------------------
  // Entry lines
  // ---------------------------------------------------------------------

  /** Setting a key when the value is truthy, as one entry line does. */
  function Put(d: map<string, string>, k: string, o: Option<string>): map<string, string> {
    if Truthy(o) then d[k := o.value] else d
  }

  lemma {:induction false} EntryDictAppend(a: seq<string>, b: seq<string>, keyOf: string -> string,
                                           d: map<string, string>)
    ensures Parser.EntryDict(a + b, keyOf, d) ==
            Parser.EntryDict(b, keyOf, Parser.EntryDict(a, keyOf, d))
    decreases |a|
  {
    if a != [] {
      assert (a + b)[0] == a[0] && (a + b)[1..] == a[1..] + b;
      EntryDictAppend(a[1..], b, keyOf, Parser.EntryPut(d, a[0], keyOf));
    } else {
      assert a + b == b;
    }
  }

  /** A label an entry can carry: it opens the bullet text, holds no colon
      and no line break. */
  predicate EntryName(name: string) {
    name != [] && !IsSpace(name[0]) && Lacks(name, ':') && Lacks(name, '\n')
  }

  /** The bullet of an entry splits at the colon after its label. */
  lemma EntryText(name: string, v: string)
    requires EntryName(name)
    requires IsStripped(v) && v != []
    ensures var line := "- " + name + ": " + v;
      && Parser.IsBulletLine(line)
      && Parser.BulletText(line) == name + ": " + v
  {
    var x := name + ": " + v;
    assert x[0] == name[0] && x[|x| - 1] == v[|v| - 1];
    assert "- " + name + ": " + v == "- " + x;
    RoundTrip.BulletLine(x);
  }

  lemma EntrySplit(name: string, v: string)
    requires Lacks(name, ':') && IsStripped(v)
    ensures var e := name + ": " + v;
      && IndexOf(e, ':') == |name|
      && e[..|name|] == name
      && Strip(e[|name| + 1..]) == v
  {
    var e := name + ": " + v;
    assert e[|name|] == ':';
    assert forall i :: 0 <= i < |name| ==> e[i] == name[i];
    assert e[..|name|] == name;
    assert e[|name| + 1..] == " " + v;
    RoundTrip.StripBlank(v);
  }

  /** The bullet of an entry puts its value under the key of its label. */
  lemma EntryKeyValue(name: string, v: string, keyOf: string -> string, d: map<string, string>)
    requires EntryName(name) && IsStripped(v) && v != []
    ensures Parser.EntryPut(d, "- " + name + ": " + v, keyOf) == d[keyOf(name) := v]
  {
    var line := "- " + name + ": " + v;
    EntryText(name, v);
    EntrySplit(name, v);
    SplitEntry(d, line, name + ": " + v, name, v, keyOf);
  }

  /** A bullet whose text splits into a label and a value. */
  lemma SplitEntry(d: map<string, string>, line: string, e: string, name: string, v: string,
                   keyOf: string -> string)
    requires Parser.BulletText(line) == e
    requires IndexOf(e, ':') == |name| < |e|
    requires e[..|name|] == name && Strip(e[|name| + 1..]) == v
    ensures Parser.EntryPut(d, line, keyOf) == d[keyOf(name) := v]
  {
  }

  lemma SingleEntryDict(ls: seq<string>, name: string, v: string, keyOf: string -> string,
                        d: map<string, string>)
    requires EntryName(name) && IsStripped(v) && v != []
    requires ls == ["- " + name + ": " + v]
    ensures Parser.EntryDict(ls, keyOf, d) == d[keyOf(name) := v]
  {
    EntryKeyValue(name, v, keyOf, d);
    assert ls[1..] == [];
  }

  /** One entry line puts its value under the key of its label, and a
      missing entry puts nothing. */
  lemma EntryLineDict(name: string, value: Option<string>, keyOf: string -> string, d: map<string, string>)
    requires EntryName(name)
    requires EntryValue(value)
    ensures Parser.EntryDict(Render.EntryLine(name, value), keyOf, d) == Put(d, keyOf(name), value)
  {
    if Truthy(value) {
      SingleEntryDict(Render.EntryLine(name, value), name, value.value, keyOf, d);
    }
  }

  /** Every entry line is a bullet. */
  lemma EntryLineBullets(name: string, value: Option<string>)
    requires EntryName(name)
    requires EntryValue(value)
    ensures forall x <- Render.EntryLine(name, value) :: Parser.IsBulletLine(x) && SingleLine(x)
  {
    if Truthy(value) {
      EntryText(name, value.value);
      LacksAppend("- ", name, '\n');
      LacksAppend("- " + name, ": ", '\n');
      LacksAppend("- " + name + ": ", value.value, '\n');
    }
  }

  // ---------------------------------------------------------------------
  // Keys
  // ---------------------------------------------------------------------

  /** Replacing the one space of two words. */
  lemma {:induction false} ReplaceSpace(a: string, b: string)
    requires Lacks(a, ' ') && Lacks(b, ' ')
    ensures ReplaceAll(a + " " + b, " ", "_") == a + "_" + b
    decreases |a|
  {
    var s := a + " " + b;
    if a == [] {
      assert s == " " + b && s[1..] == b;
      assert StartsWith(s, " ");
      AbsentChar(b, " ", 0);
    } else {
      assert s[0] == a[0] && s[0] != ' ';
      assert !StartsWith(s, " ");
      assert s[1..] == a[1..] + " " + b;
      ReplaceSpace(a[1..], b);
      assert a + "_" + b == [a[0]] + (a[1..] + "_" + b);
    }
  }

  /** A one-word label keeps no space to replace. */
  lemma NoSpace(s: string)
    requires Lacks(s, ' ')
    ensures ReplaceAll(s, " ", "_") == s
  {
    AbsentChar(s, " ", 0);
  }

  /** A label of one word is its lower-case self as a key. */
  lemma OneWordKey(name: string, key: string)
    requires IsStripped(name) && Lower(name) == key && Lacks(key, ' ')
    ensures Parser.EnvironmentKey(name) == key
  {
    NoSpace(key);
  }

  /** A label of two words is joined by `_` as a key. */
  lemma TwoWordKey(name: string, a: string, b: string)
    requires IsStripped(name) && Lower(name) == a + " " + b && Lacks(a, ' ') && Lacks(b, ' ')
    ensures Parser.EnvironmentKey(name) == a + "_" + b
  {
    ReplaceSpace(a, b);
  }

  /** The five labels the technical key map names, with their keys. */
  predicate MappedLabel(lower: string, key: string) {
    || (lower == "error" && key == "error_message")
    || (lower == "console" && key == "console_logs")
    || (lower == "code" && key == "affected_code")
    || (lower == "api" && key == "api_calls")
    || (lower == "stack trace" && key == "stack_trace")
  }

  /** A technical label read through the key map. */
  lemma MappedKey(name: string, key: string)
    requires IsStripped(name) && MappedLabel(Lower(name), key)
    ensures Parser.TechnicalKey(name) == key
  {
  }

  /** An entry whose label maps to `key` sets `key`. */
  lemma KeyedEntry(name: string, value: Option<string>, keyOf: string -> string, key: string,
                   d: map<string, string>)
    requires EntryName(name) && EntryValue(value) && keyOf(name) == key
    ensures Parser.EntryDict(Render.EntryLine(name, value), keyOf, d) == Put(d, key, value)
  {
    EntryLineDict(name, value, keyOf, d);
  }

  /** An environment entry with a one-word label. */
  lemma WordEntry(name: string, key: string, value: Option<string>, d: map<string, string>)
    requires EntryName(name) && IsStripped(name) && Lower(name) == key && Lacks(key, ' ')
    requires EntryValue(value)
    ensures Parser.EntryDict(Render.EntryLine(name, value), Parser.EnvironmentKey, d) == Put(d, key, value)
  {
    OneWordKey(name, key);
    KeyedEntry(name, value, Parser.EnvironmentKey, key, d);
  }

  /** An environment entry with a two-word label. */
  lemma TwoWordEntry(name: string, a: string, b: string, value: Option<string>, d: map<string, string>)
    requires EntryName(name) && IsStripped(name) && Lower(name) == a + " " + b
    requires Lacks(a, ' ') && Lacks(b, ' ')
    requires EntryValue(value)
    ensures Parser.EntryDict(Render.EntryLine(name, value), Parser.EnvironmentKey, d) == Put(d, a + "_" + b, value)
  {
    TwoWordKey(name, a, b);
    KeyedEntry(name, value, Parser.EnvironmentKey, a + "_" + b, d);
  }

  /** A technical-details entry. */
  lemma MappedEntry(name: string, key: string, value: Option<string>, d: map<string, string>)
    requires EntryName(name) && IsStripped(name) && MappedLabel(Lower(name), key)
    requires EntryValue(value)
    ensures Parser.EntryDict(Render.EntryLine(name, value), Parser.TechnicalKey, d) == Put(d, key, value)
  {
    MappedKey(name, key);
    KeyedEntry(name, value, Parser.TechnicalKey, key, d);
  }

  // One lemma per label, so that no proof holds more than one label's
  // key computation.

  lemma BrowserEntry(value: Option<string>, d: map<string, string>)
    requires EntryValue(value)
    ensures Parser.EntryDict(Render.EntryLine("Browser", value), Parser.EnvironmentKey, d) == Put(d, "browser", value)
  {
    WordEntry("Browser", "browser", value, d);
  }

  lemma OsEntry(value: Option<string>, d: map<string, string>)
    requires EntryValue(value)
    ensures Parser.EntryDict(Render.EntryLine("OS", value), Parser.EnvironmentKey, d) == Put(d, "os", value)
  {
    WordEntry("OS", "os", value, d);
  }

  lemma DeviceEntry(value: Option<string>, d: map<string, string>)
    requires EntryValue(value)
    ensures Parser.EntryDict(Render.EntryLine("Device", value), Parser.EnvironmentKey, d) == Put(d, "device", value)
  {
    WordEntry("Device", "device", value, d);
  }

  lemma UserRoleEntry(value: Option<string>, d: map<string, string>)
    requires EntryValue(value)
    ensures Parser.EntryDict(Render.EntryLine("User Role", value), Parser.EnvironmentKey, d) == Put(d, "user_role", value)
  {
    TwoWordEntry("User Role", "user", "role", value, d);
    assert "user" + "_" + "role" == "user_role";
  }

  lemma DataConditionsEntry(value: Option<string>, d: map<string, string>)
    requires EntryValue(value)
    ensures Parser.EntryDict(Render.EntryLine("Data Conditions", value), Parser.EnvironmentKey, d) == Put(d, "data_conditions", value)
  {
    TwoWordEntry("Data Conditions", "data", "conditions", value, d);
    assert "data" + "_" + "conditions" == "data_conditions";
  }

  lemma ErrorEntry(value: Option<string>, d: map<string, string>)
    requires EntryValue(value)
    ensures Parser.EntryDict(Render.EntryLine("Error", value), Parser.TechnicalKey, d) == Put(d, "error_message", value)
  {
    MappedEntry("Error", "error_message", value, d);
  }

  lemma ConsoleEntry(value: Option<string>, d: map<string, string>)
    requires EntryValue(value)
    ensures Parser.EntryDict(Render.EntryLine("Console", value), Parser.TechnicalKey, d) == Put(d, "console_logs", value)
  {
    MappedEntry("Console", "console_logs", value, d);
  }

  lemma CodeEntry(value: Option<string>, d: map<string, string>)
    requires EntryValue(value)
    ensures Parser.EntryDict(Render.EntryLine("Code", value), Parser.TechnicalKey, d) == Put(d, "affected_code", value)
  {
    MappedEntry("Code", "affected_code", value, d);
  }

  lemma ApiEntry(value: Option<string>, d: map<string, string>)
    requires EntryValue(value)
    ensures Parser.EntryDict(Render.EntryLine("API", value), Parser.TechnicalKey, d) == Put(d, "api_calls", value)
  {
    MappedEntry("API", "api_calls", value, d);
  }

  lemma StackTraceEntry(value: Option<string>, d: map<string, string>)
    requires EntryValue(value)
    ensures Parser.EntryDict(Render.EntryLine("Stack Trace", value), Parser.TechnicalKey, d) == Put(d, "stack_trace", value)
  {
    MappedEntry("Stack Trace", "stack_trace", value, d);
  }

  // ---------------------------------------------------------------------
  // The two blocks
  // ---------------------------------------------------------------------

  /** The entries of the environment block, between its heading and its
      closing empty line. */
  function EnvironmentEntries(env: Environment): seq<string> {
    Render.EntryLine("Browser", env.browser)
    + Render.EntryLine("OS", env.os)
    + Render.EntryLine("Device", env.device)
    + Render.EntryLine("User Role", env.userRole)
    + Render.EntryLine("Data Conditions", env.dataConditions)
  }

  function TechnicalEntries(t: TechnicalDetails): seq<string> {
    Render.EntryLine("Error", t.errorMessage)
    + Render.EntryLine("Console", t.consoleLogs)
    + Render.EntryLine("Code", t.affectedCode)
    + Render.EntryLine("API", t.apiCalls)
    + Render.EntryLine("Stack Trace", t.stackTrace)
  }

  /** Five runs of entries read in order, each from where the last left
      the dictionary. */
  lemma FiveEntries(e1: seq<string>, e2: seq<string>, e3: seq<string>, e4: seq<string>, e5: seq<string>,
                    keyOf: string -> string, d0: map<string, string>, d1: map<string, string>,
                    d2: map<string, string>, d3: map<string, string>, d4: map<string, string>,
                    d5: map<string, string>)
    requires Parser.EntryDict(e1, keyOf, d0) == d1
    requires Parser.EntryDict(e2, keyOf, d1) == d2
    requires Parser.EntryDict(e3, keyOf, d2) == d3
    requires Parser.EntryDict(e4, keyOf, d3) == d4
    requires Parser.EntryDict(e5, keyOf, d4) == d5
    ensures Parser.EntryDict(e1 + e2 + e3 + e4 + e5, keyOf, d0) == d5
  {
    EntryDictAppend(e1, e2, keyOf, d0);
    EntryDictAppend(e1 + e2, e3, keyOf, d0);
    EntryDictAppend(e1 + e2 + e3, e4, keyOf, d0);
    EntryDictAppend(e1 + e2 + e3 + e4, e5, keyOf, d0);
  }

  /** The environment entries build the environment back: every set field
      under its own key, `version` unset. */
  lemma EnvironmentEntriesBack(env: Environment)
    requires PlainEnvironment(env)
    ensures Parser.EnvironmentOf(Parser.EntryDict(EnvironmentEntries(env), Parser.EnvironmentKey, map[]))
            == EnvironmentRead(env)
  {
    EnvironmentDict(env);
    EnvironmentOfPuts(env);
  }

  /** The dictionary the entries fill, one key after the other. */
  function EnvironmentPuts(env: Environment): map<string, string> {
    var d1 := Put(map[], "browser", env.browser);
    var d2 := Put(d1, "os", env.os);
    var d3 := Put(d2, "device", env.device);
    var d4 := Put(d3, "user_role", env.userRole);
    Put(d4, "data_conditions", env.dataConditions)
  }

  lemma EnvironmentDict(env: Environment)
    requires PlainEnvironment(env)
    ensures Parser.EntryDict(EnvironmentEntries(env), Parser.EnvironmentKey, map[]) == EnvironmentPuts(env)
  {
    var d1 := Put(map[], "browser", env.browser);
    var d2 := Put(d1, "os", env.os);
    var d3 := Put(d2, "device", env.device);
    var d4 := Put(d3, "user_role", env.userRole);
    var d5 := Put(d4, "data_conditions", env.dataConditions);
    BrowserEntry(env.browser, map[]);
    OsEntry(env.os, d1);
    DeviceEntry(env.device, d2);
    UserRoleEntry(env.userRole, d3);
    DataConditionsEntry(env.dataConditions, d4);
    FiveEntries(Render.EntryLine("Browser", env.browser), Render.EntryLine("OS", env.os),
                Render.EntryLine("Device", env.device), Render.EntryLine("User Role", env.userRole),
                Render.EntryLine("Data Conditions", env.dataConditions), Parser.EnvironmentKey,
                map[], d1, d2, d3, d4, d5);
  }

  lemma EnvironmentOfPuts(env: Environment)
    ensures Parser.EnvironmentOf(EnvironmentPuts(env)) == EnvironmentRead(env)
  {
  }


  lemma EnvironmentBullets(env: Environment)
    requires PlainEnvironment(env)
    ensures forall x <- EnvironmentEntries(env) :: Parser.IsBulletLine(x) && SingleLine(x)
  {
    EntryLineBullets("Browser", env.browser);
    EntryLineBullets("OS", env.os);
    EntryLineBullets("Device", env.device);
    EntryLineBullets("User Role", env.userRole);
    EntryLineBullets("Data Conditions", env.dataConditions);
  }

  /** The technical entries build the details back: every set field under
      its own key, `database_state` unset. */
  lemma TechnicalEntriesBack(t: TechnicalDetails)
    requires PlainTechnical(t)
    ensures Parser.TechnicalDetailsOf(Parser.EntryDict(TechnicalEntries(t), Parser.TechnicalKey, map[]))
            == TechnicalRead(t)
  {
    TechnicalDict(t);
    TechnicalOfPuts(t);
  }

  /** The dictionary the entries fill, one key after the other. */
  function TechnicalPuts(t: TechnicalDetails): map<string, string> {
    var d1 := Put(map[], "error_message", t.errorMessage);
    var d2 := Put(d1, "console_logs", t.consoleLogs);
    var d3 := Put(d2, "affected_code", t.affectedCode);
    var d4 := Put(d3, "api_calls", t.apiCalls);
    Put(d4, "stack_trace", t.stackTrace)
  }

  lemma TechnicalDict(t: TechnicalDetails)
    requires PlainTechnical(t)
    ensures Parser.EntryDict(TechnicalEntries(t), Parser.TechnicalKey, map[]) == TechnicalPuts(t)
  {
    var d1 := Put(map[], "error_message", t.errorMessage);
    var d2 := Put(d1, "console_logs", t.consoleLogs);
    var d3 := Put(d2, "affected_code", t.affectedCode);
    var d4 := Put(d3, "api_calls", t.apiCalls);
    var d5 := Put(d4, "stack_trace", t.stackTrace);
    ErrorEntry(t.errorMessage, map[]);
    ConsoleEntry(t.consoleLogs, d1);
    CodeEntry(t.affectedCode, d2);
    ApiEntry(t.apiCalls, d3);
    StackTraceEntry(t.stackTrace, d4);
    FiveEntries(Render.EntryLine("Error", t.errorMessage), Render.EntryLine("Console", t.consoleLogs),
                Render.EntryLine("Code", t.affectedCode), Render.EntryLine("API", t.apiCalls),
                Render.EntryLine("Stack Trace", t.stackTrace), Parser.TechnicalKey,
                map[], d1, d2, d3, d4, d5);
  }

  lemma TechnicalOfPuts(t: TechnicalDetails)
    ensures Parser.TechnicalDetailsOf(TechnicalPuts(t)) == TechnicalRead(t)
  {
  }


  lemma TechnicalBullets(t: TechnicalDetails)
    requires PlainTechnical(t)
    ensures forall x <- TechnicalEntries(t) :: Parser.IsBulletLine(x) && SingleLine(x)
  {
    EntryLineBullets("Error", t.errorMessage);
    EntryLineBullets("Console", t.consoleLogs);
    EntryLineBullets("Code", t.affectedCode);
    EntryLineBullets("API", t.apiCalls);
    EntryLineBullets("Stack Trace", t.stackTrace);
  }

  /** Bullets followed by an empty line: the run stops at the empty line. */
  lemma {:induction false} BulletRunStops(es: seq<string>, rest: seq<string>)
    requires forall x <- es :: Parser.IsBulletLine(x)
    ensures Parser.Run(es + [""] + rest, Parser.IsBulletLine) == |es|
    decreases |es|
  {
    var ls := es + [""] + rest;
    if es == [] {
      assert ls[0] == "";
      assert !Parser.IsBulletLine("");
    } else {
      assert es[0] in es && ls[0] == es[0];
      assert ls[1..] == es[1..] + [""] + rest;
      BulletRunStops(es[1..], rest);
    }
  }

  /** The bug loop passes over a line that does not open with `*`. */
  lemma BugNeutral(line: string, rest: seq<string>, f: Parser.BugFields)
    requires line == [] || line[0] != '*'
    ensures Parser.ScanBug([line] + rest, f) == Parser.ScanBug(rest, f)
  {
    RoundTrip.StarFree(line, Parser.DescriptionLabel);
    RoundTrip.StarFree(line, Parser.SeverityLabel);
    RoundTrip.StarFree(line, Parser.StepsLabel);
    RoundTrip.StarFree(line, Parser.EnvironmentLabel);
    RoundTrip.StarFree(line, Parser.TechnicalLabel);
    RoundTrip.StarFree(line, Parser.FixCriteriaLabel);
    RoundTrip.StarFree(line, Parser.SuggestedFixLabel);
    assert ([line] + rest)[1..] == rest;
  }

  /** A block heading followed by a bullet run and an empty line: one step
      of the loop consumes the heading and the run. */
  lemma BlockStep(heading: string, es: seq<string>, rest: seq<string>)
    requires forall x <- es :: Parser.IsBulletLine(x)
    ensures var lines := [heading] + es + [""] + rest;
      && lines[0] == heading
      && Parser.Run(lines[1..], Parser.IsBulletLine) == |es|
      && lines[1..1 + |es|] == es
      && lines[1 + |es|..] == [""] + rest
  {
    BlockSlices(heading, es, rest);
    BulletRunStops(es, rest);
  }


  /** Step lines followed by an empty line: the run stops at the empty
      line. */
  lemma {:induction false} StepRunStops(es: seq<string>, rest: seq<string>)
    requires forall k :: 0 <= k < |es| ==> Parser.IsStepLine(es[k])
    ensures Parser.Run(es + [""] + rest, Parser.IsStepLine) == |es|
    decreases |es|
  {
    var ls := es + [""] + rest;
    if es == [] {
      assert ls[0] == "";
      assert !Parser.IsStepLine("");
    } else {
      assert ls[0] == es[0];
      assert ls[1..] == es[1..] + [""] + rest;
      assert forall k :: 0 <= k < |es[1..]| ==> es[1..][k] == es[k + 1];
      StepRunStops(es[1..], rest);
    }
  }

  // ---------------------------------------------------------------------
  // Block headings
  // ---------------------------------------------------------------------

  // The block headings of a bug. They are the parser's labels
  // (HeadingsAreLabels).
  const StepsHeading: string := "**Reproduction Steps**:"
  const EnvironmentHeading: string := "**Environment**:"
  const TechnicalHeading: string := "**Technical Details**:"
  const FixCriteriaHeading: string := "**Fix Verification Criteria**:"

  lemma HeadingsAreLabels()
    ensures StepsHeading == Parser.StepsLabel
    ensures EnvironmentHeading == Parser.EnvironmentLabel
    ensures TechnicalHeading == Parser.TechnicalLabel
    ensures FixCriteriaHeading == Parser.FixCriteriaLabel
  {
  }

  /** A heading that starts with the first two characters of every label
      and differs from `other` at the third. */
  lemma OtherLabel(heading: string, other: string)
    requires |heading| > 2 && |other| > 2 && heading[2] != other[2]
    ensures !StartsWith(heading, other)
  {
    assert heading + [] == heading;
    RoundTrip.LabelledLine(heading, other, [], 2);
  }

  // ---------------------------------------------------------------------
  // One step of the bug loop at each block heading
  // ---------------------------------------------------------------------

  /** Each block heading opens with its own label and with none of the
      labels the bug loop tries before it. */
  lemma StepsHeadingOpens()
    ensures StartsWith(StepsHeading, Parser.StepsLabel)
    ensures !StartsWith(StepsHeading, Parser.DescriptionLabel)
    ensures !StartsWith(StepsHeading, Parser.SeverityLabel)
  {
    HeadingsAreLabels();
    OtherLabel(StepsHeading, Parser.DescriptionLabel);
    OtherLabel(StepsHeading, Parser.SeverityLabel);
  }

  lemma EnvironmentHeadingOpens()
    ensures StartsWith(EnvironmentHeading, Parser.EnvironmentLabel)
    ensures !StartsWith(EnvironmentHeading, Parser.DescriptionLabel)
    ensures !StartsWith(EnvironmentHeading, Parser.SeverityLabel)
    ensures !StartsWith(EnvironmentHeading, Parser.StepsLabel)
  {
    HeadingsAreLabels();
    OtherLabel(EnvironmentHeading, Parser.DescriptionLabel);
    OtherLabel(EnvironmentHeading, Parser.SeverityLabel);
    OtherLabel(EnvironmentHeading, Parser.StepsLabel);
  }

  lemma TechnicalHeadingOpens()
    ensures StartsWith(TechnicalHeading, Parser.TechnicalLabel)
    ensures !StartsWith(TechnicalHeading, Parser.DescriptionLabel)
    ensures !StartsWith(TechnicalHeading, Parser.SeverityLabel)
    ensures !StartsWith(TechnicalHeading, Parser.StepsLabel)
    ensures !StartsWith(TechnicalHeading, Parser.EnvironmentLabel)
  {
    HeadingsAreLabels();
    OtherLabel(TechnicalHeading, Parser.DescriptionLabel);
    OtherLabel(TechnicalHeading, Parser.SeverityLabel);
    OtherLabel(TechnicalHeading, Parser.StepsLabel);
    OtherLabel(TechnicalHeading, Parser.EnvironmentLabel);
  }

  lemma FixCriteriaHeadingOpens()
    ensures StartsWith(FixCriteriaHeading, Parser.FixCriteriaLabel)
    ensures !StartsWith(FixCriteriaHeading, Parser.DescriptionLabel)
    ensures !StartsWith(FixCriteriaHeading, Parser.SeverityLabel)
    ensures !StartsWith(FixCriteriaHeading, Parser.StepsLabel)
    ensures !StartsWith(FixCriteriaHeading, Parser.EnvironmentLabel)
    ensures !StartsWith(FixCriteriaHeading, Parser.TechnicalLabel)
  {
    HeadingsAreLabels();
    OtherLabel(FixCriteriaHeading, Parser.DescriptionLabel);
    OtherLabel(FixCriteriaHeading, Parser.SeverityLabel);
    OtherLabel(FixCriteriaHeading, Parser.StepsLabel);
    OtherLabel(FixCriteriaHeading, Parser.EnvironmentLabel);
    OtherLabel(FixCriteriaHeading, Parser.TechnicalLabel);
  }

  lemma StepsHead(lines: seq<string>, f: Parser.BugFields)
    requires lines != []
    requires StartsWith(lines[0], Parser.StepsLabel)
    requires !StartsWith(lines[0], Parser.DescriptionLabel)
    requires !StartsWith(lines[0], Parser.SeverityLabel)
    ensures var k := Parser.Run(lines[1..], Parser.IsStepLine);
      Parser.ScanBug(lines, f) ==
      Parser.ScanBug(lines[1 + k..], f.(steps := f.steps + Parser.StepTexts(lines[1..1 + k])))
  {
  }

  lemma EnvironmentHead(lines: seq<string>, f: Parser.BugFields)
    requires lines != []
    requires StartsWith(lines[0], Parser.EnvironmentLabel)
    requires !StartsWith(lines[0], Parser.DescriptionLabel)
    requires !StartsWith(lines[0], Parser.SeverityLabel)
    requires !StartsWith(lines[0], Parser.StepsLabel)
    ensures var k := Parser.Run(lines[1..], Parser.IsBulletLine);
      Parser.ScanBug(lines, f) ==
      Parser.ScanBug(lines[1 + k..], f.(environment := Parser.EnvironmentOf(
        Parser.EntryDict(lines[1..1 + k], Parser.EnvironmentKey, map[]))))
  {
  }

  lemma TechnicalHead(lines: seq<string>, f: Parser.BugFields)
    requires lines != []
    requires StartsWith(lines[0], Parser.TechnicalLabel)
    requires !StartsWith(lines[0], Parser.DescriptionLabel)
    requires !StartsWith(lines[0], Parser.SeverityLabel)
    requires !StartsWith(lines[0], Parser.StepsLabel)
    requires !StartsWith(lines[0], Parser.EnvironmentLabel)
    ensures var k := Parser.Run(lines[1..], Parser.IsBulletLine);
      Parser.ScanBug(lines, f) ==
      Parser.ScanBug(lines[1 + k..], f.(technical := Some(Parser.TechnicalDetailsOf(
        Parser.EntryDict(lines[1..1 + k], Parser.TechnicalKey, map[])))))
  {
  }

  lemma FixCriteriaHead(lines: seq<string>, f: Parser.BugFields)
    requires lines != []
    requires StartsWith(lines[0], Parser.FixCriteriaLabel)
    requires !StartsWith(lines[0], Parser.DescriptionLabel)
    requires !StartsWith(lines[0], Parser.SeverityLabel)
    requires !StartsWith(lines[0], Parser.StepsLabel)
    requires !StartsWith(lines[0], Parser.EnvironmentLabel)
    requires !StartsWith(lines[0], Parser.TechnicalLabel)
    ensures var k := Parser.Run(lines[1..], Parser.IsBulletLine);
      Parser.ScanBug(lines, f) ==
      Parser.ScanBug(lines[1 + k..], f.(criteria := f.criteria + Parser.BulletTexts(lines[1..1 + k])))
  {
  }

  /** Step lines under their heading, closed by an empty line, are added
      to the steps read so far. */
  lemma StepsStep(es: seq<string>, rest: seq<string>, f: Parser.BugFields)
    requires forall k :: 0 <= k < |es| ==> Parser.IsStepLine(es[k])
    ensures Parser.ScanBug([StepsHeading] + es + [""] + rest, f) ==
            Parser.ScanBug(rest, f.(steps := f.steps + Parser.StepTexts(es)))
  {
    var lines := [StepsHeading] + es + [""] + rest;
    StepsHeadingOpens();
    StepBlockStep(StepsHeading, es, rest);
    StepsHead(lines, f);
    BugNeutral("", rest, f.(steps := f.steps + Parser.StepTexts(es)));
  }

  /** A heading followed by a run of step lines and an empty line. */
  lemma StepBlockStep(heading: string, es: seq<string>, rest: seq<string>)
    requires forall k :: 0 <= k < |es| ==> Parser.IsStepLine(es[k])
    ensures var lines := [heading] + es + [""] + rest;
      && lines[0] == heading
      && Parser.Run(lines[1..], Parser.IsStepLine) == |es|
      && lines[1..1 + |es|] == es
      && lines[1 + |es|..] == [""] + rest
  {
    BlockSlices(heading, es, rest);
    StepRunStops(es, rest);
  }

  lemma BlockSlices(heading: string, es: seq<string>, rest: seq<string>)
    ensures var lines := [heading] + es + [""] + rest;
      && lines[0] == heading
      && lines[1..] == es + [""] + rest
      && lines[1..1 + |es|] == es
      && lines[1 + |es|..] == [""] + rest
  {
    var lines := [heading] + es + [""] + rest;
    assert lines[1..] == es + [""] + rest;
  }

  /** The environment entries under their heading, closed by an empty
      line, replace the environment read so far. */
  lemma EnvironmentStep(es: seq<string>, rest: seq<string>, f: Parser.BugFields)
    requires forall x <- es :: Parser.IsBulletLine(x)
    ensures Parser.ScanBug([EnvironmentHeading] + es + [""] + rest, f) ==
            Parser.ScanBug(rest, f.(environment := Parser.EnvironmentOf(
              Parser.EntryDict(es, Parser.EnvironmentKey, map[]))))
  {
    var heading := EnvironmentHeading;
    var lines := [heading] + es + [""] + rest;
    EnvironmentHeadingOpens();
    BlockStep(heading, es, rest);
    EnvironmentHead(lines, f);
    BugNeutral("", rest, f.(environment := Parser.EnvironmentOf(Parser.EntryDict(es, Parser.EnvironmentKey, map[]))));
  }

  lemma TechnicalStep(es: seq<string>, rest: seq<string>, f: Parser.BugFields)
    requires forall x <- es :: Parser.IsBulletLine(x)
    ensures Parser.ScanBug([TechnicalHeading] + es + [""] + rest, f) ==
            Parser.ScanBug(rest, f.(technical := Some(Parser.TechnicalDetailsOf(
              Parser.EntryDict(es, Parser.TechnicalKey, map[])))))
  {
    var heading := TechnicalHeading;
    var lines := [heading] + es + [""] + rest;
    TechnicalHeadingOpens();
    BlockStep(heading, es, rest);
    TechnicalHead(lines, f);
    BugNeutral("", rest, f.(technical := Some(Parser.TechnicalDetailsOf(Parser.EntryDict(es, Parser.TechnicalKey, map[])))));
  }

  /** Bullet lines under the fix-criteria heading, closed by an empty
      line, are added to the criteria read so far. */
  lemma FixCriteriaStep(es: seq<string>, rest: seq<string>, f: Parser.BugFields)
    requires forall x <- es :: Parser.IsBulletLine(x)
    ensures Parser.ScanBug([FixCriteriaHeading] + es + [""] + rest, f) ==
            Parser.ScanBug(rest, f.(criteria := f.criteria + Parser.BulletTexts(es)))
  {
    var heading := FixCriteriaHeading;
    var lines := [heading] + es + [""] + rest;
    FixCriteriaHeadingOpens();
    BlockStep(heading, es, rest);
    FixCriteriaHead(lines, f);
    BugNeutral("", rest, f.(criteria := f.criteria + Parser.BulletTexts(es)));
  }

  // ---------------------------------------------------------------------
  // The lines a bug is written on
  // ---------------------------------------------------------------------

  function BugHeadingLine(i: nat, summary: string): string {
    "## Bug " + NatToString(i) + ": " + summary
  }

  function SeverityEntry(b: Bug): string {
    "**Severity**: " + LevelName(b.severity) + " | **Priority**: " + LevelName(b.priority)
  }

  /** The heading, the description and the severity line, each followed by
      the empty line its line break leaves. */
  function BugOpeningPhysical(i: nat, b: Bug): seq<string> {
    [BugHeadingLine(i, b.summary), "", "**Description**: " + b.description, "", SeverityEntry(b), ""]
  }

  /** A line break, the steps heading, the numbered steps and an empty line;
      nothing when there are no steps. */
  function StepsPhysical(steps: seq<string>): seq<string> {
    if steps == [] then [] else ["", StepsHeading] + Render.NumberedFrom(1, steps) + [""]
  }

  function EnvironmentPhysical(env: Environment): seq<string> {
    [EnvironmentHeading] + EnvironmentEntries(env) + [""]
  }

  function TechnicalPhysical(tech: Option<TechnicalDetails>): seq<string> {
    if tech.None? then [] else [TechnicalHeading] + TechnicalEntries(tech.value) + [""]
  }

  function SuggestedPhysical(fix: Option<string>): seq<string> {
    if Truthy(fix) then [Parser.SuggestedFixLabel + " " + fix.value, ""] else []
  }

  /** The lines a bug is written on. */
  function BugPhysical(i: nat, b: Bug): seq<string> {
    BugOpeningPhysical(i, b)
    + StepsPhysical(b.reproductionSteps)
    + EnvironmentPhysical(b.environment)
    + TechnicalPhysical(b.technicalDetails)
    + Render.CriteriaBlock(FixCriteriaHeading, b.acceptanceCriteria)
    + SuggestedPhysical(b.suggestedFix)
    + ["---", ""]
  }

  lemma SeverityEntrySingle(b: Bug)
    ensures SingleLine(SeverityEntry(b))
  {
    var sv := "**Severity**: ";
    var pr := " | **Priority**: ";
    assert SingleLine(sv) && SingleLine(pr);
    RoundTrip.LevelNameShape(b.severity);
    RoundTrip.LevelNameShape(b.priority);
    LacksAppend(sv, LevelName(b.severity), '\n');
    LacksAppend(sv + LevelName(b.severity), pr, '\n');
    LacksAppend(sv + LevelName(b.severity) + pr, LevelName(b.priority), '\n');
  }

  /** The severity line is the one the bug loop reads both levels from. */
  lemma SeverityEntryLabels(b: Bug)
    ensures SeverityEntry(b) == Parser.SeverityLabel + " " + LevelName(b.severity) + " | "
                                + Parser.PriorityLabel + " " + LevelName(b.priority)
  {
    var sv := LevelName(b.severity);
    var pv := LevelName(b.priority);
    assert "**Severity**: " == Parser.SeverityLabel + " ";
    assert " | **Priority**: " == " | " + Parser.PriorityLabel + " ";
  }

  lemma BugOpeningLines(i: nat, b: Bug)
    requires PlainBug(b)
    ensures
      var opening := [Render.BugHeading(i, b.summary), "**Description**: " + b.description + "\n",
                      SeverityEntry(b) + "\n"];
      Lines(opening) == BugOpeningPhysical(i, b)
  {
    var h := BugHeadingLine(i, b.summary);
    var d := "**Description**: " + b.description;
    var sv := SeverityEntry(b);
    Document.NumberedHeading("## Bug ", i, b.summary);
    assert Render.BugHeading(i, b.summary) == h + "\n";
    LacksAppend("**Description**: ", b.description, '\n');
    SeverityEntrySingle(b);
    RoundTrip.BreakEntry(h);
    RoundTrip.BreakEntry(d);
    RoundTrip.BreakEntry(sv);
    RoundTrip.LinesCons(h + "\n", [d + "\n", sv + "\n"]);
    RoundTrip.LinesCons(d + "\n", [sv + "\n"]);
    RoundTrip.LinesCons(sv + "\n", []);
  }

  lemma NumberedSingles(steps: seq<string>)
    requires forall x <- steps :: SingleLine(x)
    ensures forall x <- Render.NumberedFrom(1, steps) :: SingleLine(x)
  {
    var es := Render.NumberedFrom(1, steps);
    forall k | 0 <= k < |es| ensures SingleLine(es[k]) {
      assert steps[k] in steps;
      RoundTrip.NumberLine(1 + k);
      LacksAppend(NatToString(1 + k), ". ", '\n');
      LacksAppend(NatToString(1 + k) + ". ", steps[k], '\n');
    }
  }

  lemma StepsLinesPhysical(steps: seq<string>)
    requires forall x <- steps :: SingleLine(x)
    ensures Lines(Render.StepsLines(steps)) == StepsPhysical(steps)
  {
    if steps != [] {
      var es := Render.NumberedFrom(1, steps);
      assert "\n**Reproduction Steps**:" == "\n" + StepsHeading;
      HeadingsSingle();
      NumberedSingles(steps);
      BrokenBlockLines(StepsHeading, es);
    }
  }

  /** A line break and a heading in one entry, then single-line entries
      and an empty one. */
  lemma BrokenBlockLines(heading: string, es: seq<string>)
    requires SingleLine(heading)
    requires forall x <- es :: SingleLine(x)
    ensures Lines(["\n" + heading] + es + [""]) == ["", heading] + es + [""]
  {
    Document.BreakThenLine(heading);
    RoundTrip.LinesOfSingles(es + [""]);
    RoundTrip.LinesCons("\n" + heading, es + [""]);
    assert ["\n" + heading] + es + [""] == ["\n" + heading] + (es + [""]);
  }

  lemma HeadingsSingle()
    ensures SingleLine(StepsHeading) && SingleLine(EnvironmentHeading)
    ensures SingleLine(TechnicalHeading) && SingleLine(FixCriteriaHeading)
  {
  }

  /** A single-line heading, single-line entries and an empty line stand
      on these lines. */
  lemma BlockLines(heading: string, es: seq<string>)
    requires SingleLine(heading)
    requires forall x <- es :: SingleLine(x)
    ensures Lines([heading] + es + [""]) == [heading] + es + [""]
  {
    RoundTrip.LinesOfSingles([heading] + es + [""]);
  }

  lemma Regroup(a: seq<string>, e1: seq<string>, e2: seq<string>, e3: seq<string>, e4: seq<string>,
                e5: seq<string>, z: seq<string>)
    ensures a + e1 + e2 + e3 + e4 + e5 + z == a + (e1 + e2 + e3 + e4 + e5) + z
  {
  }

  lemma EnvironmentLinesPhysical(env: Environment)
    requires PlainEnvironment(env)
    ensures Lines(Render.EnvironmentLines(env)) == EnvironmentPhysical(env)
  {
    assert EnvironmentHeading == "**Environment**:";
    Regroup([EnvironmentHeading], Render.EntryLine("Browser", env.browser), Render.EntryLine("OS", env.os),
            Render.EntryLine("Device", env.device), Render.EntryLine("User Role", env.userRole),
            Render.EntryLine("Data Conditions", env.dataConditions), [""]);
    HeadingsSingle();
    EnvironmentBullets(env);
    BlockLines(EnvironmentHeading, EnvironmentEntries(env));
  }

  lemma TechnicalLinesPhysical(tech: Option<TechnicalDetails>)
    requires tech.Some? ==> PlainTechnical(tech.value)
    ensures Lines(Render.TechnicalLines(tech)) == TechnicalPhysical(tech)
  {
    if tech.Some? {
      var t := tech.value;
      assert TechnicalHeading == "**Technical Details**:";
      Regroup([TechnicalHeading], Render.EntryLine("Error", t.errorMessage), Render.EntryLine("Console", t.consoleLogs),
              Render.EntryLine("Code", t.affectedCode), Render.EntryLine("API", t.apiCalls),
              Render.EntryLine("Stack Trace", t.stackTrace), [""]);
      HeadingsSingle();
      TechnicalBullets(t);
      BlockLines(TechnicalHeading, TechnicalEntries(t));
    }
  }

  lemma FixCriteriaLinesPhysical(items: seq<string>)
    requires forall x <- items :: SingleLine(x)
    ensures Lines(Render.CriteriaBlock(Render.FixCriteriaLabel, items)) ==
            Render.CriteriaBlock(FixCriteriaHeading, items)
  {
    HeadingsAreLabels();
    assert Render.FixCriteriaLabel == FixCriteriaHeading;
    RoundTrip.CriteriaBlockLines(Render.FixCriteriaLabel, items);
  }

  lemma SuggestedLinesPhysical(fix: Option<string>)
    requires fix.Some? ==> RoundTrip.Plain(fix.value)
    ensures Lines(if Truthy(fix) then ["**Suggested Fix**: " + fix.value + "\n"] else []) ==
            SuggestedPhysical(fix)
  {
    if Truthy(fix) {
      var line := Parser.SuggestedFixLabel + " " + fix.value;
      assert "**Suggested Fix**: " + fix.value == line;
      LacksAppend(Parser.SuggestedFixLabel + " ", fix.value, '\n');
      RoundTrip.BreakEntry(line);
      RoundTrip.LinesCons(line + "\n", []);
    }
  }

  lemma LinesSeven(a: seq<string>, b: seq<string>, c: seq<string>, d: seq<string>,
                   e: seq<string>, f: seq<string>, g: seq<string>)
    ensures Lines(a + b + c + d + e + f + g) ==
            Lines(a) + Lines(b) + Lines(c) + Lines(d) + Lines(e) + Lines(f) + Lines(g)
  {
    LinesAppend(a + b + c + d + e + f, g);
    LinesAppend(a + b + c + d + e, f);
    LinesAppend(a + b + c + d, e);
    LinesAppend(a + b + c, d);
    LinesThree(a, b, c);
  }

  /** Joined with line breaks, the entries of a bug stand on its physical
      lines. */
  lemma BugLinesPhysical(i: nat, b: Bug)
    requires PlainBug(b)
    ensures Lines(Render.BugLines(i, b)) == BugPhysical(i, b)
  {
    var opening := [Render.BugHeading(i, b.summary), "**Description**: " + b.description + "\n",
                    SeverityEntry(b) + "\n"];
    var suggested := if Truthy(b.suggestedFix) then ["**Suggested Fix**: " + b.suggestedFix.value + "\n"] else [];
    assert Render.BugLines(i, b) ==
      opening + Render.StepsLines(b.reproductionSteps) + Render.EnvironmentLines(b.environment)
      + Render.TechnicalLines(b.technicalDetails)
      + Render.CriteriaBlock(Render.FixCriteriaLabel, b.acceptanceCriteria) + suggested + [Render.Separator];
    LinesSeven(opening, Render.StepsLines(b.reproductionSteps), Render.EnvironmentLines(b.environment),
               Render.TechnicalLines(b.technicalDetails),
               Render.CriteriaBlock(Render.FixCriteriaLabel, b.acceptanceCriteria), suggested, [Render.Separator]);
    BugOpeningLines(i, b);
    StepsLinesPhysical(b.reproductionSteps);
    EnvironmentLinesPhysical(b.environment);
    TechnicalLinesPhysical(b.technicalDetails);
    FixCriteriaLinesPhysical(b.acceptanceCriteria);
    SuggestedLinesPhysical(b.suggestedFix);
    RoundTrip.SeparatorLines();
  }

  // ---------------------------------------------------------------------
  // Reading a bug back
  // ---------------------------------------------------------------------

  lemma BugDescriptionLine(d: string, rest: seq<string>, f: Parser.BugFields)
    requires RoundTrip.Plain(d)
    ensures Parser.ScanBug([Parser.DescriptionLabel + " " + d] + rest, f) ==
            Parser.ScanBug(rest, f.(description := d))
  {
    var line := Parser.DescriptionLabel + " " + d;
    assert line == Parser.DescriptionLabel + (" " + d);
    RoundTrip.LabelledLine(Parser.DescriptionLabel, Parser.SeverityLabel, " " + d, 2);
    RoundTrip.FieldLine(Parser.DescriptionLabel, d);
    assert ([line] + rest)[1..] == rest;
  }

  /** The description and severity lines after the heading. */
  lemma BugOpeningScan(i: nat, b: Bug, rest: seq<string>, f: Parser.BugFields)
    requires RoundTrip.Plain(b.description)
    ensures Parser.ScanBug(BugOpeningPhysical(i, b)[1..] + rest, f) ==
      Parser.ScanBug(rest, f.(description := b.description, severity := LevelName(b.severity),
                              priority := LevelName(b.priority)))
  {
    var d := "**Description**: " + b.description;
    var sv := SeverityEntry(b);
    var f1 := f.(description := b.description);
    var f2 := f1.(severity := LevelName(b.severity), priority := LevelName(b.priority));
    assert d == Parser.DescriptionLabel + " " + b.description;
    SeverityEntryLabels(b);
    assert BugOpeningPhysical(i, b)[1..] + rest == [""] + ([d] + ([""] + ([sv] + ([""] + rest))));
    BugNeutral("", [d] + ([""] + ([sv] + ([""] + rest))), f);
    BugDescriptionLine(b.description, [""] + ([sv] + ([""] + rest)), f);
    BugNeutral("", [sv] + ([""] + rest), f1);
    RoundTrip.SeverityLine(b.severity, b.priority, [""] + rest, f1);
    BugNeutral("", rest, f2);
  }

  lemma StepsScan(steps: seq<string>, rest: seq<string>, f: Parser.BugFields)
    requires forall x <- steps :: IsStripped(x)
    ensures Parser.ScanBug(StepsPhysical(steps) + rest, f) == Parser.ScanBug(rest, f.(steps := f.steps + steps))
  {
    if steps == [] {
      assert StepsPhysical(steps) + rest == rest;
      assert f.steps + steps == f.steps;
      assert f.(steps := f.steps) == f;
    } else {
      var es := Render.NumberedFrom(1, steps);
      assert StepsPhysical(steps) + rest == ["", StepsHeading] + es + [""] + rest;
      RoundTrip.StepsBack(steps);
      StepsAfterBreak(es, rest, f);
    }
  }

  /** The line break written before the steps heading, then the steps. */
  lemma StepsAfterBreak(es: seq<string>, rest: seq<string>, f: Parser.BugFields)
    requires forall k :: 0 <= k < |es| ==> Parser.IsStepLine(es[k])
    ensures Parser.ScanBug(["", StepsHeading] + es + [""] + rest, f) ==
            Parser.ScanBug(rest, f.(steps := f.steps + Parser.StepTexts(es)))
  {
    assert ["", StepsHeading] + es + [""] + rest == [""] + ([StepsHeading] + es + [""] + rest);
    BugNeutral("", [StepsHeading] + es + [""] + rest, f);
    StepsStep(es, rest, f);
  }

  /** The environment block sets the environment of the bug being read to
      the fields it lists. */
  lemma EnvironmentBlock(env: Environment, rest: seq<string>, f: Parser.BugFields)
    requires PlainEnvironment(env)
    ensures Parser.ScanBug(EnvironmentPhysical(env) + rest, f) ==
            Parser.ScanBug(rest, f.(environment := EnvironmentRead(env)))
  {
    EnvironmentBullets(env);
    EnvironmentStep(EnvironmentEntries(env), rest, f);
    EnvironmentEntriesBack(env);
  }

  /** The technical-details block, when written, sets the details of the
      bug being read. */
  lemma TechnicalBlock(tech: Option<TechnicalDetails>, rest: seq<string>, f: Parser.BugFields)
    requires tech.Some? ==> PlainTechnical(tech.value)
    ensures Parser.ScanBug(TechnicalPhysical(tech) + rest, f) ==
            Parser.ScanBug(rest, if tech.Some? then f.(technical := Some(TechnicalRead(tech.value))) else f)
  {
    if tech.Some? {
      TechnicalBullets(tech.value);
      TechnicalStep(TechnicalEntries(tech.value), rest, f);
      TechnicalEntriesBack(tech.value);
    } else {
      assert TechnicalPhysical(tech) + rest == rest;
    }
  }

  lemma FixCriteriaBlock(items: seq<string>, rest: seq<string>, f: Parser.BugFields)
    requires forall x <- items :: IsStripped(x)
    ensures Parser.ScanBug(Render.CriteriaBlock(FixCriteriaHeading, items) + rest, f) ==
            Parser.ScanBug(rest, f.(criteria := f.criteria + items))
  {
    if items == [] {
      assert Render.CriteriaBlock(FixCriteriaHeading, items) + rest == rest;
      assert f.criteria + items == f.criteria;
      assert f.(criteria := f.criteria) == f;
    } else {
      var es := Render.Bullets(items);
      RoundTrip.BulletsBack(items);
      assert forall x <- es :: Parser.IsBulletLine(x);
      FixCriteriaStep(es, rest, f);
    }
  }

  lemma SuggestedLine(x: string, rest: seq<string>, f: Parser.BugFields)
    requires RoundTrip.Plain(x)
    ensures Parser.ScanBug([Parser.SuggestedFixLabel + " " + x] + rest, f) ==
            Parser.ScanBug(rest, f.(suggestedFix := Some(x)))
  {
    var line := Parser.SuggestedFixLabel + " " + x;
    assert line == Parser.SuggestedFixLabel + (" " + x);
    RoundTrip.LabelledLine(Parser.SuggestedFixLabel, Parser.DescriptionLabel, " " + x, 2);
    RoundTrip.LabelledLine(Parser.SuggestedFixLabel, Parser.SeverityLabel, " " + x, 3);
    RoundTrip.LabelledLine(Parser.SuggestedFixLabel, Parser.StepsLabel, " " + x, 2);
    RoundTrip.LabelledLine(Parser.SuggestedFixLabel, Parser.EnvironmentLabel, " " + x, 2);
    RoundTrip.LabelledLine(Parser.SuggestedFixLabel, Parser.TechnicalLabel, " " + x, 2);
    RoundTrip.LabelledLine(Parser.SuggestedFixLabel, Parser.FixCriteriaLabel, " " + x, 2);
    RoundTrip.FieldLine(Parser.SuggestedFixLabel, x);
    assert ([line] + rest)[1..] == rest;
  }

  /** The suggested fix, when written, and the closing rule. */
  lemma SuggestedScan(fix: Option<string>, f: Parser.BugFields)
    requires fix.Some? ==> RoundTrip.Plain(fix.value)
    ensures Parser.ScanBug(SuggestedPhysical(fix) + ["---", ""], f) ==
            f.(suggestedFix := if Truthy(fix) then fix else f.suggestedFix)
  {
    var g := f.(suggestedFix := if Truthy(fix) then fix else f.suggestedFix);
    var closing := ["---", ""];
    if Truthy(fix) {
      var line := Parser.SuggestedFixLabel + " " + fix.value;
      assert SuggestedPhysical(fix) + closing == [line] + ([""] + closing);
      SuggestedLine(fix.value, [""] + closing, f);
      BugNeutral("", closing, g);
    } else {
      assert SuggestedPhysical(fix) + closing == closing;
      assert g == f;
    }
    assert closing == ["---"] + [""];
    assert [""] == [""] + [];
    BugNeutral("---", [""], g);
    BugNeutral("", [], g);
  }

  lemma AfterFirstSeven(a: seq<string>, s: seq<string>, e: seq<string>, t: seq<string>,
                        c: seq<string>, g: seq<string>, z: seq<string>)
    requires a != []
    ensures (a + s + e + t + c + g + z)[1..] == a[1..] + (s + (e + (t + (c + (g + z)))))
  {
  }

  /** A bug written by the bug writer and read by the bug loop, from the
      line after its summary, gives back its description, both levels, its
      steps, the set fields of its environment and technical details, its
      fix criteria, and its suggested fix when that is non-empty. */
  lemma BugRoundTrip(i: nat, b: Bug)
    requires PlainBug(b)
    ensures Parser.ScanBug(Lines(Render.BugLines(i, b))[1..], Parser.BugDefaults) == BugFieldsOf(b)
  {
    BugLinesPhysical(i, b);
    var o := BugOpeningPhysical(i, b);
    var s := StepsPhysical(b.reproductionSteps);
    var e := EnvironmentPhysical(b.environment);
    var t := TechnicalPhysical(b.technicalDetails);
    var c := Render.CriteriaBlock(FixCriteriaHeading, b.acceptanceCriteria);
    var g := SuggestedPhysical(b.suggestedFix);
    var z := ["---", ""];
    AfterFirstSeven(o, s, e, t, c, g, z);
    var f1 := Parser.BugDefaults.(description := b.description, severity := LevelName(b.severity),
                                  priority := LevelName(b.priority));
    BugOpeningScan(i, b, s + (e + (t + (c + (g + z)))), Parser.BugDefaults);
    var f2 := f1.(steps := b.reproductionSteps);
    NothingBefore(b.reproductionSteps);
    StepsScan(b.reproductionSteps, e + (t + (c + (g + z))), f1);
    var f3 := f2.(environment := EnvironmentRead(b.environment));
    EnvironmentBlock(b.environment, t + (c + (g + z)), f2);
    var f4 := if b.technicalDetails.Some? then f3.(technical := Some(TechnicalRead(b.technicalDetails.value))) else f3;
    TechnicalBlock(b.technicalDetails, c + (g + z), f3);
    var f5 := f4.(criteria := b.acceptanceCriteria);
    NothingBefore(b.acceptanceCriteria);
    FixCriteriaBlock(b.acceptanceCriteria, g + z, f4);
    SuggestedScan(b.suggestedFix, f5);
    BugScanChain(Lines(Render.BugLines(i, b))[1..], o[1..], s, e, t, c, g, z,
                 Parser.BugDefaults, f1, f2, f3, f4, f5, BugFieldsOf(b));
  }

  lemma NothingBefore(x: seq<string>)
    ensures [] + x == x
  {
  }

  /** The bug loop over the seven parts of a written bug, one part after
      the other. */
  lemma BugScanChain(all: seq<string>, o: seq<string>, s: seq<string>, e: seq<string>, t: seq<string>,
                     c: seq<string>, g: seq<string>, z: seq<string>,
                     f0: Parser.BugFields, f1: Parser.BugFields, f2: Parser.BugFields, f3: Parser.BugFields,
                     f4: Parser.BugFields, f5: Parser.BugFields, r: Parser.BugFields)
    requires all == o + (s + (e + (t + (c + (g + z)))))
    requires Parser.ScanBug(o + (s + (e + (t + (c + (g + z))))), f0) == Parser.ScanBug(s + (e + (t + (c + (g + z)))), f1)
    requires Parser.ScanBug(s + (e + (t + (c + (g + z)))), f1) == Parser.ScanBug(e + (t + (c + (g + z))), f2)
    requires Parser.ScanBug(e + (t + (c + (g + z))), f2) == Parser.ScanBug(t + (c + (g + z)), f3)
    requires Parser.ScanBug(t + (c + (g + z)), f3) == Parser.ScanBug(c + (g + z), f4)
    requires Parser.ScanBug(c + (g + z), f4) == Parser.ScanBug(g + z, f5)
    requires Parser.ScanBug(g + z, f5) == r
    ensures Parser.ScanBug(all, f0) == r
  {
  }
}

=== FILE: document.dfy ===
/** A whole document, as `write_markdown` writes it and `parse_markdown`
    reads it again: the header the writer puts first is where the reader
    takes the project key and the issue type from, whatever the body of
    the document holds after it. */
module Document {
  import opened Wrappers
  import opened Strings
  import opened Models
  import Render
  import Parser
  import RoundTrip

  // ---------------------------------------------------------------------
  // The header loop
  // ---------------------------------------------------------------------

  /** A line the header loop passes over without change. */
  predicate HeaderInert(l: string) {
    !StartsWith(l, Parser.TitlePrefix) && !StartsWith(l, Parser.IssueTypeLabel)
  }

  lemma {:induction false} ScanHeaderAppend(a: seq<string>, b: seq<string>, h: Parser.Header)
    ensures Parser.ScanHeader(a + b, h) == Parser.ScanHeader(b, Parser.ScanHeader(a, h))
    decreases |a|
  {
    if a == [] {
      assert a + b == b;
    } else {
      assert (a + b)[0] == a[0];
      assert (a + b)[1..] == a[1..] + b;
      ScanHeaderAppend(a[1..], b, Parser.HeaderStep(a[0], h));
    }
  }

  lemma {:induction false} ScanHeaderInert(ls: seq<string>, h: Parser.Header)
    requires forall i :: 0 <= i < |ls| ==> HeaderInert(ls[i])
    ensures Parser.ScanHeader(ls, h) == h
    decreases |ls|
  {
    if ls != [] {
      assert HeaderInert(ls[0]);
      ScanHeaderInert(ls[1..], h);
    }
  }

  /** A line that opens with `**` and a third character other than `I`
      is neither a title line nor a type line. */
  lemma StarredInert(l: string)
    requires |l| >= 3 && l[0] == '*' && l[1] == '*' && l[2] != 'I'
    ensures HeaderInert(l)
  {
    if |Parser.TitlePrefix| <= |l| {
      assert l[..|Parser.TitlePrefix|][0] == '*';
    }
    if |Parser.IssueTypeLabel| <= |l| {
      assert l[..|Parser.IssueTypeLabel|][2] == l[2];
    }
  }

  /** A line that opens with `##` is neither a title line nor a type line. */
  lemma HeadingInert(l: string)
    requires |l| >= 2 && l[0] == '#' && l[1] == '#'
    ensures HeaderInert(l)
  {
    if |Parser.TitlePrefix| <= |l| {
      assert l[..|Parser.TitlePrefix|][1] == '#';
    }
    if |Parser.IssueTypeLabel| <= |l| {
      assert l[..|Parser.IssueTypeLabel|][0] == '#';
    }
  }

  /** A line that opens with neither `#` nor `*` is inert. */
  lemma PlainInert(l: string)
    requires l == [] || (l[0] != '#' && l[0] != '*')
    ensures HeaderInert(l)
  {
    if l != [] {
      if |Parser.TitlePrefix| <= |l| {
        assert l[..|Parser.TitlePrefix|][0] == l[0];
      }
      if |Parser.IssueTypeLabel| <= |l| {
        assert l[..|Parser.IssueTypeLabel|][0] == l[0];
      }
    }
  }

  // ---------------------------------------------------------------------
  // The header the writer emits
  // ---------------------------------------------------------------------

  /** The physical lines of the header: title, blank line, generation time,
      issue type, blank line, rule and blank line. */
  function HeaderPhysical(s: TicketStructure, timestamp: string): seq<string> {
    [Parser.TitlePrefix + s.projectKey, "", "**Generated**: " + timestamp,
     Parser.IssueTypeLabel + " " + IssueTypeName(s.issueType), "", "---", ""]
  }

  /** The writer and the reader spell the header labels alike. */
  lemma SameHeaderLabels()
    ensures Render.TitlePrefix == Parser.TitlePrefix
    ensures Render.IssueTypeLabel == Parser.IssueTypeLabel
  {
  }

  /** What the name of an issue type is made of: lower-case letters and
      a dash. */
  lemma IssueTypeNameShape(t: IssueType)
    ensures var n := IssueTypeName(t);
      && n != [] && IsStripped(n) && SingleLine(n) && Lacks(n, '*') && Lower(n) == n
  {
    var n := IssueTypeName(t);
    assert forall i :: 0 <= i < |n| ==> n[i] == '-' || 'a' <= n[i] <= 'z';
    assert Lower(n) == n by {
      forall i | 0 <= i < |n| ensures Lower(n)[i] == n[i] {
        assert LowerChar(n[i]) == n[i];
      }
    }
  }

  /** A valid project key holds only capitals and digits. */
  lemma ProjectKeyShape(k: string)
    requires ValidProjectKey(k)
    ensures IsStripped(k) && Lacks(k, '\n') && Lacks(k, '#')
  {
    assert forall i :: 0 <= i < |k| ==> IsUpper(k[i]) || IsDigit(k[i]);
  }

  lemma TitleLineSingle(k: string)
    requires Lacks(k, '\n')
    ensures SingleLine(Parser.TitlePrefix + k)
  {
    LacksAppend(Parser.TitlePrefix, k, '\n');
  }

  lemma TypeLineSingle(n: string)
    requires SingleLine(n)
    ensures SingleLine(Parser.IssueTypeLabel + " " + n)
  {
    LacksAppend(Parser.IssueTypeLabel + " ", n, '\n');
  }

  /** A line break, then a single line. */
  lemma BreakThenLine(x: string)
    requires SingleLine(x)
    ensures Split("\n" + x, '\n') == ["", x]
  {
    assert "\n" + x == [] + ['\n'] + x;
    SplitAround([], x, '\n');
    SplitSingleLine(x);
  }

  /** The rule entry of the header. */
  lemma RuleLines()
    ensures Split("\n---\n", '\n') == ["", "---", ""]
  {
    var rule := "---";
    assert SingleLine(rule);
    assert rule + ['\n'] + [] == "---\n";
    SplitAround(rule, [], '\n');
    SplitSingleLine(rule);
    BreakThenLine([]);
    assert "\n---\n" == [] + ['\n'] + "---\n";
    SplitAround([], "---\n", '\n');
  }

  lemma FourEntryLines(a: string, b: string, c: string, d: string)
    ensures Lines([a, b, c, d]) == Split(a, '\n') + Split(b, '\n') + Split(c, '\n') + Split(d, '\n')
  {
    assert Lines([d]) == Split(d, '\n') by {
      assert [d][1..] == [];
    }
    assert Lines([c, d]) == Split(c, '\n') + Lines([d]) by {
      assert [c, d][1..] == [d];
    }
    assert Lines([b, c, d]) == Split(b, '\n') + Lines([c, d]) by {
      assert [b, c, d][1..] == [c, d];
    }
    assert Lines([a, b, c, d]) == Split(a, '\n') + Lines([b, c, d]) by {
      assert [a, b, c, d][1..] == [b, c, d];
    }
  }

  /** The header entries break into the seven physical header lines. */
  lemma HeaderEntryLines(s: TicketStructure, timestamp: string)
    requires ValidProjectKey(s.projectKey) && SingleLine(timestamp)
    ensures Lines(Render.HeaderLines(s, timestamp)) == HeaderPhysical(s, timestamp)
  {
    var name := IssueTypeName(s.issueType);
    var generated := "**Generated**: " + timestamp;
    ProjectKeyShape(s.projectKey);
    IssueTypeNameShape(s.issueType);
    SameHeaderLabels();
    TitleLineSingle(s.projectKey);
    LacksAppend("**Generated**: ", timestamp, '\n');
    assert "\n**Generated**: " + timestamp == "\n" + generated;
    TypeLineSingle(name);
    HeaderFour(Parser.TitlePrefix + s.projectKey, generated, Parser.IssueTypeLabel + " " + name);
  }

  /** The four header entries: the title, a break and the generation
      line, the issue type, and the rule. */
  lemma HeaderFour(title: string, generated: string, kind: string)
    requires SingleLine(title) && SingleLine(generated) && SingleLine(kind)
    ensures Lines([title, "\n" + generated, kind, "\n---\n"]) == [title, "", generated, kind, "", "---", ""]
  {
    SplitSingleLine(title);
    BreakThenLine(generated);
    SplitSingleLine(kind);
    RuleLines();
    FourEntryLines(title, "\n" + generated, kind, "\n---\n");
  }


  /** The title line sets the key to the project key. */
  lemma TitleStep(k: string, h: Parser.Header)
    requires ValidProjectKey(k)
    ensures Parser.HeaderStep(Parser.TitlePrefix + k, h) == h.(key := Some(k))
  {
    ProjectKeyShape(k);
    AbsentChar(k, Parser.TitlePrefix, 0);
    ReplacePrefix(Parser.TitlePrefix, k);
    assert StartsWith(Parser.TitlePrefix + k, Parser.TitlePrefix) by {
      assert (Parser.TitlePrefix + k)[..|Parser.TitlePrefix|] == Parser.TitlePrefix;
    }
  }

  /** The type line sets the issue type to the name it carries. */
  lemma TypeStep(t: IssueType, h: Parser.Header)
    ensures Parser.HeaderStep(Parser.IssueTypeLabel + " " + IssueTypeName(t), h) ==
      h.(issueType := IssueTypeName(t))
  {
    var n := IssueTypeName(t);
    var line := Parser.IssueTypeLabel + (" " + n);
    assert line == Parser.IssueTypeLabel + " " + n;
    IssueTypeNameShape(t);
    LacksAppend(" ", n, '*');
    RoundTrip.LabelValue(Parser.IssueTypeLabel, n, 0);
    TypeLineOpening(line, " " + n);
  }

  /** A line that opens with the type label is a type line and no title
      line. */
  lemma TypeLineOpening(line: string, rest: string)
    requires line == Parser.IssueTypeLabel + rest
    ensures StartsWith(line, Parser.IssueTypeLabel) && !StartsWith(line, Parser.TitlePrefix)
  {
    assert line[..|Parser.IssueTypeLabel|] == Parser.IssueTypeLabel;
    assert line[0] == '*';
    if |Parser.TitlePrefix| <= |line| {
      assert line[..|Parser.TitlePrefix|][0] == '*';
    }
  }

  lemma ScanHeaderOne(l: string, h: Parser.Header)
    ensures Parser.ScanHeader([l], h) == Parser.HeaderStep(l, h)
  {
    assert [l][1..] == [];
  }

  lemma ScanHeaderCons(l: string, rest: seq<string>, h: Parser.Header)
    ensures Parser.ScanHeader([l] + rest, h) == Parser.ScanHeader(rest, Parser.HeaderStep(l, h))
  {
    assert ([l] + rest)[1..] == rest;
  }

  lemma InertStep(l: string, h: Parser.Header)
    requires HeaderInert(l)
    ensures Parser.HeaderStep(l, h) == h
  {
  }

  /** The header loop over seven lines: the first sets the key, the fourth
      the issue type, and the others are inert. */
  lemma ScanSeven(ph: seq<string>, h0: Parser.Header, h1: Parser.Header, h2: Parser.Header)
    requires |ph| == 7
    requires Parser.HeaderStep(ph[0], h0) == h1 && Parser.HeaderStep(ph[3], h1) == h2
    requires HeaderInert(ph[1]) && HeaderInert(ph[2])
    requires HeaderInert(ph[4]) && HeaderInert(ph[5]) && HeaderInert(ph[6])
    ensures Parser.ScanHeader(ph, h0) == h2
  {
    var t6 := [ph[6]];
    var t5 := [ph[5]] + t6;
    var t4 := [ph[4]] + t5;
    var t3 := [ph[3]] + t4;
    var t2 := [ph[2]] + t3;
    var t1 := [ph[1]] + t2;
    assert ph == [ph[0]] + t1;
    ScanHeaderCons(ph[0], t1, h0);
    ScanHeaderCons(ph[1], t2, h1);
    InertStep(ph[1], h1);
    ScanHeaderCons(ph[2], t3, h1);
    InertStep(ph[2], h1);
    ScanHeaderCons(ph[3], t4, h1);
    ScanHeaderCons(ph[4], t5, h2);
    InertStep(ph[4], h2);
    ScanHeaderCons(ph[5], t6, h2);
    InertStep(ph[5], h2);
    ScanHeaderCons(ph[6], [], h2);
    InertStep(ph[6], h2);
    assert t6 == [ph[6]] + [];
  }

  lemma GeneratedInert(l: string, timestamp: string)
    requires l == "**Generated**: " + timestamp
    ensures HeaderInert(l)
  {
    assert l[0] == '*' && l[1] == '*' && l[2] == 'G';
    StarredInert(l);
  }

  /** Over the header the writer emits, the header loop reads the project
      key and the name of the issue type. */
  lemma HeaderScan(s: TicketStructure, timestamp: string, ph: seq<string>)
    requires ValidProjectKey(s.projectKey)
    requires ph == HeaderPhysical(s, timestamp)
    ensures Parser.ScanHeader(ph, Parser.Header(None, "task")) ==
      Parser.Header(Some(s.projectKey), IssueTypeName(s.issueType))
  {
    var h0 := Parser.Header(None, "task");
    var h1 := h0.(key := Some(s.projectKey));
    var h2 := Parser.Header(Some(s.projectKey), IssueTypeName(s.issueType));
    assert ph[0] == Parser.TitlePrefix + s.projectKey;
    assert ph[3] == Parser.IssueTypeLabel + " " + IssueTypeName(s.issueType);
    TitleStep(s.projectKey, h0);
    TypeStep(s.issueType, h1);
    assert Parser.HeaderStep(ph[0], h0) == h1;
    assert Parser.HeaderStep(ph[3], h1) == h2;
    GeneratedInert(ph[2], timestamp);
    PlainInert([]);
    PlainInert("---");
    ScanSeven(ph, h0, h1, h2);
  }

  // ---------------------------------------------------------------------
  // The first lines of the body
  // ---------------------------------------------------------------------

  /** The first item of the list the issue type selects has a title on a
      single line (a line break in it could put a header line in the
      body). */
  predicate LeadTitleSingleLine(s: TicketStructure) {
    match s.issueType
    case TaskType => s.epics != [] ==> SingleLine(s.epics[0].title)
    case EpicOnlyType => s.epics != [] ==> SingleLine(s.epics[0].title)
    case BugType => s.bugs != [] ==> SingleLine(s.bugs[0].summary)
    case StoryType => s.stories != [] ==> SingleLine(s.stories[0].title)
  }

  /** Entries that open with a heading and then an entry that opens with
      `**` and a letter other than `I`: the first three physical lines
      are inert. */
  lemma LeadLines(ls: seq<string>, heading: string)
    requires |ls| >= 2 && ls[0] == heading + "\n"
    requires SingleLine(heading) && |heading| >= 2 && heading[0] == '#' && heading[1] == '#'
    requires var d := ls[1]; |d| >= 3 && d[0] == '*' && d[1] == '*' && d[2] != 'I' && d[2] != '\n'
    ensures var lb := Lines(ls);
      |lb| >= 3 && HeaderInert(lb[0]) && HeaderInert(lb[1]) && HeaderInert(lb[2])
  {
    var d := ls[1];
    var lb := Lines(ls);
    assert lb == Split(heading + "\n", '\n') + Lines(ls[1..]);
    assert Lines(ls[1..]) == Split(d, '\n') + Lines(ls[2..]) by {
      assert ls[1..][1..] == ls[2..];
    }
    HeadingSplit(heading);
    DocketOpening(d);
    HeadingInert(heading);
    PlainInert("");
    StarredInert(lb[2]);
  }

  /** A single-line heading and its line break. */
  lemma HeadingSplit(heading: string)
    requires SingleLine(heading)
    ensures Split(heading + "\n", '\n') == [heading, ""]
  {
    assert heading + "\n" == heading + ['\n'] + [];
    SplitAround(heading, [], '\n');
    SplitSingleLine(heading);
  }

  /** The first physical line of an entry keeps the entry's first three
      characters when none of them is a line break. */
  lemma DocketOpening(d: string)
    requires |d| >= 3 && d[0] != '\n' && d[1] != '\n' && d[2] != '\n'
    ensures var first := Split(d, '\n')[0];
      |first| >= 3 && first[0] == d[0] && first[1] == d[1] && first[2] == d[2]
  {
    assert d == [d[0]] + ([d[1]] + ([d[2]] + d[3..]));
    SplitOnCons(d[2], d[3..], "\n");
    SplitOnCons(d[1], [d[2]] + d[3..], "\n");
    SplitOnCons(d[0], [d[1]] + ([d[2]] + d[3..]), "\n");
  }

  /** A numbered heading, single-line when its title is. */
  lemma NumberedHeading(kind: string, i: nat, title: string)
    requires SingleLine(kind) && SingleLine(title) && |kind| >= 2 && kind[0] == '#' && kind[1] == '#'
    ensures var heading := kind + NatToString(i) + ": " + title;
      SingleLine(heading) && |heading| >= 2 && heading[0] == '#' && heading[1] == '#'
  {
    NumberSingleLine(i);
    LacksAppend(kind, NatToString(i), '\n');
    LacksAppend(kind + NatToString(i), ": ", '\n');
    LacksAppend(kind + NatToString(i) + ": ", title, '\n');
  }

  lemma EpicLead(e: Epic, rest: seq<Epic>)
    requires SingleLine(e.title)
    ensures var lb := Lines(Render.FormatEpics([e] + rest));
      |lb| >= 3 && HeaderInert(lb[0]) && HeaderInert(lb[1]) && HeaderInert(lb[2])
  {
    var heading := "## Epic " + NatToString(1) + ": " + e.title;
    var ls := Render.FormatEpics([e] + rest);
    EpicOpening(e, rest);
    NumberedHeading("## Epic ", 1, e.title);
    LeadLines(ls, heading);
  }

  /** The first two entries of the epics: the heading of the first epic
      and its description. */
  lemma EpicOpening(e: Epic, rest: seq<Epic>)
    ensures var ls := Render.FormatEpics([e] + rest);
      && |ls| >= 2
      && ls[0] == "## Epic " + NatToString(1) + ": " + e.title + "\n"
      && |ls[1]| >= 3 && ls[1][0] == '*' && ls[1][1] == '*' && ls[1][2] == 'D'
  {
    var all := [e] + rest;
    var first := Render.EpicLines(1, e);
    var ls := first + Render.EpicsFrom(2, all[1..]);
    EpicsCons(all);
    EpicSecondEntry(1, e);
    assert ls[0] == first[0] && ls[1] == first[1];
  }

  lemma EpicsCons(all: seq<Epic>)
    requires all != []
    ensures Render.FormatEpics(all) == Render.EpicLines(1, all[0]) + Render.EpicsFrom(2, all[1..])
  {
  }

  lemma EpicSecondEntry(i: nat, e: Epic)
    ensures var d := Render.EpicLines(i, e)[1];
      |d| >= 3 && d[0] == '*' && d[1] == '*' && d[2] == 'D'
  {
    var d := "**Description**: " + e.description + "\n";
    assert Render.EpicLines(i, e)[1] == d;
    assert d[2] == 'D';
  }

  lemma NumberSingleLine(n: nat)
    ensures Lacks(NatToString(n), '\n')
  {
    assert AllDigits(NatToString(n));
  }

  lemma BugLead(b: Bug, rest: seq<Bug>)
    requires SingleLine(b.summary)
    ensures var lb := Lines(Render.FormatBugs([b] + rest));
      |lb| >= 3 && HeaderInert(lb[0]) && HeaderInert(lb[1]) && HeaderInert(lb[2])
  {
    var heading := "## Bug " + NatToString(1) + ": " + b.summary;
    var ls := Render.FormatBugs([b] + rest);
    BugOpening(b, rest);
    NumberedHeading("## Bug ", 1, b.summary);
    LeadLines(ls, heading);
  }

  lemma BugOpening(b: Bug, rest: seq<Bug>)
    ensures var ls := Render.FormatBugs([b] + rest);
      && |ls| >= 2
      && ls[0] == "## Bug " + NatToString(1) + ": " + b.summary + "\n"
      && |ls[1]| >= 3 && ls[1][0] == '*' && ls[1][1] == '*' && ls[1][2] == 'D'
  {
    var all := [b] + rest;
    var first := Render.BugLines(1, b);
    var ls := first + Render.BugsFrom(2, all[1..]);
    BugsCons(all);
    BugSecondEntry(1, b);
    assert ls[0] == first[0] && ls[1] == first[1];
  }

  lemma BugsCons(all: seq<Bug>)
    requires all != []
    ensures Render.FormatBugs(all) == Render.BugLines(1, all[0]) + Render.BugsFrom(2, all[1..])
  {
  }

  lemma BugSecondEntry(i: nat, b: Bug)
    ensures var d := Render.BugLines(i, b)[1];
      |d| >= 3 && d[0] == '*' && d[1] == '*' && d[2] == 'D'
  {
    var d := "**Description**: " + b.description + "\n";
    assert Render.BugLines(i, b)[1] == d;
    assert d[2] == 'D';
  }

  lemma StoryLead(st: UserStory, rest: seq<UserStory>)
    requires SingleLine(st.title)
    ensures var lb := Lines(Render.FormatStories([st] + rest));
      |lb| >= 3 && HeaderInert(lb[0]) && HeaderInert(lb[1]) && HeaderInert(lb[2])
  {
    var heading := "## Story " + NatToString(1) + ": " + st.title;
    var ls := Render.FormatStories([st] + rest);
    StoryOpening(st, rest);
    NumberedHeading("## Story ", 1, st.title);
    LeadLines(ls, heading);
  }

  lemma StoryOpening(st: UserStory, rest: seq<UserStory>)
    ensures var ls := Render.FormatStories([st] + rest);
      && |ls| >= 2
      && ls[0] == "## Story " + NatToString(1) + ": " + st.title + "\n"
      && |ls[1]| >= 3 && ls[1][0] == '*' && ls[1][1] == '*' && ls[1][2] == 'U'
  {
    var all := [st] + rest;
    var first := Render.StoryLinesAsWritten(1, st);
    var ls := first + Render.StoriesFrom(2, all[1..]);
    StoriesCons(all);
    StorySecondEntry(1, st);
    assert ls[0] == first[0] && ls[1] == first[1];
  }

  lemma StorySecondEntry(i: nat, st: UserStory)
    ensures var d := Render.StoryLinesAsWritten(i, st)[1];
      |d| >= 3 && d[0] == '*' && d[1] == '*' && d[2] == 'U'
  {
    var ls := Render.StoryLinesAsWritten(i, st);
    assert ls[1..5][0] == ls[1];
    assert Render.StoryTriad(st)[0] == "**User Story**:";
  }

  lemma StoriesCons(all: seq<UserStory>)
    requires all != []
    ensures Render.FormatStories(all) == Render.StoryLinesAsWritten(1, all[0]) + Render.StoriesFrom(2, all[1..])
  {
  }

  /** The first three physical lines of the body, if there is a body, are
      inert to the header loop. */
  lemma BodyLead(s: TicketStructure)
    requires LeadTitleSingleLine(s)
    ensures var lb := Lines(Render.BodyLines(s));
      lb == [] || (|lb| >= 3 && HeaderInert(lb[0]) && HeaderInert(lb[1]) && HeaderInert(lb[2]))
  {
    match s.issueType
    case TaskType =>
      if s.epics != [] {
        assert s.epics == [s.epics[0]] + s.epics[1..];
        EpicLead(s.epics[0], s.epics[1..]);
      }
    case EpicOnlyType =>
      if s.epics != [] {
        assert s.epics == [s.epics[0]] + s.epics[1..];
        EpicLead(s.epics[0], s.epics[1..]);
      }
    case BugType =>
      if s.bugs != [] {
        assert s.bugs == [s.bugs[0]] + s.bugs[1..];
        BugLead(s.bugs[0], s.bugs[1..]);
      }
    case StoryType =>
      if s.stories != [] {
        assert s.stories == [s.stories[0]] + s.stories[1..];
        StoryLead(s.stories[0], s.stories[1..]);
      }
  }

  /** The first ten lines of the seven header lines and a body that is
      empty or opens with three inert lines. */
  lemma FirstTen(ph: seq<string>, lb: seq<string>) returns (more: seq<string>)
    requires |ph| == 7
    requires lb == [] || (|lb| >= 3 && HeaderInert(lb[0]) && HeaderInert(lb[1]) && HeaderInert(lb[2]))
    ensures Take(ph + lb, 10) == ph + more
    ensures forall i :: 0 <= i < |more| ==> HeaderInert(more[i])
  {
    if lb == [] {
      more := [];
      assert ph + lb == ph;
    } else {
      more := lb[..3];
      assert (ph + lb)[..10] == ph + more;
    }
  }

  // ---------------------------------------------------------------------
  // The header read back
  // ---------------------------------------------------------------------

  /** The header loop of the reader, run over a document the writer
      wrote, finds the project key and the name of the issue type the
      document was written for. */
  lemma HeaderReadBack(s: TicketStructure, timestamp: string)
    requires ValidProjectKey(s.projectKey) && SingleLine(timestamp) && LeadTitleSingleLine(s)
    ensures Parser.HeaderOf(Render.WriteMarkdown(s, timestamp)) ==
      Parser.Header(Some(s.projectKey), IssueTypeName(s.issueType))
  {
    var ph := HeaderPhysical(s, timestamp);
    var more := HeaderTen(s, timestamp);
    HeaderScan(s, timestamp, ph);
    InertAfter(ph, more, Parser.Header(None, "task"),
               Parser.Header(Some(s.projectKey), IssueTypeName(s.issueType)));
  }

  /** The physical lines of a document: the seven header lines, then the
      lines of the body. */
  lemma DocumentLines(s: TicketStructure, timestamp: string)
    requires ValidProjectKey(s.projectKey) && SingleLine(timestamp)
    ensures Split(Render.WriteMarkdown(s, timestamp), '\n') ==
            HeaderPhysical(s, timestamp) + Lines(Render.BodyLines(s))
  {
    var head := Render.HeaderLines(s, timestamp);
    var body := Render.BodyLines(s);
    SplitJoinLines(head + body);
    LinesAppend(head, body);
    HeaderEntryLines(s, timestamp);
  }

  /** The first ten lines of a document the writer wrote: the seven header
      lines, then up to three lines the header loop passes over. */
  lemma HeaderTen(s: TicketStructure, timestamp: string) returns (more: seq<string>)
    requires ValidProjectKey(s.projectKey) && SingleLine(timestamp) && LeadTitleSingleLine(s)
    ensures Take(Split(Render.WriteMarkdown(s, timestamp), '\n'), 10) == HeaderPhysical(s, timestamp) + more
    ensures forall i :: 0 <= i < |more| ==> HeaderInert(more[i])
  {
    DocumentLines(s, timestamp);
    BodyLead(s);
    more := FirstTen(HeaderPhysical(s, timestamp), Lines(Render.BodyLines(s)));
  }

  /** Lines the header loop passes over change nothing after the lines it
      has read. */
  lemma InertAfter(ph: seq<string>, more: seq<string>, h0: Parser.Header, h: Parser.Header)
    requires Parser.ScanHeader(ph, h0) == h
    requires forall i :: 0 <= i < |more| ==> HeaderInert(more[i])
    ensures Parser.ScanHeader(ph + more, h0) == h
  {
    ScanHeaderAppend(ph, more, h0);
    ScanHeaderInert(more, h);
  }

  /** Reading back a document the writer wrote never fails at the header:
      the key and the issue type come back as written, and the only error
      left is a section whose entity is invalid. */
  lemma HeaderRoundTrip(s: TicketStructure, timestamp: string)
    requires s.Valid() && SingleLine(timestamp) && LeadTitleSingleLine(s)
    ensures var r := Parser.ParseMarkdown(Render.WriteMarkdown(s, timestamp));
      && (r.Ok? ==> r.value.projectKey == s.projectKey && r.value.issueType == s.issueType)
      && (r.Err? ==> r.error in {ValidationError("Task"), ValidationError("Epic"),
                                 ValidationError("Bug"), ValidationError("UserStory")})
  {
    HeaderReadBack(s, timestamp);
    ParseAfterHeader(Render.WriteMarkdown(s, timestamp), s.projectKey, s.issueType);
  }

  /** Content whose header names a key and a supported issue type parses
      to that key and type, or fails only at an invalid entity. */
  lemma ParseAfterHeader(content: string, key: string, t: IssueType)
    requires ValidProjectKey(key)
    requires Parser.HeaderOf(content) == Parser.Header(Some(key), IssueTypeName(t))
    ensures var r := Parser.ParseMarkdown(content);
      && (r.Ok? ==> r.value.projectKey == key && r.value.issueType == t)
      && (r.Err? ==> r.error in {ValidationError("Task"), ValidationError("Epic"),
                                 ValidationError("Bug"), ValidationError("UserStory")})
  {
    var h := Parser.HeaderOf(content);
    assert Parser.HasKey(h);
    var r := Parser.ParseMarkdown(content);
    match t
    case TaskType =>
      assert r.Err? ==> Parser.ParseEpics(content).Err? && r.error == Parser.ParseEpics(content).error;
    case EpicOnlyType =>
      assert r.Err? ==> Parser.ParseEpics(content).Err? && r.error == Parser.ParseEpics(content).error;
    case BugType =>
      assert r.Err? ==> Parser.ParseBugs(content).Err? && r.error == Parser.ParseBugs(content).error;
    case StoryType =>
      assert r.Err? ==> Parser.ParseStories(content).Err? && r.error == Parser.ParseStories(content).error;
  }
}

=== FILE: document_trip.dfy ===
/** Whole documents through the writer and back through the reader, as
    both are written: `parse_markdown(write_markdown(s))`. The reader cuts
    the document at its numbered headings and reads every section; what
    comes back is the structure with every task and story effort dropped,
    and every epic with tasks carrying the description and priority of its
    last task in place of its own. */
module DocumentTrip {
  import opened Wrappers
  import opened Strings
  import opened Models
  import Render
  import Parser
  import RoundTrip
  import StoryRoundTrip
  import Numbering
  import Splitting
  import Document

  // ---------------------------------------------------------------------
  // What comes back
  // ---------------------------------------------------------------------

  /** The notes the reader finds: the writer leaves out empty ones. */
  function NotesField(notes: Option<string>): Option<string> {
    if Truthy(notes) then notes else None
  }

  /** A task as the reader gives it back: without its effort. */
  function TaskReadBack(t: Task): Task {
    t.(technicalNotes := NotesField(t.technicalNotes), estimatedEffort := None)
  }

  function TasksReadBack(tasks: seq<Task>): (r: seq<Task>)
    ensures |r| == |tasks|
    ensures forall k :: 0 <= k < |tasks| ==> r[k] == TaskReadBack(tasks[k])
    decreases |tasks|
  {
    if tasks == [] then [] else [TaskReadBack(tasks[0])] + TasksReadBack(tasks[1..])
  }

  // ---------------------------------------------------------------------
  // Lines and headings
  // ---------------------------------------------------------------------

  /** Every line is empty or opens with something other than `#`. */
  predicate Hashless(ls: seq<string>) {
    forall k :: 0 <= k < |ls| ==> Numbering.NoHash(ls[k])
  }

  lemma HashlessAppend(a: seq<string>, b: seq<string>)
    requires Hashless(a) && Hashless(b)
    ensures Hashless(a + b)
  {
    forall k | 0 <= k < |a + b| ensures Numbering.NoHash((a + b)[k]) {
      if k >= |a| {
        assert (a + b)[k] == b[k - |a|];
      }
    }
  }

  /** Lines that do not open with `#` do not open with a heading. */
  lemma HashlessAvoids(ls: seq<string>, w: string)
    requires Hashless(ls)
    requires w != [] && w[0] == '#'
    ensures Splitting.Avoids(ls, w)
  {
    forall k | 0 <= k < |ls| ensures !StartsWith(ls[k], w) {
      assert Numbering.NoHash(ls[k]);
      if ls[k] != [] {
        Numbering.DiffersAt(ls[k], w, 0);
      }
    }
  }

  lemma BlankHashless(ls: seq<string>)
    requires Splitting.Blank(ls)
    ensures Hashless(ls) && Splitting.Singles(ls)
  {
  }

  /** The criteria block, the notes and the separator of a task or a
      story. */
  lemma TailHashless(items: seq<string>, notes: Option<string>)
    ensures Hashless(Render.CriteriaBlock(Render.CriteriaLabel, items) + RoundTrip.NotesPhysical(notes) + ["---", ""])
  {
    var block := Render.CriteriaBlock(Render.CriteriaLabel, items);
    Numbering.CriteriaBlockNoHash(Render.CriteriaLabel, items);
    assert Hashless(block) by {
      forall k | 0 <= k < |block| ensures Numbering.NoHash(block[k]) {
        assert block[k] in block;
      }
    }
    HashlessAppend(block, RoundTrip.NotesPhysical(notes));
    HashlessAppend(block + RoundTrip.NotesPhysical(notes), ["---", ""]);
  }

  // ---------------------------------------------------------------------
  // Tasks
  // ---------------------------------------------------------------------

  /** The part of a task heading the dotted heading pattern consumes. */
  function TaskMark(i: nat, j: nat): string {
    Parser.TaskHeadingPrefix + NatToString(i) + "." + NatToString(j) + ":"
  }

  /** Task `j` of epic `i` as a block of the epic's section; `extra` holds
      the empty lines that end the epic after its last task. */
  function TaskBlock(i: nat, j: nat, t: Task, extra: seq<string>): Splitting.Block {
    Splitting.Block(TaskMark(i, j), " " + t.title, RoundTrip.TaskWrittenPhysical(i, j, t)[1..] + extra)
  }

  function TaskBlocks(i: nat, j: nat, tasks: seq<Task>, extra: seq<string>): (r: seq<Splitting.Block>)
    requires tasks != []
    ensures |r| == |tasks|
    decreases |tasks|
  {
    if |tasks| == 1 then [TaskBlock(i, j, tasks[0], extra)]
    else [TaskBlock(i, j, tasks[0], [])] + TaskBlocks(i, j + 1, tasks[1..], extra)
  }

  lemma TaskMarkHeading(i: nat, j: nat, title: string)
    ensures TaskMark(i, j) + (" " + title) == RoundTrip.TaskHeadingLine(i, j, title)
  {
  }

  /** The dotted heading pattern matches the whole mark. */
  lemma TaskMarkMatches(i: nat, j: nat)
    ensures Parser.MatchLength("\n" + TaskMark(i, j), Parser.TaskMarker, true) == |TaskMark(i, j)| + 1
  {
    var kw := Parser.TaskMarker;
    var n := NatToString(i);
    var m := NatToString(j);
    assert "\n" + TaskMark(i, j) == kw + n + ['.'] + m + [':'];
    Splitting.DottedMark(kw, n, m);
  }

  /** The opening lines of a written task after its heading. */
  lemma TaskOpeningHashless(i: nat, j: nat, t: Task)
    ensures t.estimatedEffort.Some? ==> Hashless(RoundTrip.TaskOpeningAsWritten(i, j, t)[1..])
    ensures Hashless(RoundTrip.TaskOpeningPhysical(i, j, t)[1..])
  {
    var pe := Render.PriorityEntry(t.priority, t.estimatedEffort);
    assert pe[0] == '*' by {
      assert pe[..|"**Priority**: " + LevelName(t.priority)|] == "**Priority**: " + LevelName(t.priority);
    }
  }

  /** The lines after the opening of a written task. */
  function TaskTail(t: Task): seq<string> {
    Render.CriteriaBlock(Render.CriteriaLabel, t.acceptanceCriteria)
    + RoundTrip.NotesPhysical(t.technicalNotes) + ["---", ""]
  }

  /** The opening lines of a written task. */
  function TaskWrittenOpening(i: nat, j: nat, t: Task): seq<string> {
    if t.estimatedEffort.Some? then RoundTrip.TaskOpeningAsWritten(i, j, t)
    else RoundTrip.TaskOpeningPhysical(i, j, t)
  }

  lemma TaskWrittenParts(i: nat, j: nat, t: Task)
    ensures RoundTrip.TaskWrittenPhysical(i, j, t) == TaskWrittenOpening(i, j, t) + TaskTail(t)
    ensures |TaskWrittenOpening(i, j, t)| >= 1
    ensures TaskWrittenOpening(i, j, t)[0] == RoundTrip.TaskHeadingLine(i, j, t.title)
  {
  }

  lemma TaskWrittenHashless(i: nat, j: nat, t: Task)
    ensures Hashless(RoundTrip.TaskWrittenPhysical(i, j, t)[1..])
  {
    var opening := TaskWrittenOpening(i, j, t);
    TaskWrittenParts(i, j, t);
    TaskOpeningHashless(i, j, t);
    TailHashless(t.acceptanceCriteria, t.technicalNotes);
    DropFirstOf(opening, TaskTail(t));
    HashlessAppend(opening[1..], TaskTail(t));
  }

  /** What a written task looks like: its heading, lines that are not
      headings, and a closing separator and empty line. */
  lemma TaskWrittenShape(i: nat, j: nat, t: Task)
    requires RoundTrip.PlainTask(t)
    ensures
      var w := RoundTrip.TaskWrittenPhysical(i, j, t);
      && |w| >= 3
      && w[0] == RoundTrip.TaskHeadingLine(i, j, t.title)
      && w[|w| - 2] == "---" && w[|w| - 1] == ""
      && Splitting.Singles(w)
      && Hashless(w[1..])
  {
    TaskWrittenParts(i, j, t);
    TaskWrittenHashless(i, j, t);
    RoundTrip.TaskWrittenLines(i, j, t);
    Splitting.LinesSingles(Render.TaskLinesAsWritten(i, j, t));
  }

  /** The task loop over the lines a task is written on, after its
      heading, gives the task's fields without its effort. */
  lemma TaskFieldsRead(i: nat, j: nat, t: Task)
    requires RoundTrip.PlainTask(t)
    ensures Parser.ScanTask(RoundTrip.TaskWrittenPhysical(i, j, t)[1..], Parser.TaskDefaults) ==
      RoundTrip.TaskFieldsOf(t).(effort := None)
  {
    RoundTrip.TaskWrittenLines(i, j, t);
    if t.estimatedEffort.Some? {
      RoundTrip.EffortLostInTask(i, j, t);
    } else {
      Render.TaskLinesWithoutEffort(i, j, t);
      RoundTrip.TaskRoundTrip(i, j, t);
    }
  }

  /** The section lines of a task block: its title and the lines of its
      body up to the separator. */
  lemma TaskPieceLines(i: nat, j: nat, t: Task, extra: seq<string>)
    requires RoundTrip.PlainTask(t) && IsStripped(t.title) && t.title != []
    requires Splitting.Blank(extra)
    ensures
      var w := RoundTrip.TaskWrittenPhysical(i, j, t);
      Parser.SectionLines(Splitting.Piece(TaskBlock(i, j, t, extra))) == [t.title] + w[1..|w| - 1]
  {
    TaskWrittenShape(i, j, t);
    SeparatedExtraLines(t.title, RoundTrip.TaskWrittenPhysical(i, j, t), extra);
  }

  /** The section lines of a titled block on lines that close with the
      separator and an empty line, then more empty lines. */
  lemma SeparatedExtraLines(title: string, w: seq<string>, extra: seq<string>)
    requires SingleLine(title) && IsStripped(title) && title != []
    requires |w| >= 3 && Splitting.Singles(w) && w[|w| - 2] == "---" && w[|w| - 1] == ""
    requires Splitting.Blank(extra)
    ensures Parser.SectionLines(Join([" " + title] + (w[1..] + extra), "\n")) == [title] + w[1..|w| - 1]
  {
    var body := w[1..] + extra;
    var n := 1 + |extra|;
    SinglesTail(w);
    assert Splitting.Singles(extra) by {
      forall k | 0 <= k < |extra| ensures SingleLine(extra[k]) {
        assert extra[k] == "";
      }
    }
    Splitting.SinglesAppend(w[1..], extra);
    assert body[|body| - n..] == [""] + extra;
    assert body[|body| - n - 1] == "---";
    assert body[..|body| - n] == w[1..|w| - 1];
    BlankClosedPieceLines(title, body, n);
  }


  /** A task, written in its epic and read back from its section, comes
      back without its effort. */
  lemma TaskPiece(i: nat, j: nat, t: Task, extra: seq<string>)
    requires t.Valid() && RoundTrip.PlainTask(t) && IsStripped(t.title) && t.description != []
    requires Splitting.Blank(extra)
    ensures Parser.ParseTaskSection(Splitting.Piece(TaskBlock(i, j, t, extra))) == Ok(Some(TaskReadBack(t)))
  {
    var w := RoundTrip.TaskWrittenPhysical(i, j, t);
    TaskWrittenShape(i, j, t);
    TaskPieceLines(i, j, t, extra);
    TaskFieldsRead(i, j, t);
    EmptyLast(w);
    Splitting.ScanTaskBlank(w[1..|w| - 1], Parser.TaskDefaults);
    TaskReadBackBuilt(t);
    TaskSectionRead(Splitting.Piece(TaskBlock(i, j, t, extra)), t.title, w[1..|w| - 1],
                    RoundTrip.TaskFieldsOf(t).(effort := None), TaskReadBack(t));
  }

  /** Lines that close with an empty line, after their first. */
  lemma EmptyLast(w: seq<string>)
    requires |w| >= 2 && w[|w| - 1] == ""
    ensures w[1..|w| - 1] + [""] == w[1..]
  {
  }

  /** A task section whose lines and fields are known. */
  lemma TaskSectionRead(section: string, title: string, core: seq<string>, f: Parser.TaskFields, t: Task)
    requires Parser.SectionLines(section) == [title] + core
    requires IsStripped(title) && title != []
    requires Parser.ScanTask(core, Parser.TaskDefaults) == f && f.description != []
    requires NewTask(title, f.description, f.criteria, f.notes, f.priority, f.effort) == Ok(t)
    ensures Parser.ParseTaskSection(section) == Ok(Some(t))
  {
    assert ([title] + core)[1..] == core;
  }

  /** The constructor accepts the fields a task is read back with. */
  lemma TaskReadBackBuilt(t: Task)
    requires t.Valid() && t.description != []
    ensures var f := RoundTrip.TaskFieldsOf(t).(effort := None);
      NewTask(t.title, f.description, f.criteria, f.notes, f.priority, f.effort) == Ok(TaskReadBack(t))
  {
    var r := NewTask(t.title, t.description, t.acceptanceCriteria, NotesField(t.technicalNotes),
                     LevelName(t.priority), None);
    assert ParseLevel(LevelName(t.priority)) == Some(t.priority);
    assert r.Ok?;
    assert ParseLevel(LevelName(r.value.priority)) == Some(r.value.priority);
    assert r.value == TaskReadBack(t);
  }


  /** A task the reader gives back whole. */
  predicate ReadableTask(t: Task) {
    t.Valid() && RoundTrip.PlainTask(t) && IsStripped(t.title) && t.description != []
  }

  predicate ReadableTasks(tasks: seq<Task>) {
    forall k :: 0 <= k < |tasks| ==> ReadableTask(tasks[k])
  }

  lemma ReadableTasksSplit(tasks: seq<Task>)
    requires tasks != [] && ReadableTasks(tasks)
    ensures ReadableTask(tasks[0]) && ReadableTasks(tasks[1..])
  {
    forall k | 0 <= k < |tasks| - 1 ensures ReadableTask(tasks[1..][k]) {
      assert tasks[1..][k] == tasks[k + 1];
    }
  }

  /** The empty lines that follow task `k` of `n`. */
  function ExtraAt(k: nat, n: nat, extra: seq<string>): seq<string> {
    if k == n - 1 then extra else []
  }

  /** The first block of a list of task blocks, and the others. */
  lemma TaskBlocksHead(i: nat, j: nat, tasks: seq<Task>, extra: seq<string>)
    requires tasks != []
    ensures TaskBlocks(i, j, tasks, extra)[0] == TaskBlock(i, j, tasks[0], ExtraAt(0, |tasks|, extra))
    ensures |tasks| == 1 ==> TaskBlocks(i, j, tasks, extra)[1..] == []
    ensures |tasks| > 1 ==> TaskBlocks(i, j, tasks, extra)[1..] == TaskBlocks(i, j + 1, tasks[1..], extra)
  {
  }

  /** A task block stands on the lines its task is written on. */
  lemma TaskBlockOwnLines(i: nat, j: nat, t: Task, x: seq<string>)
    ensures Splitting.BlockOwnLines(TaskBlock(i, j, t, x)) == RoundTrip.TaskWrittenPhysical(i, j, t) + x
  {
    var w := RoundTrip.TaskWrittenPhysical(i, j, t);
    TaskWrittenParts(i, j, t);
    TaskMarkHeading(i, j, t.title);
    assert [w[0]] + w[1..] == w;
  }

  /** The blocks of the tasks stand on the lines the tasks are written on,
      then the extra empty lines. */
  lemma {:induction false} TaskBlocksLines(i: nat, j: nat, tasks: seq<Task>, extra: seq<string>)
    requires tasks != []
    ensures Splitting.BlockLines(TaskBlocks(i, j, tasks, extra)) == RoundTrip.TasksPhysical(i, j, tasks) + extra
    decreases |tasks|
  {
    var bs := TaskBlocks(i, j, tasks, extra);
    var w := RoundTrip.TaskWrittenPhysical(i, j, tasks[0]);
    TaskBlocksHead(i, j, tasks, extra);
    TaskBlockOwnLines(i, j, tasks[0], ExtraAt(0, |tasks|, extra));
    TasksPhysicalCons(i, j, tasks);
    if |tasks| > 1 {
      TaskBlocksLines(i, j + 1, tasks[1..], extra);
    }
    BlocksJoin(bs, w, extra, RoundTrip.TasksPhysical(i, j + 1, tasks[1..]), RoundTrip.TasksPhysical(i, j, tasks), |tasks| == 1);
  }

  /** The lines of blocks are the first block's lines, then the rest's:
      the extra lines close the last block. */
  lemma BlocksJoin(bs: seq<Splitting.Block>, w: seq<string>, extra: seq<string>, tail: seq<string>, phys: seq<string>, single: bool)
    requires bs != [] && Splitting.BlockOwnLines(bs[0]) == w + (if single then extra else [])
    requires single ==> bs[1..] == [] && phys == w + []
    requires !single ==> Splitting.BlockLines(bs[1..]) == tail + extra && phys == w + tail
    ensures Splitting.BlockLines(bs) == phys + extra
  {
    assert Splitting.BlockLines(bs) == Splitting.BlockOwnLines(bs[0]) + Splitting.BlockLines(bs[1..]);
    if single {
      assert Splitting.BlockLines(bs[1..]) == [];
      assert (w + extra) + [] == (w + []) + extra;
    } else {
      assert (w + []) + (tail + extra) == (w + tail) + extra;
    }
  }

  lemma TasksPhysicalCons(i: nat, j: nat, tasks: seq<Task>)
    requires tasks != []
    ensures RoundTrip.TasksPhysical(i, j, tasks)
      == RoundTrip.TaskWrittenPhysical(i, j, tasks[0]) + RoundTrip.TasksPhysical(i, j + 1, tasks[1..])
    ensures |tasks| == 1 ==> RoundTrip.TasksPhysical(i, j + 1, tasks[1..]) == []
  {
  }

  lemma SinglesTail(w: seq<string>)
    requires w != [] && Splitting.Singles(w)
    ensures Splitting.Singles(w[1..])
  {
    forall k | 0 <= k < |w| - 1 ensures SingleLine(w[1..][k]) {
      assert w[1..][k] == w[k + 1];
    }
  }

  lemma TaskBlockMarked(i: nat, j: nat, t: Task, x: seq<string>)
    requires RoundTrip.PlainTask(t) && Splitting.Blank(x)
    ensures Splitting.WellMarked(TaskBlock(i, j, t, x), Parser.TaskHeadingPrefix, true)
  {
    var w := RoundTrip.TaskWrittenPhysical(i, j, t);
    TaskWrittenShape(i, j, t);
    TaskMarkMatches(i, j);
    MarkerPrefixes();
    BlankHashless(x);
    HashlessAppend(w[1..], x);
    HashlessAvoids(w[1..] + x, Parser.TaskHeadingPrefix);
    SinglesTail(w);
    Splitting.SinglesAppend(w[1..], x);
    LacksAppend(" ", t.title, '\n');
    MarkedBlock(TaskBlock(i, j, t, x), Parser.TaskHeadingPrefix, true);
  }

  lemma {:induction false} TaskBlocksMarked(i: nat, j: nat, tasks: seq<Task>, extra: seq<string>)
    requires tasks != [] && RoundTrip.PlainTasks(tasks)
    requires Splitting.Blank(extra)
    ensures Splitting.AllWellMarked(TaskBlocks(i, j, tasks, extra), Parser.TaskHeadingPrefix, true)
    decreases |tasks|
  {
    var bs := TaskBlocks(i, j, tasks, extra);
    var x := ExtraAt(0, |tasks|, extra);
    RoundTrip.PlainTasksSplit(tasks);
    TaskBlocksHead(i, j, tasks, extra);
    assert Splitting.Blank(x) by {
      if |tasks| > 1 {
        assert x == [];
      }
    }
    TaskBlockMarked(i, j, tasks[0], x);
    if |tasks| > 1 {
      TaskBlocksMarked(i, j + 1, tasks[1..], extra);
    }
    MarkedCons(bs, Parser.TaskHeadingPrefix, true);
  }

  /** The task sections of an epic read back as the tasks without their
      efforts. */
  lemma {:induction false} TaskPieces(i: nat, j: nat, tasks: seq<Task>, extra: seq<string>)
    requires tasks != [] && ReadableTasks(tasks)
    requires Splitting.Blank(extra)
    ensures Parser.ParseTasks(Splitting.Pieces(TaskBlocks(i, j, tasks, extra))) == Ok(TasksReadBack(tasks))
    decreases |tasks|
  {
    var bs := TaskBlocks(i, j, tasks, extra);
    var ps := Splitting.Pieces(bs);
    ReadableTasksSplit(tasks);
    TaskBlocksHead(i, j, tasks, extra);
    TaskPiece(i, j, tasks[0], ExtraAt(0, |tasks|, extra));
    assert ps[0] == Splitting.Piece(bs[0]);
    assert ps[1..] == Splitting.Pieces(bs[1..]);
    if |tasks| > 1 {
      TaskPieces(i, j + 1, tasks[1..], extra);
    }
  }

  // ---------------------------------------------------------------------
  // Lines below the level of a section heading
  // ---------------------------------------------------------------------

  /** Every line is empty, opens with something other than `#`, or is a
      heading of a level deeper than two. */
  predicate Subordinate(ls: seq<string>) {
    forall k :: 0 <= k < |ls| ==> Numbering.NoHash(ls[k]) || (|ls[k]| > 2 && ls[k][2] == '#')
  }

  lemma SubordinateAppend(a: seq<string>, b: seq<string>)
    requires Subordinate(a) && Subordinate(b)
    ensures Subordinate(a + b)
  {
    forall k | 0 <= k < |a + b|
      ensures Numbering.NoHash((a + b)[k]) || (|(a + b)[k]| > 2 && (a + b)[k][2] == '#')
    {
      if k >= |a| {
        assert (a + b)[k] == b[k - |a|];
      }
    }
  }

  /** No such line opens with a heading of level two. */
  lemma SubordinateAvoids(ls: seq<string>, w: string)
    requires Subordinate(ls)
    requires |w| > 2 && w[0] == '#' && w[2] != '#'
    ensures Splitting.Avoids(ls, w)
  {
    forall k | 0 <= k < |ls| ensures !StartsWith(ls[k], w) {
      if ls[k] != [] {
        if ls[k][0] != '#' {
          Numbering.DiffersAt(ls[k], w, 0);
        } else {
          Numbering.DiffersAt(ls[k], w, 2);
        }
      }
    }
  }

  /** The lines a task is written on. */
  lemma TaskSubordinate(i: nat, j: nat, t: Task)
    ensures Subordinate(RoundTrip.TaskWrittenPhysical(i, j, t))
  {
    var w := RoundTrip.TaskWrittenPhysical(i, j, t);
    TaskWrittenParts(i, j, t);
    TaskWrittenHashless(i, j, t);
    assert w[0][2] == '#';
    forall k | 0 <= k < |w| ensures Numbering.NoHash(w[k]) || (|w[k]| > 2 && w[k][2] == '#') {
      if k > 0 {
        assert w[k] == w[1..][k - 1];
      }
    }
  }

  lemma {:induction false} TasksSubordinate(i: nat, j: nat, tasks: seq<Task>)
    ensures Subordinate(RoundTrip.TasksPhysical(i, j, tasks))
    decreases |tasks|
  {
    if tasks != [] {
      TaskSubordinate(i, j, tasks[0]);
      TasksSubordinate(i, j + 1, tasks[1..]);
      SubordinateAppend(RoundTrip.TaskWrittenPhysical(i, j, tasks[0]), RoundTrip.TasksPhysical(i, j + 1, tasks[1..]));
    }
  }

  /** The lines of a list of tasks end with a separator and an empty
      line. */
  lemma {:induction false} TasksPhysicalEnd(i: nat, j: nat, tasks: seq<Task>)
    requires tasks != []
    ensures var tp := RoundTrip.TasksPhysical(i, j, tasks);
      |tp| >= 2 && tp[|tp| - 2] == "---" && tp[|tp| - 1] == ""
    decreases |tasks|
  {
    var w := RoundTrip.TaskWrittenPhysical(i, j, tasks[0]);
    var rest := RoundTrip.TasksPhysical(i, j + 1, tasks[1..]);
    TaskWrittenParts(i, j, tasks[0]);
    assert RoundTrip.TasksPhysical(i, j, tasks) == w + rest;
    if |tasks| == 1 {
      assert rest == [];
    } else {
      TasksPhysicalEnd(i, j + 1, tasks[1..]);
    }
  }

  // ---------------------------------------------------------------------
  // Epics
  // ---------------------------------------------------------------------

  /** An epic as the reader gives it back: the business value as written,
      its tasks without their efforts, and, when it has tasks, the
      description and priority of the last task in place of its own. */
  function EpicReadBack(e: Epic): (r: Epic)
    ensures r.title == e.title && |r.tasks| == |e.tasks|
  {
    var bv := RoundTrip.BusinessValueField(e.businessValue);
    if e.tasks == [] then e.(businessValue := bv)
    else
      var last := e.tasks[|e.tasks| - 1];
      e.(description := last.description, businessValue := bv, priority := last.priority,
         tasks := TasksReadBack(e.tasks))
  }

  function EpicsReadBack(epics: seq<Epic>): (r: seq<Epic>)
    ensures |r| == |epics|
    ensures forall k :: 0 <= k < |epics| ==> r[k] == EpicReadBack(epics[k])
    decreases |epics|
  {
    if epics == [] then [] else [EpicReadBack(epics[0])] + EpicsReadBack(epics[1..])
  }

  /** An epic the reader gives back, its tasks included. */
  predicate ReadableEpic(e: Epic) {
    e.Valid() && RoundTrip.PlainEpic(e) && IsStripped(e.title) && e.description != [] && ReadableTasks(e.tasks)
  }

  predicate ReadableEpics(epics: seq<Epic>) {
    forall k :: 0 <= k < |epics| ==> ReadableEpic(epics[k])
  }

  lemma ReadableEpicsSplit(epics: seq<Epic>)
    requires epics != [] && ReadableEpics(epics)
    ensures ReadableEpic(epics[0]) && ReadableEpics(epics[1..])
  {
    forall k | 0 <= k < |epics| - 1 ensures ReadableEpic(epics[1..][k]) {
      assert epics[1..][k] == epics[k + 1];
    }
  }

  /** The part of an epic heading the numbered heading pattern consumes. */
  function EpicMark(i: nat): string {
    "## Epic " + NatToString(i) + ":"
  }

  /** Epic `i` as a block of the document. */
  function EpicBlock(i: nat, e: Epic): Splitting.Block {
    Splitting.Block(EpicMark(i), " " + e.title, RoundTrip.EpicPhysical(i, e)[1..])
  }

  function EpicBlocks(i: nat, epics: seq<Epic>): (r: seq<Splitting.Block>)
    ensures |r| == |epics|
    decreases |epics|
  {
    if epics == [] then [] else [EpicBlock(i, epics[0])] + EpicBlocks(i + 1, epics[1..])
  }

  lemma EpicMarkMatches(i: nat)
    ensures Parser.MatchLength("\n" + EpicMark(i), Parser.EpicMarker, false) == |EpicMark(i)| + 1
  {
    var kw := Parser.EpicMarker;
    var n := NatToString(i);
    assert "\n" + EpicMark(i) == kw + n + [':'];
    Splitting.NumberedMark(kw, n);
  }

  lemma EpicMarkHeading(i: nat, title: string)
    ensures EpicMark(i) + (" " + title) == RoundTrip.EpicHeadingLine(i, title)
  {
  }

  lemma EpicPhysicalHead(i: nat, e: Epic)
    ensures RoundTrip.EpicPhysical(i, e) != []
    ensures RoundTrip.EpicPhysical(i, e)[0] == RoundTrip.EpicHeadingLine(i, e.title)
  {
    var hp := RoundTrip.EpicHeadPhysical(i, e);
    assert hp[0] == RoundTrip.EpicHeadingLine(i, e.title);
    assert RoundTrip.EpicPhysical(i, e) == hp + (RoundTrip.EpicTasksPhysical(i, e) + ["", ""]);
  }

  /** A sequence is its first element and the rest. */
  lemma HeadAndRest<T>(s: seq<T>, h: T)
    requires s != [] && s[0] == h
    ensures [h] + s[1..] == s
  {
  }

  lemma EpicBlockOwnLines(i: nat, e: Epic)
    ensures Splitting.BlockOwnLines(EpicBlock(i, e)) == RoundTrip.EpicPhysical(i, e)
  {
    EpicMarkHeading(i, e.title);
    EpicPhysicalHead(i, e);
    HeadAndRest(RoundTrip.EpicPhysical(i, e), RoundTrip.EpicHeadingLine(i, e.title));
  }

  /** The blocks of the epics stand on the lines the epics are written
      on. */
  lemma {:induction false} EpicBlocksLines(i: nat, epics: seq<Epic>)
    requires ReadableEpics(epics)
    ensures Splitting.BlockLines(EpicBlocks(i, epics)) == Lines(Render.EpicsFrom(i, epics))
    decreases |epics|
  {
    if epics != [] {
      var bs := EpicBlocks(i, epics);
      ReadableEpicsSplit(epics);
      EpicBlockOwnLines(i, epics[0]);
      RoundTrip.EpicLinesPhysical(i, epics[0]);
      LinesAppend(Render.EpicLines(i, epics[0]), Render.EpicsFrom(i + 1, epics[1..]));
      assert bs[1..] == EpicBlocks(i + 1, epics[1..]);
      EpicBlocksLines(i + 1, epics[1..]);
    }
  }

  /** The epic's own lines after its heading: empty, or opening with
      `**`. */
  lemma EpicHeadHashless(i: nat, e: Epic)
    ensures Hashless(RoundTrip.EpicHeadPhysical(i, e)[1..])
  {
    var d := "**Description**: " + e.description;
    var bvp := RoundTrip.BusinessValuePhysical(e.businessValue);
    var pl := "**Priority**: " + LevelName(e.priority);
    assert RoundTrip.EpicHeadPhysical(i, e)[1..] == ["", d, ""] + bvp + [pl, ""];
    assert Hashless(["", d, ""]);
    assert Hashless(bvp);
    assert Hashless([pl, ""]);
    HashlessAppend(["", d, ""], bvp);
    HashlessAppend(["", d, ""] + bvp, [pl, ""]);
  }

  /** The task list of an epic holds no heading of level two. */
  lemma EpicTasksSubordinate(i: nat, e: Epic)
    ensures Subordinate(RoundTrip.EpicTasksPhysical(i, e))
  {
    if e.tasks != [] {
      var th := ["", RoundTrip.TasksHeadingLine(|e.tasks|), ""];
      assert th[1][2] == '#';
      assert Subordinate(th);
      TasksSubordinate(i, 1, e.tasks);
      SubordinateAppend(th, RoundTrip.TasksPhysical(i, 1, e.tasks));
    }
  }

  /** The lines of an epic after its heading: its own lines, its task list
      and two empty lines. */
  lemma EpicBodyParts(i: nat, e: Epic)
    ensures RoundTrip.EpicPhysical(i, e)[1..] ==
      RoundTrip.EpicHeadPhysical(i, e)[1..] + RoundTrip.EpicTasksPhysical(i, e) + ["", ""]
  {
    var hp := RoundTrip.EpicHeadPhysical(i, e);
    DropFirstOf(hp, RoundTrip.EpicTasksPhysical(i, e) + ["", ""]);
  }

  lemma DropFirstOf(a: seq<string>, b: seq<string>)
    requires a != []
    ensures (a + b)[1..] == a[1..] + b
  {
  }

  lemma SubordinateThree(a: seq<string>, b: seq<string>, c: seq<string>)
    requires Subordinate(a) && Subordinate(b) && Subordinate(c)
    ensures Subordinate(a + b + c)
  {
    SubordinateAppend(a, b);
    SubordinateAppend(a + b, c);
  }

  /** The lines of an epic after its heading hold no heading of level
      two. */
  lemma EpicBodySubordinate(i: nat, e: Epic)
    ensures Subordinate(RoundTrip.EpicPhysical(i, e)[1..])
  {
    EpicHeadHashless(i, e);
    EpicTasksSubordinate(i, e);
    EpicBodyParts(i, e);
    SubordinateThree(RoundTrip.EpicHeadPhysical(i, e)[1..], RoundTrip.EpicTasksPhysical(i, e), ["", ""]);
  }

  /** The lines of an epic are single lines. */
  lemma EpicSingles(i: nat, e: Epic)
    requires RoundTrip.PlainEpic(e)
    ensures Splitting.Singles(RoundTrip.EpicPhysical(i, e))
  {
    RoundTrip.EpicLinesPhysical(i, e);
    Splitting.LinesSingles(Render.EpicLines(i, e));
  }

  lemma SinglesDrop(ls: seq<string>, n: nat)
    requires n <= |ls| && Splitting.Singles(ls)
    ensures Splitting.Singles(ls[n..])
  {
    forall k | 0 <= k < |ls| - n ensures SingleLine(ls[n..][k]) {
      assert ls[n..][k] == ls[k + n];
    }
  }

  lemma SinglesTake(ls: seq<string>, n: nat)
    requires n <= |ls| && Splitting.Singles(ls)
    ensures Splitting.Singles(ls[..n])
  {
    forall k | 0 <= k < n ensures SingleLine(ls[..n][k]) {
      assert ls[..n][k] == ls[k];
    }
  }

  /** A block whose four parts are each well-formed is well-marked. */
  lemma MarkedBlock(b: Splitting.Block, w: string, dotted: bool)
    requires Parser.MatchLength("\n" + b.mark, "\n" + w, dotted) == |b.mark| + 1
    requires SingleLine(b.rest) && Splitting.Singles(b.body) && Splitting.Avoids(b.body, w)
    ensures Splitting.WellMarked(b, w, dotted)
  {
  }

  /** A well-marked block in front of well-marked blocks. */
  lemma MarkedCons(bs: seq<Splitting.Block>, w: string, dotted: bool)
    requires bs != [] && Splitting.WellMarked(bs[0], w, dotted)
    requires Splitting.AllWellMarked(bs[1..], w, dotted)
    ensures Splitting.AllWellMarked(bs, w, dotted)
  {
  }

  /** A heading with a plain title over subordinate single lines makes a
      well-marked block. */
  lemma SubordinateBlockMarked(mark: string, title: string, ls: seq<string>, w: string)
    requires Parser.MatchLength("\n" + mark, "\n" + w, false) == |mark| + 1
    requires SingleLine(title) && ls != [] && Splitting.Singles(ls) && Subordinate(ls[1..])
    requires |w| > 2 && w[0] == '#' && w[2] != '#'
    ensures Splitting.WellMarked(Splitting.Block(mark, " " + title, ls[1..]), w, false)
  {
    SinglesTail(ls);
    SubordinateAvoids(ls[1..], w);
    LacksAppend(" ", title, '\n');
    MarkedBlock(Splitting.Block(mark, " " + title, ls[1..]), w, false);
  }

  lemma EpicBlockMarked(i: nat, e: Epic)
    requires RoundTrip.PlainEpic(e)
    ensures Splitting.WellMarked(EpicBlock(i, e), "## Epic ", false)
  {
    EpicLinesFit(i, e);
    EpicLinesMarked(i, e.title, RoundTrip.EpicPhysical(i, e));
  }

  lemma EpicLinesMarked(i: nat, title: string, ep: seq<string>)
    requires SingleLine(title)
    requires ep != [] && Splitting.Singles(ep) && Subordinate(ep[1..])
    ensures Splitting.WellMarked(Splitting.Block(EpicMark(i), " " + title, ep[1..]), "## Epic ", false)
  {
    EpicHeadingMatches(i);
    SubordinateBlockMarked(EpicMark(i), title, ep, "## Epic ");
  }

  lemma EpicHeadingMatches(i: nat)
    ensures Parser.MatchLength("\n" + EpicMark(i), "\n" + "## Epic ", false) == |EpicMark(i)| + 1
  {
    EpicMarkMatches(i);
    MarkerPrefixes();
  }

  /** An epic stands on single lines, and after its heading none is a
      heading of level two. */
  lemma EpicLinesFit(i: nat, e: Epic)
    requires RoundTrip.PlainEpic(e)
    ensures var ep := RoundTrip.EpicPhysical(i, e);
      ep != [] && Splitting.Singles(ep) && Subordinate(ep[1..])
  {
    EpicSingles(i, e);
    EpicBodySubordinate(i, e);
  }

  lemma EpicBlocksCons(i: nat, epics: seq<Epic>)
    requires epics != []
    ensures EpicBlocks(i, epics)[0] == EpicBlock(i, epics[0])
    ensures EpicBlocks(i, epics)[1..] == EpicBlocks(i + 1, epics[1..])
  {
  }

  lemma {:induction false} EpicBlocksMarked(i: nat, epics: seq<Epic>)
    requires ReadableEpics(epics)
    ensures Splitting.AllWellMarked(EpicBlocks(i, epics), "## Epic ", false)
    decreases |epics|
  {
    if epics != [] {
      ReadableEpicsSplit(epics);
      EpicBlockMarked(i, epics[0]);
      EpicBlocksCons(i, epics);
      EpicBlocksMarked(i + 1, epics[1..]);
      MarkedCons(EpicBlocks(i, epics), "## Epic ", false);
    }
  }

  /** An epic ends with three empty lines after a line that opens and
      closes with something other than whitespace: the separator of its
      last task, or its priority. */
  lemma EpicPhysicalEnd(i: nat, e: Epic)
    ensures var ep := RoundTrip.EpicPhysical(i, e);
      && |ep| >= 8
      && ep[|ep| - 3] == "" && ep[|ep| - 2] == "" && ep[|ep| - 1] == ""
      && ep[|ep| - 4] != [] && !IsSpace(ep[|ep| - 4][0]) && !IsSpace(ep[|ep| - 4][|ep[|ep| - 4]| - 1])
  {
    var a := RoundTrip.EpicHeadPhysical(i, e) + RoundTrip.EpicTasksPhysical(i, e);
    var l := EpicPenultimate(i, e);
    EpicLinesBeforeBlanks(i, e);
    TwoBlanksEnd(a, l);
  }

  /** The line before the closing empty line of an epic's own lines and
      task list: the separator of its last task, or its priority. */
  function EpicPenultimate(i: nat, e: Epic): (l: string)
    ensures l != [] && !IsSpace(l[0]) && !IsSpace(l[|l| - 1])
  {
    if e.tasks == [] then PriorityLine(e.priority) else "---"
  }

  function PriorityLine(p: Priority): (l: string)
    ensures l == "**Priority**: " + LevelName(p)
    ensures !IsSpace(l[|l| - 1])
  {
    match p
    case Critical => "**Priority**: " + LevelName(Level.Critical)
    case High => "**Priority**: " + LevelName(Level.High)
    case Medium => "**Priority**: " + LevelName(Level.Medium)
    case Low => "**Priority**: " + LevelName(Level.Low)
  }

  lemma EpicLinesBeforeBlanks(i: nat, e: Epic)
    ensures var a := RoundTrip.EpicHeadPhysical(i, e) + RoundTrip.EpicTasksPhysical(i, e);
      |a| >= 6 && a[|a| - 2] == EpicPenultimate(i, e) && a[|a| - 1] == ""
  {
    var hp := RoundTrip.EpicHeadPhysical(i, e);
    if e.tasks == [] {
      assert RoundTrip.EpicTasksPhysical(i, e) == [];
      assert hp[|hp| - 2] == PriorityLine(e.priority);
      LastTwoOf([], hp);
    } else {
      var tasks := RoundTrip.TasksPhysical(i, 1, e.tasks);
      TasksPhysicalEnd(i, 1, e.tasks);
      LastTwoOf(["", RoundTrip.TasksHeadingLine(|e.tasks|), ""], tasks);
      LastTwoOf(hp, RoundTrip.EpicTasksPhysical(i, e));
    }
  }

  lemma LastTwoOf(a: seq<string>, b: seq<string>)
    requires |b| >= 2
    ensures |a + b| >= 2 && (a + b)[|a + b| - 2] == b[|b| - 2] && (a + b)[|a + b| - 1] == b[|b| - 1]
  {
  }

  lemma TwoBlanksEnd(a: seq<string>, l: string)
    requires |a| >= 6 && a[|a| - 2] == l && a[|a| - 1] == ""
    ensures var c := a + ["", ""];
      |c| >= 8 && c[|c| - 4] == l && c[|c| - 3] == "" && c[|c| - 2] == "" && c[|c| - 1] == ""
  {
  }

  /** The lines of an epic between its heading and its closing empty
      lines. */
  function EpicCore(i: nat, e: Epic): seq<string> {
    var ep := RoundTrip.EpicPhysical(i, e);
    ep[1..|ep| - 3]
  }

  lemma EpicCoreBlanks(i: nat, e: Epic)
    ensures RoundTrip.EpicPhysical(i, e)[1..] == EpicCore(i, e) + ["", "", ""]
    ensures EpicCore(i, e) != []
  {
    EpicPhysicalEnd(i, e);
    ThreeBlanksAfter(RoundTrip.EpicPhysical(i, e));
  }

  lemma ThreeBlanksAfter(ep: seq<string>)
    requires |ep| >= 8 && ep[|ep| - 3] == "" && ep[|ep| - 2] == "" && ep[|ep| - 1] == ""
    ensures ep[1..] == ep[1..|ep| - 3] + ["", "", ""] && ep[1..|ep| - 3] != []
  {
    assert ep[|ep| - 3..] == ["", "", ""];
    assert ep[1..] == ep[1..|ep| - 3] + ep[|ep| - 3..];
  }


  /** The section lines of a titled block whose body closes with `n`
      empty lines after a solid line. */
  lemma {:induction false} BlankClosedPieceLines(title: string, body: seq<string>, n: nat)
    requires SingleLine(title) && IsStripped(title) && title != []
    requires 0 < n < |body| && Splitting.Singles(body) && Splitting.Blank(body[|body| - n..])
    requires var l := body[|body| - n - 1]; l != [] && !IsSpace(l[0]) && !IsSpace(l[|l| - 1])
    ensures Parser.SectionLines(Join([" " + title] + body, "\n")) == [title] + body[..|body| - n]
  {
    var core := body[..|body| - n];
    var blanks := body[|body| - n..];
    SinglesTake(body, |body| - n);
    CutAt(body, |body| - n);
    ConsAppend(" " + title, core, blanks);
    SolidTitled(title, core);
    Splitting.PieceLines(title, core, blanks);
  }

  lemma CutAt(s: seq<string>, k: nat)
    requires k <= |s|
    ensures s == s[..k] + s[k..]
  {
  }

  lemma ConsAppend(x: string, a: seq<string>, b: seq<string>)
    ensures [x] + (a + b) == [x] + a + b
  {
  }

  lemma SolidTitled(title: string, core: seq<string>)
    requires IsStripped(title) && title != [] && core != []
    requires var l := core[|core| - 1]; l != [] && !IsSpace(l[0]) && !IsSpace(l[|l| - 1])
    ensures Splitting.Solid([title] + core)
  {
    assert ([title] + core)[|core|] == core[|core| - 1];
  }

  /** The section lines of a titled block whose body closes with three
      empty lines after a solid line. */
  lemma ClosedPieceLines(title: string, ep: seq<string>)
    requires SingleLine(title) && IsStripped(title) && title != []
    requires |ep| >= 8 && Splitting.Singles(ep)
    requires ep[|ep| - 3] == "" && ep[|ep| - 2] == "" && ep[|ep| - 1] == ""
    requires var l := ep[|ep| - 4]; l != [] && !IsSpace(l[0]) && !IsSpace(l[|l| - 1])
    ensures Parser.SectionLines(Join([" " + title] + ep[1..], "\n")) == [title] + ep[1..|ep| - 3]
  {
    var body := ep[1..];
    SinglesTail(ep);
    assert body[|body| - 4] == ep[|ep| - 4];
    assert body[|body| - 3..] == ["", "", ""];
    assert body[..|body| - 3] == ep[1..|ep| - 3];
    BlankClosedPieceLines(title, body, 3);
  }

  /** The section lines of an epic block: its title and its lines up to
      the closing empty lines. */
  lemma EpicPieceLines(i: nat, e: Epic)
    requires RoundTrip.PlainEpic(e) && IsStripped(e.title) && e.title != []
    ensures Parser.SectionLines(Splitting.Piece(EpicBlock(i, e))) == [e.title] + EpicCore(i, e)
  {
    EpicPhysicalEnd(i, e);
    EpicSingles(i, e);
    ClosedPieceLines(e.title, RoundTrip.EpicPhysical(i, e));
  }

  /** The fields the epic loop collects over an epic as written. */
  function EpicFieldsWritten(e: Epic): Parser.EpicFields {
    if e.tasks == [] then RoundTrip.EpicOwnFields(e)
    else
      var last := e.tasks[|e.tasks| - 1];
      Parser.EpicFields(last.description, RoundTrip.BusinessValueField(e.businessValue), LevelName(last.priority))
  }

  lemma EpicOwnScan(i: nat, e: Epic)
    requires RoundTrip.PlainEpic(e) && e.tasks == []
    ensures Parser.ScanEpic(RoundTrip.EpicPhysical(i, e)[1..], Parser.EpicDefaults) == RoundTrip.EpicOwnFields(e)
  {
    var head := RoundTrip.EpicHeadPhysical(i, e)[1..];
    RoundTrip.EpicPhysicalWithoutTasks(i, e);
    RoundTrip.ScanEpicAppend(head, ["", ""], Parser.EpicDefaults);
    RoundTrip.EpicHeadScan(i, e, Parser.EpicDefaults);
    RoundTrip.StarFreeInert("");
    RoundTrip.ScanEpicInert(["", ""], RoundTrip.EpicOwnFields(e));
  }

  /** The epic loop over the lines of the epic's section. */
  lemma EpicCoreScan(i: nat, e: Epic)
    requires RoundTrip.PlainEpic(e)
    ensures Parser.ScanEpic(EpicCore(i, e), Parser.EpicDefaults) == EpicFieldsWritten(e)
  {
    var core := EpicCore(i, e);
    EpicCoreBlanks(i, e);
    RoundTrip.ScanEpicAppend(core, ["", "", ""], Parser.EpicDefaults);
    RoundTrip.StarFreeInert("");
    RoundTrip.ScanEpicInert(["", "", ""], Parser.ScanEpic(core, Parser.EpicDefaults));
    if e.tasks == [] {
      EpicOwnScan(i, e);
    } else {
      RoundTrip.EpicOverwrittenPhysical(i, e);
    }
  }

  lemma AvoidsOfAll(ls: seq<string>, w: string)
    requires forall l <- ls :: !StartsWith(l, w)
    ensures Splitting.Avoids(ls, w)
  {
    forall k | 0 <= k < |ls| ensures !StartsWith(ls[k], w) {
      assert ls[k] in ls;
    }
  }

  /** The markers the reader splits at are the heading prefixes after a
      line break. */
  lemma MarkerPrefixes()
    ensures Parser.TaskMarker == "\n" + Parser.TaskHeadingPrefix
    ensures Parser.EpicMarker == "\n" + "## Epic "
    ensures Parser.StoryMarker == "\n" + "## Story "
    ensures SingleLine(Parser.TaskHeadingPrefix) && SingleLine("## Epic ") && SingleLine("## Story ")
  {
  }

  lemma SinglesPrefix(x: seq<string>, y: seq<string>)
    requires Splitting.Singles(x + y)
    ensures Splitting.Singles(x)
  {
    forall k | 0 <= k < |x| ensures SingleLine(x[k]) {
      assert x[k] == (x + y)[k];
    }
  }

  /** The sections of a titled block whose body holds, after some lines
      that are not headings, a run of well-marked blocks. */
  lemma TitledSections(title: string, body: seq<string>, head: seq<string>, bs: seq<Splitting.Block>,
                       w: string, kw: string, dotted: bool)
    requires SingleLine(title) && SingleLine(w) && kw == "\n" + w
    requires body == head + Splitting.BlockLines(bs)
    requires Splitting.Singles(head) && Splitting.Avoids(head, w)
    requires Splitting.AllWellMarked(bs, w, dotted)
    ensures Parser.Sections(Join([" " + title] + body, "\n"), kw, dotted) == Splitting.Pieces(bs)
  {
    var a := [" " + title] + head;
    LacksAppend(" ", title, '\n');
    assert Splitting.Singles(a) by {
      forall k | 0 <= k < |a| ensures SingleLine(a[k]) {
        if k > 0 {
          assert a[k] == head[k - 1];
        }
      }
    }
    assert a[1..] == head;
    assert [" " + title] + body == a + Splitting.BlockLines(bs);
    Splitting.SectionsOfBlocks(a, bs, w, dotted);
  }

  /** The lines of an epic with tasks between its heading and its first
      task heading. */
  function EpicOpening(i: nat, e: Epic): seq<string>
    requires e.tasks != []
  {
    RoundTrip.EpicHeadPhysical(i, e)[1..] + ["", RoundTrip.TasksHeadingLine(|e.tasks|), ""]
  }

  /** The body of an epic with tasks: its opening lines, which hold no
      task heading, then the blocks of its tasks. */
  lemma EpicTaskBody(i: nat, e: Epic)
    requires ReadableEpic(e) && e.tasks != []
    ensures RoundTrip.EpicPhysical(i, e)[1..] ==
      EpicOpening(i, e) + Splitting.BlockLines(TaskBlocks(i, 1, e.tasks, ["", ""]))
    ensures Splitting.Singles(EpicOpening(i, e))
    ensures Splitting.Avoids(EpicOpening(i, e), Parser.TaskHeadingPrefix)
  {
    var head := EpicOpening(i, e);
    var ep := RoundTrip.EpicPhysical(i, e);
    var tail := RoundTrip.TasksPhysical(i, 1, e.tasks) + ["", ""];
    RoundTrip.EpicPhysicalWithTasks(i, e);
    TaskBlocksLines(i, 1, e.tasks, ["", ""]);
    EpicSingles(i, e);
    SinglesDrop(ep, 1);
    SinglesPrefix(head, tail);
    RoundTrip.EpicOpeningNoTask(i, e);
    AvoidsOfAll(head, Parser.TaskHeadingPrefix);
  }

  /** The task sections of an epic with tasks. */
  lemma EpicTaskSections(i: nat, e: Epic)
    requires ReadableEpic(e) && e.tasks != []
    ensures Parser.Sections(Splitting.Piece(EpicBlock(i, e)), Parser.TaskMarker, true) ==
      Splitting.Pieces(TaskBlocks(i, 1, e.tasks, ["", ""]))
  {
    var bs := TaskBlocks(i, 1, e.tasks, ["", ""]);
    EpicTaskBody(i, e);
    TwoBlanks(["", ""]);
    TaskBlocksMarked(i, 1, e.tasks, ["", ""]);
    TaskSectionsOf(e.title, RoundTrip.EpicPhysical(i, e)[1..], EpicOpening(i, e), bs);
    EpicBlockPiece(i, e, Splitting.Pieces(bs));
  }

  lemma EpicBlockPiece(i: nat, e: Epic, r: seq<string>)
    requires Parser.Sections(Join([" " + e.title] + RoundTrip.EpicPhysical(i, e)[1..], "\n"), Parser.TaskMarker, true) == r
    ensures Parser.Sections(Splitting.Piece(EpicBlock(i, e)), Parser.TaskMarker, true) == r
  {
  }

  /** The task sections of a titled block whose lines after the opening are
      well-marked task blocks. */
  lemma TaskSectionsOf(title: string, body: seq<string>, head: seq<string>, bs: seq<Splitting.Block>)
    requires SingleLine(title)
    requires body == head + Splitting.BlockLines(bs)
    requires Splitting.Singles(head) && Splitting.Avoids(head, Parser.TaskHeadingPrefix)
    requires Splitting.AllWellMarked(bs, Parser.TaskHeadingPrefix, true)
    ensures Parser.Sections(Join([" " + title] + body, "\n"), Parser.TaskMarker, true) == Splitting.Pieces(bs)
  {
    MarkerPrefixes();
    TitledSections(title, body, head, bs, Parser.TaskHeadingPrefix, Parser.TaskMarker, true);
  }

  /** An epic without tasks has no task sections. */
  lemma EpicNoTaskSections(i: nat, e: Epic)
    requires ReadableEpic(e) && e.tasks == []
    ensures Parser.Sections(Splitting.Piece(EpicBlock(i, e)), Parser.TaskMarker, true) == []
  {
    var ep := RoundTrip.EpicPhysical(i, e);
    var head := ep[1..];
    var none: seq<Splitting.Block> := [];
    RoundTrip.EpicPhysicalWithoutTasks(i, e);
    RoundTrip.EpicWithoutTasksNoTask(i, e);
    EpicSingles(i, e);
    SinglesDrop(ep, 1);
    AvoidsOfAll(head, Parser.TaskHeadingPrefix);
    MarkerPrefixes();
    assert head == head + Splitting.BlockLines(none);
    TitledSections(e.title, head, head, none, Parser.TaskHeadingPrefix, Parser.TaskMarker, true);
  }

  /** The tasks of an epic read back from its section. */
  lemma EpicPieceTasks(i: nat, e: Epic)
    requires ReadableEpic(e)
    ensures Parser.ParseTasks(Parser.Sections(Splitting.Piece(EpicBlock(i, e)), Parser.TaskMarker, true)) ==
      Ok(TasksReadBack(e.tasks))
  {
    var sections := Parser.Sections(Splitting.Piece(EpicBlock(i, e)), Parser.TaskMarker, true);
    if e.tasks == [] {
      EpicNoTaskSections(i, e);
      NoTasksRead(sections, e.tasks);
    } else {
      EpicTaskSections(i, e);
      TwoBlanks(["", ""]);
      TaskPieces(i, 1, e.tasks, ["", ""]);
      SectionsRead(sections, Splitting.Pieces(TaskBlocks(i, 1, e.tasks, ["", ""])), TasksReadBack(e.tasks));
    }
  }

  lemma NoTasksRead(sections: seq<string>, tasks: seq<Task>)
    requires sections == [] && tasks == []
    ensures Parser.ParseTasks(sections) == Ok(TasksReadBack(tasks))
  {
  }

  lemma TwoBlanks(x: seq<string>)
    requires x == ["", ""]
    ensures Splitting.Blank(x)
  {
  }

  lemma SectionsRead(sections: seq<string>, pieces: seq<string>, r: seq<Task>)
    requires sections == pieces && Parser.ParseTasks(pieces) == Ok(r)
    ensures Parser.ParseTasks(sections) == Ok(r)
  {
  }

  lemma {:induction false} TasksReadBackValid(tasks: seq<Task>)
    requires forall t <- tasks :: t.Valid()
    ensures forall t <- TasksReadBack(tasks) :: t.Valid()
    decreases |tasks|
  {
    if tasks != [] {
      assert tasks[0] in tasks;
      TasksReadBackValid(tasks[1..]);
      forall t <- TasksReadBack(tasks) ensures t.Valid() {
        if t != TaskReadBack(tasks[0]) {
          assert t in TasksReadBack(tasks[1..]);
        }
      }
    }
  }

  /** An epic, written in the document and read back from its section,
      comes back as `EpicReadBack` says. */
  lemma EpicPiece(i: nat, e: Epic)
    requires ReadableEpic(e)
    ensures Parser.ParseEpicSection(Splitting.Piece(EpicBlock(i, e))) == Ok(Some(EpicReadBack(e)))
  {
    EpicPieceLines(i, e);
    EpicCoreScan(i, e);
    EpicPieceTasks(i, e);
    EpicReadBackBuilt(e);
    EpicSectionRead(Splitting.Piece(EpicBlock(i, e)), e.title, EpicCore(i, e), EpicFieldsWritten(e),
                    TasksReadBack(e.tasks), EpicReadBack(e));
  }

  /** An epic section whose lines, fields and tasks are known. */
  lemma EpicSectionRead(section: string, title: string, core: seq<string>, f: Parser.EpicFields,
                        tasks: seq<Task>, e: Epic)
    requires Parser.SectionLines(section) == [title] + core
    requires IsStripped(title) && title != []
    requires Parser.ScanEpic(core, Parser.EpicDefaults) == f && f.description != []
    requires Parser.ParseTasks(Parser.Sections(section, Parser.TaskMarker, true)) == Ok(tasks)
    requires NewEpic(title, f.description, f.businessValue, f.priority, tasks) == Ok(e)
    ensures Parser.ParseEpicSection(section) == Ok(Some(e))
  {
    assert ([title] + core)[1..] == core;
  }

  /** The constructor accepts the fields an epic is read back with. */
  lemma EpicReadBackBuilt(e: Epic)
    requires ReadableEpic(e)
    ensures var f := EpicFieldsWritten(e);
      && f.description != []
      && NewEpic(e.title, f.description, f.businessValue, f.priority, TasksReadBack(e.tasks)) == Ok(EpicReadBack(e))
  {
    var f := EpicFieldsWritten(e);
    var tasks := TasksReadBack(e.tasks);
    TasksReadBackValid(e.tasks);
    if e.tasks != [] {
      var last := e.tasks[|e.tasks| - 1];
      assert ReadableTask(last);
    }
    var r := NewEpic(e.title, f.description, f.businessValue, f.priority, tasks);
    assert ParseLevel(f.priority).Some?;
    assert r.Ok?;
    assert ParseLevel(LevelName(r.value.priority)) == ParseLevel(f.priority);
    assert r.value == EpicReadBack(e);
  }


  lemma {:induction false} EpicPieces(i: nat, epics: seq<Epic>)
    requires ReadableEpics(epics)
    ensures Parser.ParseEpicSections(Splitting.Pieces(EpicBlocks(i, epics))) == Ok(EpicsReadBack(epics))
    decreases |epics|
  {
    if epics != [] {
      var bs := EpicBlocks(i, epics);
      var ps := Splitting.Pieces(bs);
      ReadableEpicsSplit(epics);
      EpicPiece(i, epics[0]);
      assert ps[0] == Splitting.Piece(EpicBlock(i, epics[0]));
      assert ps[1..] == Splitting.Pieces(EpicBlocks(i + 1, epics[1..]));
      EpicPieces(i + 1, epics[1..]);
    }
  }

  // ---------------------------------------------------------------------
  // Whole documents
  // ---------------------------------------------------------------------

  /** The header lines of a document: single lines, and none after the
      first opens with `#`. */
  lemma HeaderShape(s: TicketStructure, timestamp: string)
    requires ValidProjectKey(s.projectKey) && SingleLine(timestamp)
    ensures var hp := Document.HeaderPhysical(s, timestamp);
      hp != [] && Splitting.Singles(hp) && Hashless(hp[1..])
  {
    var hp := Document.HeaderPhysical(s, timestamp);
    Document.ProjectKeyShape(s.projectKey);
    Document.TitleLineSingle(s.projectKey);
    LacksAppend("**Generated**: ", timestamp, '\n');
    Document.IssueTypeNameShape(s.issueType);
    Document.TypeLineSingle(IssueTypeName(s.issueType));
    assert Splitting.Singles(hp) by {
      forall k | 0 <= k < |hp| ensures SingleLine(hp[k]) {
      }
    }
    assert Hashless(hp[1..]) by {
      forall k | 0 <= k < |hp| - 1 ensures Numbering.NoHash(hp[1..][k]) {
        assert hp[1..][k] == hp[k + 1];
      }
    }
  }

  /** The text of a document of epics: its header lines, then the blocks
      of its epics. */
  lemma EpicDocumentText(s: TicketStructure, timestamp: string)
    requires ValidProjectKey(s.projectKey) && SingleLine(timestamp)
    requires s.issueType in {TaskType, EpicOnlyType} && ReadableEpics(s.epics)
    ensures Render.WriteMarkdown(s, timestamp) ==
      Join(Document.HeaderPhysical(s, timestamp) + Splitting.BlockLines(EpicBlocks(1, s.epics)), "\n")
  {
    var content := Render.WriteMarkdown(s, timestamp);
    Document.DocumentLines(s, timestamp);
    assert Render.BodyLines(s) == Render.EpicsFrom(1, s.epics);
    EpicBlocksLines(1, s.epics);
    JoinSplitOn(content, "\n");
  }

  /** The epic sections of a document of epics are the pieces of its epic
      blocks. */
  lemma EpicDocumentSections(s: TicketStructure, timestamp: string)
    requires ValidProjectKey(s.projectKey) && SingleLine(timestamp)
    requires s.issueType in {TaskType, EpicOnlyType} && ReadableEpics(s.epics)
    ensures Parser.Sections(Render.WriteMarkdown(s, timestamp), Parser.EpicMarker, false) ==
      Splitting.Pieces(EpicBlocks(1, s.epics))
  {
    var hp := Document.HeaderPhysical(s, timestamp);
    EpicDocumentText(s, timestamp);
    HeaderShape(s, timestamp);
    HashlessAvoids(hp[1..], "## Epic ");
    EpicBlocksMarked(1, s.epics);
    MarkerPrefixes();
    Splitting.SectionsOfBlocks(hp, EpicBlocks(1, s.epics), "## Epic ", false);
  }

  /** The epics of a document of epics read back. */
  lemma EpicDocumentEpics(s: TicketStructure, timestamp: string)
    requires ValidProjectKey(s.projectKey) && SingleLine(timestamp)
    requires s.issueType in {TaskType, EpicOnlyType} && ReadableEpics(s.epics)
    ensures Parser.ParseEpics(Render.WriteMarkdown(s, timestamp)) == Ok(EpicsReadBack(s.epics))
  {
    EpicDocumentSections(s, timestamp);
    EpicPieces(1, s.epics);
  }

  lemma IssueTypeNameInjective(a: IssueType, b: IssueType)
    requires IssueTypeName(a) == IssueTypeName(b)
    ensures a == b
  {
  }

  /** What `EpicsReadBack` keeps and what it replaces. */
  lemma EpicsReadBackFacts(epics: seq<Epic>)
    ensures var r := EpicsReadBack(epics);
      && (forall k, m :: 0 <= k < |epics| && 0 <= m < |epics[k].tasks| ==>
            && r[k].tasks[m].title == epics[k].tasks[m].title
            && r[k].tasks[m].estimatedEffort == None)
      && (forall k :: 0 <= k < |epics| && epics[k].tasks != [] ==>
            var last := epics[k].tasks[|epics[k].tasks| - 1];
            r[k].description == last.description && r[k].priority == last.priority)
  {
  }

  /** Content whose header names a key and the task or epic-only type
      reads back as the epics of its epic sections. */
  lemma ParseEpicContent(content: string, key: string, t: IssueType, epics: seq<Epic>)
    requires ValidProjectKey(key) && t in {TaskType, EpicOnlyType}
    requires Parser.HeaderOf(content) == Parser.Header(Some(key), IssueTypeName(t))
    requires Parser.ParseEpics(content) == Ok(epics)
    ensures Parser.ParseMarkdown(content) == Ok(TicketStructure(key, t, epics, [], []))
  {
    var r := NewTicketStructure(key, IssueTypeName(t), epics, [], []);
    assert r.Ok?;
    IssueTypeNameInjective(r.value.issueType, t);
  }

  /** A document of epics read back whole. */
  lemma EpicDocumentParsed(s: TicketStructure, timestamp: string)
    requires s.Valid() && SingleLine(timestamp)
    requires s.issueType in {TaskType, EpicOnlyType} && ReadableEpics(s.epics)
    ensures Parser.ParseMarkdown(Render.WriteMarkdown(s, timestamp)) ==
      Ok(s.(epics := EpicsReadBack(s.epics), bugs := [], stories := []))
  {
    assert Document.LeadTitleSingleLine(s) by {
      if s.epics != [] {
        assert ReadableEpic(s.epics[0]);
      }
    }
    Document.HeaderReadBack(s, timestamp);
    EpicDocumentEpics(s, timestamp);
    ParseEpicContent(Render.WriteMarkdown(s, timestamp), s.projectKey, s.issueType, EpicsReadBack(s.epics));
  }

  /** A document of epics, written by `write_markdown` and read back by
      `parse_markdown`, as both are written: the key, the issue type and
      every epic and task come back, except that every task effort is
      lost and an epic with tasks comes back with the description and
      priority of its last task. */
  lemma EpicDocumentAsWritten(s: TicketStructure, timestamp: string)
    requires s.Valid() && SingleLine(timestamp)
    requires s.issueType in {TaskType, EpicOnlyType} && ReadableEpics(s.epics)
    ensures Parser.ParseMarkdown(Render.WriteMarkdown(s, timestamp)) ==
      Ok(s.(epics := EpicsReadBack(s.epics), bugs := [], stories := []))
    ensures var r := Parser.ParseMarkdown(Render.WriteMarkdown(s, timestamp));
      && r.Ok? && |r.value.epics| == |s.epics|
      && (forall k, m :: 0 <= k < |s.epics| && 0 <= m < |s.epics[k].tasks| ==>
            && r.value.epics[k].tasks[m].title == s.epics[k].tasks[m].title
            && r.value.epics[k].tasks[m].estimatedEffort == None)
      && (forall k :: 0 <= k < |s.epics| && s.epics[k].tasks != [] ==>
            var last := s.epics[k].tasks[|s.epics[k].tasks| - 1];
            r.value.epics[k].description == last.description && r.value.epics[k].priority == last.priority)
  {
    EpicDocumentParsed(s, timestamp);
    EpicsKept(s, Parser.ParseMarkdown(Render.WriteMarkdown(s, timestamp)));
  }

  /** What the epics read back keep of the epics written. */
  lemma EpicsKept(s: TicketStructure, r: Result<TicketStructure>)
    requires r == Ok(s.(epics := EpicsReadBack(s.epics), bugs := [], stories := []))
    ensures
      && r.Ok? && |r.value.epics| == |s.epics|
      && (forall k, m :: 0 <= k < |s.epics| && 0 <= m < |s.epics[k].tasks| ==>
            && r.value.epics[k].tasks[m].title == s.epics[k].tasks[m].title
            && r.value.epics[k].tasks[m].estimatedEffort == None)
      && (forall k :: 0 <= k < |s.epics| && s.epics[k].tasks != [] ==>
            var last := s.epics[k].tasks[|s.epics[k].tasks| - 1];
            r.value.epics[k].description == last.description && r.value.epics[k].priority == last.priority)
  {
    EpicsReadBackFacts(s.epics);
  }

  // ---------------------------------------------------------------------
  // Stories
  // ---------------------------------------------------------------------

  /** A story as the reader gives it back: without its effort. */
  function StoryReadBack(st: UserStory): UserStory {
    st.(estimatedEffort := None, technicalNotes := NotesField(st.technicalNotes))
  }

  function StoriesReadBack(stories: seq<UserStory>): (r: seq<UserStory>)
    ensures |r| == |stories|
    ensures forall k :: 0 <= k < |stories| ==> r[k] == StoryReadBack(stories[k])
    decreases |stories|
  {
    if stories == [] then [] else [StoryReadBack(stories[0])] + StoriesReadBack(stories[1..])
  }

  /** A story the reader gives back whole. */
  predicate ReadableStory(st: UserStory) {
    st.Valid() && StoryRoundTrip.PlainStory(st) && IsStripped(st.title)
  }

  predicate ReadableStories(stories: seq<UserStory>) {
    forall k :: 0 <= k < |stories| ==> ReadableStory(stories[k])
  }

  lemma ReadableStoriesSplit(stories: seq<UserStory>)
    requires stories != [] && ReadableStories(stories)
    ensures ReadableStory(stories[0]) && ReadableStories(stories[1..])
  {
    forall k | 0 <= k < |stories| - 1 ensures ReadableStory(stories[1..][k]) {
      assert stories[1..][k] == stories[k + 1];
    }
  }

  /** The lines between the triad and the criteria of a written story:
      the priority, with an effort the effort on a line of its own, and
      two empty lines. */
  function StoryMiddle(st: UserStory): seq<string> {
    if st.estimatedEffort.Some? then
      ["**Priority**: " + LevelName(st.priority), " | **Effort**: " + EffortName(st.estimatedEffort.value), "", ""]
    else [Render.PriorityEntry(st.priority, None), "", ""]
  }

  /** The lines the document writer puts a story on. */
  function StoryWrittenPhysical(i: nat, st: UserStory): seq<string> {
    StoryRoundTrip.StoryHeadPhysical(i, st) + StoryMiddle(st) + StoryRoundTrip.StoryTailPhysical(st)
  }

  lemma StoryWrittenLines(i: nat, st: UserStory)
    requires StoryRoundTrip.PlainStory(st)
    ensures Lines(Render.StoryLinesAsWritten(i, st)) == StoryWrittenPhysical(i, st)
  {
    if st.estimatedEffort.Some? {
      StoryRoundTrip.StoryLinesPhysicalAsWritten(i, st);
    } else {
      Render.StoryLinesWithoutEffort(i, st);
      StoryRoundTrip.StoryLinesPhysical(i, st);
    }
  }

  /** The story loop over the lines a story is written on, after its
      heading, gives the story's fields without its effort. */
  lemma StoryFieldsRead(i: nat, st: UserStory)
    requires StoryRoundTrip.PlainStory(st)
    ensures Parser.ScanStory(StoryWrittenPhysical(i, st)[1..], Parser.StoryDefaults) ==
      StoryRoundTrip.StoryFieldsOf(st).(effort := None)
  {
    StoryWrittenLines(i, st);
    if st.estimatedEffort.Some? {
      StoryRoundTrip.StoryEffortLostInStory(i, st);
    } else {
      Render.StoryLinesWithoutEffort(i, st);
      StoryRoundTrip.StoryRoundTrip(i, st);
    }
  }

  lemma StoryWrittenParts(i: nat, st: UserStory)
    ensures var w := StoryWrittenPhysical(i, st);
      && |w| >= 3
      && w[0] == StoryRoundTrip.StoryHeadingLine(i, st.title)
      && w[|w| - 2] == "---" && w[|w| - 1] == ""
  {
  }

  lemma StoryWrittenHashless(i: nat, st: UserStory)
    ensures Hashless(StoryWrittenPhysical(i, st)[1..])
  {
    var hp := StoryRoundTrip.StoryHeadPhysical(i, st);
    var mid := StoryMiddle(st);
    var tail := StoryRoundTrip.StoryTailPhysical(st);
    StoryHeadHashless(i, st);
    StoryMiddleHashless(st);
    TailHashless(st.acceptanceCriteria, st.technicalNotes);
    HashlessAppend(hp[1..], mid);
    HashlessAppend(hp[1..] + mid, tail);
    DropFirstOfThree(hp, mid, tail);
  }

  lemma StoryHeadHashless(i: nat, st: UserStory)
    ensures Hashless(StoryRoundTrip.StoryHeadPhysical(i, st)[1..])
  {
  }

  lemma StoryMiddleHashless(st: UserStory)
    ensures Hashless(StoryMiddle(st))
  {
  }

  lemma DropFirstOfThree(a: seq<string>, b: seq<string>, c: seq<string>)
    requires a != []
    ensures (a + b + c)[1..] == a[1..] + b + c
  {
  }

  lemma StoryWrittenSingles(i: nat, st: UserStory)
    requires StoryRoundTrip.PlainStory(st)
    ensures Splitting.Singles(StoryWrittenPhysical(i, st))
  {
    StoryWrittenLines(i, st);
    Splitting.LinesSingles(Render.StoryLinesAsWritten(i, st));
  }

  /** The part of a story heading the numbered heading pattern consumes. */
  function StoryMark(i: nat): string {
    "## Story " + NatToString(i) + ":"
  }

  /** Story `i` as a block of the document. */
  function StoryBlock(i: nat, st: UserStory): Splitting.Block {
    Splitting.Block(StoryMark(i), " " + st.title, StoryWrittenPhysical(i, st)[1..])
  }

  function StoryBlocks(i: nat, stories: seq<UserStory>): (r: seq<Splitting.Block>)
    ensures |r| == |stories|
    decreases |stories|
  {
    if stories == [] then [] else [StoryBlock(i, stories[0])] + StoryBlocks(i + 1, stories[1..])
  }

  lemma StoryMarkMatches(i: nat)
    ensures Parser.MatchLength("\n" + StoryMark(i), Parser.StoryMarker, false) == |StoryMark(i)| + 1
  {
    var kw := Parser.StoryMarker;
    var n := NatToString(i);
    assert "\n" + StoryMark(i) == kw + n + [':'];
    Splitting.NumberedMark(kw, n);
  }

  lemma StoryMarkHeading(i: nat, title: string)
    ensures StoryMark(i) + (" " + title) == StoryRoundTrip.StoryHeadingLine(i, title)
  {
  }

  lemma StoryBlockOwnLines(i: nat, st: UserStory)
    ensures Splitting.BlockOwnLines(StoryBlock(i, st)) == StoryWrittenPhysical(i, st)
  {
    StoryMarkHeading(i, st.title);
    StoryWrittenParts(i, st);
    HeadAndRest(StoryWrittenPhysical(i, st), StoryRoundTrip.StoryHeadingLine(i, st.title));
  }

  lemma {:induction false} StoryBlocksLines(i: nat, stories: seq<UserStory>)
    requires ReadableStories(stories)
    ensures Splitting.BlockLines(StoryBlocks(i, stories)) == Lines(Render.StoriesFrom(i, stories))
    decreases |stories|
  {
    if stories != [] {
      var bs := StoryBlocks(i, stories);
      ReadableStoriesSplit(stories);
      StoryBlockOwnLines(i, stories[0]);
      StoryWrittenLines(i, stories[0]);
      LinesAppend(Render.StoryLinesAsWritten(i, stories[0]), Render.StoriesFrom(i + 1, stories[1..]));
      assert bs[1..] == StoryBlocks(i + 1, stories[1..]);
      StoryBlocksLines(i + 1, stories[1..]);
    }
  }

  lemma StoryBlockMarked(i: nat, st: UserStory)
    requires ReadableStory(st)
    ensures Splitting.WellMarked(StoryBlock(i, st), "## Story ", false)
  {
    var w := StoryWrittenPhysical(i, st);
    StoryMarkMatches(i);
    MarkerPrefixes();
    StoryWrittenSingles(i, st);
    StoryWrittenParts(i, st);
    SinglesTail(w);
    StoryWrittenHashless(i, st);
    HashlessAvoids(w[1..], "## Story ");
    LacksAppend(" ", st.title, '\n');
    MarkedBlock(StoryBlock(i, st), "## Story ", false);
  }

  lemma StoryBlocksCons(i: nat, stories: seq<UserStory>)
    requires stories != []
    ensures StoryBlocks(i, stories)[0] == StoryBlock(i, stories[0])
    ensures StoryBlocks(i, stories)[1..] == StoryBlocks(i + 1, stories[1..])
  {
  }

  lemma {:induction false} StoryBlocksMarked(i: nat, stories: seq<UserStory>)
    requires ReadableStories(stories)
    ensures Splitting.AllWellMarked(StoryBlocks(i, stories), "## Story ", false)
    decreases |stories|
  {
    if stories != [] {
      ReadableStoriesSplit(stories);
      StoryBlockMarked(i, stories[0]);
      StoryBlocksCons(i, stories);
      StoryBlocksMarked(i + 1, stories[1..]);
      MarkedCons(StoryBlocks(i, stories), "## Story ", false);
    }
  }

  /** The section lines of a titled block whose body closes with one
      empty line after a solid line. */
  lemma SeparatedPieceLines(title: string, body: seq<string>)
    requires SingleLine(title) && IsStripped(title) && title != []
    requires |body| >= 2 && Splitting.Singles(body)
    requires body[|body| - 2] == "---" && body[|body| - 1] == ""
    ensures Parser.SectionLines(Join([" " + title] + body, "\n")) == [title] + body[..|body| - 1]
  {
    assert body[|body| - 1..] == [""];
    BlankClosedPieceLines(title, body, 1);
  }

  /** A story, written in the document and read back from its section,
      comes back without its effort. */
  lemma StoryPiece(i: nat, st: UserStory)
    requires ReadableStory(st)
    ensures Parser.ParseStorySection(Splitting.Piece(StoryBlock(i, st))) == Ok(Some(StoryReadBack(st)))
  {
    var w := StoryWrittenPhysical(i, st);
    StoryWrittenParts(i, st);
    StoryWrittenSingles(i, st);
    SinglesTail(w);
    SeparatedPieceLines(st.title, w[1..]);
    StoryFieldsRead(i, st);
    EmptyLast(w);
    SliceOfTail(w);
    Splitting.ScanStoryBlank(w[1..|w| - 1], Parser.StoryDefaults);
    StoryReadBackBuilt(st);
    StorySectionRead(Splitting.Piece(StoryBlock(i, st)), st.title, w[1..|w| - 1],
                     StoryRoundTrip.StoryFieldsOf(st).(effort := None), StoryReadBack(st));
  }

  lemma SliceOfTail(w: seq<string>)
    requires |w| >= 2
    ensures w[1..][..|w[1..]| - 1] == w[1..|w| - 1]
  {
  }

  /** A story section whose lines and fields are known. */
  lemma StorySectionRead(section: string, title: string, core: seq<string>, f: Parser.StoryFields, st: UserStory)
    requires Parser.SectionLines(section) == [title] + core
    requires IsStripped(title) && title != []
    requires Parser.ScanStory(core, Parser.StoryDefaults) == f
    requires f.asA != [] && f.iWantTo != [] && f.soThat != [] && |f.criteria| >= 3
    requires NewUserStory(title, f.asA, f.iWantTo, f.soThat, f.criteria, f.priority, f.effort, f.notes) == Ok(st)
    ensures Parser.ParseStorySection(section) == Ok(Some(st))
  {
    assert ([title] + core)[1..] == core;
  }

  /** The constructor accepts the fields a story is read back with. */
  lemma StoryReadBackBuilt(st: UserStory)
    requires st.Valid()
    ensures var f := StoryRoundTrip.StoryFieldsOf(st).(effort := None);
      && f.asA != [] && f.iWantTo != [] && f.soThat != [] && |f.criteria| >= 3
      && NewUserStory(st.title, f.asA, f.iWantTo, f.soThat, f.criteria, f.priority, f.effort, f.notes)
         == Ok(StoryReadBack(st))
  {
    var r := NewUserStory(st.title, st.asA, st.iWantTo, st.soThat, st.acceptanceCriteria,
                          LevelName(st.priority), None, NotesField(st.technicalNotes));
    assert ParseLevel(LevelName(st.priority)) == Some(st.priority);
    assert r.Ok?;
    assert ParseLevel(LevelName(r.value.priority)) == Some(r.value.priority);
    assert r.value == StoryReadBack(st);
  }


  lemma {:induction false} StoryPieces(i: nat, stories: seq<UserStory>)
    requires ReadableStories(stories)
    ensures Parser.ParseStorySections(Splitting.Pieces(StoryBlocks(i, stories))) == Ok(StoriesReadBack(stories))
    decreases |stories|
  {
    if stories != [] {
      var bs := StoryBlocks(i, stories);
      var ps := Splitting.Pieces(bs);
      ReadableStoriesSplit(stories);
      StoryPiece(i, stories[0]);
      assert ps[0] == Splitting.Piece(StoryBlock(i, stories[0]));
      assert ps[1..] == Splitting.Pieces(StoryBlocks(i + 1, stories[1..]));
      StoryPieces(i + 1, stories[1..]);
    }
  }

  lemma StoryDocumentText(s: TicketStructure, timestamp: string)
    requires ValidProjectKey(s.projectKey) && SingleLine(timestamp)
    requires s.issueType == StoryType && ReadableStories(s.stories)
    ensures Render.WriteMarkdown(s, timestamp) ==
      Join(Document.HeaderPhysical(s, timestamp) + Splitting.BlockLines(StoryBlocks(1, s.stories)), "\n")
  {
    var content := Render.WriteMarkdown(s, timestamp);
    Document.DocumentLines(s, timestamp);
    assert Render.BodyLines(s) == Render.StoriesFrom(1, s.stories);
    StoryBlocksLines(1, s.stories);
    JoinSplitOn(content, "\n");
  }

  lemma StoryDocumentStories(s: TicketStructure, timestamp: string)
    requires ValidProjectKey(s.projectKey) && SingleLine(timestamp)
    requires s.issueType == StoryType && ReadableStories(s.stories)
    ensures Parser.ParseStories(Render.WriteMarkdown(s, timestamp)) == Ok(StoriesReadBack(s.stories))
  {
    var hp := Document.HeaderPhysical(s, timestamp);
    StoryDocumentText(s, timestamp);
    HeaderShape(s, timestamp);
    HashlessAvoids(hp[1..], "## Story ");
    StoryBlocksMarked(1, s.stories);
    MarkerPrefixes();
    Splitting.SectionsOfBlocks(hp, StoryBlocks(1, s.stories), "## Story ", false);
    StoryPieces(1, s.stories);
  }

  /** Content whose header names a key and the story type reads back as
      the stories of its story sections. */
  lemma ParseStoryContent(content: string, key: string, stories: seq<UserStory>)
    requires ValidProjectKey(key)
    requires Parser.HeaderOf(content) == Parser.Header(Some(key), "story")
    requires Parser.ParseStories(content) == Ok(stories)
    ensures Parser.ParseMarkdown(content) == Ok(TicketStructure(key, StoryType, [], [], stories))
  {
    var r := NewTicketStructure(key, "story", [], [], stories);
    assert r.Ok?;
    IssueTypeNameInjective(r.value.issueType, StoryType);
  }

  /** Content whose header names a key and the bug type parses to the bugs
      of its bug sections. */
  lemma ParseBugContent(content: string, key: string, bugs: seq<Bug>)
    requires ValidProjectKey(key)
    requires Parser.HeaderOf(content) == Parser.Header(Some(key), "bug")
    requires Parser.ParseBugs(content) == Ok(bugs)
    ensures Parser.ParseMarkdown(content) == Ok(TicketStructure(key, BugType, [], bugs, []))
  {
    var t := Parser.HeaderOf(content).issueType;
    assert t != "task" && t != "epic-only" && t == "bug";
    var r := NewTicketStructure(key, "bug", [], bugs, []);
    assert r.Ok?;
    IssueTypeNameInjective(r.value.issueType, BugType);
  }

  /** A document of stories read back whole. */
  lemma StoryDocumentParsed(s: TicketStructure, timestamp: string)
    requires s.Valid() && SingleLine(timestamp)
    requires s.issueType == StoryType && ReadableStories(s.stories)
    ensures Parser.ParseMarkdown(Render.WriteMarkdown(s, timestamp)) ==
      Ok(s.(epics := [], bugs := [], stories := StoriesReadBack(s.stories)))
  {
    assert Document.LeadTitleSingleLine(s) by {
      if s.stories != [] {
        assert ReadableStory(s.stories[0]);
      }
    }
    Document.HeaderReadBack(s, timestamp);
    StoryDocumentStories(s, timestamp);
    ParseStoryContent(Render.WriteMarkdown(s, timestamp), s.projectKey, StoriesReadBack(s.stories));
  }

  /** A document of stories, written by `write_markdown` and read back by
      `parse_markdown`, as both are written: the key, the issue type and
      every story come back, except that every story effort is lost. */
  lemma StoryDocumentAsWritten(s: TicketStructure, timestamp: string)
    requires s.Valid() && SingleLine(timestamp)
    requires s.issueType == StoryType && ReadableStories(s.stories)
    ensures Parser.ParseMarkdown(Render.WriteMarkdown(s, timestamp)) ==
      Ok(s.(epics := [], bugs := [], stories := StoriesReadBack(s.stories)))
    ensures var r := Parser.ParseMarkdown(Render.WriteMarkdown(s, timestamp));
      && r.Ok? && |r.value.stories| == |s.stories|
      && forall k :: 0 <= k < |s.stories| ==>
           && r.value.stories[k].title == s.stories[k].title
           && r.value.stories[k].acceptanceCriteria == s.stories[k].acceptanceCriteria
           && r.value.stories[k].priority == s.stories[k].priority
           && r.value.stories[k].estimatedEffort == None
  {
    StoryDocumentParsed(s, timestamp);
    StoriesKept(s, Parser.ParseMarkdown(Render.WriteMarkdown(s, timestamp)));
  }

  /** What the stories read back keep of the stories written. */
  lemma StoriesKept(s: TicketStructure, r: Result<TicketStructure>)
    requires r == Ok(s.(epics := [], bugs := [], stories := StoriesReadBack(s.stories)))
    ensures
      && r.Ok? && |r.value.stories| == |s.stories|
      && forall k :: 0 <= k < |s.stories| ==>
           && r.value.stories[k].title == s.stories[k].title
           && r.value.stories[k].acceptanceCriteria == s.stories[k].acceptanceCriteria
           && r.value.stories[k].priority == s.stories[k].priority
           && r.value.stories[k].estimatedEffort == None
  {
  }

}

=== FILE: extraction.dfy ===
/** The extraction agent of agents/extraction_agent.py without a language
    model: `extract` dispatches on whether a client is configured, and the
    rule-based fallback builds one epic holding one task from the first
    non-blank line of the input. */
module Extraction {
  import opened Wrappers
  import opened Strings
  import opened Models

  /** Whether an agent was given a language-model client and, when it was,
      what the model-backed path answered. That path is a network call and
      is represented only by its answer. */
  datatype Client<T> = NoClient | Configured(answer: T)

  const FallbackBusinessValue := "To be refined"

  const TaskTitlePrefix := "Implement "

  /** The acceptance criteria every fallback task receives. */
  const FallbackCriteria: seq<string> := ["Feature works as described", "Tests pass", "Documentation updated"]

  /** The stripped lines that are not blank, in order. */
  function StrippedNonBlank(lines: seq<string>): (r: seq<string>)
    ensures |r| <= |lines|
    ensures forall l <- r :: l != [] && IsStripped(l)
  {
    if lines == [] then []
    else if Strip(lines[0]) == [] then StrippedNonBlank(lines[1..])
    else [Strip(lines[0])] + StrippedNonBlank(lines[1..])
  }

  /** `[line.strip() for line in text.split('\n') if line.strip()]` */
  function NonBlankLines(text: string): (r: seq<string>)
    ensures forall l <- r :: l != [] && IsStripped(l)
    ensures r == [] <==> AllSpace(text)
  {
    NoLinesIffBlank(text);
    StrippedNonBlank(Split(text, '\n'))
  }

  /** The first entry of the filtered list is the first line that is not
      blank, stripped. */
  lemma {:induction false} FirstNonBlankLine(lines: seq<string>, k: nat)
    requires k < |lines|
    requires Strip(lines[k]) != []
    requires forall j :: 0 <= j < k ==> Strip(lines[j]) == []
    ensures StrippedNonBlank(lines) != []
    ensures StrippedNonBlank(lines)[0] == Strip(lines[k])
  {
    if k > 0 {
      FirstNonBlankLine(lines[1..], k - 1);
    }
  }

  lemma AllSpaceCons(c: char, s: string)
    ensures AllSpace([c] + s) <==> IsSpace(c) && AllSpace(s)
  {
    var t := [c] + s;
    if IsSpace(c) && AllSpace(s) {
      forall i | 0 <= i < |t| ensures IsSpace(t[i]) {
        if i > 0 {
          assert t[i] == s[i - 1];
        }
      }
    }
    if AllSpace(t) {
      assert t[0] == c;
      forall i | 0 <= i < |s| ensures IsSpace(s[i]) {
        assert s[i] == t[i + 1];
      }
    }
  }

  /** The text has a non-blank line exactly when it is not all whitespace. */
  lemma {:induction false} NoLinesIffBlank(text: string)
    ensures StrippedNonBlank(Split(text, '\n')) == [] <==> AllSpace(text)
    decreases |text|
  {
    if text == [] {
    } else if StartsWith(text, "\n") {
      var rest := Split(text[1..], '\n');
      assert Split(text, '\n') == [[]] + rest;
      assert ([[]] + rest)[1..] == rest;
      NoLinesIffBlank(text[1..]);
      assert AllSpace(text) <==> AllSpace(text[1..]) by {
        assert text == [text[0]] + text[1..];
      }
    } else {
      var rest := Split(text[1..], '\n');
      var first := [text[0]] + rest[0];
      assert Split(text, '\n') == [first] + rest[1..];
      assert ([first] + rest[1..])[1..] == rest[1..];
      assert rest == [rest[0]] + rest[1..];
      NoLinesIffBlank(text[1..]);
      assert StrippedNonBlank(rest) == [] <==>
        AllSpace(rest[0]) && StrippedNonBlank(rest[1..]) == [];
      AllSpaceCons(text[0], rest[0]);
      assert text == [text[0]] + text[1..];
      AllSpaceCons(text[0], text[1..]);
    }
  }

  /** `ExtractionAgent._extract_simple`. */
  function ExtractSimple(text: string, projectKey: string, issueType: IssueType): (r: Result<TicketStructure>)
    ensures !ValidProjectKey(projectKey) ==> r == Err(ValidationError("TicketStructure"))
    ensures r.Ok? ==>
      && r.value.Valid()
      && r.value.projectKey == projectKey
      && r.value.issueType == issueType
      && r.value.bugs == []
      && r.value.stories == []
    // blank input: an empty container
    ensures ValidProjectKey(projectKey) && AllSpace(text) ==>
      r.Ok? && r.value.epics == [] && !r.value.HasContent()
    // otherwise one epic with one task, unless the epic title is too short
    ensures ValidProjectKey(projectKey) && !AllSpace(text) ==>
      var first := NonBlankLines(text)[0];
      && (r.Ok? <==> |first| >= 5)
      && (r.Err? ==> r.error == ValidationError("Epic"))
    ensures r.Ok? && !AllSpace(text) ==>
      r.value.epics == [FallbackEpic(NonBlankLines(text)[0], text)]
  {
    var structure :- NewTicketStructure(projectKey, IssueTypeName(issueType), [], [], []);
    var lines := NonBlankLines(text);
    if lines == [] then
      Ok(structure)
    else
      FallbackParts(lines[0], text);
      // The task is built (and validated) before the epic that holds it.
      match NewTask(TaskTitlePrefix + Take(lines[0], 150), Take(text, 500),
                    FallbackCriteria, None, "Medium", None)
      case Err(e) => Err(e)
      case Ok(task) =>
        var epic :- NewEpic(Take(lines[0], 200), Take(text, 1000),
                            Some(FallbackBusinessValue), "Medium", [task]);
        Ok(structure.(epics := [epic]))
  }

  /** The epic the fallback builds from the first non-blank line `first` of
      `text`, as the constructor calls in `_extract_simple` spell it out. */
  function FallbackEpic(first: string, text: string): Epic {
    Epic(Take(first, 200), Take(text, 1000), Some(FallbackBusinessValue), Level.Medium,
         [Task(TaskTitlePrefix + Take(first, 150), Take(text, 500), FallbackCriteria, None, Level.Medium, None)])
  }

  /** The fallback task always validates; the fallback epic validates
      exactly when the first line has at least five characters. */
  lemma FallbackParts(first: string, text: string)
    ensures
      var epic := FallbackEpic(first, text);
      && NewTask(TaskTitlePrefix + Take(first, 150), Take(text, 500), FallbackCriteria, None, "Medium", None)
         == Ok(epic.tasks[0])
      && epic.tasks[0].Valid()
      && NewEpic(Take(first, 200), Take(text, 1000), Some(FallbackBusinessValue), "Medium", epic.tasks)
         == (if |first| >= 5 then Ok(epic) else Err(ValidationError("Epic")))
  {
    var epic := FallbackEpic(first, text);
    assert |epic.tasks[0].title| == 10 + |Take(first, 150)|;
    assert epic.tasks[0].Valid();
  }

  /** What a successful fallback over non-blank text holds: one epic titled
      by the first line cut to 200 characters, described by the first 1000
      characters, and one task titled "Implement " plus the first 150
      characters of that line, so always 11 to 160 characters long. */
  lemma FallbackContent(text: string, projectKey: string, issueType: IssueType)
    requires ExtractSimple(text, projectKey, issueType).Ok?
    requires !AllSpace(text)
    ensures
      var s := ExtractSimple(text, projectKey, issueType).value;
      var first := NonBlankLines(text)[0];
      && s.HasContent()
      && s.CountTotalItems() == 2
      && |s.epics| == 1
      && var epic := s.epics[0];
      && epic.title == Take(first, 200)
      && 5 <= |epic.title| <= 200
      && epic.description == Take(text, 1000)
      && epic.businessValue == Some(FallbackBusinessValue)
      && epic.priority == Level.Medium
      && |epic.tasks| == 1
      && var task := epic.tasks[0];
      && task.title == TaskTitlePrefix + Take(first, 150)
      && 10 < |task.title| <= 160
      && task.description == Take(text, 500)
      && task.acceptanceCriteria == FallbackCriteria
      && task.technicalNotes == None
      && task.priority == Level.Medium
      && task.estimatedEffort == None
  {
    var s := ExtractSimple(text, projectKey, issueType).value;
    assert TaskCount(s.epics) == 1;
  }

  /** `ExtractionAgent.extract`: the fallback runs exactly when no client is
      configured. */
  function Extract(
    client: Client<Result<TicketStructure>>,
    text: string,
    projectKey: string,
    issueType: IssueType): (r: Result<TicketStructure>)
    ensures client.NoClient? ==> r == ExtractSimple(text, projectKey, issueType)
    ensures client.Configured? ==> r == client.answer
  {
    match client
    case NoClient => ExtractSimple(text, projectKey, issueType)
    case Configured(answer) => answer
  }

  /** A first line of 5 to 150 characters is taken whole, both as the epic
      title and after the task's "Implement " prefix. */
  lemma ShortFirstLineTitles(text: string, projectKey: string, issueType: IssueType)
    requires ValidProjectKey(projectKey)
    requires !AllSpace(text)
    requires 5 <= |NonBlankLines(text)[0]| <= 150
    ensures
      var r := ExtractSimple(text, projectKey, issueType);
      var first := NonBlankLines(text)[0];
      && r.Ok?
      && |r.value.epics| == 1
      && r.value.epics[0].title == first
      && r.value.epics[0].tasks == [r.value.epics[0].tasks[0]]
      && r.value.epics[0].tasks[0].title == TaskTitlePrefix + first
  {
  }

  /** When the text opens with a line that is neither blank nor padded,
      that line is the first non-blank line. */
  lemma OpeningLine(text: string, first: string, rest: string)
    requires text == first + "\n" + rest
    requires first != [] && IsStripped(first)
    requires forall i :: 0 <= i < |first| ==> first[i] != '\n'
    ensures NonBlankLines(text) != [] && NonBlankLines(text)[0] == first
  {
    SplitPrefixPiece(first, rest, '\n');
    FirstNonBlankLine(Split(text, '\n'), 0);
  }

  /** A text whose opening line is neither blank nor padded, and between 5
      and 150 characters long, gives one epic named after that line, with
      one task named "Implement " followed by that line. */
  lemma OpeningLineTitles(text: string, first: string, rest: string, projectKey: string, issueType: IssueType)
    requires text == first + "\n" + rest
    requires IsStripped(first) && 5 <= |first| <= 150
    requires forall i :: 0 <= i < |first| ==> first[i] != '\n'
    requires ValidProjectKey(projectKey)
    ensures
      var r := ExtractSimple(text, projectKey, issueType);
      && r.Ok?
      && |r.value.epics| == 1
      && r.value.epics[0].title == first
      && |r.value.epics[0].tasks| == 1
      && r.value.epics[0].tasks[0].title == TaskTitlePrefix + first
  {
    assert text[0] == first[0];
    OpeningLine(text, first, rest);
    ShortFirstLineTitles(text, projectKey, issueType);
  }

  /** The opening line of the worked input below. */
  lemma BuildLoginLine()
    ensures IsStripped("Build login.") && |"Build login."| == 12
    ensures forall i :: 0 <= i < |"Build login."| ==> "Build login."[i] != '\n'
    ensures TaskTitlePrefix + "Build login." == "Implement Build login."
  {
  }

  /** A worked input: "Build login.\n\nAdd password reset." yields the single
      epic "Build login." with the single task "Implement Build login."; the
      second paragraph only appears inside the descriptions. */
  lemma TwoParagraphExample(text: string, projectKey: string)
    requires text == "Build login." + "\n" + "\nAdd password reset."
    requires ValidProjectKey(projectKey)
    ensures
      var r := ExtractSimple(text, projectKey, TaskType);
      && r.Ok?
      && |r.value.epics| == 1
      && r.value.epics[0].title == "Build login."
      && |r.value.epics[0].tasks| == 1
      && r.value.epics[0].tasks[0].title == "Implement Build login."
  {
    BuildLoginLine();
    OpeningLineTitles(text, "Build login.", "\nAdd password reset.", projectKey, TaskType);
  }

  /** The first piece of `split(c)` on `a + [c] + b` is `a` when `a` has no `c`. */
  lemma {:induction false} SplitPrefixPiece(a: string, b: string, c: char)
    requires forall i :: 0 <= i < |a| ==> a[i] != c
    ensures Split(a + [c] + b, c)[0] == a
    decreases |a|
  {
    if a == [] {
      assert StartsWith([c] + b, [c]);
    } else {
      assert (a + [c] + b)[1..] == a[1..] + [c] + b;
      SplitPrefixPiece(a[1..], b, c);
      assert a == [a[0]] + a[1..];
    }
  }
}

=== FILE: models.dfy ===
/** The work-item model of models.py: the closed literal sets, the entities
    with their field constraints, the container and its two derived queries.

    pydantic validates at construction time. Each `NewX` function below is the
    class constructor: it takes the raw field values (literal fields as
    strings, as the markdown parser supplies them) and returns either the
    entity, which then satisfies its `Valid` predicate, or the
    `ValidationError` pydantic raises. */
module Models {
  import opened Wrappers
  import opened Strings

  // ---------------------------------------------------------------------
  // Literal sets
  // ---------------------------------------------------------------------

  /** `Priority` and `Severity` are the same four literals. */
  datatype Level = Critical | High | Medium | Low

  type Priority = Level
  type Severity = Level

  datatype EffortSize = Small | Medium | Large

  datatype IssueType = TaskType | BugType | StoryType | EpicOnlyType

  function LevelName(l: Level): string {
    match l
    case Critical => "Critical"
    case High => "High"
    case Medium => "Medium"
    case Low => "Low"
  }

  /** The literal check pydantic applies to a `Priority` or `Severity` field. */
  function ParseLevel(s: string): (r: Option<Level>)
    ensures forall l :: r == Some(l) <==> s == LevelName(l)
  {
    if s == "Critical" then Some(Critical)
    else if s == "High" then Some(High)
    else if s == "Medium" then Some(Level.Medium)
    else if s == "Low" then Some(Low)
    else None
  }

  function EffortName(e: EffortSize): string {
    match e
    case Small => "Small"
    case Medium => "Medium"
    case Large => "Large"
  }

  /** The literal check pydantic applies to an `EffortSize` field. */
  function ParseEffort(s: string): (r: Option<EffortSize>)
    ensures forall e :: r == Some(e) <==> s == EffortName(e)
  {
    if s == "Small" then Some(Small)
    else if s == "Medium" then Some(EffortSize.Medium)
    else if s == "Large" then Some(Large)
    else None
  }

  function IssueTypeName(t: IssueType): string {
    match t
    case TaskType => "task"
    case BugType => "bug"
    case StoryType => "story"
    case EpicOnlyType => "epic-only"
  }

  /** The literal check pydantic applies to the container's `issue_type`. */
  function ParseIssueType(s: string): (r: Option<IssueType>)
    ensures forall t :: r == Some(t) <==> s == IssueTypeName(t)
  {
    if s == "task" then Some(TaskType)
    else if s == "bug" then Some(BugType)
    else if s == "story" then Some(StoryType)
    else if s == "epic-only" then Some(EpicOnlyType)
    else None
  }

  /** An `Optional[EffortSize]` field as the raw value it was built from. */
  function EffortField(e: Option<EffortSize>): Option<string> {
    match e
    case None => None
    case Some(x) => Some(EffortName(x))
  }

  /** An `Optional[EffortSize]` argument passes validation. */
  predicate EffortArgumentOk(e: Option<string>) {
    e.None? || ParseEffort(e.value).Some?
  }

  function ParseEffortArgument(e: Option<string>): (r: Option<EffortSize>)
    requires EffortArgumentOk(e)
    ensures EffortField(r) == e
  {
    match e
    case None => None
    case Some(s) => Some(ParseEffort(s).value)
  }

  /** Python truthiness of an optional string: present and non-empty. */
  predicate Truthy(o: Option<string>) {
    o.Some? && o.value != ""
  }

  // ---------------------------------------------------------------------
  // Project key
  // ---------------------------------------------------------------------

  /** The pattern `^[A-Z][A-Z0-9]{1,9}$`. */
  predicate ValidProjectKey(k: string) {
    && 2 <= |k| <= 10
    && IsUpper(k[0])
    && forall i :: 1 <= i < |k| ==> IsUpper(k[i]) || IsDigit(k[i])
  }

  // ---------------------------------------------------------------------
  // Entities
  // ---------------------------------------------------------------------

  datatype Task = Task(
    title: string,
    description: string,
    acceptanceCriteria: seq<string>,
    technicalNotes: Option<string>,
    priority: Priority,
    estimatedEffort: Option<EffortSize>)
  {
    predicate Valid() {
      5 <= |title| <= 200
    }
  }

  datatype Epic = Epic(
    title: string,
    description: string,
    businessValue: Option<string>,
    priority: Priority,
    tasks: seq<Task>)
  {
    predicate Valid() {
      && 5 <= |title| <= 200
      && forall t <- tasks :: t.Valid()
    }
  }

  datatype Environment = Environment(
    browser: Option<string>,
    os: Option<string>,
    device: Option<string>,
    version: Option<string>,
    userRole: Option<string>,
    dataConditions: Option<string>)

  /** `Environment()` with every field left at `None`. */
  const EmptyEnvironment := Environment(None, None, None, None, None, None)

  datatype TechnicalDetails = TechnicalDetails(
    errorMessage: Option<string>,
    stackTrace: Option<string>,
    consoleLogs: Option<string>,
    affectedCode: Option<string>,
    apiCalls: Option<string>,
    databaseState: Option<string>)

  datatype Bug = Bug(
    summary: string,
    description: string,
    severity: Severity,
    priority: Priority,
    reproductionSteps: seq<string>,
    environment: Environment,
    technicalDetails: Option<TechnicalDetails>,
    acceptanceCriteria: seq<string>,
    suggestedFix: Option<string>)
  {
    predicate Valid() {
      && 10 <= |summary| <= 200
      && |description| >= 20
      && |reproductionSteps| >= 3
    }
  }

  datatype UserStory = UserStory(
    title: string,
    asA: string,
    iWantTo: string,
    soThat: string,
    acceptanceCriteria: seq<string>,
    priority: Priority,
    estimatedEffort: Option<EffortSize>,
    technicalNotes: Option<string>)
  {
    predicate Valid() {
      && 10 <= |title| <= 200
      && |asA| >= 5
      && |iWantTo| >= 10
      && |soThat| >= 10
      && |acceptanceCriteria| >= 3
    }
  }

  /** The container of all tickets extracted in one run. */
  datatype TicketStructure = TicketStructure(
    projectKey: string,
    issueType: IssueType,
    epics: seq<Epic>,
    bugs: seq<Bug>,
    stories: seq<UserStory>)
  {
    predicate Valid() {
      && ValidProjectKey(projectKey)
      && (forall e <- epics :: e.Valid())
      && (forall b <- bugs :: b.Valid())
      && (forall s <- stories :: s.Valid())
    }

    /** `has_content`: there is at least one ticket of some kind. */
    predicate HasContent() {
      epics != [] || bugs != [] || stories != []
    }

    /** `count_total_items`: epics, the tasks under them, bugs and stories. */
    function CountTotalItems(): (n: nat)
      ensures n >= |epics| + |bugs| + |stories|
      ensures n > 0 <==> HasContent()
      ensures n == |epics| + |AllTasks(epics)| + |bugs| + |stories|
    {
      AllTasksCount(epics);
      |epics| + TaskCount(epics) + |bugs| + |stories|
    }
  }

  /** Number of tasks summed over the epics, as `count_total_items` sums it. */
  function TaskCount(epics: seq<Epic>): nat {
    if epics == [] then 0 else |epics[0].tasks| + TaskCount(epics[1..])
  }

  /** Every task of every epic, epic by epic, in order. */
  function AllTasks(epics: seq<Epic>): seq<Task> {
    if epics == [] then [] else epics[0].tasks + AllTasks(epics[1..])
  }

  /** The sum in `count_total_items` counts exactly the tasks the epics hold. */
  lemma {:induction false} AllTasksCount(epics: seq<Epic>)
    ensures TaskCount(epics) == |AllTasks(epics)|
  {
    if epics != [] {
      AllTasksCount(epics[1..]);
    }
  }

  // ---------------------------------------------------------------------
  // Validating constructors
  // ---------------------------------------------------------------------

  function NewTask(
    title: string,
    description: string,
    acceptanceCriteria: seq<string>,
    technicalNotes: Option<string>,
    priority: string,
    estimatedEffort: Option<string>): (r: Result<Task>)
    ensures r.Ok? <==>
      5 <= |title| <= 200 && ParseLevel(priority).Some? && EffortArgumentOk(estimatedEffort)
    ensures r.Ok? ==>
      && r.value.Valid()
      && r.value.title == title
      && r.value.description == description
      && r.value.acceptanceCriteria == acceptanceCriteria
      && r.value.technicalNotes == technicalNotes
      && LevelName(r.value.priority) == priority
      && EffortField(r.value.estimatedEffort) == estimatedEffort
    ensures r.Err? ==> r.error == ValidationError("Task")
  {
    if 5 <= |title| <= 200 && ParseLevel(priority).Some? && EffortArgumentOk(estimatedEffort) then
      Ok(Task(title, description, acceptanceCriteria, technicalNotes,
              ParseLevel(priority).value, ParseEffortArgument(estimatedEffort)))
    else
      Err(ValidationError("Task"))
  }

  function NewEpic(
    title: string,
    description: string,
    businessValue: Option<string>,
    priority: string,
    tasks: seq<Task>): (r: Result<Epic>)
    requires forall t <- tasks :: t.Valid()
    ensures r.Ok? <==> 5 <= |title| <= 200 && ParseLevel(priority).Some?
    ensures r.Ok? ==>
      && r.value.Valid()
      && r.value.title == title
      && r.value.description == description
      && r.value.businessValue == businessValue
      && LevelName(r.value.priority) == priority
      && r.value.tasks == tasks
    ensures r.Err? ==> r.error == ValidationError("Epic")
  {
    if 5 <= |title| <= 200 && ParseLevel(priority).Some? then
      Ok(Epic(title, description, businessValue, ParseLevel(priority).value, tasks))
    else
      Err(ValidationError("Epic"))
  }

  function NewBug(
    summary: string,
    description: string,
    severity: string,
    priority: string,
    reproductionSteps: seq<string>,
    environment: Environment,
    technicalDetails: Option<TechnicalDetails>,
    acceptanceCriteria: seq<string>,
    suggestedFix: Option<string>): (r: Result<Bug>)
    ensures r.Ok? <==>
      && 10 <= |summary| <= 200
      && |description| >= 20
      && ParseLevel(severity).Some?
      && ParseLevel(priority).Some?
      && |reproductionSteps| >= 3
    ensures r.Ok? ==>
      && r.value.Valid()
      && r.value.summary == summary
      && r.value.description == description
      && LevelName(r.value.severity) == severity
      && LevelName(r.value.priority) == priority
      && r.value.reproductionSteps == reproductionSteps
      && r.value.environment == environment
      && r.value.technicalDetails == technicalDetails
      && r.value.acceptanceCriteria == acceptanceCriteria
      && r.value.suggestedFix == suggestedFix
    ensures r.Err? ==> r.error == ValidationError("Bug")
  {
    if && 10 <= |summary| <= 200
       && |description| >= 20
       && ParseLevel(severity).Some?
       && ParseLevel(priority).Some?
       && |reproductionSteps| >= 3
    then
      Ok(Bug(summary, description, ParseLevel(severity).value, ParseLevel(priority).value,
             reproductionSteps, environment, technicalDetails, acceptanceCriteria, suggestedFix))
    else
      Err(ValidationError("Bug"))
  }

  function NewUserStory(
    title: string,
    asA: string,
    iWantTo: string,
    soThat: string,
    acceptanceCriteria: seq<string>,
    priority: string,
    estimatedEffort: Option<string>,
    technicalNotes: Option<string>): (r: Result<UserStory>)
    ensures r.Ok? <==>
      && 10 <= |title| <= 200
      && |asA| >= 5
      && |iWantTo| >= 10
      && |soThat| >= 10
      && |acceptanceCriteria| >= 3
      && ParseLevel(priority).Some?
      && EffortArgumentOk(estimatedEffort)
    ensures r.Ok? ==>
      && r.value.Valid()
      && r.value.title == title
      && r.value.asA == asA
      && r.value.iWantTo == iWantTo
      && r.value.soThat == soThat
      && r.value.acceptanceCriteria == acceptanceCriteria
      && LevelName(r.value.priority) == priority
      && EffortField(r.value.estimatedEffort) == estimatedEffort
      && r.value.technicalNotes == technicalNotes
    ensures r.Err? ==> r.error == ValidationError("UserStory")
  {
    if && 10 <= |title| <= 200
       && |asA| >= 5
       && |iWantTo| >= 10
       && |soThat| >= 10
       && |acceptanceCriteria| >= 3
       && ParseLevel(priority).Some?
       && EffortArgumentOk(estimatedEffort)
    then
      Ok(UserStory(title, asA, iWantTo, soThat, acceptanceCriteria,
                   ParseLevel(priority).value, ParseEffortArgument(estimatedEffort), technicalNotes))
    else
      Err(ValidationError("UserStory"))
  }

  /** `TicketStructure(...)`; the list items are already-built entities. */
  function NewTicketStructure(
    projectKey: string,
    issueType: string,
    epics: seq<Epic>,
    bugs: seq<Bug>,
    stories: seq<UserStory>): (r: Result<TicketStructure>)
    requires forall e <- epics :: e.Valid()
    requires forall b <- bugs :: b.Valid()
    requires forall s <- stories :: s.Valid()
    ensures r.Ok? <==> ValidProjectKey(projectKey) && ParseIssueType(issueType).Some?
    ensures r.Ok? ==>
      && r.value.Valid()
      && r.value.projectKey == projectKey
      && IssueTypeName(r.value.issueType) == issueType
      && r.value.epics == epics
      && r.value.bugs == bugs
      && r.value.stories == stories
    ensures r.Err? ==> r.error == ValidationError("TicketStructure")
  {
    if ValidProjectKey(projectKey) && ParseIssueType(issueType).Some? then
      Ok(TicketStructure(projectKey, ParseIssueType(issueType).value, epics, bugs, stories))
    else
      Err(ValidationError("TicketStructure"))
  }

  // ---------------------------------------------------------------------
  // Facts about the model
  // ---------------------------------------------------------------------

  /** The key examples: "PROJ" passes, "proj" and "P" do not. */
  lemma ProjectKeyExamples()
    ensures ValidProjectKey("PROJ")
    ensures !ValidProjectKey("proj")
    ensures !ValidProjectKey("P")
    ensures !ValidProjectKey("1PROJ")
    ensures !ValidProjectKey("ABCDEFGHIJK")
  {
  }

  /** A valid key holds neither whitespace nor lower-case letters nor `_`,
      so `strip()`, `lower()`-free comparison and `_`-separated file names
      leave it intact. */
  lemma ValidKeyShape(k: string)
    requires ValidProjectKey(k)
    ensures IsStripped(k)
    ensures forall i :: 0 <= i < |k| ==> k[i] != '_' && k[i] != ' ' && k[i] != '\n'
    ensures Strip(k) == k
  {
  }
}

=== FILE: numbering.dfy ===
/** How the markdown writer numbers what it writes: the headings of a
    document, picked out of its entries in order, are the epics, bugs or
    stories numbered from 1, and the task headings of every epic are
    numbered from 1 again under the epic's own number. */
module Numbering {
  import opened Wrappers
  import opened Strings
  import opened Models
  import Render

  /** The entries that start with `marker`, in order. */
  function Marked(ls: seq<string>, marker: string): (r: seq<string>)
    ensures |r| <= |ls|
    ensures forall l <- r :: StartsWith(l, marker)
  {
    if ls == [] then []
    else (if StartsWith(ls[0], marker) then [ls[0]] else []) + Marked(ls[1..], marker)
  }

  lemma {:induction false} MarkedAppend(a: seq<string>, b: seq<string>, marker: string)
    ensures Marked(a + b, marker) == Marked(a, marker) + Marked(b, marker)
  {
    if a != [] {
      assert (a + b)[0] == a[0];
      assert (a + b)[1..] == a[1..] + b;
      MarkedAppend(a[1..], b, marker);
    } else {
      assert a + b == b;
    }
  }

  /** Entries none of which starts with the marker contribute nothing. */
  lemma {:induction false} MarkedNone(ls: seq<string>, marker: string)
    requires forall l <- ls :: !StartsWith(l, marker)
    ensures Marked(ls, marker) == []
  {
    if ls != [] {
      assert ls[0] in ls;
      assert forall l <- ls[1..] :: l in ls;
      MarkedNone(ls[1..], marker);
    }
  }

  /** One marked entry followed by unmarked ones. */
  lemma MarkedHead(h: string, body: seq<string>, marker: string)
    requires StartsWith(h, marker)
    requires forall l <- body :: !StartsWith(l, marker)
    ensures Marked([h] + body, marker) == [h]
  {
    MarkedAppend([h], body, marker);
    MarkedNone(body, marker);
  }

  /** An entry that is empty or opens with something other than `#`. */
  predicate NoHash(l: string) {
    l == [] || l[0] != '#'
  }

  /** No heading marker starts an entry that does not open with `#`. */
  lemma NoHashUnmarked(ls: seq<string>, marker: string)
    requires marker != [] && marker[0] == '#'
    requires forall l <- ls :: NoHash(l)
    ensures forall l <- ls :: !StartsWith(l, marker)
  {
    forall l <- ls ensures !StartsWith(l, marker) {
      if |marker| <= |l| {
        assert l[..|marker|][0] == l[0];
      }
    }
  }

  /** A string that differs from the marker at position `j`, with both long
      enough, does not start with it. */
  lemma DiffersAt(l: string, marker: string, j: nat)
    requires j < |l| && j < |marker| && l[j] != marker[j]
    ensures !StartsWith(l, marker)
  {
    if |marker| <= |l| {
      assert l[..|marker|][j] == l[j];
    }
  }

  lemma StartsWithFront(front: string, rest: string)
    ensures StartsWith(front + rest, front)
  {
    assert (front + rest)[..|front|] == front;
  }

  /** Every second-level heading opens with this, whatever it heads. */
  const SectionMark := "## "

  /** A heading that opens with a longer marker opens with the shorter one
      that marker opens with. */
  lemma Coarser(h: string, mark: string)
    requires StartsWith(h, mark) && StartsWith(mark, SectionMark)
    ensures StartsWith(h, SectionMark)
  {
    assert h[..|SectionMark|] == mark[..|SectionMark|];
  }

  // ---------------------------------------------------------------------
  // The entries that are not headings
  // ---------------------------------------------------------------------

  lemma CriteriaBlockNoHash(heading: string, items: seq<string>)
    requires NoHash(heading)
    ensures forall l <- Render.CriteriaBlock(heading, items) :: NoHash(l)
  {
    if items != [] {
      var bullets := Render.Bullets(items);
      forall l <- bullets ensures NoHash(l) {
        var k :| 0 <= k < |items| && l == bullets[k];
        assert l[0] == '-';
      }
      assert Render.CriteriaBlock(heading, items) == [heading] + bullets + [""];
    }
  }

  lemma NotesNoHash(notes: Option<string>)
    ensures forall l <- Render.NotesLine(notes) :: NoHash(l)
  {
  }

  /** The effort entry opens with a blank. */
  lemma EffortNoHash(e: Option<EffortSize>)
    ensures forall l <- Render.EffortEntry(e) :: NoHash(l)
  {
  }

  /** Every entry of a task after its heading. */
  lemma TaskBodyNoHash(i: nat, j: nat, t: Task)
    ensures forall l <- Render.TaskLinesAsWritten(i, j, t)[1..] :: NoHash(l)
  {
    var block := Render.CriteriaBlock(Render.CriteriaLabel, t.acceptanceCriteria);
    var notes := Render.NotesLine(t.technicalNotes);
    var opening := ["**Description**: " + t.description + "\n", "**Priority**: " + LevelName(t.priority)]
                   + Render.EffortEntry(t.estimatedEffort) + ["\n"];
    assert Render.TaskLinesAsWritten(i, j, t)[1..] == opening + block + notes + [Render.Separator];
    CriteriaBlockNoHash(Render.CriteriaLabel, t.acceptanceCriteria);
    NotesNoHash(t.technicalNotes);
    EffortNoHash(t.estimatedEffort);
  }

  // ---------------------------------------------------------------------
  // Tasks
  // ---------------------------------------------------------------------

  const TaskMark := "#### Task "

  /** The headings of tasks numbered `i.j`, `i.(j+1)`, ... */
  function TaskHeadings(i: nat, j: nat, tasks: seq<Task>): (r: seq<string>)
    ensures |r| == |tasks|
  {
    seq(|tasks|, k requires 0 <= k < |tasks| => Render.TaskHeading(i, j + k, tasks[k].title))
  }

  lemma TaskHeadingMarked(i: nat, j: nat, title: string)
    ensures StartsWith(Render.TaskHeading(i, j, title), TaskMark)
  {
    StartsWithFront(TaskMark, NatToString(i) + "." + NatToString(j) + ": " + title + "\n");
    assert Render.TaskHeading(i, j, title) == TaskMark + (NatToString(i) + "." + NatToString(j) + ": " + title + "\n");
  }

  /** A task contributes its own heading and nothing else. */
  lemma TaskMarked(i: nat, j: nat, t: Task)
    ensures Marked(Render.TaskLinesAsWritten(i, j, t), TaskMark) == [Render.TaskHeading(i, j, t.title)]
  {
    var ls := Render.TaskLinesAsWritten(i, j, t);
    TaskBodyNoHash(i, j, t);
    NoHashUnmarked(ls[1..], TaskMark);
    TaskHeadingMarked(i, j, t.title);
    assert ls == [ls[0]] + ls[1..];
    MarkedHead(ls[0], ls[1..], TaskMark);
  }

  /** The task headings of a run of tasks are numbered on from `j`. */
  lemma {:induction false} TasksMarked(i: nat, j: nat, tasks: seq<Task>)
    ensures Marked(Render.TasksLines(i, j, tasks), TaskMark) == TaskHeadings(i, j, tasks)
    decreases |tasks|
  {
    if tasks != [] {
      assert Render.TasksLines(i, j, tasks) == Render.TaskLinesAsWritten(i, j, tasks[0]) + Render.TasksLines(i, j + 1, tasks[1..]);
      MarkedAppend(Render.TaskLinesAsWritten(i, j, tasks[0]), Render.TasksLines(i, j + 1, tasks[1..]), TaskMark);
      TaskMarked(i, j, tasks[0]);
      TasksMarked(i, j + 1, tasks[1..]);
      TaskHeadingsCons(i, j, tasks);
    }
  }

  lemma TaskHeadingsCons(i: nat, j: nat, tasks: seq<Task>)
    requires tasks != []
    ensures TaskHeadings(i, j, tasks) == [Render.TaskHeading(i, j, tasks[0].title)] + TaskHeadings(i, j + 1, tasks[1..])
  {
    var r := [Render.TaskHeading(i, j, tasks[0].title)] + TaskHeadings(i, j + 1, tasks[1..]);
    forall k | 0 <= k < |tasks| ensures TaskHeadings(i, j, tasks)[k] == r[k] {
      if k > 0 {
        assert r[k] == TaskHeadings(i, j + 1, tasks[1..])[k - 1];
        assert tasks[1..][k - 1] == tasks[k];
      }
    }
  }

  // ---------------------------------------------------------------------
  // Epics
  // ---------------------------------------------------------------------

  const EpicMark := "## Epic "

  /** The entries of an epic between its heading and its tasks. */
  function EpicOpening(e: Epic): seq<string> {
    ["**Description**: " + e.description + "\n"]
    + (if Truthy(e.businessValue) then ["**Business Value**: " + e.businessValue.value + "\n"] else [])
    + ["**Priority**: " + LevelName(e.priority) + "\n"]
  }

  /** The task block of an epic: a count line and the tasks. */
  function EpicTasks(i: nat, e: Epic): seq<string> {
    if e.tasks != [] then ["\n### Tasks (" + NatToString(|e.tasks|) + ")\n"] + Render.TasksLines(i, 1, e.tasks) else []
  }

  lemma EpicParts(i: nat, e: Epic)
    ensures Render.EpicLines(i, e) == [Render.EpicHeading(i, e.title)] + EpicOpening(e) + EpicTasks(i, e) + ["\n"]
  {
    var bv := if Truthy(e.businessValue) then ["**Business Value**: " + e.businessValue.value + "\n"] else [];
    FrontOfFour(Render.EpicHeading(i, e.title), "**Description**: " + e.description + "\n", bv,
                ["**Priority**: " + LevelName(e.priority) + "\n"]);
  }

  lemma FrontOfFour(x: string, y: string, b: seq<string>, c: seq<string>)
    ensures [x, y] + b + c == [x] + ([y] + b + c)
  {
  }


  lemma EpicOpeningNoHash(e: Epic)
    ensures forall l <- EpicOpening(e) + ["\n"] :: NoHash(l)
  {
  }

  /** The task headings under an epic are the epic's tasks numbered from 1
      under the epic's number. */
  lemma EpicTaskHeadings(i: nat, e: Epic)
    ensures Marked(Render.EpicLines(i, e), TaskMark) == TaskHeadings(i, 1, e.tasks)
  {
    var h := Render.EpicHeading(i, e.title);
    EpicParts(i, e);
    EpicHeadingNoTask(h);
    EpicOpeningUnmarked(e, TaskMark);
    EpicTasksMarked(i, e);
    MarkedFour([h], EpicOpening(e), EpicTasks(i, e), ["\n"], TaskMark, TaskHeadings(i, 1, e.tasks));
  }

  /** Four runs of entries of which only the third holds marked ones. */
  lemma MarkedFour(a: seq<string>, b: seq<string>, c: seq<string>, d: seq<string>, marker: string, r: seq<string>)
    requires Marked(a, marker) == [] && Marked(b, marker) == [] && Marked(c, marker) == r && Marked(d, marker) == []
    ensures Marked(a + b + c + d, marker) == r
  {
    MarkedAppend(a + b + c, d, marker);
    MarkedAppend(a + b, c, marker);
    MarkedAppend(a, b, marker);
  }

  lemma EpicHeadingNoTask(h: string)
    requires |h| > 2 && h[2] == ' '
    ensures Marked([h], TaskMark) == []
  {
    DiffersAt(h, TaskMark, 2);
    MarkedNone([h], TaskMark);
  }

  lemma EpicOpeningUnmarked(e: Epic, marker: string)
    requires marker != [] && marker[0] == '#'
    ensures Marked(EpicOpening(e), marker) == [] && Marked(["\n"], marker) == []
  {
    EpicOpeningNoHash(e);
    NoHashUnmarked(EpicOpening(e) + ["\n"], marker);
    forall l <- EpicOpening(e) ensures !StartsWith(l, marker) {
      assert l in EpicOpening(e) + ["\n"];
    }
    MarkedNone(EpicOpening(e), marker);
    assert "\n" in EpicOpening(e) + ["\n"];
    MarkedNone(["\n"], marker);
  }

  /** The task headings of an epic's task block. */
  lemma EpicTasksMarked(i: nat, e: Epic)
    ensures Marked(EpicTasks(i, e), TaskMark) == TaskHeadings(i, 1, e.tasks)
  {
    if e.tasks != [] {
      var count := "\n### Tasks (" + NatToString(|e.tasks|) + ")\n";
      MarkedAppend([count], Render.TasksLines(i, 1, e.tasks), TaskMark);
      NoHashUnmarked([count], TaskMark);
      MarkedNone([count], TaskMark);
      TasksMarked(i, 1, e.tasks);
    } else {
      assert TaskHeadings(i, 1, e.tasks) == [];
    }
  }

  /** No task entry starts with a second-level marker: the task heading
      has a `#` where the marker has a blank. */
  lemma {:induction false} TasksUnmarked(i: nat, j: nat, tasks: seq<Task>, marker: string)
    requires marker == EpicMark || marker == SectionMark
    ensures Marked(Render.TasksLines(i, j, tasks), marker) == []
    decreases |tasks|
  {
    if tasks != [] {
      TaskUnmarked(i, j, tasks[0], marker);
      TasksUnmarked(i, j + 1, tasks[1..], marker);
      UnmarkedOver(Render.TaskLinesAsWritten(i, j, tasks[0]), Render.TasksLines(i, j + 1, tasks[1..]), marker);
    }
  }

  /** Unmarked entries in front of entries none of which is marked. */
  lemma UnmarkedOver(ls: seq<string>, rest: seq<string>, marker: string)
    requires forall l <- ls :: !StartsWith(l, marker)
    requires Marked(rest, marker) == []
    ensures Marked(ls + rest, marker) == []
  {
    MarkedAppend(ls, rest, marker);
    MarkedNone(ls, marker);
  }


  lemma TaskUnmarked(i: nat, j: nat, t: Task, marker: string)
    requires |marker| >= 3 && marker[0] == '#' && marker[2] == ' '
    ensures forall l <- Render.TaskLinesAsWritten(i, j, t) :: !StartsWith(l, marker)
  {
    var ls := Render.TaskLinesAsWritten(i, j, t);
    TaskBodyNoHash(i, j, t);
    NoHashUnmarked(ls[1..], marker);
    assert ls[0][2] == '#';
    DiffersAt(ls[0], marker, 2);
    assert ls == [ls[0]] + ls[1..];
    forall l <- ls ensures !StartsWith(l, marker) {
      if l != ls[0] {
        assert l in ls[1..];
      }
    }
  }

  lemma EpicHeadingMarked(i: nat, title: string)
    ensures StartsWith(Render.EpicHeading(i, title), EpicMark)
  {
    StartsWithFront(EpicMark, NatToString(i) + ": " + title + "\n");
    assert Render.EpicHeading(i, title) == EpicMark + (NatToString(i) + ": " + title + "\n");
  }

  /** An epic contributes its own heading and nothing else. */
  lemma EpicMarked(i: nat, e: Epic, marker: string)
    requires marker == EpicMark || marker == SectionMark
    ensures Marked(Render.EpicLines(i, e), marker) == [Render.EpicHeading(i, e.title)]
  {
    var h := Render.EpicHeading(i, e.title);
    EpicParts(i, e);
    EpicHeadingMarked(i, e.title);
    if marker == SectionMark {
      Coarser(h, marker);
    }
    EpicOpeningUnmarked(e, marker);
    EpicTasksUnmarked(i, e, marker);
    LeadOverThree(h, EpicOpening(e), EpicTasks(i, e), ["\n"], marker);
  }

  /** A marked entry in front of three runs none of which is marked. */
  lemma LeadOverThree(h: string, b: seq<string>, c: seq<string>, d: seq<string>, marker: string)
    requires StartsWith(h, marker)
    requires Marked(b, marker) == [] && Marked(c, marker) == [] && Marked(d, marker) == []
    ensures Marked([h] + b + c + d, marker) == [h]
  {
    MarkedSplitFour([h], b, c, d, marker);
    MarkedSingle(h, marker);
  }

  lemma MarkedSplitFour(a: seq<string>, b: seq<string>, c: seq<string>, d: seq<string>, marker: string)
    ensures Marked(a + b + c + d, marker) == Marked(a, marker) + Marked(b, marker) + Marked(c, marker) + Marked(d, marker)
  {
    MarkedAppend(a + b + c, d, marker);
    MarkedAppend(a + b, c, marker);
    MarkedAppend(a, b, marker);
  }

  lemma MarkedSingle(h: string, marker: string)
    requires StartsWith(h, marker)
    ensures Marked([h], marker) == [h]
  {
    assert [h][1..] == [];
  }

  /** No entry of an epic's task block starts with an epic or section
      marker. */
  lemma EpicTasksUnmarked(i: nat, e: Epic, marker: string)
    requires marker == EpicMark || marker == SectionMark
    ensures Marked(EpicTasks(i, e), marker) == []
  {
    if e.tasks != [] {
      var count := "\n### Tasks (" + NatToString(|e.tasks|) + ")\n";
      MarkedAppend([count], Render.TasksLines(i, 1, e.tasks), marker);
      NoHashUnmarked([count], marker);
      MarkedNone([count], marker);
      TasksUnmarked(i, 1, e.tasks, marker);
    }
  }

  /** The headings of epics numbered on from `i`. */
  function EpicHeadings(i: nat, epics: seq<Epic>): (r: seq<string>)
    ensures |r| == |epics|
  {
    seq(|epics|, k requires 0 <= k < |epics| => Render.EpicHeading(i + k, epics[k].title))
  }

  lemma {:induction false} EpicsMarked(i: nat, epics: seq<Epic>, marker: string)
    requires marker == EpicMark || marker == SectionMark
    ensures Marked(Render.EpicsFrom(i, epics), marker) == EpicHeadings(i, epics)
    decreases |epics|
  {
    if epics != [] {
      assert Render.EpicsFrom(i, epics) == Render.EpicLines(i, epics[0]) + Render.EpicsFrom(i + 1, epics[1..]);
      MarkedAppend(Render.EpicLines(i, epics[0]), Render.EpicsFrom(i + 1, epics[1..]), marker);
      EpicMarked(i, epics[0], marker);
      EpicsMarked(i + 1, epics[1..], marker);
      EpicHeadingsCons(i, epics);
    }
  }

  lemma EpicHeadingsCons(i: nat, epics: seq<Epic>)
    requires epics != []
    ensures EpicHeadings(i, epics) == [Render.EpicHeading(i, epics[0].title)] + EpicHeadings(i + 1, epics[1..])
  {
    var r := [Render.EpicHeading(i, epics[0].title)] + EpicHeadings(i + 1, epics[1..]);
    forall k | 0 <= k < |epics| ensures EpicHeadings(i, epics)[k] == r[k] {
      if k > 0 {
        assert r[k] == EpicHeadings(i + 1, epics[1..])[k - 1];
        assert epics[1..][k - 1] == epics[k];
      }
    }
  }

  /** `_format_epics` numbers the epics from 1, in order. */
  lemma EpicNumbering(epics: seq<Epic>)
    ensures Marked(Render.FormatEpics(epics), EpicMark) == EpicHeadings(1, epics)
  {
    EpicsMarked(1, epics, EpicMark);
  }

  // ---------------------------------------------------------------------
  // Bugs
  // ---------------------------------------------------------------------

  const BugMark := "## Bug "

  lemma EntryNoHash(name: string, value: Option<string>)
    ensures forall l <- Render.EntryLine(name, value) :: NoHash(l)
  {
  }

  lemma StepsNoHash(steps: seq<string>)
    ensures forall l <- Render.StepsLines(steps) :: NoHash(l)
  {
    if steps != [] {
      var numbered := Render.NumberedFrom(1, steps);
      forall l <- numbered ensures NoHash(l) {
        var k :| 0 <= k < |steps| && l == numbered[k];
        var n := NatToString(1 + k);
        assert l == n + ". " + steps[k];
        assert l[0] == n[0];
        assert IsDigit(n[0]);
      }
      assert Render.StepsLines(steps) == ["\n**Reproduction Steps**:"] + numbered + [""];
    }
  }

  lemma EnvironmentNoHash(env: Environment)
    ensures forall l <- Render.EnvironmentLines(env) :: NoHash(l)
  {
    EntryNoHash("Browser", env.browser);
    EntryNoHash("OS", env.os);
    EntryNoHash("Device", env.device);
    EntryNoHash("User Role", env.userRole);
    EntryNoHash("Data Conditions", env.dataConditions);
  }

  lemma TechnicalNoHash(tech: Option<TechnicalDetails>)
    ensures forall l <- Render.TechnicalLines(tech) :: NoHash(l)
  {
    if tech.Some? {
      var t := tech.value;
      EntryNoHash("Error", t.errorMessage);
      EntryNoHash("Console", t.consoleLogs);
      EntryNoHash("Code", t.affectedCode);
      EntryNoHash("API", t.apiCalls);
      EntryNoHash("Stack Trace", t.stackTrace);
    }
  }

  /** The entries of a bug after its severity line. */
  function BugTail(b: Bug): seq<string> {
    Render.StepsLines(b.reproductionSteps)
    + Render.EnvironmentLines(b.environment)
    + Render.TechnicalLines(b.technicalDetails)
    + Render.CriteriaBlock(Render.FixCriteriaLabel, b.acceptanceCriteria)
    + (if Truthy(b.suggestedFix) then ["**Suggested Fix**: " + b.suggestedFix.value + "\n"] else [])
    + [Render.Separator]
  }

  lemma BugTailNoHash(b: Bug)
    ensures forall l <- BugTail(b) :: NoHash(l)
  {
    StepsNoHash(b.reproductionSteps);
    EnvironmentNoHash(b.environment);
    TechnicalNoHash(b.technicalDetails);
    CriteriaBlockNoHash(Render.FixCriteriaLabel, b.acceptanceCriteria);
  }

  lemma NoHashConcat(a: seq<string>, b: seq<string>)
    requires forall l <- a :: NoHash(l)
    requires forall l <- b :: NoHash(l)
    ensures forall l <- a + b :: NoHash(l)
  {
  }

  lemma BugFrontNoHash(b: Bug)
    ensures forall l <- BugFront(b) :: NoHash(l)
  {
    assert BugFront(b)[0][0] == '*';
    assert BugFront(b)[1][0] == '*';
  }

  /** The description and severity entries of a bug. */
  function BugFront(b: Bug): seq<string> {
    ["**Description**: " + b.description + "\n",
     "**Severity**: " + LevelName(b.severity) + " | **Priority**: " + LevelName(b.priority) + "\n"]
  }

  lemma Regroup(h: string, f: seq<string>, s: seq<string>, e: seq<string>, t: seq<string>,
                 c: seq<string>, x: seq<string>, z: seq<string>)
    ensures ([h] + f) + s + e + t + c + x + z == [h] + (f + (s + e + t + c + x + z))
  {
  }

  lemma BugLinesSplit(i: nat, b: Bug)
    ensures Render.BugLines(i, b) == [Render.BugHeading(i, b.summary)] + (BugFront(b) + BugTail(b))
  {
    var h := Render.BugHeading(i, b.summary);
    var s := Render.StepsLines(b.reproductionSteps);
    var e := Render.EnvironmentLines(b.environment);
    var t := Render.TechnicalLines(b.technicalDetails);
    var c := Render.CriteriaBlock(Render.FixCriteriaLabel, b.acceptanceCriteria);
    var x := if Truthy(b.suggestedFix) then ["**Suggested Fix**: " + b.suggestedFix.value + "\n"] else [];
    var z := [Render.Separator];
    assert [h] + BugFront(b) == [h, BugFront(b)[0], BugFront(b)[1]];
    assert Render.BugLines(i, b) == ([h] + BugFront(b)) + s + e + t + c + x + z;
    Regroup(h, BugFront(b), s, e, t, c, x, z);
  }

  /** Every entry of a bug after its heading. */
  lemma BugBodyNoHash(i: nat, b: Bug)
    ensures forall l <- Render.BugLines(i, b)[1..] :: NoHash(l)
  {
    BugLinesSplit(i, b);
    assert Render.BugLines(i, b)[1..] == BugFront(b) + BugTail(b);
    BugFrontNoHash(b);
    BugTailNoHash(b);
    NoHashConcat(BugFront(b), BugTail(b));
  }

  lemma BugHeadingMarked(i: nat, summary: string)
    ensures StartsWith(Render.BugHeading(i, summary), BugMark)
  {
    StartsWithFront(BugMark, NatToString(i) + ": " + summary + "\n");
    assert Render.BugHeading(i, summary) == BugMark + (NatToString(i) + ": " + summary + "\n");
  }

  lemma BugMarked(i: nat, b: Bug, marker: string)
    requires marker == BugMark || marker == SectionMark
    ensures Marked(Render.BugLines(i, b), marker) == [Render.BugHeading(i, b.summary)]
  {
    var ls := Render.BugLines(i, b);
    BugBodyNoHash(i, b);
    NoHashUnmarked(ls[1..], marker);
    BugHeadingMarked(i, b.summary);
    if marker == SectionMark {
      Coarser(ls[0], BugMark);
    }
    assert ls == [ls[0]] + ls[1..];
    MarkedHead(ls[0], ls[1..], marker);
  }

  /** The headings of bugs numbered on from `i`. */
  function BugHeadings(i: nat, bugs: seq<Bug>): (r: seq<string>)
    ensures |r| == |bugs|
  {
    seq(|bugs|, k requires 0 <= k < |bugs| => Render.BugHeading(i + k, bugs[k].summary))
  }

  lemma BugHeadingsCons(i: nat, bugs: seq<Bug>)
    requires bugs != []
    ensures BugHeadings(i, bugs) == [Render.BugHeading(i, bugs[0].summary)] + BugHeadings(i + 1, bugs[1..])
  {
    var r := [Render.BugHeading(i, bugs[0].summary)] + BugHeadings(i + 1, bugs[1..]);
    forall k | 0 <= k < |bugs| ensures BugHeadings(i, bugs)[k] == r[k] {
      if k > 0 {
        assert r[k] == BugHeadings(i + 1, bugs[1..])[k - 1];
        assert bugs[1..][k - 1] == bugs[k];
      }
    }
  }

  lemma {:induction false} BugsMarked(i: nat, bugs: seq<Bug>, marker: string)
    requires marker == BugMark || marker == SectionMark
    ensures Marked(Render.BugsFrom(i, bugs), marker) == BugHeadings(i, bugs)
    decreases |bugs|
  {
    if bugs != [] {
      assert Render.BugsFrom(i, bugs) == Render.BugLines(i, bugs[0]) + Render.BugsFrom(i + 1, bugs[1..]);
      MarkedAppend(Render.BugLines(i, bugs[0]), Render.BugsFrom(i + 1, bugs[1..]), marker);
      BugMarked(i, bugs[0], marker);
      BugsMarked(i + 1, bugs[1..], marker);
      BugHeadingsCons(i, bugs);
    }
  }

  /** `_format_bugs` numbers the bugs from 1, in order. */
  lemma BugNumbering(bugs: seq<Bug>)
    ensures Marked(Render.FormatBugs(bugs), BugMark) == BugHeadings(1, bugs)
  {
    BugsMarked(1, bugs, BugMark);
  }

  // ---------------------------------------------------------------------
  // Stories
  // ---------------------------------------------------------------------

  const StoryMark := "## Story "

  /** Every entry of a story after its heading. */
  lemma StoryBodyNoHash(i: nat, st: UserStory)
    ensures forall l <- Render.StoryLinesAsWritten(i, st)[1..] :: NoHash(l)
  {
    var block := Render.CriteriaBlock(Render.CriteriaLabel, st.acceptanceCriteria);
    var notes := Render.NotesLine(st.technicalNotes);
    var mid := ["**Priority**: " + LevelName(st.priority)] + Render.EffortEntry(st.estimatedEffort) + ["\n"];
    assert Render.StoryLinesAsWritten(i, st)[1..] == Render.StoryTriad(st) + mid + block + notes + [Render.Separator];
    CriteriaBlockNoHash(Render.CriteriaLabel, st.acceptanceCriteria);
    NotesNoHash(st.technicalNotes);
    EffortNoHash(st.estimatedEffort);
  }

  lemma StoryHeadingMarked(i: nat, title: string)
    ensures StartsWith(Render.StoryHeading(i, title), StoryMark)
  {
    StartsWithFront(StoryMark, NatToString(i) + ": " + title + "\n");
    assert Render.StoryHeading(i, title) == StoryMark + (NatToString(i) + ": " + title + "\n");
  }

  lemma StoryMarked(i: nat, st: UserStory, marker: string)
    requires marker == StoryMark || marker == SectionMark
    ensures Marked(Render.StoryLinesAsWritten(i, st), marker) == [Render.StoryHeading(i, st.title)]
  {
    var ls := Render.StoryLinesAsWritten(i, st);
    StoryBodyNoHash(i, st);
    NoHashUnmarked(ls[1..], marker);
    StoryHeadingMarked(i, st.title);
    if marker == SectionMark {
      Coarser(ls[0], StoryMark);
    }
    assert ls == [ls[0]] + ls[1..];
    MarkedHead(ls[0], ls[1..], marker);
  }

  /** The headings of stories numbered on from `i`. */
  function StoryHeadings(i: nat, stories: seq<UserStory>): (r: seq<string>)
    ensures |r| == |stories|
  {
    seq(|stories|, k requires 0 <= k < |stories| => Render.StoryHeading(i + k, stories[k].title))
  }

  lemma StoryHeadingsCons(i: nat, stories: seq<UserStory>)
    requires stories != []
    ensures StoryHeadings(i, stories) == [Render.StoryHeading(i, stories[0].title)] + StoryHeadings(i + 1, stories[1..])
  {
    var r := [Render.StoryHeading(i, stories[0].title)] + StoryHeadings(i + 1, stories[1..]);
    forall k | 0 <= k < |stories| ensures StoryHeadings(i, stories)[k] == r[k] {
      if k > 0 {
        assert r[k] == StoryHeadings(i + 1, stories[1..])[k - 1];
        assert stories[1..][k - 1] == stories[k];
      }
    }
  }

  lemma {:induction false} StoriesMarked(i: nat, stories: seq<UserStory>, marker: string)
    requires marker == StoryMark || marker == SectionMark
    ensures Marked(Render.StoriesFrom(i, stories), marker) == StoryHeadings(i, stories)
    decreases |stories|
  {
    if stories != [] {
      assert Render.StoriesFrom(i, stories) == Render.StoryLinesAsWritten(i, stories[0]) + Render.StoriesFrom(i + 1, stories[1..]);
      MarkedAppend(Render.StoryLinesAsWritten(i, stories[0]), Render.StoriesFrom(i + 1, stories[1..]), marker);
      StoryMarked(i, stories[0], marker);
      StoriesMarked(i + 1, stories[1..], marker);
      StoryHeadingsCons(i, stories);
    }
  }

  /** `_format_stories` numbers the stories from 1, in order. */
  lemma StoryNumbering(stories: seq<UserStory>)
    ensures Marked(Render.FormatStories(stories), StoryMark) == StoryHeadings(1, stories)
  {
    StoriesMarked(1, stories, StoryMark);
  }

  // ---------------------------------------------------------------------
  // The whole document
  // ---------------------------------------------------------------------

  /** The second-level headings a document should have: those of the one
      list its issue type selects, numbered from 1. */
  function SectionHeadings(s: TicketStructure): seq<string> {
    match s.issueType
    case TaskType => EpicHeadings(1, s.epics)
    case EpicOnlyType => EpicHeadings(1, s.epics)
    case BugType => BugHeadings(1, s.bugs)
    case StoryType => StoryHeadings(1, s.stories)
  }

  /** The header has no second-level heading. */
  lemma HeaderUnmarked(s: TicketStructure, timestamp: string)
    ensures Marked(Render.HeaderLines(s, timestamp), SectionMark) == []
  {
    var ls := Render.HeaderLines(s, timestamp);
    assert ls[0][1] == ' ';
    DiffersAt(ls[0], SectionMark, 1);
    NoHashUnmarked(ls[1..], SectionMark);
    forall l <- ls ensures !StartsWith(l, SectionMark) {
      if l != ls[0] {
        assert l in ls[1..];
      }
    }
    MarkedNone(ls, SectionMark);
  }

  /** The second-level headings of the entries `write_markdown` joins are
      the headings of the list the issue type selects, numbered from 1:
      the other two lists are not written at all. */
  lemma DocumentSections(s: TicketStructure, timestamp: string)
    ensures Marked(Render.HeaderLines(s, timestamp) + Render.BodyLines(s), SectionMark) == SectionHeadings(s)
  {
    MarkedAppend(Render.HeaderLines(s, timestamp), Render.BodyLines(s), SectionMark);
    HeaderUnmarked(s, timestamp);
    match s.issueType
    case TaskType => EpicsMarked(1, s.epics, SectionMark);
    case EpicOnlyType => EpicsMarked(1, s.epics, SectionMark);
    case BugType => BugsMarked(1, s.bugs, SectionMark);
    case StoryType => StoriesMarked(1, s.stories, SectionMark);
  }
}

=== FILE: parser.dfy ===
/** The markdown reader of markdown_parser.py, as written: `parse_markdown`
    on the text of a file, and the three section parsers it dispatches to.
    Each `re.split` on a heading pattern, each line scan and each field
    extraction is spelled out over strings; every entity is built through
    the validating constructors of `Models`, so a validation failure inside
    any section ends the whole parse with that error. */
module Parser {
  import opened Wrappers
  import opened Strings
  import opened Models

  // ---------------------------------------------------------------------
  // re.split on a numbered heading
  // ---------------------------------------------------------------------

  /** Length of the run of decimal digits that starts the string. */
  function DigitRun(s: string): (k: nat)
    ensures k <= |s|
    ensures forall i :: 0 <= i < k ==> IsDigit(s[i])
    ensures k < |s| ==> !IsDigit(s[k])
  {
    if s == [] || !IsDigit(s[0]) then 0 else 1 + DigitRun(s[1..])
  }

  /** The length of the match of `kw + \d+ + ':'` (or, when `dotted`,
      `kw + \d+ + '.' + \d+ + ':'`) at the start of `s`, or 0 when the
      pattern does not match there. */
  function MatchLength(s: string, kw: string, dotted: bool): (m: nat)
    ensures m == 0 || |kw| < m <= |s|
    ensures m > 0 ==> StartsWith(s, kw)
  {
    if !StartsWith(s, kw) then 0
    else
      var t := s[|kw|..];
      var d := DigitRun(t);
      if d == 0 || d == |t| then 0
      else if !dotted then (if t[d] == ':' then |kw| + d + 1 else 0)
      else if t[d] != '.' then 0
      else
        var u := t[d + 1..];
        var e := DigitRun(u);
        if e == 0 || e == |u| || u[e] != ':' then 0 else |kw| + d + 1 + e + 1
  }

  /** `re.split(pattern, s)` for a heading pattern: the pieces between
      leftmost, non-overlapping matches. */
  function RegexSplit(s: string, kw: string, dotted: bool): (r: seq<string>)
    ensures |r| >= 1
    decreases |s|
  {
    if s == [] then [[]]
    else
      var m := MatchLength(s, kw, dotted);
      if m > 0 then [[]] + RegexSplit(s[m..], kw, dotted)
      else
        var rest := RegexSplit(s[1..], kw, dotted);
        [[s[0]] + rest[0]] + rest[1..]
  }

  /** No match starts anywhere in `s`. */
  predicate NoMatch(s: string, kw: string, dotted: bool)
    decreases |s|
  {
    MatchLength(s, kw, dotted) == 0 && (s == [] || NoMatch(s[1..], kw, dotted))
  }

  /** Text without a heading splits into itself alone, so the parser finds
      no section in it. */
  lemma {:induction false} RegexSplitNoMatch(s: string, kw: string, dotted: bool)
    requires NoMatch(s, kw, dotted)
    ensures RegexSplit(s, kw, dotted) == [s]
    decreases |s|
  {
    if s != [] {
      RegexSplitNoMatch(s[1..], kw, dotted);
      assert [s[0]] + s[1..] == s;
    }
  }

  /** A match needs the keyword, so text that lacks the keyword's first
      two characters next to each other has no match. */
  lemma {:induction false} NoMatchWithoutOpening(s: string, kw: string, dotted: bool)
    requires |kw| >= 2
    requires !Contains(s, kw[..2])
    ensures NoMatch(s, kw, dotted)
    decreases |s|
  {
    if s != [] {
      NoMatchWithoutOpening(s[1..], kw, dotted);
    }
  }

  const EpicMarker := "\n## Epic "

  const BugMarker := "\n## Bug "

  const StoryMarker := "\n## Story "

  const TaskMarker := "\n#### Task "

  /** The sections after the first heading: `re.split(...)[1:]`. */
  function Sections(content: string, kw: string, dotted: bool): (r: seq<string>)
    ensures |r| == |RegexSplit(content, kw, dotted)| - 1
  {
    RegexSplit(content, kw, dotted)[1..]
  }

  /** `section.strip().split('\n')`: never empty, so the parser's
      `if not lines` guard never fires. */
  function SectionLines(section: string): (r: seq<string>)
    ensures |r| >= 1
  {
    Split(Strip(section), '\n')
  }

  // ---------------------------------------------------------------------
  // Field extraction
  // ---------------------------------------------------------------------

  const DescriptionLabel := "**Description**:"

  const BusinessValueLabel := "**Business Value**:"

  const PriorityLabel := "**Priority**:"

  const EffortLabel := "**Effort**:"

  const CriteriaLabel := "**Acceptance Criteria**:"

  const NotesLabel := "**Technical Notes**:"

  const SeverityLabel := "**Severity**:"

  const StepsLabel := "**Reproduction Steps**:"

  const EnvironmentLabel := "**Environment**:"

  const TechnicalLabel := "**Technical Details**:"

  const FixCriteriaLabel := "**Fix Verification Criteria**:"

  const SuggestedFixLabel := "**Suggested Fix**:"

  const AsALabel := "**As a**:"

  const IWantToLabel := "**I want to**:"

  const SoThatLabel := "**So that**:"

  /** `line.replace(label, '').strip()`. */
  function FieldValue(line: string, field: string): (v: string)
    requires field != []
    ensures IsStripped(v)
  {
    Strip(ReplaceAll(line, field, ""))
  }

  /** The text before the first `|`, stripped, when there is a `|`. */
  function BeforeBar(v: string): (r: string)
    ensures !Contains(v, "|") ==> r == v
  {
    if Contains(v, "|") then Strip(Split(v, '|')[0]) else v
  }

  /** The effort named after the first `|` of a priority value, if that
      part mentions `**Effort**:`. */
  function EffortAfterBar(v: string): Option<string> {
    var parts := Split(v, '|');
    if Contains(v, "|") && |parts| > 1 && Contains(parts[1], EffortLabel) then
      Some(FieldValue(parts[1], EffortLabel))
    else None
  }

  predicate IsBulletLine(line: string) {
    StartsWith(Strip(line), "-")
  }

  /** `line.strip()[2:]`: the bullet's text. */
  function BulletText(line: string): string {
    Drop(Strip(line), 2)
  }

  /** How many lines at the front satisfy `p`: the lines an inner
      `while i < len(lines) and p(lines[i])` loop consumes. */
  function Run(lines: seq<string>, p: string -> bool): (k: nat)
    ensures k <= |lines|
    ensures forall i :: 0 <= i < k ==> p(lines[i])
    ensures k < |lines| ==> !p(lines[k])
  {
    if lines == [] || !p(lines[0]) then 0 else 1 + Run(lines[1..], p)
  }

  function BulletTexts(lines: seq<string>): (r: seq<string>)
    ensures |r| == |lines|
    ensures forall i :: 0 <= i < |lines| ==> r[i] == BulletText(lines[i])
  {
    seq(|lines|, i requires 0 <= i < |lines| => BulletText(lines[i]))
  }

  /** `re.match(r'^\d+\.', line.strip())`. */
  predicate IsStepLine(line: string) {
    var s := Strip(line);
    var d := DigitRun(s);
    0 < d < |s| && s[d] == '.'
  }

  /** `re.sub(r'^\d+\.\s*', '', line.strip())` on a step line. */
  function StepText(line: string): string
    requires IsStepLine(line)
  {
    var s := Strip(line);
    var t := s[DigitRun(s) + 1..];
    t[LeadingSpace(t)..]
  }

  function StepTexts(lines: seq<string>): (r: seq<string>)
    requires forall i :: 0 <= i < |lines| ==> IsStepLine(lines[i])
    ensures |r| == |lines|
    ensures forall i :: 0 <= i < |lines| ==> r[i] == StepText(lines[i])
  {
    seq(|lines|, i requires 0 <= i < |lines| && IsStepLine(lines[i]) => StepText(lines[i]))
  }

  // ---------------------------------------------------------------------
  // Key/value entries of the environment and technical-details blocks
  // ---------------------------------------------------------------------

  /** `key.strip().lower().replace(' ', '_')`. */
  function EnvironmentKey(key: string): string {
    ReplaceAll(Lower(Strip(key)), " ", "_")
  }

  /** The key map of the technical-details block, with the same fallback as
      for environment keys. */
  function TechnicalKey(key: string): string {
    var k := Lower(Strip(key));
    if k == "error" then "error_message"
    else if k == "console" then "console_logs"
    else if k == "code" then "affected_code"
    else if k == "api" then "api_calls"
    else if k == "stack trace" then "stack_trace"
    else ReplaceAll(k, " ", "_")
  }

  /** One bullet of a block: split at its first `:`, the label is keyed
      and the rest, stripped, is its value; a bullet without `:` adds
      nothing. */
  function EntryPut(d: map<string, string>, line: string, keyOf: string -> string): map<string, string> {
    var e := BulletText(line);
    var c := IndexOf(e, ':');
    if c < |e| then d[keyOf(e[..c]) := Strip(e[c + 1..])] else d
  }

  /** The dictionary a run of bullet lines builds, bullet by bullet; a
      later key overwrites an earlier one. */
  function EntryDict(lines: seq<string>, keyOf: string -> string, d: map<string, string>): map<string, string>
    decreases |lines|
  {
    if lines == [] then d else EntryDict(lines[1..], keyOf, EntryPut(d, lines[0], keyOf))
  }

  function Lookup(d: map<string, string>, k: string): (r: Option<string>)
    ensures r.Some? <==> k in d
  {
    if k in d then Some(d[k]) else None
  }

  /** `Environment(**d)`: keys that are not fields are ignored. */
  function EnvironmentOf(d: map<string, string>): Environment {
    Environment(Lookup(d, "browser"), Lookup(d, "os"), Lookup(d, "device"),
                Lookup(d, "version"), Lookup(d, "user_role"), Lookup(d, "data_conditions"))
  }

  /** `TechnicalDetails(**d)`: keys that are not fields are ignored. */
  function TechnicalDetailsOf(d: map<string, string>): TechnicalDetails {
    TechnicalDetails(Lookup(d, "error_message"), Lookup(d, "stack_trace"), Lookup(d, "console_logs"),
                     Lookup(d, "affected_code"), Lookup(d, "api_calls"), Lookup(d, "database_state"))
  }

  // ---------------------------------------------------------------------
  // Epic sections
  // ---------------------------------------------------------------------

  /** What the field loop of an epic section has collected so far. */
  datatype EpicFields = EpicFields(description: string, businessValue: Option<string>, priority: string)

  const EpicDefaults := EpicFields("", None, "Medium")

  /** One pass of the epic field loop: a description, business-value or
      priority line sets its field and any other line changes nothing. */
  function EpicStep(line: string, f: EpicFields): EpicFields {
    if StartsWith(line, DescriptionLabel) then f.(description := FieldValue(line, DescriptionLabel))
    else if StartsWith(line, BusinessValueLabel) then f.(businessValue := Some(FieldValue(line, BusinessValueLabel)))
    else if StartsWith(line, PriorityLabel) then f.(priority := BeforeBar(FieldValue(line, PriorityLabel)))
    else f
  }

  /** The loop over `lines[1:]` of an epic section. It runs over every line
      of the section, the lines of the epic's tasks included, and a later
      line overwrites an earlier one. */
  function ScanEpic(lines: seq<string>, f: EpicFields): EpicFields
    decreases |lines|
  {
    if lines == [] then f
    else
      ScanEpic(lines[1..], EpicStep(lines[0], f))
  }

  /** Only a description line changes the description. */
  lemma {:induction false} ScanEpicKeepsDescription(lines: seq<string>, f: EpicFields)
    requires forall i :: 0 <= i < |lines| ==> !StartsWith(lines[i], DescriptionLabel)
    ensures ScanEpic(lines, f).description == f.description
    decreases |lines|
  {
    if lines != [] {
      ScanEpicKeepsDescription(lines[1..], EpicStep(lines[0], f));
    }
  }

  /** The first line of a task heading. */
  const TaskHeadingPrefix := "#### Task "

  /** The epic field loop as intended: stopped at the first task heading,
      so that the fields come from the epic's own lines only. */
  function ScanEpicHead(lines: seq<string>, f: EpicFields): EpicFields
    decreases |lines|
  {
    if lines == [] || StartsWith(lines[0], TaskHeadingPrefix) then f
    else
      ScanEpicHead(lines[1..], EpicStep(lines[0], f))
  }

  /** Without a task heading the stopped loop is the whole loop. */
  lemma {:induction false} ScanEpicHeadAgrees(lines: seq<string>, f: EpicFields)
    requires forall i :: 0 <= i < |lines| ==> !StartsWith(lines[i], TaskHeadingPrefix)
    ensures ScanEpicHead(lines, f) == ScanEpic(lines, f)
    decreases |lines|
  {
    if lines != [] {
      ScanEpicHeadAgrees(lines[1..], EpicStep(lines[0], f));
    }
  }

  /** What the field loop of a task section has collected so far. */
  datatype TaskFields = TaskFields(
    description: string,
    priority: string,
    effort: Option<string>,
    criteria: seq<string>,
    notes: Option<string>)

  const TaskDefaults := TaskFields("", "Medium", None, [], None)

  /** The `while` loop over the lines of a task section after its title. The
      heading `**Acceptance Criteria**:` consumes the bullet lines after it
      and the loop resumes at the first line that is not a bullet. */
  function ScanTask(lines: seq<string>, f: TaskFields): (r: TaskFields)
    ensures |r.criteria| >= |f.criteria|
    ensures r.criteria[..|f.criteria|] == f.criteria
    decreases |lines|
  {
    if lines == [] then f
    else
      var line := lines[0];
      if StartsWith(line, DescriptionLabel) then
        ScanTask(lines[1..], f.(description := FieldValue(line, DescriptionLabel)))
      else if StartsWith(line, PriorityLabel) then
        var v := FieldValue(line, PriorityLabel);
        var effort := if Contains(v, "|") && EffortAfterBar(v).Some? then EffortAfterBar(v) else f.effort;
        ScanTask(lines[1..], f.(priority := BeforeBar(v), effort := effort))
      else if StartsWith(line, CriteriaLabel) then
        var k := Run(lines[1..], IsBulletLine);
        ScanTask(lines[1 + k..], f.(criteria := f.criteria + BulletTexts(lines[1..1 + k])))
      else if StartsWith(line, NotesLabel) then
        ScanTask(lines[1..], f.(notes := Some(FieldValue(line, NotesLabel))))
      else
        ScanTask(lines[1..], f)
  }

  /** One task section: `None` when the title or the description is empty,
      otherwise the validated task. */
  function ParseTaskSection(section: string): (r: Result<Option<Task>>)
    ensures r.Ok? && r.value.Some? ==>
      && r.value.value.Valid()
      && r.value.value.title != []
      && r.value.value.description != []
    ensures r.Err? ==> r.error == ValidationError("Task")
    ensures var ls := SectionLines(section);
      r == Ok(None) <==> Strip(ls[0]) == [] || ScanTask(ls[1..], TaskDefaults).description == []
  {
    var lines := SectionLines(section);
    var title := Strip(lines[0]);
    var f := ScanTask(lines[1..], TaskDefaults);
    if title != [] && f.description != [] then
      match NewTask(title, f.description, f.criteria, f.notes, f.priority, f.effort)
      case Ok(t) => Ok(Some(t))
      case Err(e) => Err(e)
    else Ok(None)
  }

  /** The tasks of the task sections in order; the first invalid one ends
      the parse. */
  function ParseTasks(sections: seq<string>): (r: Result<seq<Task>>)
    ensures r.Ok? ==> |r.value| <= |sections|
    ensures r.Ok? ==> forall t <- r.value :: t.Valid() && t.description != []
    ensures r.Err? ==> r.error == ValidationError("Task")
  {
    if sections == [] then Ok([])
    else
      match ParseTaskSection(sections[0])
      case Err(e) => Err(e)
      case Ok(first) =>
        match ParseTasks(sections[1..])
        case Err(e) => Err(e)
        case Ok(rest) => Ok(if first.Some? then [first.value] + rest else rest)
  }

  /** One epic section: its fields, then its tasks, then the epic itself
      when both title and description are non-empty. The field loop runs
      over every line of the section, so the lines of the epic's tasks can
      overwrite the epic's own description and priority. */
  function ParseEpicSection(section: string): (r: Result<Option<Epic>>)
    ensures r.Ok? && r.value.Some? ==>
      && r.value.value.Valid()
      && r.value.value.description != []
      && forall t <- r.value.value.tasks :: t.description != []
    ensures r.Err? ==> r.error in {ValidationError("Task"), ValidationError("Epic")}
    ensures var ls := SectionLines(section);
      r == Ok(None) <==>
        && ParseTasks(Sections(section, TaskMarker, true)).Ok?
        && (Strip(ls[0]) == [] || ScanEpic(ls[1..], EpicDefaults).description == [])
  {
    var lines := SectionLines(section);
    var title := Strip(lines[0]);
    var f := ScanEpic(lines[1..], EpicDefaults);
    match ParseTasks(Sections(section, TaskMarker, true))
    case Err(e) => Err(e)
    case Ok(tasks) =>
      if title != [] && f.description != [] then
        match NewEpic(title, f.description, f.businessValue, f.priority, tasks)
        case Ok(e) => Ok(Some(e))
        case Err(e) => Err(e)
      else Ok(None)
  }

  function ParseEpicSections(sections: seq<string>): (r: Result<seq<Epic>>)
    ensures r.Ok? ==> |r.value| <= |sections|
    ensures r.Ok? ==> forall e <- r.value :: e.Valid() && e.description != []
    ensures r.Err? ==> r.error in {ValidationError("Task"), ValidationError("Epic")}
  {
    if sections == [] then Ok([])
    else
      match ParseEpicSection(sections[0])
      case Err(e) => Err(e)
      case Ok(first) =>
        match ParseEpicSections(sections[1..])
        case Err(e) => Err(e)
        case Ok(rest) => Ok(if first.Some? then [first.value] + rest else rest)
  }

  /** `_parse_epics_from_markdown`. */
  function ParseEpics(content: string): (r: Result<seq<Epic>>)
    ensures r.Ok? ==> |r.value| <= |Sections(content, EpicMarker, false)|
    ensures r.Ok? ==> forall e <- r.value :: e.Valid() && e.description != []
    ensures r.Err? ==> r.error in {ValidationError("Task"), ValidationError("Epic")}
  {
    ParseEpicSections(Sections(content, EpicMarker, false))
  }

  // ---------------------------------------------------------------------
  // Bug sections
  // ---------------------------------------------------------------------

  /** What the field loop of a bug section has collected so far. */
  datatype BugFields = BugFields(
    description: string,
    severity: string,
    priority: string,
    steps: seq<string>,
    environment: Environment,
    technical: Option<TechnicalDetails>,
    criteria: seq<string>,
    suggestedFix: Option<string>)

  const BugDefaults := BugFields("", "Medium", "Medium", [], EmptyEnvironment, None, [], None)

  /** The `while` loop over the lines of a bug section after its summary.
      Each block heading consumes the lines of its block; a second
      environment or technical-details block replaces the first. */
  function ScanBug(lines: seq<string>, f: BugFields): (r: BugFields)
    ensures |r.steps| >= |f.steps|
    ensures r.steps[..|f.steps|] == f.steps
    decreases |lines|
  {
    if lines == [] then f
    else
      var line := lines[0];
      if StartsWith(line, DescriptionLabel) then
        ScanBug(lines[1..], f.(description := FieldValue(line, DescriptionLabel)))
      else if StartsWith(line, SeverityLabel) then
        var v := FieldValue(line, SeverityLabel);
        if Contains(v, "|") then
          var parts := Split(v, '|');
          var priority :=
            if |parts| > 1 && Contains(parts[1], PriorityLabel) then FieldValue(parts[1], PriorityLabel)
            else f.priority;
          ScanBug(lines[1..], f.(severity := Strip(parts[0]), priority := priority))
        else
          ScanBug(lines[1..], f.(severity := v))
      else if StartsWith(line, StepsLabel) then
        var k := Run(lines[1..], IsStepLine);
        var g := f.(steps := f.steps + StepTexts(lines[1..1 + k]));
        var r := ScanBug(lines[1 + k..], g);
        ExtendedPrefix(r.steps, f.steps, StepTexts(lines[1..1 + k]));
        r
      else if StartsWith(line, EnvironmentLabel) then
        var k := Run(lines[1..], IsBulletLine);
        var d := EntryDict(lines[1..1 + k], EnvironmentKey, map[]);
        ScanBug(lines[1 + k..], f.(environment := EnvironmentOf(d)))
      else if StartsWith(line, TechnicalLabel) then
        var k := Run(lines[1..], IsBulletLine);
        var d := EntryDict(lines[1..1 + k], TechnicalKey, map[]);
        ScanBug(lines[1 + k..], f.(technical := Some(TechnicalDetailsOf(d))))
      else if StartsWith(line, FixCriteriaLabel) then
        var k := Run(lines[1..], IsBulletLine);
        ScanBug(lines[1 + k..], f.(criteria := f.criteria + BulletTexts(lines[1..1 + k])))
      else if StartsWith(line, SuggestedFixLabel) then
        ScanBug(lines[1..], f.(suggestedFix := Some(FieldValue(line, SuggestedFixLabel))))
      else
        ScanBug(lines[1..], f)
  }

  /** What starts with `a + b` starts with `a`. */
  lemma ExtendedPrefix<T>(s: seq<T>, a: seq<T>, b: seq<T>)
    requires |s| >= |a + b| && s[..|a + b|] == a + b
    ensures s[..|a|] == a
  {
    assert s[..|a|] == (a + b)[..|a|];
  }

  /** One bug section: `None` unless the summary and the description are
      non-empty and at least three steps were read. */
  function ParseBugSection(section: string): (r: Result<Option<Bug>>)
    ensures r.Ok? && r.value.Some? ==> r.value.value.Valid()
    ensures r.Err? ==> r.error == ValidationError("Bug")
    ensures var ls := SectionLines(section);
      var f := ScanBug(ls[1..], BugDefaults);
      r == Ok(None) <==> Strip(ls[0]) == [] || f.description == [] || |f.steps| < 3
  {
    var lines := SectionLines(section);
    var summary := Strip(lines[0]);
    var f := ScanBug(lines[1..], BugDefaults);
    if summary != [] && f.description != [] && |f.steps| >= 3 then
      match NewBug(summary, f.description, f.severity, f.priority, f.steps,
                   f.environment, f.technical, f.criteria, f.suggestedFix)
      case Ok(b) => Ok(Some(b))
      case Err(e) => Err(e)
    else Ok(None)
  }

  function ParseBugSections(sections: seq<string>): (r: Result<seq<Bug>>)
    ensures r.Ok? ==> |r.value| <= |sections|
    ensures r.Ok? ==> forall b <- r.value :: b.Valid()
    ensures r.Err? ==> r.error == ValidationError("Bug")
  {
    if sections == [] then Ok([])
    else
      match ParseBugSection(sections[0])
      case Err(e) => Err(e)
      case Ok(first) =>
        match ParseBugSections(sections[1..])
        case Err(e) => Err(e)
        case Ok(rest) => Ok(if first.Some? then [first.value] + rest else rest)
  }

  /** `_parse_bugs_from_markdown`. */
  function ParseBugs(content: string): (r: Result<seq<Bug>>)
    ensures r.Ok? ==> |r.value| <= |Sections(content, BugMarker, false)|
    ensures r.Ok? ==> forall b <- r.value :: b.Valid()
    ensures r.Err? ==> r.error == ValidationError("Bug")
  {
    ParseBugSections(Sections(content, BugMarker, false))
  }

  // ---------------------------------------------------------------------
  // Story sections
  // ---------------------------------------------------------------------

  /** What the field loop of a story section has collected so far. */
  datatype StoryFields = StoryFields(
    asA: string,
    iWantTo: string,
    soThat: string,
    priority: string,
    effort: Option<string>,
    criteria: seq<string>,
    notes: Option<string>)

  const StoryDefaults := StoryFields("", "", "", "Medium", None, [], None)

  /** `line.split(label)[1].strip()` on a line that contains the label. */
  function AfterLabel(line: string, field: string): (v: string)
    requires field != []
    requires Contains(line, field)
    ensures IsStripped(v)
  {
    SplitOnContains(line, field);
    Strip(SplitOn(line, field)[1])
  }

  /** A line that reaches the criteria branch of the story loop: it names
      no part of the story, is no priority line and opens the criteria. */
  predicate OpensStoryCriteria(line: string) {
    && !Contains(line, AsALabel)
    && !Contains(line, IWantToLabel)
    && !Contains(line, SoThatLabel)
    && !StartsWith(line, PriorityLabel)
    && StartsWith(line, CriteriaLabel)
  }

  /** One pass of the story loop on a line that does not open the criteria:
      a part of the story is found anywhere in the line, the priority and
      the notes only at its start, and any other line changes nothing. */
  function StoryStep(line: string, f: StoryFields): StoryFields {
    if Contains(line, AsALabel) then f.(asA := AfterLabel(line, AsALabel))
    else if Contains(line, IWantToLabel) then f.(iWantTo := AfterLabel(line, IWantToLabel))
    else if Contains(line, SoThatLabel) then f.(soThat := AfterLabel(line, SoThatLabel))
    else if StartsWith(line, PriorityLabel) then
      var v := FieldValue(line, PriorityLabel);
      var effort := if Contains(v, "|") && EffortAfterBar(v).Some? then EffortAfterBar(v) else f.effort;
      f.(priority := BeforeBar(v), effort := effort)
    else if StartsWith(line, NotesLabel) then
      f.(notes := Some(FieldValue(line, NotesLabel)))
    else f
  }

  /** The `while` loop over the lines of a story section after its title.
      The criteria heading takes the bullet lines after it; every other line
      is one pass of `StoryStep`. */
  function ScanStory(lines: seq<string>, f: StoryFields): (r: StoryFields)
    ensures f.criteria <= r.criteria
    decreases |lines|
  {
    if lines == [] then f
    else if OpensStoryCriteria(lines[0]) then
      var k := Run(lines[1..], IsBulletLine);
      ScanStory(lines[1 + k..], f.(criteria := f.criteria + BulletTexts(lines[1..1 + k])))
    else
      ScanStory(lines[1..], StoryStep(lines[0], f))
  }

  /** A line that does not open the criteria is one pass of `StoryStep`. */
  lemma ScanStoryLine(line: string, rest: seq<string>, f: StoryFields)
    requires !OpensStoryCriteria(line)
    ensures ScanStory([line] + rest, f) == ScanStory(rest, StoryStep(line, f))
  {
    assert ([line] + rest)[1..] == rest;
  }

  /** One story section: `None` unless title, role, goal and benefit are
      non-empty and at least three criteria were read. */
  function ParseStorySection(section: string): (r: Result<Option<UserStory>>)
    ensures r.Ok? && r.value.Some? ==> r.value.value.Valid()
    ensures r.Err? ==> r.error == ValidationError("UserStory")
    ensures var ls := SectionLines(section);
      var f := ScanStory(ls[1..], StoryDefaults);
      r == Ok(None) <==>
        Strip(ls[0]) == [] || f.asA == [] || f.iWantTo == [] || f.soThat == [] || |f.criteria| < 3
  {
    var lines := SectionLines(section);
    var title := Strip(lines[0]);
    var f := ScanStory(lines[1..], StoryDefaults);
    if title != [] && f.asA != [] && f.iWantTo != [] && f.soThat != [] && |f.criteria| >= 3 then
      match NewUserStory(title, f.asA, f.iWantTo, f.soThat, f.criteria, f.priority, f.effort, f.notes)
      case Ok(st) => Ok(Some(st))
      case Err(e) => Err(e)
    else Ok(None)
  }

  function ParseStorySections(sections: seq<string>): (r: Result<seq<UserStory>>)
    ensures r.Ok? ==> |r.value| <= |sections|
    ensures r.Ok? ==> forall st <- r.value :: st.Valid()
    ensures r.Err? ==> r.error == ValidationError("UserStory")
  {
    if sections == [] then Ok([])
    else
      match ParseStorySection(sections[0])
      case Err(e) => Err(e)
      case Ok(first) =>
        match ParseStorySections(sections[1..])
        case Err(e) => Err(e)
        case Ok(rest) => Ok(if first.Some? then [first.value] + rest else rest)
  }

  /** `_parse_stories_from_markdown`. */
  function ParseStories(content: string): (r: Result<seq<UserStory>>)
    ensures r.Ok? ==> |r.value| <= |Sections(content, StoryMarker, false)|
    ensures r.Ok? ==> forall st <- r.value :: st.Valid()
    ensures r.Err? ==> r.error == ValidationError("UserStory")
  {
    ParseStorySections(Sections(content, StoryMarker, false))
  }

  // ---------------------------------------------------------------------
  // parse_markdown
  // ---------------------------------------------------------------------

  const TitlePrefix := "# JIRA Tickets - "

  const IssueTypeLabel := "**Issue Type**:"

  const NoKeyMessage := "Could not extract project key from markdown"

  const UnsupportedPrefix := "Unsupported issue type: "

  /** What the header loop has read: the project key once a title line was
      seen, and the issue type (`task` until a type line is seen). */
  datatype Header = Header(key: Option<string>, issueType: string)

  /** One pass of the header loop: a title line sets the key, a type line
      the issue type, and any other line changes nothing. */
  function HeaderStep(line: string, h: Header): Header {
    if StartsWith(line, TitlePrefix) then h.(key := Some(FieldValue(line, TitlePrefix)))
    else if StartsWith(line, IssueTypeLabel) then h.(issueType := Lower(FieldValue(line, IssueTypeLabel)))
    else h
  }

  /** The loop over the first lines: a later title or type line overwrites
      an earlier one. */
  function ScanHeader(lines: seq<string>, h: Header): (r: Header)
    ensures (forall i :: 0 <= i < |lines| ==> !StartsWith(lines[i], TitlePrefix)) ==> r.key == h.key
    ensures r.key.Some? && h.key.None? ==> exists i :: 0 <= i < |lines| && StartsWith(lines[i], TitlePrefix)
    decreases |lines|
  {
    if lines == [] then h
    else
      var h' := HeaderStep(lines[0], h);
      var r := ScanHeader(lines[1..], h');
      assert r.key.Some? && h'.key.None? ==> exists i :: 0 <= i < |lines| && StartsWith(lines[i], TitlePrefix) by {
        if r.key.Some? && h'.key.None? {
          var i :| 0 <= i < |lines[1..]| && StartsWith(lines[1..][i], TitlePrefix);
          assert lines[i + 1] == lines[1..][i];
        }
      }
      r
  }

  /** The header as read from the first ten lines of the content. */
  function HeaderOf(content: string): Header {
    ScanHeader(Take(Split(content, '\n'), 10), Header(None, "task"))
  }

  /** The project key read from the header, when it is non-empty. */
  predicate HasKey(h: Header) {
    h.key.Some? && h.key.value != []
  }

  /** `parse_markdown` on the text of a file. */
  function ParseMarkdown(content: string): (r: Result<TicketStructure>)
    ensures r.Ok? ==> r.value.Valid()
    ensures r == Err(ValueError(NoKeyMessage)) <==> !HasKey(HeaderOf(content))
    ensures HasKey(HeaderOf(content)) && ParseIssueType(HeaderOf(content).issueType).None? ==>
      r == Err(ValueError(UnsupportedPrefix + HeaderOf(content).issueType))
    ensures r.Ok? ==>
      && HasKey(HeaderOf(content))
      && r.value.projectKey == HeaderOf(content).key.value
      && IssueTypeName(r.value.issueType) == HeaderOf(content).issueType
    // only the list of the document's issue type is read
    ensures r.Ok? && r.value.issueType in {TaskType, EpicOnlyType} ==> r.value.bugs == [] && r.value.stories == []
    ensures r.Ok? && r.value.issueType == BugType ==> r.value.epics == [] && r.value.stories == []
    ensures r.Ok? && r.value.issueType == StoryType ==> r.value.epics == [] && r.value.bugs == []
  {
    var h := HeaderOf(content);
    if !HasKey(h) then Err(ValueError(NoKeyMessage))
    else
      var key := h.key.value;
      var t := h.issueType;
      if t == "task" || t == "epic-only" then
        var epics :- ParseEpics(content);
        NewTicketStructure(key, t, epics, [], [])
      else if t == "bug" then
        var bugs :- ParseBugs(content);
        NewTicketStructure(key, t, [], bugs, [])
      else if t == "story" then
        var stories :- ParseStories(content);
        NewTicketStructure(key, t, [], [], stories)
      else
        assert (UnsupportedPrefix + t)[0] != NoKeyMessage[0];
        Err(ValueError(UnsupportedPrefix + t))
  }
}

=== FILE: render.dfy ===
/** The markdown writer of markdown_utils.py: the document `write_markdown`
    produces for a ticket structure, the per-kind formatters it dispatches
    to, and `generate_filename`. The current time is a parameter and the
    file write is left to the caller. */
module Render {
  import opened Wrappers
  import opened Strings
  import opened Models

  // ---------------------------------------------------------------------
  // Shared pieces
  // ---------------------------------------------------------------------

  /** `- item` for every item, in order. */
  function Bullets(items: seq<string>): (ls: seq<string>)
    ensures |ls| == |items|
    ensures forall k :: 0 <= k < |items| ==> ls[k] == "- " + items[k]
  {
    seq(|items|, k requires 0 <= k < |items| => "- " + items[k])
  }

  /** A labelled bullet list followed by a blank line, or nothing when the
      list is empty. */
  function CriteriaBlock(heading: string, items: seq<string>): (ls: seq<string>)
    ensures items == [] <==> ls == []
    ensures items != [] ==> ls == [heading] + Bullets(items) + [""]
  {
    if items == [] then [] else [heading] + Bullets(items) + [""]
  }

  /** `**Technical Notes**: ...` when the notes are set and non-empty. */
  function NotesLine(notes: Option<string>): (ls: seq<string>)
    ensures |ls| <= 1
    ensures ls != [] <==> Truthy(notes)
  {
    if Truthy(notes) then ["**Technical Notes**: " + notes.value + "\n"] else []
  }

  /** The ` | **Effort**: ...` entry, written as an entry of its own. */
  function EffortEntry(e: Option<EffortSize>): (ls: seq<string>)
    ensures |ls| <= 1
    ensures ls != [] <==> e.Some?
  {
    if e.Some? then [" | **Effort**: " + EffortName(e.value)] else []
  }

  const CriteriaLabel := "**Acceptance Criteria**:"

  const FixCriteriaLabel := "**Fix Verification Criteria**:"

  const Separator := "---\n"

  // ---------------------------------------------------------------------
  // _format_epics
  // ---------------------------------------------------------------------

  function EpicHeading(i: nat, title: string): string {
    "## Epic " + NatToString(i) + ": " + title + "\n"
  }

  function TaskHeading(i: nat, j: nat, title: string): string {
    "#### Task " + NatToString(i) + "." + NatToString(j) + ": " + title + "\n"
  }

  /** The entries of task `j` of epic `i` as the writer emits them: the
      effort is an entry of its own, so once the entries are joined with
      line breaks it stands on the line after the priority. */
  function TaskLinesAsWritten(i: nat, j: nat, t: Task): (ls: seq<string>)
    ensures |ls| >= 4
    ensures ls[0] == TaskHeading(i, j, t.title)
    ensures ls[|ls| - 1] == Separator
    ensures t.estimatedEffort.Some? ==> ls[3] == " | **Effort**: " + EffortName(t.estimatedEffort.value)
  {
    [TaskHeading(i, j, t.title),
     "**Description**: " + t.description + "\n",
     "**Priority**: " + LevelName(t.priority)]
    + EffortEntry(t.estimatedEffort)
    + ["\n"]
    + CriteriaBlock(CriteriaLabel, t.acceptanceCriteria)
    + NotesLine(t.technicalNotes)
    + [Separator]
  }

  /** `**Priority**: P | **Effort**: E` on one line, the shape the parser
      reads the effort from; without an effort, `**Priority**: P`. */
  function PriorityEntry(p: Level, e: Option<EffortSize>): (r: string)
    ensures StartsWith(r, "**Priority**: " + LevelName(p))
    ensures e.None? <==> r == "**Priority**: " + LevelName(p)
  {
    "**Priority**: " + LevelName(p) + (if e.Some? then " | **Effort**: " + EffortName(e.value) else "")
  }

  /** The entries of task `j` of epic `i` in the intended shape, with the
      priority and the effort on one line; the document writer uses
      `TaskLinesAsWritten`. */
  function TaskLines(i: nat, j: nat, t: Task): (ls: seq<string>)
    ensures |ls| >= 4
    ensures ls[0] == TaskHeading(i, j, t.title)
    ensures ls[|ls| - 1] == Separator
  {
    [TaskHeading(i, j, t.title),
     "**Description**: " + t.description + "\n",
     PriorityEntry(t.priority, t.estimatedEffort),
     "\n"]
    + CriteriaBlock(CriteriaLabel, t.acceptanceCriteria)
    + NotesLine(t.technicalNotes)
    + [Separator]
  }

  /** The two differ only in where the effort goes: without an effort they
      are the same entries. */
  lemma TaskLinesWithoutEffort(i: nat, j: nat, t: Task)
    requires t.estimatedEffort.None?
    ensures TaskLinesAsWritten(i, j, t) == TaskLines(i, j, t)
  {
  }

  /** The tasks of epic `i`, numbered from `j`. */
  function TasksLines(i: nat, j: nat, tasks: seq<Task>): seq<string>
    decreases |tasks|
  {
    if tasks == [] then [] else TaskLinesAsWritten(i, j, tasks[0]) + TasksLines(i, j + 1, tasks[1..])
  }

  /** The entries of epic `i`. */
  function EpicLines(i: nat, e: Epic): (ls: seq<string>)
    ensures |ls| >= 4
    ensures ls[0] == EpicHeading(i, e.title)
    ensures ls[|ls| - 1] == "\n"
  {
    ["## Epic " + NatToString(i) + ": " + e.title + "\n",
     "**Description**: " + e.description + "\n"]
    + (if Truthy(e.businessValue) then ["**Business Value**: " + e.businessValue.value + "\n"] else [])
    + ["**Priority**: " + LevelName(e.priority) + "\n"]
    + (if e.tasks != [] then ["\n### Tasks (" + NatToString(|e.tasks|) + ")\n"] + TasksLines(i, 1, e.tasks) else [])
    + ["\n"]
  }

  /** The epics numbered from `i`. */
  function EpicsFrom(i: nat, epics: seq<Epic>): seq<string>
    decreases |epics|
  {
    if epics == [] then [] else EpicLines(i, epics[0]) + EpicsFrom(i + 1, epics[1..])
  }

  /** `_format_epics`: epics numbered from 1. */
  function FormatEpics(epics: seq<Epic>): seq<string> {
    EpicsFrom(1, epics)
  }

  // ---------------------------------------------------------------------
  // _format_bugs
  // ---------------------------------------------------------------------

  function BugHeading(i: nat, summary: string): string {
    "## Bug " + NatToString(i) + ": " + summary + "\n"
  }

  /** `j. step` for the steps numbered from `j`. */
  function NumberedFrom(j: nat, steps: seq<string>): (ls: seq<string>)
    ensures |ls| == |steps|
    ensures forall k :: 0 <= k < |steps| ==> ls[k] == NatToString(j + k) + ". " + steps[k]
  {
    seq(|steps|, k requires 0 <= k < |steps| => NatToString(j + k) + ". " + steps[k])
  }

  /** The optional `- Label: value` entry. */
  function EntryLine(name: string, value: Option<string>): (ls: seq<string>)
    ensures ls != [] <==> Truthy(value)
    ensures ls != [] ==> ls == ["- " + name + ": " + value.value]
  {
    if Truthy(value) then ["- " + name + ": " + value.value] else []
  }

  /** The environment block. An `Environment` object is always truthy, so
      the block is written even when no field is set; `version` has no
      entry. */
  function EnvironmentLines(env: Environment): seq<string> {
    ["**Environment**:"]
    + EntryLine("Browser", env.browser)
    + EntryLine("OS", env.os)
    + EntryLine("Device", env.device)
    + EntryLine("User Role", env.userRole)
    + EntryLine("Data Conditions", env.dataConditions)
    + [""]
  }

  /** The technical-details block when the details are present;
      `database_state` has no entry. */
  function TechnicalLines(tech: Option<TechnicalDetails>): seq<string> {
    if tech.None? then []
    else
      var t := tech.value;
      ["**Technical Details**:"]
      + EntryLine("Error", t.errorMessage)
      + EntryLine("Console", t.consoleLogs)
      + EntryLine("Code", t.affectedCode)
      + EntryLine("API", t.apiCalls)
      + EntryLine("Stack Trace", t.stackTrace)
      + [""]
  }

  function StepsLines(steps: seq<string>): (ls: seq<string>)
    ensures steps == [] <==> ls == []
  {
    if steps == [] then [] else ["\n**Reproduction Steps**:"] + NumberedFrom(1, steps) + [""]
  }

  function BugLines(i: nat, b: Bug): (ls: seq<string>)
    ensures |ls| >= 4
    ensures ls[0] == BugHeading(i, b.summary)
    ensures ls[|ls| - 1] == Separator
  {
    [BugHeading(i, b.summary),
     "**Description**: " + b.description + "\n",
     "**Severity**: " + LevelName(b.severity) + " | **Priority**: " + LevelName(b.priority) + "\n"]
    + StepsLines(b.reproductionSteps)
    + EnvironmentLines(b.environment)
    + TechnicalLines(b.technicalDetails)
    + CriteriaBlock(FixCriteriaLabel, b.acceptanceCriteria)
    + (if Truthy(b.suggestedFix) then ["**Suggested Fix**: " + b.suggestedFix.value + "\n"] else [])
    + [Separator]
  }

  function BugsFrom(i: nat, bugs: seq<Bug>): seq<string>
    decreases |bugs|
  {
    if bugs == [] then [] else BugLines(i, bugs[0]) + BugsFrom(i + 1, bugs[1..])
  }

  /** `_format_bugs`: bugs numbered from 1. */
  function FormatBugs(bugs: seq<Bug>): seq<string> {
    BugsFrom(1, bugs)
  }

  // ---------------------------------------------------------------------
  // _format_stories
  // ---------------------------------------------------------------------

  function StoryHeading(i: nat, title: string): string {
    "## Story " + NatToString(i) + ": " + title + "\n"
  }

  /** The role, goal and benefit entries of a story. */
  function StoryTriad(st: UserStory): seq<string> {
    ["**User Story**:",
     "- **As a**: " + st.asA,
     "- **I want to**: " + st.iWantTo,
     "- **So that**: " + st.soThat + "\n"]
  }

  /** The entries of story `i` as the writer emits them: as for a task, the
      effort is an entry, and so a line, of its own. */
  function StoryLinesAsWritten(i: nat, st: UserStory): (ls: seq<string>)
    ensures |ls| >= 6
    ensures ls[0] == StoryHeading(i, st.title)
    ensures ls[1..5] == StoryTriad(st)
    ensures ls[|ls| - 1] == Separator
    ensures ls[5] == "**Priority**: " + LevelName(st.priority)
    ensures st.estimatedEffort.Some? ==>
      |ls| >= 8 && ls[6] == " | **Effort**: " + EffortName(st.estimatedEffort.value)
  {
    [StoryHeading(i, st.title)]
    + StoryTriad(st)
    + ["**Priority**: " + LevelName(st.priority)]
    + EffortEntry(st.estimatedEffort)
    + ["\n"]
    + CriteriaBlock(CriteriaLabel, st.acceptanceCriteria)
    + NotesLine(st.technicalNotes)
    + [Separator]
  }

  /** The entries of story `i` in the intended shape, with the priority
      and the effort on one line; the document writer uses
      `StoryLinesAsWritten`. */
  function StoryLines(i: nat, st: UserStory): (ls: seq<string>)
    ensures |ls| >= 6
    ensures ls[0] == StoryHeading(i, st.title)
    ensures ls[1..5] == StoryTriad(st)
    ensures ls[5] == PriorityEntry(st.priority, st.estimatedEffort)
    ensures ls[|ls| - 1] == Separator
  {
    [StoryHeading(i, st.title)]
    + StoryTriad(st)
    + [PriorityEntry(st.priority, st.estimatedEffort), "\n"]
    + CriteriaBlock(CriteriaLabel, st.acceptanceCriteria)
    + NotesLine(st.technicalNotes)
    + [Separator]
  }

  /** Without an effort the two shapes agree. */
  lemma StoryLinesWithoutEffort(i: nat, st: UserStory)
    requires st.estimatedEffort.None?
    ensures StoryLinesAsWritten(i, st) == StoryLines(i, st)
  {
  }

  function StoriesFrom(i: nat, stories: seq<UserStory>): seq<string>
    decreases |stories|
  {
    if stories == [] then [] else StoryLinesAsWritten(i, stories[0]) + StoriesFrom(i + 1, stories[1..])
  }

  /** `_format_stories`: stories numbered from 1. */
  function FormatStories(stories: seq<UserStory>): seq<string> {
    StoriesFrom(1, stories)
  }

  // ---------------------------------------------------------------------
  // write_markdown and generate_filename
  // ---------------------------------------------------------------------

  const TitlePrefix := "# JIRA Tickets - "

  const IssueTypeLabel := "**Issue Type**:"

  /** The four header entries; `timestamp` is the current time as
      `%Y-%m-%d %H:%M:%S` renders it. */
  function HeaderLines(s: TicketStructure, timestamp: string): seq<string> {
    [TitlePrefix + s.projectKey,
     "\n**Generated**: " + timestamp,
     IssueTypeLabel + " " + IssueTypeName(s.issueType),
     "\n---\n"]
  }

  /** The body: only the list that belongs to the issue type is written. */
  function BodyLines(s: TicketStructure): seq<string> {
    match s.issueType
    case TaskType => FormatEpics(s.epics)
    case EpicOnlyType => FormatEpics(s.epics)
    case BugType => FormatBugs(s.bugs)
    case StoryType => FormatStories(s.stories)
  }

  /** The text `write_markdown` writes to the output file: the entries
      joined by newlines. */
  function WriteMarkdown(s: TicketStructure, timestamp: string): string {
    Join(HeaderLines(s, timestamp) + BodyLines(s), "\n")
  }

  /** Every document opens with the title line, a blank line and the
      generation time, whatever the structure holds. */
  lemma DocumentOpening(s: TicketStructure, timestamp: string)
    ensures StartsWith(WriteMarkdown(s, timestamp),
                       TitlePrefix + s.projectKey + "\n" + "\n**Generated**: " + timestamp + "\n")
  {
    var lines := HeaderLines(s, timestamp) + BodyLines(s);
    assert lines[0] == TitlePrefix + s.projectKey;
    assert lines[1] == "\n**Generated**: " + timestamp;
    JoinOpening(lines, TitlePrefix, s.projectKey, "\n**Generated**: ", timestamp);
  }

  lemma JoinOpening(lines: seq<string>, a: string, k: string, g: string, t: string)
    requires |lines| >= 3 && lines[0] == a + k && lines[1] == g + t
    ensures StartsWith(Join(lines, "\n"), a + k + "\n" + g + t + "\n")
  {
    JoinStartsWithTwo(lines, "\n");
    assert (a + k) + "\n" + (g + t) + "\n" == a + k + "\n" + g + t + "\n";
  }

  /** The join of at least three parts starts with the first two parts, the
      separator between them and the separator after the second. */
  lemma {:induction false} JoinStartsWithTwo(parts: seq<string>, sep: string)
    requires |parts| >= 3
    ensures StartsWith(Join(parts, sep), parts[0] + sep + parts[1] + sep)
  {
    var tail := Join(parts[2..], sep);
    assert parts[1..][1..] == parts[2..];
    assert Join(parts[1..], sep) == parts[1] + sep + tail;
    assert Join(parts, sep) == parts[0] + sep + parts[1] + sep + tail;
  }

  /** `generate_filename`; `timestamp` is the current time as
      `%Y%m%d_%H%M%S` renders it, and the issue type defaults to `task`. */
  function GenerateFilename(projectKey: string, issueType: string := "task", timestamp: string): (name: string)
    ensures StartsWith(name, FilenamePrefix)
    ensures |name| == |FilenamePrefix| + |projectKey| + |issueType| + |timestamp| + 5
  {
    FilenamePrefix + projectKey + "_" + issueType + "_" + timestamp + ".md"
  }

  const FilenamePrefix := "jira_tickets_"

  /** Reads key, issue type and timestamp back out of a generated name: the
      key ends at the first `_` after the prefix and the type at the next. */
  function DecodeFilename(name: string): (r: Option<(string, string, string)>)
    ensures r.Some? ==> StartsWith(name, FilenamePrefix)
  {
    if !StartsWith(name, FilenamePrefix) || |name| < |FilenamePrefix| + 3
       || name[|name| - 3..] != ".md" then None
    else
      var body := name[|FilenamePrefix|..|name| - 3];
      var i := IndexOf(body, '_');
      if i == |body| then None
      else
        var rest := body[i + 1..];
        var j := IndexOf(rest, '_');
        if j == |rest| then None
        else Some((body[..i], rest[..j], rest[j + 1..]))
  }

  predicate NoUnderscore(s: string) {
    forall i :: 0 <= i < |s| ==> s[i] != '_'
  }

  /** The first `c` of `a + [c] + b` sits right after `a` when `a` has none. */
  lemma {:induction false} IndexOfAfter(a: string, b: string, c: char)
    requires forall i :: 0 <= i < |a| ==> a[i] != c
    ensures IndexOf(a + [c] + b, c) == |a|
    decreases |a|
  {
    var s := a + [c] + b;
    if a == [] {
      assert s[0] == c;
    } else {
      assert s[0] == a[0];
      assert s[1..] == a[1..] + [c] + b;
      IndexOfAfter(a[1..], b, c);
    }
  }

  /** The generated name gives back the key, issue type and timestamp when
      neither key nor type contains `_` (no valid project key and no issue
      type name does). */
  lemma FilenameRoundTrip(projectKey: string, issueType: string, timestamp: string)
    requires NoUnderscore(projectKey) && NoUnderscore(issueType)
    ensures DecodeFilename(GenerateFilename(projectKey, issueType, timestamp)) ==
      Some((projectKey, issueType, timestamp))
  {
    var name := GenerateFilename(projectKey, issueType, timestamp);
    var rest := issueType + ['_'] + timestamp;
    var body := projectKey + ['_'] + rest;
    assert name == FilenamePrefix + body + ".md";
    assert StartsWith(name, FilenamePrefix);
    assert name[|name| - 3..] == ".md";
    assert name[|FilenamePrefix|..|name| - 3] == body;
    IndexOfAfter(projectKey, rest, '_');
    assert body[..|projectKey|] == projectKey;
    assert body[|projectKey| + 1..] == rest;
    IndexOfAfter(issueType, timestamp, '_');
    assert rest[..|issueType|] == issueType;
    assert rest[|issueType| + 1..] == timestamp;
  }

  /** Two generated names coincide only for the same key, type and time. */
  lemma FilenameInjective(k1: string, t1: string, ts1: string, k2: string, t2: string, ts2: string)
    requires NoUnderscore(k1) && NoUnderscore(t1) && NoUnderscore(k2) && NoUnderscore(t2)
    requires GenerateFilename(k1, t1, ts1) == GenerateFilename(k2, t2, ts2)
    ensures k1 == k2 && t1 == t2 && ts1 == ts2
  {
    FilenameRoundTrip(k1, t1, ts1);
    FilenameRoundTrip(k2, t2, ts2);
  }
}

=== FILE: review.dfy ===
/** The review agent of agents/review_agent.py without a language model:
    the `ReviewResult` record with its derived views, the rule-based review
    that pairs every gap with a clarifying question, the no-client
    `apply_feedback`, and the plain-text rendering of a structure. */
module Review {
  import opened Wrappers
  import opened Strings
  import opened Models
  import opened Extraction

  // ---------------------------------------------------------------------
  // ReviewResult
  // ---------------------------------------------------------------------

  /** A review. A missing `production_readiness_concerns` argument is stored
      as the empty list. */
  datatype ReviewResult = ReviewResult(
    gaps: seq<string>,
    questions: seq<string>,
    suggestions: seq<string>,
    missingTasks: seq<string>,
    ambiguities: seq<string>,
    productionReadinessConcerns: seq<string>)
  {
    /** `has_issues`: suggestions and readiness concerns never count. */
    predicate HasIssues() {
      gaps != [] || questions != [] || missingTasks != [] || ambiguities != []
    }

    /** All six lists are empty. */
    predicate IsEmpty() {
      && gaps == [] && questions == [] && suggestions == []
      && missingTasks == [] && ambiguities == [] && productionReadinessConcerns == []
    }
  }

  /** A value of the dictionary `to_dict` returns. */
  datatype DictValue = StringList(items: seq<string>) | Flag(flag: bool)

  const ListKeys: seq<string> :=
    ["gaps", "questions", "suggestions", "missing_tasks", "ambiguities", "production_readiness_concerns"]

  /** `ReviewResult.to_dict`. */
  function ToDict(r: ReviewResult): (d: map<string, DictValue>)
    ensures d.Keys == set k <- ListKeys + ["has_issues"]
    ensures d["has_issues"] == Flag(r.HasIssues())
    ensures forall k <- ListKeys :: d[k].StringList?
  {
    map[
      "gaps" := StringList(r.gaps),
      "questions" := StringList(r.questions),
      "suggestions" := StringList(r.suggestions),
      "missing_tasks" := StringList(r.missingTasks),
      "ambiguities" := StringList(r.ambiguities),
      "production_readiness_concerns" := StringList(r.productionReadinessConcerns),
      "has_issues" := Flag(r.HasIssues())]
  }

  /** `review_data.get(key, [])` on a decoded review answer. */
  function ListOrEmpty(d: map<string, DictValue>, key: string): seq<string> {
    if key in d && d[key].StringList? then d[key].items else []
  }

  /** The `ReviewResult(...)` call that turns a decoded review answer into a
      review; absent keys become empty lists. */
  function FromDict(d: map<string, DictValue>): ReviewResult {
    ReviewResult(
      ListOrEmpty(d, "gaps"),
      ListOrEmpty(d, "questions"),
      ListOrEmpty(d, "suggestions"),
      ListOrEmpty(d, "missing_tasks"),
      ListOrEmpty(d, "ambiguities"),
      ListOrEmpty(d, "production_readiness_concerns"))
  }

  /** `to_dict` loses nothing: reading its dictionary back as a review answer
      gives the same review. */
  lemma DictRoundTrip(r: ReviewResult)
    ensures FromDict(ToDict(r)) == r
  {
  }

  // ---------------------------------------------------------------------
  // __str__
  // ---------------------------------------------------------------------

  const NoIssuesBanner := "\U{2705} No issues found"

  function Bulleted(items: seq<string>): (ls: seq<string>)
    ensures |ls| == |items|
  {
    seq(|items|, k requires 0 <= k < |items| => "  - " + items[k])
  }

  /** The questions numbered from 1 as `  i. q`. */
  function Enumerated(items: seq<string>): (ls: seq<string>)
    ensures |ls| == |items|
  {
    seq(|items|, k requires 0 <= k < |items| => "  " + NatToString(k + 1) + ". " + items[k])
  }

  /** A heading followed by its entries, or nothing for an empty list. */
  function Block(heading: string, entries: seq<string>): seq<string> {
    if entries == [] then [] else [heading] + entries
  }

  function DisplayLines(r: ReviewResult): (ls: seq<string>)
    ensures ls == [] <==> r.IsEmpty()
    ensures ls != [] ==> ls[0] != [] && (ls[0][0] == '\U{1F50D}' || ls[0][0] == '\n')
  {
    Block("\U{1F50D} Gaps Found:", Bulleted(r.gaps))
    + Block("\n\U{26A0}\U{FE0F}  Ambiguities:", Bulleted(r.ambiguities))
    + Block("\n\U{1F4A1} Suggested Missing Tasks:", Bulleted(r.missingTasks))
    + Block("\n\U{2753} Questions for Clarification:", Enumerated(r.questions))
    + Block("\n\U{2728} Suggestions:", Bulleted(r.suggestions))
    + Block("\n\U{26A0}\U{FE0F}  Production Readiness Concerns:", Bulleted(r.productionReadinessConcerns))
  }

  /** `ReviewResult.__str__`: the banner appears exactly when all six lists
      are empty. */
  function Display(r: ReviewResult): (s: string)
    ensures s == NoIssuesBanner <==> r.IsEmpty()
  {
    var ls := DisplayLines(r);
    if ls == [] then NoIssuesBanner
    else
      JoinStartsWithFirst(ls, "\n");
      assert NoIssuesBanner[0] == '\U{2705}';
      Join(ls, "\n")
  }

  /** A joined string starts with the first part. */
  lemma JoinStartsWithFirst(parts: seq<string>, sep: string)
    requires parts != []
    ensures StartsWith(Join(parts, sep), parts[0])
  {
  }

  // ---------------------------------------------------------------------
  // Rule-based review
  // ---------------------------------------------------------------------

  /** Gaps and the questions asked about them, appended in lockstep. */
  datatype Notes = Notes(gaps: seq<string>, questions: seq<string>) {

    predicate Paired() {
      |gaps| == |questions|
    }

    function Then(next: Notes): Notes {
      Notes(gaps + next.gaps, questions + next.questions)
    }
  }

  const NoNotes := Notes([], [])

  const VagueWords: seq<string> := ["user-friendly", "fast", "robust", "good", "nice", "clean"]

  const FallbackSuggestions: seq<string> := [
    "Consider adding error handling tasks for each feature",
    "Consider adding unit/integration testing tasks",
    "Consider adding monitoring/logging tasks for production"]

  function Quoted(s: string): string {
    "'" + s + "'"
  }

  function NoCriteriaGap(title: string): string {
    "Task " + Quoted(title) + " has no acceptance criteria"
  }

  function NoCriteriaQuestion(title: string): string {
    "What are the success criteria for " + Quoted(title) + "?"
  }

  function FewCriteriaGap(title: string, n: nat): string {
    "Task " + Quoted(title) + " has only " + NatToString(n) + " acceptance criteria (recommend \U{2265}3)"
  }

  function FewCriteriaQuestion(title: string): string {
    "Can you provide more detailed acceptance criteria for " + Quoted(title) + "?"
  }

  function VagueGap(title: string, word: string): string {
    "Task " + Quoted(title) + " contains vague term " + Quoted(word)
  }

  function VagueQuestion(title: string, word: string): string {
    "Can you be more specific about " + Quoted(word) + " in " + Quoted(title) + "?"
  }

  /** The acceptance-criteria rule for one task. */
  function CriteriaNotes(t: Task): (n: Notes)
    ensures n.Paired() && |n.gaps| <= 1
    ensures n.gaps == [] <==> |t.acceptanceCriteria| >= 3
  {
    var count := |t.acceptanceCriteria|;
    if count == 0 then Notes([NoCriteriaGap(t.title)], [NoCriteriaQuestion(t.title)])
    else if count < 3 then Notes([FewCriteriaGap(t.title, count)], [FewCriteriaQuestion(t.title)])
    else NoNotes
  }

  /** The words of `words` that occur in `text`, in list order. */
  function TermsIn(text: string, words: seq<string>): (ts: seq<string>)
    ensures forall w <- ts :: w in words && Contains(text, w)
    ensures forall w <- words :: Contains(text, w) ==> w in ts
    ensures |ts| <= |words|
  {
    if words == [] then []
    else if Contains(text, words[0]) then [words[0]] + TermsIn(text, words[1..])
    else TermsIn(text, words[1..])
  }

  /** The vague-term rule: one gap and one question per listed word found in
      the lower-cased description, in list order. */
  function VagueNotes(title: string, lowered: string, words: seq<string>): (n: Notes)
    ensures n.Paired()
    ensures var ts := TermsIn(lowered, words);
      && |n.gaps| == |ts|
      && (forall k :: 0 <= k < |ts| ==> n.gaps[k] == VagueGap(title, ts[k]))
      && (forall k :: 0 <= k < |ts| ==> n.questions[k] == VagueQuestion(title, ts[k]))
  {
    if words == [] then NoNotes
    else
      var rest := VagueNotes(title, lowered, words[1..]);
      if Contains(lowered, words[0]) then
        Notes([VagueGap(title, words[0])], [VagueQuestion(title, words[0])]).Then(rest)
      else rest
  }

  function TaskNotes(t: Task): (n: Notes)
    ensures n.Paired()
  {
    CriteriaNotes(t).Then(VagueNotes(t.title, Lower(t.description), VagueWords))
  }

  function TasksNotes(tasks: seq<Task>): (n: Notes)
    ensures n.Paired()
  {
    if tasks == [] then NoNotes else TaskNotes(tasks[0]).Then(TasksNotes(tasks[1..]))
  }

  /** The two bug rules: too few reproduction steps, and neither a browser
      nor an operating system recorded. The environment object itself is
      always present, so `not bug.environment` never holds. */
  function BugNotes(b: Bug): (n: Notes)
    ensures n.Paired() && |n.gaps| <= 2
    ensures n.gaps == [] <==> BugIsClean(b)
    ensures |b.reproductionSteps| >= 3 ==> |n.gaps| <= 1
  {
    var steps :=
      if |b.reproductionSteps| < 3 then
        Notes(["Bug " + Quoted(b.summary) + " needs detailed reproduction steps (\U{2265}3 steps)"],
              ["What are the exact steps to reproduce " + Quoted(b.summary) + "?"])
      else NoNotes;
    var env :=
      if !(Truthy(b.environment.browser) || Truthy(b.environment.os)) then
        Notes(["Bug " + Quoted(b.summary) + " missing environment details"],
              ["What browser/OS/device was " + Quoted(b.summary) + " found on?"])
      else NoNotes;
    steps.Then(env)
  }

  function BugsNotes(bugs: seq<Bug>): (n: Notes)
    ensures n.Paired()
  {
    if bugs == [] then NoNotes else BugNotes(bugs[0]).Then(BugsNotes(bugs[1..]))
  }

  function StoryNotes(s: UserStory): (n: Notes)
    ensures n.Paired() && |n.gaps| <= 1
    ensures n == NoNotes <==> |s.acceptanceCriteria| >= 3
  {
    if |s.acceptanceCriteria| < 3 then
      Notes(["Story " + Quoted(s.title) + " needs detailed acceptance criteria (\U{2265}3)"],
            ["What are the acceptance criteria for " + Quoted(s.title) + "?"])
    else NoNotes
  }

  function StoriesNotes(stories: seq<UserStory>): (n: Notes)
    ensures n.Paired()
  {
    if stories == [] then NoNotes else StoryNotes(stories[0]).Then(StoriesNotes(stories[1..]))
  }

  /** A task no rule complains about. */
  predicate TaskIsClean(t: Task) {
    |t.acceptanceCriteria| >= 3 && TermsIn(Lower(t.description), VagueWords) == []
  }

  /** A bug no rule complains about. */
  predicate BugIsClean(b: Bug) {
    |b.reproductionSteps| >= 3 && (Truthy(b.environment.browser) || Truthy(b.environment.os))
  }

  /** A structure the rule-based review finds nothing wrong with. */
  predicate IsClean(s: TicketStructure) {
    && (forall t <- AllTasks(s.epics) :: TaskIsClean(t))
    && (forall b <- s.bugs :: BugIsClean(b))
    && (forall st <- s.stories :: |st.acceptanceCriteria| >= 3)
  }

  /** `ReviewAgent._review_simple`. */
  function ReviewSimple(s: TicketStructure): (r: ReviewResult)
    ensures |r.gaps| == |r.questions|
    ensures r.missingTasks == [] && r.ambiguities == [] && r.productionReadinessConcerns == []
    ensures r.suggestions == (if s.epics != [] then FallbackSuggestions else [])
  {
    var n := TasksNotes(AllTasks(s.epics)).Then(BugsNotes(s.bugs)).Then(StoriesNotes(s.stories));
    ReviewResult(n.gaps, n.questions,
                 if s.epics != [] then FallbackSuggestions else [],
                 [], [], [])
  }

  lemma {:induction false} TasksNotesEmpty(tasks: seq<Task>)
    ensures TasksNotes(tasks).gaps == [] <==> forall t <- tasks :: TaskIsClean(t)
  {
    if tasks != [] {
      TasksNotesEmpty(tasks[1..]);
      var t := tasks[0];
      var v := VagueNotes(t.title, Lower(t.description), VagueWords);
      assert TaskNotes(t).gaps == [] <==> TaskIsClean(t);
      assert forall x <- tasks :: x == t || x in tasks[1..];
    }
  }

  lemma {:induction false} BugsNotesEmpty(bugs: seq<Bug>)
    ensures BugsNotes(bugs).gaps == [] <==> forall b <- bugs :: BugIsClean(b)
  {
    if bugs != [] {
      BugsNotesEmpty(bugs[1..]);
      assert forall x <- bugs :: x == bugs[0] || x in bugs[1..];
    }
  }

  lemma {:induction false} StoriesNotesEmpty(stories: seq<UserStory>)
    ensures StoriesNotes(stories).gaps == [] <==> forall st <- stories :: |st.acceptanceCriteria| >= 3
  {
    if stories != [] {
      StoriesNotesEmpty(stories[1..]);
      assert forall x <- stories :: x == stories[0] || x in stories[1..];
    }
  }

  /** The rule-based review reports issues exactly when some task lacks three
      acceptance criteria or uses a vague term, some bug lacks three steps or
      an environment, or some story lacks three acceptance criteria. */
  lemma HasIssuesIffNotClean(s: TicketStructure)
    ensures ReviewSimple(s).HasIssues() <==> !IsClean(s)
  {
    TasksNotesEmpty(AllTasks(s.epics));
    BugsNotesEmpty(s.bugs);
    StoriesNotesEmpty(s.stories);
  }

  /** A valid structure never trips the step or story rules: every bug gap
      is about the environment, at most one per bug, and stories add none. */
  lemma {:induction false} ValidStructureGaps(s: TicketStructure)
    requires s.Valid()
    ensures StoriesNotes(s.stories) == NoNotes
    ensures |BugsNotes(s.bugs).gaps| <= |s.bugs|
  {
    ValidStoriesQuiet(s.stories);
    ValidBugsAtMostOne(s.bugs);
  }

  lemma {:induction false} ValidStoriesQuiet(stories: seq<UserStory>)
    requires forall st <- stories :: st.Valid()
    ensures StoriesNotes(stories) == NoNotes
  {
    if stories != [] {
      assert stories[0] in stories;
      ValidStoriesQuiet(stories[1..]);
      assert NoNotes.Then(NoNotes) == NoNotes;
    }
  }

  lemma {:induction false} ValidBugsAtMostOne(bugs: seq<Bug>)
    requires forall b <- bugs :: b.Valid()
    ensures |BugsNotes(bugs).gaps| <= |bugs|
  {
    if bugs != [] {
      assert bugs[0] in bugs;
      ValidBugsAtMostOne(bugs[1..]);
    }
  }

  /** One epic holding one task with no acceptance criteria and no vague
      term gives exactly one gap and one question, both naming the task. */
  lemma SingleBareTask(s: TicketStructure, t: Task)
    requires |s.epics| == 1 && s.epics[0].tasks == [t]
    requires s.bugs == [] && s.stories == []
    requires t.acceptanceCriteria == []
    requires TermsIn(Lower(t.description), VagueWords) == []
    ensures ReviewSimple(s).gaps == [NoCriteriaGap(t.title)]
    ensures ReviewSimple(s).questions == [NoCriteriaQuestion(t.title)]
  {
    assert AllTasks(s.epics) == [t];
    assert TasksNotes([t]) == TaskNotes(t).Then(NoNotes);
  }

  /** How many rules fire for one task: the criteria rule at most once,
      the vague-term rule once per listed word found. */
  function TaskRuleCount(t: Task): nat {
    (if |t.acceptanceCriteria| < 3 then 1 else 0) + |TermsIn(Lower(t.description), VagueWords)|
  }

  function BugRuleCount(b: Bug): nat {
    (if |b.reproductionSteps| < 3 then 1 else 0)
    + (if Truthy(b.environment.browser) || Truthy(b.environment.os) then 0 else 1)
  }

  function SumTaskRules(tasks: seq<Task>): nat {
    if tasks == [] then 0 else TaskRuleCount(tasks[0]) + SumTaskRules(tasks[1..])
  }

  function SumBugRules(bugs: seq<Bug>): nat {
    if bugs == [] then 0 else BugRuleCount(bugs[0]) + SumBugRules(bugs[1..])
  }

  function SumStoryRules(stories: seq<UserStory>): nat {
    if stories == [] then 0
    else (if |stories[0].acceptanceCriteria| < 3 then 1 else 0) + SumStoryRules(stories[1..])
  }

  lemma {:induction false} TasksGapCount(tasks: seq<Task>)
    ensures |TasksNotes(tasks).gaps| == SumTaskRules(tasks)
  {
    if tasks != [] {
      TasksGapCount(tasks[1..]);
    }
  }

  lemma {:induction false} BugsGapCount(bugs: seq<Bug>)
    ensures |BugsNotes(bugs).gaps| == SumBugRules(bugs)
  {
    if bugs != [] {
      BugsGapCount(bugs[1..]);
    }
  }

  lemma {:induction false} StoriesGapCount(stories: seq<UserStory>)
    ensures |StoriesNotes(stories).gaps| == SumStoryRules(stories)
  {
    if stories != [] {
      StoriesGapCount(stories[1..]);
    }
  }

  /** Every firing rule adds exactly one gap and one question, so both lists
      are as long as the number of rule firings over all tasks, bugs and
      stories. */
  lemma GapCount(s: TicketStructure)
    ensures |ReviewSimple(s).gaps| == |ReviewSimple(s).questions|
    ensures |ReviewSimple(s).gaps| ==
      SumTaskRules(AllTasks(s.epics)) + SumBugRules(s.bugs) + SumStoryRules(s.stories)
  {
    TasksGapCount(AllTasks(s.epics));
    BugsGapCount(s.bugs);
    StoriesGapCount(s.stories);
  }

  /** `ReviewAgent.review`: the rules run exactly when no client is
      configured. */
  function ReviewStructure(client: Client<ReviewResult>, s: TicketStructure): (r: ReviewResult)
    ensures client.NoClient? ==> r == ReviewSimple(s)
    ensures client.Configured? ==> r == client.answer
  {
    match client
    case NoClient => ReviewSimple(s)
    case Configured(answer) => answer
  }

  /** `ReviewAgent.apply_feedback`: without a client the structure comes back
      unchanged whatever the answers are. */
  function ApplyFeedback(
    client: Client<TicketStructure>,
    s: TicketStructure,
    answers: map<string, string>): (r: TicketStructure)
    ensures client.NoClient? ==> r == s
  {
    match client
    case NoClient => s
    case Configured(refined) => refined
  }

  /** Reviewing a structure that went through feedback without a client
      gives the same review as before. */
  lemma FeedbackWithoutClientKeepsReview(s: TicketStructure, answers: map<string, string>)
    ensures ReviewSimple(ApplyFeedback(NoClient, s, answers)) == ReviewSimple(s)
  {
  }

  // ---------------------------------------------------------------------
  // _structure_to_text
  // ---------------------------------------------------------------------

  function Indented(prefix: string, items: seq<string>): (ls: seq<string>)
    ensures |ls| == |items|
  {
    seq(|items|, k requires 0 <= k < |items| => prefix + items[k])
  }

  /** The steps numbered from 1 as `  i. step`. */
  function NumberedSteps(steps: seq<string>): (ls: seq<string>)
    ensures |ls| == |steps|
  {
    seq(|steps|, k requires 0 <= k < |steps| => "  " + NatToString(k + 1) + ". " + steps[k])
  }

  function TaskText(t: Task): seq<string> {
    ["\n  Task: " + t.title, "  Description: " + t.description, "  Priority: " + LevelName(t.priority)]
    + (if t.estimatedEffort.Some? then ["  Estimated Effort: " + EffortName(t.estimatedEffort.value)] else [])
    + (if t.acceptanceCriteria != [] then ["  Acceptance Criteria:"] + Indented("    - ", t.acceptanceCriteria) else [])
    + (if Truthy(t.technicalNotes) then ["  Technical Notes: " + t.technicalNotes.value] else [])
  }

  function TasksText(tasks: seq<Task>): seq<string> {
    if tasks == [] then [] else TaskText(tasks[0]) + TasksText(tasks[1..])
  }

  function EpicText(e: Epic): seq<string> {
    ["\nEpic: " + e.title, "Description: " + e.description]
    + (if Truthy(e.businessValue) then ["Business Value: " + e.businessValue.value] else [])
    + ["Priority: " + LevelName(e.priority)]
    + TasksText(e.tasks)
  }

  function EpicsText(epics: seq<Epic>): seq<string> {
    if epics == [] then [] else EpicText(epics[0]) + EpicsText(epics[1..])
  }

  /** The environment header is written unconditionally: the environment
      object is always truthy. */
  function BugText(b: Bug): seq<string> {
    ["\nBug: " + b.summary, "Description: " + b.description,
     "Severity: " + LevelName(b.severity), "Priority: " + LevelName(b.priority)]
    + (if b.reproductionSteps != [] then ["Reproduction Steps:"] + NumberedSteps(b.reproductionSteps) else [])
    + ["Environment:"]
    + (if Truthy(b.environment.browser) then ["  Browser: " + b.environment.browser.value] else [])
    + (if Truthy(b.environment.os) then ["  OS: " + b.environment.os.value] else [])
    + (if b.acceptanceCriteria != [] then ["Fix Verification Criteria:"] + Indented("  - ", b.acceptanceCriteria) else [])
  }

  function BugsText(bugs: seq<Bug>): seq<string> {
    if bugs == [] then [] else BugText(bugs[0]) + BugsText(bugs[1..])
  }

  /** A story's lines up to, and without, the definition-of-done block. */
  function StoryText(st: UserStory): seq<string> {
    ["\nStory: " + st.title, "As a: " + st.asA, "I want to: " + st.iWantTo,
     "So that: " + st.soThat, "Priority: " + LevelName(st.priority)]
    + (if st.acceptanceCriteria != [] then ["Acceptance Criteria:"] + Indented("  - ", st.acceptanceCriteria) else [])
  }

  function StoriesText(stories: seq<UserStory>): (ls: seq<string>)
    ensures forall st <- stories :: "\nStory: " + st.title in ls && "As a: " + st.asA in ls
  {
    if stories == [] then [] else StoryText(stories[0]) + StoriesText(stories[1..])
  }

  function HeaderText(s: TicketStructure): seq<string> {
    ["Project: " + s.projectKey, "Issue Type: " + IssueTypeName(s.issueType) + "\n"]
  }

  /** The lines `_structure_to_text` joins, leaving out the
      definition-of-done block of each story. */
  function StructureLines(s: TicketStructure): (ls: seq<string>)
    ensures |ls| >= 2
    ensures ls[0] == "Project: " + s.projectKey
    ensures ls[1] == "Issue Type: " + IssueTypeName(s.issueType) + "\n"
    ensures forall st <- s.stories :: "\nStory: " + st.title in ls && "As a: " + st.asA in ls
  {
    HeaderText(s) + EpicsText(s.epics) + BugsText(s.bugs) + StoriesText(s.stories)
  }

  /** `_structure_to_text` as written: it reads `story.definition_of_done`,
      a field `UserStory` does not declare, so any story makes it raise. */
  function StructureToTextAsWritten(s: TicketStructure): (r: Result<string>)
    ensures r.Err? <==> s.stories != []
    ensures r.Err? ==> r.error == AttributeError("definition_of_done")
  {
    if s.stories != [] then Err(AttributeError("definition_of_done"))
    else Ok(Join(HeaderText(s) + EpicsText(s.epics) + BugsText(s.bugs), "\n"))
  }

  /** `_structure_to_text` without the definition-of-done block: every
      structure has a text, which opens with the project and issue type. */
  function StructureToText(s: TicketStructure): (r: string)
    ensures StartsWith(r, "Project: " + s.projectKey + "\nIssue Type: " + IssueTypeName(s.issueType) + "\n")
  {
    var lines := StructureLines(s);
    JoinTwoFirst(lines, "\n");
    HeadingsJoined(Join(lines, "\n"), s.projectKey, IssueTypeName(s.issueType));
    Join(lines, "\n")
  }

  lemma HeadingsJoined(r: string, key: string, name: string)
    requires StartsWith(r, ("Project: " + key) + "\n" + ("Issue Type: " + name + "\n"))
    ensures StartsWith(r, "Project: " + key + "\nIssue Type: " + name + "\n")
  {
    Regrouped("Project: ", key, "\n", "Issue Type: ", name, "\n");
    assert "\n" + "Issue Type: " == "\nIssue Type: ";
  }

  lemma Regrouped(a: string, b: string, c: string, d: string, e: string, f: string)
    ensures (a + b) + c + (d + e + f) == a + b + (c + d) + e + f
  {
  }

  /** The text of any structure names every story by title and role. */
  lemma StoriesInText(s: TicketStructure)
    ensures forall st <- s.stories ::
      Contains(StructureToText(s), "\nStory: " + st.title) && Contains(StructureToText(s), "As a: " + st.asA)
  {
    forall st <- s.stories
      ensures Contains(StructureToText(s), "\nStory: " + st.title)
      ensures Contains(StructureToText(s), "As a: " + st.asA)
    {
      JoinContainsPart(StructureLines(s), "\n", "\nStory: " + st.title);
      JoinContainsPart(StructureLines(s), "\n", "As a: " + st.asA);
    }
  }

  /** Every part shows up in the join. */
  lemma {:induction false} JoinContainsPart(parts: seq<string>, sep: string, part: string)
    requires part in parts
    ensures Contains(Join(parts, sep), part)
  {
    if |parts| == 1 {
      assert Join(parts, sep) == part;
      assert StartsWith(part, part);
    } else if parts[0] == part {
      assert StartsWith(Join(parts, sep), part);
    } else {
      assert part in parts[1..];
      JoinContainsPart(parts[1..], sep, part);
      ContainsAppend(parts[0] + sep, Join(parts[1..], sep), part);
    }
  }

  /** The join of at least two parts starts with the first two parts and the
      separator between them. */
  lemma {:induction false} JoinTwoFirst(parts: seq<string>, sep: string)
    requires |parts| >= 2
    ensures StartsWith(Join(parts, sep), parts[0] + sep + parts[1])
  {
    if |parts| > 2 {
      assert Join(parts[1..], sep) == parts[1] + sep + Join(parts[2..], sep);
    }
  }

  /** On a structure without stories the code as written and the corrected
      rendering agree; with a story only the corrected one has a text. */
  lemma StructureTextAgreement(s: TicketStructure)
    ensures s.stories == [] ==> StructureToTextAsWritten(s) == Ok(StructureToText(s))
    ensures s.stories != [] ==> StructureToTextAsWritten(s) == Err(AttributeError("definition_of_done"))
  {
    if s.stories == [] {
      assert StoriesText(s.stories) == [];
      assert StructureLines(s) == HeaderText(s) + EpicsText(s.epics) + BugsText(s.bugs) + [];
      assert HeaderText(s) + EpicsText(s.epics) + BugsText(s.bugs) + [] ==
             HeaderText(s) + EpicsText(s.epics) + BugsText(s.bugs);
    }
  }
}

=== FILE: roundtrip.dfy ===
/** What survives a trip through the markdown writer and back through the
    parser. The two are not inverse: the parser reads the epic fields over
    the task lines too, and the writer puts the effort on a line the parser
    does not read it from. What does hold is stated here, line by line and
    block by block; whole documents are in `DocumentTrip`. */
module RoundTrip {
  import opened Wrappers
  import opened Strings
  import opened Models
  import Render
  import Parser

  /** A field value the writer can put on one line and the parser can read
      back: no surrounding whitespace, no line break, and no `*`, the first
      character of every field label. */
  predicate Plain(s: string) {
    IsStripped(s) && SingleLine(s) && Lacks(s, '*')
  }

  /** The names of the literal values are plain and hold neither `|` nor
      the `S` and `v` of `Severity`. */
  lemma LevelNameShape(l: Level)
    ensures Plain(LevelName(l)) && LevelName(l) != []
    ensures Lacks(LevelName(l), '|') && Lacks(LevelName(l), 'S') && Lacks(LevelName(l), 'v')
    ensures Lacks(LevelName(l), 'P')
    ensures BarText(LevelName(l), 'P') && BarText(LevelName(l), 'S')
  {
  }

  lemma EffortNameShape(e: EffortSize)
    ensures Plain(EffortName(e)) && EffortName(e) != []
    ensures Lacks(EffortName(e), '|') && Lacks(EffortName(e), 'P')
    ensures BarText(EffortName(e), 'P')
  {
  }

  // ---------------------------------------------------------------------
  // One line
  // ---------------------------------------------------------------------

  /** Removing a label from the front of `label + " " + v` leaves
      `" " + v` when `v` lacks one of the label's characters. */
  lemma ReplaceLabel(field: string, v: string, j: nat)
    requires j < |field| && Lacks(" " + v, field[j])
    ensures ReplaceAll(field + " " + v, field, []) == " " + v
  {
    var w := " " + v;
    assert field + " " + v == field + w;
    AbsentChar(w, field, j);
    ReplacePrefix(field, w);
  }

  lemma StripBlank(v: string)
    requires IsStripped(v)
    ensures Strip(" " + v) == v
  {
    StripPadded(" ", v, []);
    assert " " + v + [] == " " + v;
  }

  /** A `label value` line gives back its value when the value lacks one of
      the label's characters. */
  lemma LabelValue(field: string, v: string, j: nat)
    requires j < |field| && Lacks(" " + v, field[j])
    requires IsStripped(v)
    ensures Parser.FieldValue(field + " " + v, field) == v
  {
    ReplaceLabel(field, v, j);
    StripBlank(v);
  }

  /** A `**Label**: value` line gives back its value. */
  lemma FieldLine(field: string, v: string)
    requires field != [] && field[0] == '*'
    requires Plain(v)
    ensures Parser.FieldValue(field + " " + v, field) == v
  {
    LacksAppend(" ", v, '*');
    LabelValue(field, v, 0);
  }

  /** `ReplaceAll` copies a prefix that holds no first character of the
      pattern. */
  lemma {:induction false} ReplaceAllSkip(a: string, b: string, pat: string, rep: string)
    requires pat != []
    requires Lacks(a, pat[0])
    ensures ReplaceAll(a + b, pat, rep) == a + ReplaceAll(b, pat, rep)
    decreases |a|
  {
    if a != [] {
      var s := a + b;
      assert s[0] == a[0];
      assert s[1..] == a[1..] + b;
      ReplaceAllSkip(a[1..], b, pat, rep);
    } else {
      assert a + b == b;
    }
  }

  /** A value that can stand on either side of the bar of a two-part line
      `**First**: A | **Second**: B`: plain, non-empty, and without `|` or
      the character `x` that tells the first label apart. */
  predicate BarText(s: string, x: char) {
    Plain(s) && s != [] && Lacks(s, '|') && Lacks(s, x)
  }

  /** The labels of a two-part line: the second starts with `*` and lacks
      both the bar and the third character of the first. */
  predicate BarLabels(first: string, second: string) {
    |first| > 2 && second != [] && second[0] == '*' && Lacks(second, first[2]) && Lacks(second, '|')
  }

  lemma LacksThree(a: string, b: string, c: string, x: char)
    requires Lacks(a, x) && Lacks(b, x) && Lacks(c, x)
    ensures Lacks(a + b + c, x)
  {
    LacksAppend(a, b, x);
    LacksAppend(a + b, c, x);
  }

  /** The middle ` | **Second**: ` of a two-part line. */
  lemma BarMiddle(second: string, x: char)
    requires Lacks(second, x) && x != ' ' && x != '|'
    ensures Lacks(" | " + second + " ", x)
  {
    LacksThree(" | ", second, " ", x);
  }

  /** The value after the first label is stripped and lacks `first[2]`. */
  lemma BarValueShape(first: string, second: string, a: string, b: string)
    requires BarLabels(first, second) && BarText(a, first[2]) && BarText(b, first[2])
    requires first[2] != ' ' && first[2] != '|'
    ensures
      var v := a + " | " + second + " " + b;
      IsStripped(v) && Lacks(" " + v, first[2])
  {
    var x := first[2];
    var mid := " | " + second + " ";
    var v := a + mid + b;
    assert v[0] == a[0];
    assert v[|v| - 1] == b[|b| - 1];
    BarMiddle(second, x);
    LacksThree(" " + a, mid, b, x);
    LacksAppend(" ", a, x);
    assert " " + v == " " + a + mid + b;
    assert a + " | " + second + " " + b == v;
  }

  /** The bar splits the value into the first part, with a space after it,
      and the labelled second part. */
  lemma BarParts(second: string, a: string, b: string)
    requires Lacks(second, '|') && Lacks(a, '|') && Lacks(b, '|')
    ensures
      var v := a + " | " + second + " " + b;
      && Contains(v, "|")
      && Split(v, '|') == [a + " ", " " + second + " " + b]
  {
    var tail := " " + second + " " + b;
    var v := a + " | " + second + " " + b;
    BarInMiddle(a + " ", tail);
    assert v == (a + " ") + ['|'] + tail;
    LacksAppend(a, " ", '|');
    LacksThree(" ", second, " ", '|');
    LacksAppend(" " + second + " ", b, '|');
    SplitTwoBar(a + " ", tail);
  }

  lemma BarInMiddle(a: string, b: string)
    ensures Contains(a + ['|'] + b, "|")
  {
    ContainsPrefix(['|'] + b, "|");
    ContainsAppend(a, ['|'] + b, "|");
    assert a + ['|'] + b == a + (['|'] + b);
  }

  lemma SplitTwoBar(a: string, b: string)
    requires Lacks(a, '|') && Lacks(b, '|')
    ensures Split(a + ['|'] + b, '|') == [a, b]
  {
    SplitAround(a, b, '|');
    SplitSingleBar(a);
    SplitSingleBar(b);
  }

  lemma StripTrailingBlank(v: string)
    requires IsStripped(v)
    ensures Strip(v + " ") == v
  {
    StripPadded([], v, " ");
    assert [] + v + " " == v + " ";
  }

  /** The part after the bar names the second value. */
  lemma SecondPart(second: string, b: string)
    requires second != [] && second[0] == '*' && Plain(b)
    ensures
      var tail := " " + second + " " + b;
      Contains(tail, second) && Parser.FieldValue(tail, second) == b
  {
    var rest := second + " " + b;
    var tail := " " + rest;
    assert tail == " " + second + " " + b;
    ContainsPrefix(rest, second);
    ContainsAppend(" ", rest, second);
    ReplaceAllSkip(" ", rest, second, "");
    LacksAppend(" ", b, '*');
    ReplaceLabel(second, b, 0);
    StripDoubleBlank(b);
  }

  lemma StripDoubleBlank(v: string)
    requires IsStripped(v)
    ensures Strip(" " + (" " + v)) == v
  {
    StripPadded("  ", v, []);
    assert "  " + v + [] == " " + (" " + v);
  }

  /** What the parser reads from `**First**: A | **Second**: B`: the value
      after the first label has a bar, the part before the bar is `A` and
      the part after it names `B` under the second label. */
  lemma BarLine(first: string, second: string, a: string, b: string)
    requires BarLabels(first, second) && BarText(a, first[2]) && BarText(b, first[2])
    requires first[2] != ' ' && first[2] != '|'
    ensures
      var v := a + " | " + second + " " + b;
      && Parser.FieldValue(first + " " + v, first) == v
      && Contains(v, "|")
      && |Split(v, '|')| > 1
      && Strip(Split(v, '|')[0]) == a
      && Contains(Split(v, '|')[1], second)
      && Parser.FieldValue(Split(v, '|')[1], second) == b
  {
    var v := a + " | " + second + " " + b;
    BarValueShape(first, second, a, b);
    LabelValue(first, v, 2);
    BarParts(second, a, b);
    StripTrailingBlank(a);
    SecondPart(second, b);
  }

  /** One step of the bug scan over a severity line whose value has a bar
      followed by a priority part. */
  lemma SeverityStep(line: string, rest: seq<string>, f: Parser.BugFields)
    requires StartsWith(line, Parser.SeverityLabel) && !StartsWith(line, Parser.DescriptionLabel)
    requires
      var v := Parser.FieldValue(line, Parser.SeverityLabel);
      Contains(v, "|") && |Split(v, '|')| > 1 && Contains(Split(v, '|')[1], Parser.PriorityLabel)
    ensures
      var v := Parser.FieldValue(line, Parser.SeverityLabel);
      Parser.ScanBug([line] + rest, f) ==
        Parser.ScanBug(rest, f.(severity := Strip(Split(v, '|')[0]),
                                priority := Parser.FieldValue(Split(v, '|')[1], Parser.PriorityLabel)))
  {
    var lines := [line] + rest;
    assert lines[0] == line && lines[1..] == rest;
  }

  /** The labels of the priority line of a task or story. */
  lemma PriorityEffortLabels()
    ensures BarLabels(Parser.PriorityLabel, Parser.EffortLabel) && Parser.PriorityLabel[2] == 'P'
  {
  }

  /** What the parser reads from `**Priority**: P`. */
  lemma PriorityPlain(pv: string)
    requires Plain(pv) && Lacks(pv, '|')
    ensures
      var line := Parser.PriorityLabel + " " + pv;
      && StartsWith(line, Parser.PriorityLabel)
      && !StartsWith(line, Parser.DescriptionLabel)
      && !StartsWith(line, Parser.BusinessValueLabel)
      && Parser.FieldValue(line, Parser.PriorityLabel) == pv
      && !Contains(pv, "|")
  {
    assert Parser.PriorityLabel + " " + pv == Parser.PriorityLabel + (" " + pv);
    LabelledLine(Parser.PriorityLabel, Parser.DescriptionLabel, " " + pv, 2);
    LabelledLine(Parser.PriorityLabel, Parser.BusinessValueLabel, " " + pv, 2);
    FieldLine(Parser.PriorityLabel, pv);
    AbsentChar(pv, "|", 0);
  }

  /** What the parser reads from `**Priority**: P | **Effort**: E`. */
  lemma PriorityBar(pv: string, ev: string)
    requires BarText(pv, 'P') && BarText(ev, 'P')
    ensures
      var line := Parser.PriorityLabel + " " + pv + " | " + Parser.EffortLabel + " " + ev;
      var v := pv + " | " + Parser.EffortLabel + " " + ev;
      && StartsWith(line, Parser.PriorityLabel)
      && !StartsWith(line, Parser.DescriptionLabel)
      && !StartsWith(line, Parser.BusinessValueLabel)
      && Parser.FieldValue(line, Parser.PriorityLabel) == v
      && Contains(v, "|")
      && |Split(v, '|')| > 1
      && Strip(Split(v, '|')[0]) == pv
      && Contains(Split(v, '|')[1], Parser.EffortLabel)
      && Parser.FieldValue(Split(v, '|')[1], Parser.EffortLabel) == ev
  {
    var v := pv + " | " + Parser.EffortLabel + " " + ev;
    BarLineShape(Parser.PriorityLabel, pv, Parser.EffortLabel, ev);
    LabelledLine(Parser.PriorityLabel, Parser.DescriptionLabel, " " + v, 2);
    LabelledLine(Parser.PriorityLabel, Parser.BusinessValueLabel, " " + v, 2);
    PriorityEffortLabels();
    BarLine(Parser.PriorityLabel, Parser.EffortLabel, pv, ev);
  }

  /** What the parser reads from `**Severity**: S | **Priority**: P`. */
  lemma SeverityBar(sv: string, pv: string)
    requires BarText(sv, 'S') && BarText(pv, 'S')
    ensures
      var line := Parser.SeverityLabel + " " + sv + " | " + Parser.PriorityLabel + " " + pv;
      var v := sv + " | " + Parser.PriorityLabel + " " + pv;
      && StartsWith(line, Parser.SeverityLabel)
      && !StartsWith(line, Parser.DescriptionLabel)
      && Parser.FieldValue(line, Parser.SeverityLabel) == v
      && Contains(v, "|")
      && |Split(v, '|')| > 1
      && Strip(Split(v, '|')[0]) == sv
      && Contains(Split(v, '|')[1], Parser.PriorityLabel)
      && Parser.FieldValue(Split(v, '|')[1], Parser.PriorityLabel) == pv
  {
    var v := sv + " | " + Parser.PriorityLabel + " " + pv;
    BarLineShape(Parser.SeverityLabel, sv, Parser.PriorityLabel, pv);
    LabelledLine(Parser.SeverityLabel, Parser.DescriptionLabel, " " + v, 2);
    SeverityPriorityLabels();
    BarLine(Parser.SeverityLabel, Parser.PriorityLabel, sv, pv);
  }

  /** The labels of the severity line of a bug. */
  lemma SeverityPriorityLabels()
    ensures BarLabels(Parser.SeverityLabel, Parser.PriorityLabel) && Parser.SeverityLabel[2] == 'S'
  {
  }

  /** `first + " " + a + " | " + second + " " + b`, grouped as the label
      and its value. */
  lemma BarLineShape(first: string, a: string, second: string, b: string)
    ensures first + " " + a + " | " + second + " " + b == first + (" " + (a + " | " + second + " " + b))
    ensures first + " " + a + " | " + second + " " + b == first + " " + (a + " | " + second + " " + b)
  {
  }

  lemma LabelledLine(field: string, other: string, v: string, j: nat)
    requires j < |field| && j < |other| && field[j] != other[j]
    ensures StartsWith(field + v, field) && !StartsWith(field + v, other)
  {
    var line := field + v;
    assert line[..|field|] == field;
    assert line[j] == field[j];
  }

  /** The severity line of a bug sets both severity and priority of the bug
      being read, and nothing else. */
  lemma SeverityTextLine(sv: string, pv: string, rest: seq<string>, f: Parser.BugFields)
    requires BarText(sv, 'S') && BarText(pv, 'S')
    ensures
      var line := Parser.SeverityLabel + " " + sv + " | " + Parser.PriorityLabel + " " + pv;
      Parser.ScanBug([line] + rest, f) == Parser.ScanBug(rest, f.(severity := sv, priority := pv))
  {
    var line := Parser.SeverityLabel + " " + sv + " | " + Parser.PriorityLabel + " " + pv;
    SeverityBar(sv, pv);
    SeverityStep(line, rest, f);
  }

  /** The severity line a bug is written with, `**Severity**: S |
      **Priority**: P`, gives back both values. */
  lemma SeverityLine(severity: Level, priority: Level, rest: seq<string>, f: Parser.BugFields)
    ensures
      var line := Parser.SeverityLabel + " " + LevelName(severity) + " | " + Parser.PriorityLabel + " " + LevelName(priority);
      Parser.ScanBug([line] + rest, f) ==
        Parser.ScanBug(rest, f.(severity := LevelName(severity), priority := LevelName(priority)))
  {
    LevelNameShape(severity);
    LevelNameShape(priority);
    SeverityTextLine(LevelName(severity), LevelName(priority), rest, f);
  }

  /** A string without `|` splits on it into itself. */
  lemma SplitSingleBar(s: string)
    requires Lacks(s, '|')
    ensures Split(s, '|') == [s]
  {
    AbsentChar(s, "|", 0);
    SplitOnNoSeparator(s, "|");
  }

  // ---------------------------------------------------------------------
  // Bullets and numbered steps
  // ---------------------------------------------------------------------

  /** A `- item` line is a bullet and gives back its item. */
  lemma BulletLine(x: string)
    requires IsStripped(x)
    ensures Parser.IsBulletLine("- " + x)
    ensures Parser.BulletText("- " + x) == x
  {
    if x == [] {
      BlankBullet("- " + x);
    } else {
      FilledBullet(x);
    }
  }

  /** A dash and a space alone: a bullet with empty text. */
  lemma BlankBullet(line: string)
    requires |line| == 2 && line[0] == '-' && line[1] == ' '
    ensures Parser.IsBulletLine(line) && Parser.BulletText(line) == []
  {
    var dash := line[..1];
    var space := line[1..];
    assert line == [] + dash + space;
    assert dash == ['-'] && !IsSpace(dash[0]);
    assert IsStripped(dash);
    StripPadded([], dash, space);
    assert StartsWith(dash, "-");
  }

  lemma FilledBullet(x: string)
    requires IsStripped(x) && x != []
    ensures Parser.IsBulletLine("- " + x)
    ensures Parser.BulletText("- " + x) == x
  {
    var line := "- " + x;
    assert line[|line| - 1] == x[|x| - 1];
    assert IsStripped(line);
    assert line[2..] == x;
  }

  /** The bullet lines of a list give back the list. */
  lemma BulletsBack(items: seq<string>)
    requires forall x <- items :: IsStripped(x)
    ensures forall k :: 0 <= k < |items| ==> Parser.IsBulletLine(Render.Bullets(items)[k])
    ensures Parser.BulletTexts(Render.Bullets(items)) == items
  {
    forall k | 0 <= k < |items|
      ensures Parser.IsBulletLine(Render.Bullets(items)[k])
      ensures Parser.BulletText(Render.Bullets(items)[k]) == items[k]
    {
      assert items[k] in items;
      BulletLine(items[k]);
    }
  }

  /** Bullets followed by an empty line: the run stops at the empty line. */
  lemma BulletRun(items: seq<string>, rest: seq<string>)
    requires forall x <- items :: IsStripped(x)
    ensures Parser.Run(Render.Bullets(items) + [""] + rest, Parser.IsBulletLine) == |items|
  {
    var ls := Render.Bullets(items) + [""] + rest;
    BulletsBack(items);
    assert ls[|items|] == "";
    assert !Parser.IsBulletLine("");
    forall i | 0 <= i < |items| ensures Parser.IsBulletLine(ls[i]) {
      assert ls[i] == Render.Bullets(items)[i];
    }
  }

  /** One step of the task scan over an acceptance-criteria heading: the
      bullet run after it is read and skipped. */
  lemma CriteriaStep(lines: seq<string>, f: Parser.TaskFields)
    requires lines != [] && lines[0] == Parser.CriteriaLabel
    ensures
      var k := Parser.Run(lines[1..], Parser.IsBulletLine);
      Parser.ScanTask(lines, f) ==
        Parser.ScanTask(lines[1 + k..], f.(criteria := f.criteria + Parser.BulletTexts(lines[1..1 + k])))
  {
    assert Parser.CriteriaLabel + [] == Parser.CriteriaLabel;
    LabelledLine(Parser.CriteriaLabel, Parser.DescriptionLabel, [], 2);
    LabelledLine(Parser.CriteriaLabel, Parser.PriorityLabel, [], 2);
  }

  /** After the heading of a criteria block, the bullet run is the items
      and the empty line follows it. */
  lemma CriteriaRun(items: seq<string>, rest: seq<string>)
    requires items != []
    requires forall x <- items :: IsStripped(x)
    ensures
      var ls := Render.CriteriaBlock(Render.CriteriaLabel, items) + rest;
      && ls != [] && ls[0] == Render.CriteriaLabel
      && Parser.Run(ls[1..], Parser.IsBulletLine) == |items|
      && Parser.BulletTexts(ls[1..1 + |items|]) == items
      && ls[1 + |items|..] == [""] + rest
  {
    var b := Render.Bullets(items);
    CriteriaBlockThenRest(items, rest);
    BlockSlices(Render.CriteriaLabel, b, rest);
    BulletRun(items, rest);
    BulletsBack(items);
  }

  lemma CriteriaBlockThenRest(items: seq<string>, rest: seq<string>)
    requires items != []
    ensures Render.CriteriaBlock(Render.CriteriaLabel, items) + rest ==
            [Render.CriteriaLabel] + Render.Bullets(items) + [""] + rest
  {
  }

  /** The parts of `[h] + b + [""] + rest`. */
  lemma BlockSlices(h: string, b: seq<string>, rest: seq<string>)
    ensures
      var ls := [h] + b + [""] + rest;
      && ls[0] == h
      && ls[1..] == b + [""] + rest
      && ls[1..1 + |b|] == b
      && ls[1 + |b|..] == [""] + rest
  {
  }

  /** The writer and the parser spell the criteria heading alike. */
  lemma SameCriteriaLabel()
    ensures Render.CriteriaLabel == Parser.CriteriaLabel
  {
  }

  /** A criteria block, as the writer emits it for a task, adds exactly its
      items to the criteria the task scan has read. */
  lemma TaskCriteriaBlock(items: seq<string>, rest: seq<string>, f: Parser.TaskFields)
    requires items != []
    requires forall x <- items :: IsStripped(x)
    ensures Parser.ScanTask(Render.CriteriaBlock(Render.CriteriaLabel, items) + rest, f) ==
            Parser.ScanTask(rest, f.(criteria := f.criteria + items))
  {
    CriteriaRun(items, rest);
    SameCriteriaLabel();
    TaskCriteriaOver(Render.CriteriaBlock(Render.CriteriaLabel, items) + rest, items, rest, f);
  }

  /** The task loop over a criteria label, its bullets, an empty line and
      the rest. */
  lemma TaskCriteriaOver(ls: seq<string>, items: seq<string>, rest: seq<string>, f: Parser.TaskFields)
    requires ls != [] && ls[0] == Parser.CriteriaLabel
    requires Parser.Run(ls[1..], Parser.IsBulletLine) == |items|
    requires Parser.BulletTexts(ls[1..1 + |items|]) == items
    requires ls[1 + |items|..] == [""] + rest
    ensures Parser.ScanTask(ls, f) == Parser.ScanTask(rest, f.(criteria := f.criteria + items))
  {
    CriteriaStep(ls, f);
    TaskNeutral("", rest, f.(criteria := f.criteria + items));
  }


  /** The run of decimal digits at the front of a number's rendering
      followed by a non-digit is the whole rendering. */
  lemma {:induction false} DigitRunOfNumber(digits: string, rest: string)
    requires AllDigits(digits)
    requires rest != [] && !IsDigit(rest[0])
    ensures Parser.DigitRun(digits + rest) == |digits|
    decreases |digits|
  {
    if digits == [] {
      assert digits + rest == rest;
    } else {
      assert (digits + rest)[1..] == digits[1..] + rest;
      DigitRunOfNumber(digits[1..], rest);
    }
  }

  lemma LeadingBlank(v: string)
    requires v != [] && IsStripped(v)
    ensures LeadingSpace(" " + v) == 1
  {
    assert (" " + v)[1..] == v;
  }

  /** `n. step` with a non-empty step. */
  lemma StepLineText(n: string, step: string)
    requires n != [] && AllDigits(n)
    requires step != [] && IsStripped(step)
    ensures Parser.IsStepLine(n + ". " + step)
    ensures Parser.StepText(n + ". " + step) == step
  {
    var line := n + (". " + step);
    assert n + ". " + step == line;
    assert IsStripped(line) by {
      assert line[0] == n[0];
      assert line[|line| - 1] == step[|step| - 1];
    }
    DigitRunOfNumber(n, ". " + step);
    assert line[|n|] == '.';
    assert line[|n| + 1..] == " " + step;
    LeadingBlank(step);
    assert (" " + step)[1..] == step;
  }

  /** `n. ` with an empty step: the stripped line ends at the dot. */
  lemma StepLineEmpty(n: string)
    requires n != [] && AllDigits(n)
    ensures Parser.IsStepLine(n + ". ")
    ensures Parser.StepText(n + ". ") == []
  {
    var m := n + ".";
    assert n + ". " == m + " ";
    DottedNumber(n, m);
    assert m[|n| + 1..] == [];
  }

  /** A number followed by a dot, then a blank: stripped, the line is the
      number and the dot, and its digit run ends at the dot. */
  lemma DottedNumber(n: string, m: string)
    requires n != [] && AllDigits(n) && m == n + "."
    ensures Strip(m + " ") == m
    ensures Parser.DigitRun(m) == |n| && m[|n|] == '.'
  {
    assert m + " " == [] + m + " ";
    assert IsStripped(m) by {
      assert m[0] == n[0];
    }
    StripPadded([], m, " ");
    DigitRunOfNumber(n, ".");
  }

  /** A numbered step line `j. step` is a step line and gives back the
      step. */
  lemma StepLine(j: nat, step: string)
    requires IsStripped(step)
    ensures Parser.IsStepLine(NatToString(j) + ". " + step)
    ensures Parser.StepText(NatToString(j) + ". " + step) == step
  {
    if step == [] {
      StepLineEmpty(NatToString(j));
      assert NatToString(j) + ". " + step == NatToString(j) + ". ";
    } else {
      StepLineText(NatToString(j), step);
    }
  }

  lemma StepAt(steps: seq<string>, k: nat)
    requires k < |steps| && IsStripped(steps[k])
    ensures Parser.IsStepLine(Render.NumberedFrom(1, steps)[k])
    ensures Parser.StepText(Render.NumberedFrom(1, steps)[k]) == steps[k]
  {
    StepLine(1 + k, steps[k]);
  }

  /** Every numbered step is a step line and gives back its step. */
  lemma StepLinesBack(steps: seq<string>)
    requires forall x <- steps :: IsStripped(x)
    ensures forall k :: 0 <= k < |steps| ==>
      Parser.IsStepLine(Render.NumberedFrom(1, steps)[k]) &&
      Parser.StepText(Render.NumberedFrom(1, steps)[k]) == steps[k]
  {
    forall k | 0 <= k < |steps|
      ensures Parser.IsStepLine(Render.NumberedFrom(1, steps)[k])
      ensures Parser.StepText(Render.NumberedFrom(1, steps)[k]) == steps[k]
    {
      assert steps[k] in steps;
      StepAt(steps, k);
    }
  }

  /** The numbered steps of a bug give back the steps. */
  lemma StepsBack(steps: seq<string>)
    requires forall x <- steps :: IsStripped(x)
    ensures forall k :: 0 <= k < |steps| ==> Parser.IsStepLine(Render.NumberedFrom(1, steps)[k])
    ensures Parser.StepTexts(Render.NumberedFrom(1, steps)) == steps
  {
    StepLinesBack(steps);
    var r := Parser.StepTexts(Render.NumberedFrom(1, steps));
    assert forall k :: 0 <= k < |steps| ==> r[k] == steps[k];
  }

  // ---------------------------------------------------------------------
  // The lines of a task
  // ---------------------------------------------------------------------

  /** A line that does not open with `*` starts with no field label. */
  lemma StarFree(line: string, field: string)
    requires field != [] && field[0] == '*'
    requires line == [] || line[0] != '*'
    ensures !StartsWith(line, field)
  {
    if |field| <= |line| {
      assert line[..|field|][0] == line[0];
    }
  }

  /** The task scan passes over a line that does not open with `*`. */
  lemma TaskNeutral(line: string, rest: seq<string>, f: Parser.TaskFields)
    requires line == [] || line[0] != '*'
    ensures Parser.ScanTask([line] + rest, f) == Parser.ScanTask(rest, f)
  {
    StarFree(line, Parser.DescriptionLabel);
    StarFree(line, Parser.PriorityLabel);
    StarFree(line, Parser.CriteriaLabel);
    StarFree(line, Parser.NotesLabel);
    assert ([line] + rest)[1..] == rest;
  }

  lemma TaskDescriptionLine(d: string, rest: seq<string>, f: Parser.TaskFields)
    requires Plain(d)
    ensures Parser.ScanTask([Parser.DescriptionLabel + " " + d] + rest, f) ==
            Parser.ScanTask(rest, f.(description := d))
  {
    var line := Parser.DescriptionLabel + " " + d;
    assert line == Parser.DescriptionLabel + (" " + d);
    LabelledLine(Parser.DescriptionLabel, Parser.PriorityLabel, " " + d, 2);
    FieldLine(Parser.DescriptionLabel, d);
    assert ([line] + rest)[1..] == rest;
  }

  lemma TaskNotesLine(n: string, rest: seq<string>, f: Parser.TaskFields)
    requires Plain(n)
    ensures Parser.ScanTask([Parser.NotesLabel + " " + n] + rest, f) ==
            Parser.ScanTask(rest, f.(notes := Some(n)))
  {
    var line := Parser.NotesLabel + " " + n;
    assert line == Parser.NotesLabel + (" " + n);
    LabelledLine(Parser.NotesLabel, Parser.DescriptionLabel, " " + n, 2);
    LabelledLine(Parser.NotesLabel, Parser.PriorityLabel, " " + n, 2);
    LabelledLine(Parser.NotesLabel, Parser.CriteriaLabel, " " + n, 2);
    FieldLine(Parser.NotesLabel, n);
    assert ([line] + rest)[1..] == rest;
  }

  /** `**Priority**: P` alone sets the priority and leaves the effort. */
  lemma TaskPriorityLine(p: Level, rest: seq<string>, f: Parser.TaskFields)
    ensures Parser.ScanTask([Parser.PriorityLabel + " " + LevelName(p)] + rest, f) ==
            Parser.ScanTask(rest, f.(priority := LevelName(p)))
  {
    var line := Parser.PriorityLabel + " " + LevelName(p);
    LevelNameShape(p);
    PriorityPlain(LevelName(p));
    assert ([line] + rest)[1..] == rest;
  }

  /** One step of the task scan over a priority line whose value has a bar
      followed by an effort part. */
  lemma TaskPriorityStep(line: string, rest: seq<string>, f: Parser.TaskFields)
    requires StartsWith(line, Parser.PriorityLabel) && !StartsWith(line, Parser.DescriptionLabel)
    requires
      var v := Parser.FieldValue(line, Parser.PriorityLabel);
      Contains(v, "|") && |Split(v, '|')| > 1 && Contains(Split(v, '|')[1], Parser.EffortLabel)
    ensures
      var v := Parser.FieldValue(line, Parser.PriorityLabel);
      Parser.ScanTask([line] + rest, f) ==
        Parser.ScanTask(rest, f.(priority := Strip(Split(v, '|')[0]),
                                 effort := Some(Parser.FieldValue(Split(v, '|')[1], Parser.EffortLabel))))
  {
    TaskPriorityBranch(line, rest, f);
    TaskPriorityFields(Parser.FieldValue(line, Parser.PriorityLabel), f);
  }

  /** The fields after a priority entry with an effort after its bar. */
  lemma TaskPriorityFields(v: string, f: Parser.TaskFields)
    requires Contains(v, "|") && |Split(v, '|')| > 1 && Contains(Split(v, '|')[1], Parser.EffortLabel)
    ensures
      var effort := if Contains(v, "|") && Parser.EffortAfterBar(v).Some? then Parser.EffortAfterBar(v) else f.effort;
      f.(priority := Parser.BeforeBar(v), effort := effort) ==
      f.(priority := Strip(Split(v, '|')[0]), effort := Some(Parser.FieldValue(Split(v, '|')[1], Parser.EffortLabel)))
  {
    EffortBar(v);
    var e := Parser.EffortAfterBar(v);
    assert e.Some?;
    assert (if Contains(v, "|") && e.Some? then e else f.effort) == e;
  }


  /** The priority branch of the task scan. */
  lemma TaskPriorityBranch(line: string, rest: seq<string>, f: Parser.TaskFields)
    requires StartsWith(line, Parser.PriorityLabel) && !StartsWith(line, Parser.DescriptionLabel)
    ensures
      var v := Parser.FieldValue(line, Parser.PriorityLabel);
      var effort := if Contains(v, "|") && Parser.EffortAfterBar(v).Some? then Parser.EffortAfterBar(v) else f.effort;
      Parser.ScanTask([line] + rest, f) == Parser.ScanTask(rest, f.(priority := Parser.BeforeBar(v), effort := effort))
  {
    var lines := [line] + rest;
    assert lines[0] == line && lines[1..] == rest;
  }

  /** A value with a bar and an effort part after it. */
  lemma EffortBar(v: string)
    requires Contains(v, "|") && |Split(v, '|')| > 1 && Contains(Split(v, '|')[1], Parser.EffortLabel)
    ensures Parser.BeforeBar(v) == Strip(Split(v, '|')[0])
    ensures Parser.EffortAfterBar(v) == Some(Parser.FieldValue(Split(v, '|')[1], Parser.EffortLabel))
  {
  }

  /** `**Priority**: P | **Effort**: E` sets both. */
  lemma TaskPriorityEffortLine(p: Level, e: EffortSize, rest: seq<string>, f: Parser.TaskFields)
    ensures
      var line := Parser.PriorityLabel + " " + LevelName(p) + " | " + Parser.EffortLabel + " " + EffortName(e);
      Parser.ScanTask([line] + rest, f) ==
        Parser.ScanTask(rest, f.(priority := LevelName(p), effort := Some(EffortName(e))))
  {
    var pv := LevelName(p);
    var ev := EffortName(e);
    var line := Parser.PriorityLabel + " " + pv + " | " + Parser.EffortLabel + " " + ev;
    LevelNameShape(p);
    EffortNameShape(e);
    PriorityBar(pv, ev);
    TaskPriorityStep(line, rest, f);
  }

  lemma PriorityEntryNone(p: Level)
    ensures Render.PriorityEntry(p, None) == Parser.PriorityLabel + " " + LevelName(p)
  {
  }

  lemma PriorityEntrySome(p: Level, e: EffortSize)
    ensures Render.PriorityEntry(p, Some(e)) ==
      Parser.PriorityLabel + " " + LevelName(p) + " | " + Parser.EffortLabel + " " + EffortName(e)
  {
    var a, b := "**Priority**: ", " | **Effort**: ";
    assert a == Parser.PriorityLabel + " ";
    assert b == " | " + Parser.EffortLabel + " ";
    assert Render.PriorityEntry(p, Some(e)) == a + LevelName(p) + (b + EffortName(e));
    Regroup(Parser.PriorityLabel, LevelName(p), Parser.EffortLabel, EffortName(e));
  }

  lemma Regroup(l1: string, v1: string, l2: string, v2: string)
    ensures (l1 + " ") + v1 + ((" | " + l2 + " ") + v2) == l1 + " " + v1 + " | " + l2 + " " + v2
  {
  }

  /** The priority entry of the task writer, read back: the priority comes
      back, and so does the effort when there is one; without one the
      effort read so far is kept. */
  lemma PriorityEntryBack(p: Level, e: Option<EffortSize>, rest: seq<string>, f: Parser.TaskFields)
    ensures Parser.ScanTask([Render.PriorityEntry(p, e)] + rest, f) ==
            Parser.ScanTask(rest, f.(priority := LevelName(p),
                                     effort := if e.Some? then EffortField(e) else f.effort))
  {
    if e.Some? {
      PriorityEntrySome(p, e.value);
      TaskPriorityEffortLine(p, e.value, rest, f);
    } else {
      PriorityEntryNone(p);
      TaskPriorityLine(p, rest, f);
    }
  }

  /** As written, a task with an effort has the priority and the effort as
      two entries, so two lines. */
  lemma EffortEntries(i: nat, j: nat, t: Task)
    requires t.estimatedEffort.Some?
    ensures Render.TaskLinesAsWritten(i, j, t)[2..4] ==
      ["**Priority**: " + LevelName(t.priority), " | **Effort**: " + EffortName(t.estimatedEffort.value)]
  {
  }

  /** As written, the effort stands on the line after the priority, where
      the task scan never looks for it: the priority comes back and the
      effort read so far is left as it was. */
  lemma EffortLost(p: Level, e: EffortSize, rest: seq<string>, f: Parser.TaskFields)
    ensures
      var entries := ["**Priority**: " + LevelName(p), " | **Effort**: " + EffortName(e)];
      Parser.ScanTask(entries + rest, f) == Parser.ScanTask(rest, f.(priority := LevelName(p)))
  {
    var second := " | **Effort**: " + EffortName(e);
    var entries := ["**Priority**: " + LevelName(p), second];
    assert "**Priority**: " + LevelName(p) == Parser.PriorityLabel + " " + LevelName(p);
    assert entries + rest == [Parser.PriorityLabel + " " + LevelName(p)] + ([second] + rest);
    TaskPriorityLine(p, [second] + rest, f);
    TaskNeutral(second, rest, f.(priority := LevelName(p)));
  }

  // ---------------------------------------------------------------------
  // A whole task
  // ---------------------------------------------------------------------

  /** A task the writer can put on lines the parser reads back: one-line
      title, plain description and notes, stripped one-line criteria. */
  predicate PlainTask(t: Task) {
    && SingleLine(t.title)
    && Plain(t.description)
    && (forall x <- t.acceptanceCriteria :: IsStripped(x) && SingleLine(x))
    && (t.technicalNotes.Some? ==> Plain(t.technicalNotes.value))
  }

  /** What the task loop should collect for a task. */
  function TaskFieldsOf(t: Task): Parser.TaskFields {
    Parser.TaskFields(t.description, LevelName(t.priority), EffortField(t.estimatedEffort),
                      t.acceptanceCriteria, if Truthy(t.technicalNotes) then t.technicalNotes else None)
  }

  lemma BreakEntry(x: string)
    requires SingleLine(x)
    ensures Split(x + "\n", '\n') == [x, ""]
  {
    SplitAround(x, "", '\n');
    assert x + ['\n'] + "" == x + "\n";
    SplitSingleLine(x);
    assert Split("", '\n') == [""];
  }

  lemma LinesCons(x: string, xs: seq<string>)
    ensures Lines([x] + xs) == Split(x, '\n') + Lines(xs)
  {
    assert ([x] + xs)[0] == x && ([x] + xs)[1..] == xs;
  }

  lemma {:induction false} LinesOfSingles(xs: seq<string>)
    requires forall x <- xs :: SingleLine(x)
    ensures Lines(xs) == xs
  {
    if xs != [] {
      assert xs[0] in xs;
      SplitSingleLine(xs[0]);
      LinesOfSingles(xs[1..]);
      LinesCons(xs[0], xs[1..]);
      assert xs == [xs[0]] + xs[1..];
    }
  }

  lemma NumberLine(n: nat)
    ensures SingleLine(NatToString(n)) && Lacks(NatToString(n), '*')
  {
  }

  /** The heading line of task `j` of epic `i`. */
  function TaskHeadingLine(i: nat, j: nat, title: string): string {
    "#### Task " + NatToString(i) + "." + NatToString(j) + ": " + title
  }

  lemma TaskHeadingShape(i: nat, j: nat, title: string)
    requires SingleLine(title)
    ensures SingleLine(TaskHeadingLine(i, j, title))
    ensures Render.TaskHeading(i, j, title) == TaskHeadingLine(i, j, title) + "\n"
  {
    NumberLine(i);
    NumberLine(j);
    LacksThree("#### Task ", NatToString(i), ".", '\n');
    LacksThree("#### Task " + NatToString(i) + ".", NatToString(j), ": ", '\n');
    LacksAppend("#### Task " + NatToString(i) + "." + NatToString(j) + ": ", title, '\n');
  }

  lemma CriteriaLabelLine()
    ensures SingleLine(Render.CriteriaLabel) && SingleLine(Render.FixCriteriaLabel)
  {
  }

  /** The lines of a criteria block are its entries. */
  lemma CriteriaBlockLines(heading: string, items: seq<string>)
    requires SingleLine(heading)
    requires forall x <- items :: SingleLine(x)
    ensures Lines(Render.CriteriaBlock(heading, items)) == Render.CriteriaBlock(heading, items)
  {
    var block := Render.CriteriaBlock(heading, items);
    forall x <- block ensures SingleLine(x) {
      if x != heading && x != "" {
        var k :| 0 <= k < |items| && x == Render.Bullets(items)[k];
        assert items[k] in items;
        LacksAppend("- ", items[k], '\n');
      }
    }
    LinesOfSingles(block);
  }

  /** The lines of the optional notes entry. */
  function NotesPhysical(notes: Option<string>): seq<string> {
    if Truthy(notes) then ["**Technical Notes**: " + notes.value, ""] else []
  }

  lemma NotesLines(notes: Option<string>)
    requires notes.Some? ==> Plain(notes.value)
    ensures Lines(Render.NotesLine(notes)) == NotesPhysical(notes)
  {
    if Truthy(notes) {
      LacksAppend("**Technical Notes**: ", notes.value, '\n');
      BreakEntry("**Technical Notes**: " + notes.value);
      LinesCons("**Technical Notes**: " + notes.value + "\n", []);
    }
  }

  lemma PriorityEntryLine(p: Level, e: Option<EffortSize>)
    ensures SingleLine(Render.PriorityEntry(p, e))
  {
    LevelNameShape(p);
    LacksAppend("**Priority**: ", LevelName(p), '\n');
    if e.Some? {
      EffortNameShape(e.value);
      LacksAppend(" | **Effort**: ", EffortName(e.value), '\n');
      LacksAppend("**Priority**: " + LevelName(p), " | **Effort**: " + EffortName(e.value), '\n');
    }
  }

  /** The lines of the heading, description and priority of a task. */
  function TaskOpeningPhysical(i: nat, j: nat, t: Task): seq<string> {
    [TaskHeadingLine(i, j, t.title), "", "**Description**: " + t.description, "",
     Render.PriorityEntry(t.priority, t.estimatedEffort), "", ""]
  }

  /** The lines a task is written on. */
  function TaskPhysical(i: nat, j: nat, t: Task): seq<string> {
    TaskOpeningPhysical(i, j, t)
    + Render.CriteriaBlock(Render.CriteriaLabel, t.acceptanceCriteria)
    + NotesPhysical(t.technicalNotes)
    + ["---", ""]
  }

  /** A heading and a description, each followed by a line break, then
      single-line entries and a lone line break, stand on these lines. */
  lemma OpeningEntries(h: string, d: string, mid: seq<string>)
    requires SingleLine(h) && SingleLine(d)
    requires forall x <- mid :: SingleLine(x)
    ensures Lines([h + "\n", d + "\n"] + mid + ["\n"]) == [h, "", d, ""] + mid + ["", ""]
  {
    BreakEntry(h);
    BreakEntry("");
    assert "" + "\n" == "\n";
    BreakEntry(d);
    LinesOfSingles(mid);
    LinesThree([h + "\n", d + "\n"], mid, ["\n"]);
    LinesCons(h + "\n", [d + "\n"]);
    LinesCons(d + "\n", []);
    LinesCons("\n", []);
  }

  /** The first four entries of a task give seven lines. */
  lemma TaskOpeningLines(i: nat, j: nat, t: Task)
    requires PlainTask(t)
    ensures
      var opening := [Render.TaskHeading(i, j, t.title), "**Description**: " + t.description + "\n",
                      Render.PriorityEntry(t.priority, t.estimatedEffort), "\n"];
      Lines(opening) == TaskOpeningPhysical(i, j, t)
  {
    var h := TaskHeadingLine(i, j, t.title);
    var d := "**Description**: " + t.description;
    var pe := Render.PriorityEntry(t.priority, t.estimatedEffort);
    TaskHeadingShape(i, j, t.title);
    LacksAppend("**Description**: ", t.description, '\n');
    PriorityEntryLine(t.priority, t.estimatedEffort);
    OpeningEntries(h, d, [pe]);
    assert [Render.TaskHeading(i, j, t.title), d + "\n", pe, "\n"] == [h + "\n", d + "\n"] + [pe] + ["\n"];
    assert TaskOpeningPhysical(i, j, t) == [h, "", d, ""] + [pe] + ["", ""];
  }

  /** Joined with line breaks, the entries of a task stand on its physical
      lines. */
  lemma TaskLinesPhysical(i: nat, j: nat, t: Task)
    requires PlainTask(t)
    ensures Lines(Render.TaskLines(i, j, t)) == TaskPhysical(i, j, t)
  {
    var opening := [Render.TaskHeading(i, j, t.title), "**Description**: " + t.description + "\n",
                    Render.PriorityEntry(t.priority, t.estimatedEffort), "\n"];
    var block := Render.CriteriaBlock(Render.CriteriaLabel, t.acceptanceCriteria);
    var notes := Render.NotesLine(t.technicalNotes);
    assert Render.TaskLines(i, j, t) == opening + block + notes + [Render.Separator];
    Assoc4(opening, block, notes, [Render.Separator]);
    LinesAppend(opening, block + notes + [Render.Separator]);
    TaskOpeningLines(i, j, t);
    TaskTailLines(t);
    Assoc4(TaskOpeningPhysical(i, j, t), block, NotesPhysical(t.technicalNotes), ["---", ""]);
  }

  lemma Assoc4(a: seq<string>, b: seq<string>, c: seq<string>, d: seq<string>)
    ensures a + b + c + d == a + (b + c + d)
  {
  }

  /** The criteria, the notes and the closing rule of a task stand on
      these lines. */
  lemma TaskTailLines(t: Task)
    requires PlainTask(t)
    ensures
      Lines(Render.CriteriaBlock(Render.CriteriaLabel, t.acceptanceCriteria)
            + Render.NotesLine(t.technicalNotes) + [Render.Separator]) ==
      Render.CriteriaBlock(Render.CriteriaLabel, t.acceptanceCriteria)
      + NotesPhysical(t.technicalNotes) + ["---", ""]
  {
    assert forall x <- t.acceptanceCriteria :: SingleLine(x);
    CriteriaTailLines(t.acceptanceCriteria, t.technicalNotes);
  }

  /** The criteria, the notes and the closing rule of a task or a story
      stand on these lines. */
  lemma CriteriaTailLines(items: seq<string>, notes: Option<string>)
    requires forall x <- items :: SingleLine(x)
    requires notes.Some? ==> Plain(notes.value)
    ensures
      Lines(Render.CriteriaBlock(Render.CriteriaLabel, items) + Render.NotesLine(notes) + [Render.Separator]) ==
      Render.CriteriaBlock(Render.CriteriaLabel, items) + NotesPhysical(notes) + ["---", ""]
  {
    var block := Render.CriteriaBlock(Render.CriteriaLabel, items);
    LinesThree(block, Render.NotesLine(notes), [Render.Separator]);
    CriteriaLabelLine();
    CriteriaBlockLines(Render.CriteriaLabel, items);
    NotesLines(notes);
    SeparatorLines();
  }

  lemma SeparatorLines()
    ensures Lines([Render.Separator]) == ["---", ""]
  {
    BreakEntry("---");
    assert Render.Separator == "---" + "\n";
    LinesCons(Render.Separator, []);
  }

  /** The closing separator of a task changes nothing. */
  lemma TaskClosing(f: Parser.TaskFields)
    ensures Parser.ScanTask(["---", ""], f) == f
  {
    TaskNeutral("---", [""], f);
    TaskNeutral("", [], f);
    assert ["---", ""] == ["---"] + [""];
    assert [""] == [""] + [];
  }

  lemma TaskNotesScan(notes: Option<string>, f: Parser.TaskFields)
    requires notes.Some? ==> Plain(notes.value)
    ensures Parser.ScanTask(NotesPhysical(notes) + ["---", ""], f) ==
            f.(notes := if Truthy(notes) then notes else f.notes)
  {
    var closing := ["---", ""];
    if Truthy(notes) {
      var n := notes.value;
      var g := f.(notes := Some(n));
      assert "**Technical Notes**: " + n == Parser.NotesLabel + " " + n;
      assert NotesPhysical(notes) + closing == [Parser.NotesLabel + " " + n] + ([""] + closing);
      TaskNotesLine(n, [""] + closing, f);
      TaskNeutral("", closing, g);
      TaskClosing(g);
    } else {
      assert NotesPhysical(notes) + closing == closing;
      TaskClosing(f);
    }
  }

  /** After the priority: the criteria block and the notes. */
  lemma TaskTailScan(items: seq<string>, notes: Option<string>, f: Parser.TaskFields)
    requires forall x <- items :: IsStripped(x)
    requires notes.Some? ==> Plain(notes.value)
    ensures
      var tail := Render.CriteriaBlock(Render.CriteriaLabel, items) + NotesPhysical(notes) + ["---", ""];
      Parser.ScanTask(tail, f) ==
        f.(criteria := f.criteria + items, notes := if Truthy(notes) then notes else f.notes)
  {
    var rest := NotesPhysical(notes) + ["---", ""];
    var block := Render.CriteriaBlock(Render.CriteriaLabel, items);
    assert block + NotesPhysical(notes) + ["---", ""] == block + rest;
    if items != [] {
      TaskCriteriaBlock(items, rest, f);
      TaskNotesScan(notes, f.(criteria := f.criteria + items));
    } else {
      assert block + rest == rest;
      assert f.criteria + items == f.criteria;
      TaskNotesScan(notes, f);
    }
  }

  /** The lines after the heading up to the criteria: description and
      priority, with the effort on the priority line. */
  lemma TaskOpeningScan(i: nat, j: nat, t: Task, rest: seq<string>, f: Parser.TaskFields)
    requires Plain(t.description)
    ensures Parser.ScanTask(TaskOpeningPhysical(i, j, t)[1..] + rest, f) ==
      Parser.ScanTask(rest, f.(description := t.description, priority := LevelName(t.priority),
                               effort := if t.estimatedEffort.Some? then EffortField(t.estimatedEffort) else f.effort))
  {
    var d := "**Description**: " + t.description;
    var pe := Render.PriorityEntry(t.priority, t.estimatedEffort);
    var f1 := f.(description := t.description);
    assert d == Parser.DescriptionLabel + " " + t.description;
    assert TaskOpeningPhysical(i, j, t)[1..] + rest ==
      [""] + ([d] + ([""] + ([pe] + ([""] + ([""] + rest)))));
    TaskNeutral("", [d] + ([""] + ([pe] + ([""] + ([""] + rest)))), f);
    TaskDescriptionLine(t.description, [""] + ([pe] + ([""] + ([""] + rest))), f);
    TaskNeutral("", [pe] + ([""] + ([""] + rest)), f1);
    PriorityEntryBack(t.priority, t.estimatedEffort, [""] + ([""] + rest), f1);
    var f2 := f1.(priority := LevelName(t.priority),
                  effort := if t.estimatedEffort.Some? then EffortField(t.estimatedEffort) else f1.effort);
    TaskNeutral("", [""] + rest, f2);
    TaskNeutral("", rest, f2);
  }

  /** A task written by the task writer and read by the task loop, from the
      line after its heading, gives back every field of the task: its
      description, priority, effort, criteria, and notes when they are
      non-empty. */
  lemma TaskRoundTrip(i: nat, j: nat, t: Task)
    requires PlainTask(t)
    ensures Parser.ScanTask(Lines(Render.TaskLines(i, j, t))[1..], Parser.TaskDefaults) == TaskFieldsOf(t)
  {
    TaskLinesPhysical(i, j, t);
    var opening := TaskOpeningPhysical(i, j, t);
    var tail := Render.CriteriaBlock(Render.CriteriaLabel, t.acceptanceCriteria)
                + NotesPhysical(t.technicalNotes) + ["---", ""];
    AfterFirst(opening, Render.CriteriaBlock(Render.CriteriaLabel, t.acceptanceCriteria),
               NotesPhysical(t.technicalNotes), ["---", ""]);
    TaskOpeningScan(i, j, t, tail, Parser.TaskDefaults);
    var f := Parser.TaskDefaults.(description := t.description, priority := LevelName(t.priority),
                                  effort := EffortField(t.estimatedEffort));
    TaskTailScan(t.acceptanceCriteria, t.technicalNotes, f);
    assert [] + t.acceptanceCriteria == t.acceptanceCriteria;
  }

  /** The opening lines of a task with an effort, as written: the effort
      gets a line of its own. */
  function TaskOpeningAsWritten(i: nat, j: nat, t: Task): seq<string>
    requires t.estimatedEffort.Some?
  {
    [TaskHeadingLine(i, j, t.title), "", "**Description**: " + t.description, "",
     "**Priority**: " + LevelName(t.priority), " | **Effort**: " + EffortName(t.estimatedEffort.value), "", ""]
  }

  lemma TaskOpeningLinesAsWritten(i: nat, j: nat, t: Task)
    requires PlainTask(t) && t.estimatedEffort.Some?
    ensures
      var opening := [Render.TaskHeading(i, j, t.title), "**Description**: " + t.description + "\n",
                      "**Priority**: " + LevelName(t.priority),
                      " | **Effort**: " + EffortName(t.estimatedEffort.value), "\n"];
      Lines(opening) == TaskOpeningAsWritten(i, j, t)
  {
    var h := TaskHeadingLine(i, j, t.title);
    var d := "**Description**: " + t.description;
    var pl := "**Priority**: " + LevelName(t.priority);
    var el := " | **Effort**: " + EffortName(t.estimatedEffort.value);
    TaskHeadingShape(i, j, t.title);
    LacksAppend("**Description**: ", t.description, '\n');
    PriorityEntryLine(t.priority, None);
    PriorityEntryNone(t.priority);
    EffortNameShape(t.estimatedEffort.value);
    LacksAppend(" | **Effort**: ", EffortName(t.estimatedEffort.value), '\n');
    OpeningEntries(h, d, [pl, el]);
    assert [Render.TaskHeading(i, j, t.title), d + "\n", pl, el, "\n"] == [h + "\n", d + "\n"] + [pl, el] + ["\n"];
    assert TaskOpeningAsWritten(i, j, t) == [h, "", d, ""] + [pl, el] + ["", ""];
  }

  /** The entries of a task with an effort, as written, grouped. */
  lemma TaskEntriesAsWritten(i: nat, j: nat, t: Task)
    requires t.estimatedEffort.Some?
    ensures Render.TaskLinesAsWritten(i, j, t) ==
      [Render.TaskHeading(i, j, t.title), "**Description**: " + t.description + "\n",
       "**Priority**: " + LevelName(t.priority),
       " | **Effort**: " + EffortName(t.estimatedEffort.value), "\n"]
      + Render.CriteriaBlock(Render.CriteriaLabel, t.acceptanceCriteria)
      + Render.NotesLine(t.technicalNotes) + [Render.Separator]
  {
  }

  /** The lines a task with an effort is written on, as written. */
  function TaskPhysicalAsWritten(i: nat, j: nat, t: Task): seq<string>
    requires t.estimatedEffort.Some?
  {
    TaskOpeningAsWritten(i, j, t)
    + Render.CriteriaBlock(Render.CriteriaLabel, t.acceptanceCriteria)
    + NotesPhysical(t.technicalNotes) + ["---", ""]
  }

  lemma TaskLinesPhysicalAsWritten(i: nat, j: nat, t: Task)
    requires PlainTask(t) && t.estimatedEffort.Some?
    ensures Lines(Render.TaskLinesAsWritten(i, j, t)) == TaskPhysicalAsWritten(i, j, t)
  {
    var opening := [Render.TaskHeading(i, j, t.title), "**Description**: " + t.description + "\n",
                    "**Priority**: " + LevelName(t.priority),
                    " | **Effort**: " + EffortName(t.estimatedEffort.value), "\n"];
    var block := Render.CriteriaBlock(Render.CriteriaLabel, t.acceptanceCriteria);
    var notes := Render.NotesLine(t.technicalNotes);
    TaskEntriesAsWritten(i, j, t);
    Assoc4(opening, block, notes, [Render.Separator]);
    LinesAppend(opening, block + notes + [Render.Separator]);
    TaskOpeningLinesAsWritten(i, j, t);
    TaskTailLines(t);
    Assoc4(TaskOpeningAsWritten(i, j, t), block, NotesPhysical(t.technicalNotes), ["---", ""]);
  }

  /** The lines after the heading of a task with an effort, as written,
      one by one. */
  lemma TaskBodyAsWritten(i: nat, j: nat, t: Task)
    requires t.estimatedEffort.Some?
    ensures
      var tail := Render.CriteriaBlock(Render.CriteriaLabel, t.acceptanceCriteria)
                  + NotesPhysical(t.technicalNotes) + ["---", ""];
      var entries := ["**Priority**: " + LevelName(t.priority), " | **Effort**: " + EffortName(t.estimatedEffort.value)];
      TaskPhysicalAsWritten(i, j, t)[1..] ==
        [""] + ([Parser.DescriptionLabel + " " + t.description] + ([""] + (entries + ([""] + ([""] + tail)))))
  {
    assert "**Description**: " + t.description == Parser.DescriptionLabel + " " + t.description;
    var tail := Render.CriteriaBlock(Render.CriteriaLabel, t.acceptanceCriteria)
                + NotesPhysical(t.technicalNotes) + ["---", ""];
    AfterFirst(TaskOpeningAsWritten(i, j, t), Render.CriteriaBlock(Render.CriteriaLabel, t.acceptanceCriteria),
               NotesPhysical(t.technicalNotes), ["---", ""]);
    EightEntries(TaskHeadingLine(i, j, t.title), "", Parser.DescriptionLabel + " " + t.description, "",
                 "**Priority**: " + LevelName(t.priority), " | **Effort**: " + EffortName(t.estimatedEffort.value),
                 "", "", tail);
  }

  /** Dropping the first of four concatenated parts. */
  lemma AfterFirst(a: seq<string>, b: seq<string>, c: seq<string>, d: seq<string>)
    requires a != []
    ensures (a + b + c + d)[1..] == a[1..] + (b + c + d)
  {
  }

  lemma EightEntries(a: string, b: string, c: string, d: string, e: string, f: string,
                     g: string, h: string, tail: seq<string>)
    ensures [a, b, c, d, e, f, g, h][1..] + tail == [b] + ([c] + ([d] + ([e, f] + ([g] + ([h] + tail)))))
  {
  }

  /** A task with an effort, written as the writer writes it and read by
      the task loop, comes back with every field but the effort, which is
      left empty. */
  lemma EffortLostInTask(i: nat, j: nat, t: Task)
    requires PlainTask(t) && t.estimatedEffort.Some?
    ensures Parser.ScanTask(Lines(Render.TaskLinesAsWritten(i, j, t))[1..], Parser.TaskDefaults) ==
      TaskFieldsOf(t).(effort := None)
    ensures TaskFieldsOf(t).effort != None
  {
    TaskLinesPhysicalAsWritten(i, j, t);
    TaskBodyAsWritten(i, j, t);
    var tail := Render.CriteriaBlock(Render.CriteriaLabel, t.acceptanceCriteria)
                + NotesPhysical(t.technicalNotes) + ["---", ""];
    var entries := ["**Priority**: " + LevelName(t.priority), " | **Effort**: " + EffortName(t.estimatedEffort.value)];
    var d := Parser.DescriptionLabel + " " + t.description;
    var f1 := Parser.TaskDefaults.(description := t.description);
    TaskNeutral("", [d] + ([""] + (entries + ([""] + ([""] + tail)))), Parser.TaskDefaults);
    TaskDescriptionLine(t.description, [""] + (entries + ([""] + ([""] + tail))), Parser.TaskDefaults);
    TaskNeutral("", entries + ([""] + ([""] + tail)), f1);
    EffortLost(t.priority, t.estimatedEffort.value, [""] + ([""] + tail), f1);
    var f2 := f1.(priority := LevelName(t.priority));
    TaskNeutral("", [""] + tail, f2);
    TaskNeutral("", tail, f2);
    TaskTailScan(t.acceptanceCriteria, t.technicalNotes, f2);
    assert [] + t.acceptanceCriteria == t.acceptanceCriteria;
  }

  // ---------------------------------------------------------------------
  // The epic field loop over the lines of an epic
  // ---------------------------------------------------------------------

  /** A line the epic field loop passes over. */
  predicate EpicInert(line: string) {
    && !StartsWith(line, Parser.DescriptionLabel)
    && !StartsWith(line, Parser.BusinessValueLabel)
    && !StartsWith(line, Parser.PriorityLabel)
  }

  lemma EpicInertStep(line: string, f: Parser.EpicFields)
    requires EpicInert(line)
    ensures Parser.EpicStep(line, f) == f
  {
  }

  lemma StarFreeInert(line: string)
    requires line == [] || line[0] != '*'
    ensures EpicInert(line)
  {
    StarFree(line, Parser.DescriptionLabel);
    StarFree(line, Parser.BusinessValueLabel);
    StarFree(line, Parser.PriorityLabel);
  }

  lemma ScanEpicCons(x: string, rest: seq<string>, f: Parser.EpicFields)
    ensures Parser.ScanEpic([x] + rest, f) == Parser.ScanEpic(rest, Parser.EpicStep(x, f))
  {
    assert ([x] + rest)[0] == x && ([x] + rest)[1..] == rest;
  }

  lemma {:induction false} ScanEpicAppend(a: seq<string>, b: seq<string>, f: Parser.EpicFields)
    ensures Parser.ScanEpic(a + b, f) == Parser.ScanEpic(b, Parser.ScanEpic(a, f))
    decreases |a|
  {
    if a == [] {
      assert a + b == b;
    } else {
      assert a + b == [a[0]] + (a[1..] + b);
      ScanEpicCons(a[0], a[1..] + b, f);
      ScanEpicAppend(a[1..], b, Parser.EpicStep(a[0], f));
    }
  }

  lemma {:induction false} ScanEpicInert(lines: seq<string>, f: Parser.EpicFields)
    requires forall l <- lines :: EpicInert(l)
    ensures Parser.ScanEpic(lines, f) == f
    decreases |lines|
  {
    if lines != [] {
      assert lines[0] in lines;
      EpicInertStep(lines[0], f);
      ScanEpicInert(lines[1..], f);
    }
  }

  lemma EpicDescriptionStep(d: string, f: Parser.EpicFields)
    requires Plain(d)
    ensures Parser.EpicStep(Parser.DescriptionLabel + " " + d, f) == f.(description := d)
  {
    assert Parser.DescriptionLabel + " " + d == Parser.DescriptionLabel + (" " + d);
    LabelledLine(Parser.DescriptionLabel, Parser.PriorityLabel, " " + d, 2);
    FieldLine(Parser.DescriptionLabel, d);
  }

  lemma EpicBusinessValueStep(b: string, f: Parser.EpicFields)
    requires Plain(b)
    ensures Parser.EpicStep(Parser.BusinessValueLabel + " " + b, f) == f.(businessValue := Some(b))
  {
    assert Parser.BusinessValueLabel + " " + b == Parser.BusinessValueLabel + (" " + b);
    LabelledLine(Parser.BusinessValueLabel, Parser.DescriptionLabel, " " + b, 2);
    FieldLine(Parser.BusinessValueLabel, b);
  }

  lemma EpicPriorityStep(p: Level, f: Parser.EpicFields)
    ensures Parser.EpicStep(Parser.PriorityLabel + " " + LevelName(p), f) == f.(priority := LevelName(p))
  {
    LevelNameShape(p);
    PriorityPlain(LevelName(p));
  }

  /** The epic loop reads the priority, and only the priority, from the
      line `**Priority**: P | **Effort**: E`. */
  lemma EpicPriorityEffortStep(p: Level, e: EffortSize, f: Parser.EpicFields)
    ensures
      var line := Parser.PriorityLabel + " " + LevelName(p) + " | " + Parser.EffortLabel + " " + EffortName(e);
      Parser.EpicStep(line, f) == f.(priority := LevelName(p))
  {
    var pv := LevelName(p);
    var ev := EffortName(e);
    var line := Parser.PriorityLabel + " " + pv + " | " + Parser.EffortLabel + " " + ev;
    LevelNameShape(p);
    EffortNameShape(e);
    PriorityBar(pv, ev);
  }

  lemma EpicPriorityEntryStep(p: Level, e: Option<EffortSize>, f: Parser.EpicFields)
    ensures Parser.EpicStep(Render.PriorityEntry(p, e), f) == f.(priority := LevelName(p))
  {
    if e.Some? {
      PriorityEntrySome(p, e.value);
      EpicPriorityEffortStep(p, e.value, f);
    } else {
      PriorityEntryNone(p);
      EpicPriorityStep(p, f);
    }
  }

  lemma LabelInert(field: string, v: string)
    requires |field| > 2 && field[0] == '*' && field[1] == '*'
    requires field[2] !in {'D', 'B', 'P'}
    ensures EpicInert(field + v)
  {
    LabelledLine(field, Parser.DescriptionLabel, v, 2);
    LabelledLine(field, Parser.BusinessValueLabel, v, 2);
    LabelledLine(field, Parser.PriorityLabel, v, 2);
  }

  /** Every line of a task after its priority is one the epic loop passes
      over. */
  lemma TaskTailInert(items: seq<string>, notes: Option<string>)
    ensures
      var tail := Render.CriteriaBlock(Render.CriteriaLabel, items) + NotesPhysical(notes) + ["---", ""];
      forall l <- tail :: EpicInert(l)
  {
    CriteriaInert(items);
    NotesInert(notes);
    StarFreeInert("");
    StarFreeInert("---");
    InertJoin(Render.CriteriaBlock(Render.CriteriaLabel, items), NotesPhysical(notes), ["---", ""]);
  }

  lemma CriteriaInert(items: seq<string>)
    ensures forall l <- Render.CriteriaBlock(Render.CriteriaLabel, items) :: EpicInert(l)
  {
    var block := Render.CriteriaBlock(Render.CriteriaLabel, items);
    LabelInert(Render.CriteriaLabel, []);
    assert Render.CriteriaLabel + [] == Render.CriteriaLabel;
    StarFreeInert("");
    forall l <- block ensures EpicInert(l) {
      if l != Render.CriteriaLabel && l != "" {
        var k :| 0 <= k < |items| && l == Render.Bullets(items)[k];
        StarFreeInert(l);
      }
    }
  }

  lemma NotesInert(notes: Option<string>)
    ensures forall l <- NotesPhysical(notes) :: EpicInert(l)
  {
    if Truthy(notes) {
      LabelInert(Parser.NotesLabel, " " + notes.value);
      assert "**Technical Notes**: " + notes.value == Parser.NotesLabel + (" " + notes.value);
      StarFreeInert("");
    }
  }

  lemma InertJoin(a: seq<string>, b: seq<string>, c: seq<string>)
    requires forall l <- a :: EpicInert(l)
    requires forall l <- b :: EpicInert(l)
    requires forall l <- c :: EpicInert(l)
    ensures forall l <- a + b + c :: EpicInert(l)
  {
  }

  /** The epic loop over the opening lines of a task takes the task's
      description and priority. */
  lemma EpicOverTaskOpening(i: nat, j: nat, t: Task, f: Parser.EpicFields)
    requires Plain(t.description)
    ensures Parser.ScanEpic(TaskOpeningPhysical(i, j, t), f) ==
      f.(description := t.description, priority := LevelName(t.priority))
  {
    var h := TaskHeadingLine(i, j, t.title);
    var d := "**Description**: " + t.description;
    var pe := Render.PriorityEntry(t.priority, t.estimatedEffort);
    assert d == Parser.DescriptionLabel + " " + t.description;
    var f1 := f.(description := t.description);
    var f2 := f1.(priority := LevelName(t.priority));
    assert h[0] == '#';
    StarFreeInert(h);
    StarFreeInert("");
    EpicDescriptionStep(t.description, f);
    EpicPriorityEntryStep(t.priority, t.estimatedEffort, f1);
    calc {
      Parser.ScanEpic(TaskOpeningPhysical(i, j, t), f);
      { ScanEpicCons(h, ["", d, "", pe, "", ""], f); }
      Parser.ScanEpic(["", d, "", pe, "", ""], f);
      { ScanEpicCons("", [d, "", pe, "", ""], f); }
      Parser.ScanEpic([d, "", pe, "", ""], f);
      { ScanEpicCons(d, ["", pe, "", ""], f); }
      Parser.ScanEpic(["", pe, "", ""], f1);
      { ScanEpicCons("", [pe, "", ""], f1); }
      Parser.ScanEpic([pe, "", ""], f1);
      { ScanEpicCons(pe, ["", ""], f1); }
      Parser.ScanEpic(["", ""], f2);
      { ScanEpicInert(["", ""], f2); }
      f2;
    }
  }

  /** The epic loop over the lines of one task takes the task's description
      and priority. */
  lemma EpicOverTask(i: nat, j: nat, t: Task, f: Parser.EpicFields)
    requires PlainTask(t)
    ensures Parser.ScanEpic(TaskPhysical(i, j, t), f) ==
      f.(description := t.description, priority := LevelName(t.priority))
  {
    var tail := Render.CriteriaBlock(Render.CriteriaLabel, t.acceptanceCriteria)
                + NotesPhysical(t.technicalNotes) + ["---", ""];
    assert TaskPhysical(i, j, t) == TaskOpeningPhysical(i, j, t) + tail;
    ScanEpicAppend(TaskOpeningPhysical(i, j, t), tail, f);
    EpicOverTaskOpening(i, j, t, f);
    TaskTailInert(t.acceptanceCriteria, t.technicalNotes);
    ScanEpicInert(tail, f.(description := t.description, priority := LevelName(t.priority)));
  }

  /** The epic loop over the opening lines of a task with an effort, as
      written, takes the task's description and priority: the effort line
      opens with a blank and changes nothing. */
  lemma EpicOverOpeningAsWritten(i: nat, j: nat, t: Task, f: Parser.EpicFields)
    requires Plain(t.description) && t.estimatedEffort.Some?
    ensures Parser.ScanEpic(TaskOpeningAsWritten(i, j, t), f) ==
      f.(description := t.description, priority := LevelName(t.priority))
  {
    var h := TaskHeadingLine(i, j, t.title);
    var d := "**Description**: " + t.description;
    var pl := "**Priority**: " + LevelName(t.priority);
    var el := " | **Effort**: " + EffortName(t.estimatedEffort.value);
    assert d == Parser.DescriptionLabel + " " + t.description;
    assert pl == Parser.PriorityLabel + " " + LevelName(t.priority);
    var f1 := f.(description := t.description);
    var f2 := f1.(priority := LevelName(t.priority));
    assert h[0] == '#';
    StarFreeInert(h);
    StarFreeInert("");
    StarFreeInert(el);
    EpicDescriptionStep(t.description, f);
    EpicPriorityStep(t.priority, f1);
    calc {
      Parser.ScanEpic(TaskOpeningAsWritten(i, j, t), f);
      { ScanEpicCons(h, ["", d, "", pl, el, "", ""], f); }
      Parser.ScanEpic(["", d, "", pl, el, "", ""], f);
      { ScanEpicCons("", [d, "", pl, el, "", ""], f); }
      Parser.ScanEpic([d, "", pl, el, "", ""], f);
      { ScanEpicCons(d, ["", pl, el, "", ""], f); }
      Parser.ScanEpic(["", pl, el, "", ""], f1);
      { ScanEpicCons("", [pl, el, "", ""], f1); }
      Parser.ScanEpic([pl, el, "", ""], f1);
      { ScanEpicCons(pl, [el, "", ""], f1); }
      Parser.ScanEpic([el, "", ""], f2);
      { ScanEpicInert([el, "", ""], f2); }
      f2;
    }
  }

  /** The epic loop over all the lines of a task with an effort, as
      written. */
  lemma EpicOverTaskAsWritten(i: nat, j: nat, t: Task, f: Parser.EpicFields)
    requires PlainTask(t) && t.estimatedEffort.Some?
    ensures Parser.ScanEpic(TaskPhysicalAsWritten(i, j, t), f) ==
      f.(description := t.description, priority := LevelName(t.priority))
  {
    var tail := Render.CriteriaBlock(Render.CriteriaLabel, t.acceptanceCriteria)
                + NotesPhysical(t.technicalNotes) + ["---", ""];
    assert TaskPhysicalAsWritten(i, j, t) == TaskOpeningAsWritten(i, j, t) + tail;
    ScanEpicAppend(TaskOpeningAsWritten(i, j, t), tail, f);
    EpicOverOpeningAsWritten(i, j, t, f);
    TaskTailInert(t.acceptanceCriteria, t.technicalNotes);
    ScanEpicInert(tail, f.(description := t.description, priority := LevelName(t.priority)));
  }

  /** The lines the document writer puts a task on: with an effort, the
      effort stands on a line of its own; without one the as-written and
      the intended shapes agree. */
  function TaskWrittenPhysical(i: nat, j: nat, t: Task): seq<string> {
    if t.estimatedEffort.Some? then TaskPhysicalAsWritten(i, j, t) else TaskPhysical(i, j, t)
  }

  lemma TaskWrittenLines(i: nat, j: nat, t: Task)
    requires PlainTask(t)
    ensures Lines(Render.TaskLinesAsWritten(i, j, t)) == TaskWrittenPhysical(i, j, t)
  {
    if t.estimatedEffort.Some? {
      TaskLinesPhysicalAsWritten(i, j, t);
    } else {
      Render.TaskLinesWithoutEffort(i, j, t);
      TaskLinesPhysical(i, j, t);
    }
  }

  /** Whatever the effort, the epic loop over the lines of a written task
      takes the task's description and priority. */
  lemma EpicOverWrittenTask(i: nat, j: nat, t: Task, f: Parser.EpicFields)
    requires PlainTask(t)
    ensures Parser.ScanEpic(TaskWrittenPhysical(i, j, t), f) ==
      f.(description := t.description, priority := LevelName(t.priority))
  {
    if t.estimatedEffort.Some? {
      EpicOverTaskAsWritten(i, j, t, f);
    } else {
      EpicOverTask(i, j, t, f);
    }
  }

  /** Every task of a list is plain. */
  predicate PlainTasks(tasks: seq<Task>) {
    forall k :: 0 <= k < |tasks| ==> PlainTask(tasks[k])
  }

  lemma PlainTasksSplit(tasks: seq<Task>)
    requires tasks != [] && PlainTasks(tasks)
    ensures PlainTask(tasks[0]) && PlainTasks(tasks[1..])
  {
    forall k | 0 <= k < |tasks| - 1 ensures PlainTask(tasks[1..][k]) {
      assert tasks[1..][k] == tasks[k + 1];
    }
  }

  /** The lines the tasks of epic `i`, numbered from `j`, are written on. */
  function TasksPhysical(i: nat, j: nat, tasks: seq<Task>): seq<string>
    decreases |tasks|
  {
    if tasks == [] then [] else TaskWrittenPhysical(i, j, tasks[0]) + TasksPhysical(i, j + 1, tasks[1..])
  }

  lemma {:induction false} TasksLinesPhysical(i: nat, j: nat, tasks: seq<Task>)
    requires PlainTasks(tasks)
    ensures Lines(Render.TasksLines(i, j, tasks)) == TasksPhysical(i, j, tasks)
    decreases |tasks|
  {
    if tasks != [] {
      PlainTasksSplit(tasks);
      LinesAppend(Render.TaskLinesAsWritten(i, j, tasks[0]), Render.TasksLines(i, j + 1, tasks[1..]));
      TaskWrittenLines(i, j, tasks[0]);
      TasksLinesPhysical(i, j + 1, tasks[1..]);
    }
  }

  /** Over the lines of several tasks, the epic loop ends with the last
      task's description and priority. */
  lemma {:induction false} EpicOverTasks(i: nat, j: nat, tasks: seq<Task>, f: Parser.EpicFields)
    requires tasks != []
    requires PlainTasks(tasks)
    ensures Parser.ScanEpic(TasksPhysical(i, j, tasks), f) ==
      f.(description := tasks[|tasks| - 1].description, priority := LevelName(tasks[|tasks| - 1].priority))
    decreases |tasks|
  {
    var t := tasks[0];
    var g := f.(description := t.description, priority := LevelName(t.priority));
    PlainTasksSplit(tasks);
    EpicOverFirstTask(i, j, tasks, f);
    if |tasks| > 1 {
      EpicOverTasks(i, j + 1, tasks[1..], g);
      assert tasks[1..][|tasks[1..]| - 1] == tasks[|tasks| - 1];
    } else {
      assert tasks[1..] == [];
    }
  }

  /** The epic loop over the first task's lines, then over the rest. */
  lemma EpicOverFirstTask(i: nat, j: nat, tasks: seq<Task>, f: Parser.EpicFields)
    requires tasks != [] && PlainTask(tasks[0])
    ensures
      var t := tasks[0];
      Parser.ScanEpic(TasksPhysical(i, j, tasks), f) ==
        Parser.ScanEpic(TasksPhysical(i, j + 1, tasks[1..]), f.(description := t.description, priority := LevelName(t.priority)))
  {
    var t := tasks[0];
    var others := TasksPhysical(i, j + 1, tasks[1..]);
    assert TasksPhysical(i, j, tasks) == TaskWrittenPhysical(i, j, t) + others;
    EpicOverWrittenTask(i, j, t, f);
    ScanEpicAppend(TaskWrittenPhysical(i, j, t), others, f);
  }

  lemma TaskHeadingStarts(i: nat, j: nat, title: string)
    ensures StartsWith(TaskHeadingLine(i, j, title), Parser.TaskHeadingPrefix)
  {
    var h := TaskHeadingLine(i, j, title);
    assert h == Parser.TaskHeadingPrefix + (NatToString(i) + "." + NatToString(j) + ": " + title);
    assert h[..|Parser.TaskHeadingPrefix|] == Parser.TaskHeadingPrefix;
  }

  /** The lines of several tasks open with the first task's heading. */
  lemma TasksOpenWithHeading(i: nat, j: nat, tasks: seq<Task>)
    requires tasks != []
    ensures TasksPhysical(i, j, tasks) != []
    ensures StartsWith(TasksPhysical(i, j, tasks)[0], Parser.TaskHeadingPrefix)
  {
    var t := tasks[0];
    var phys := TaskWrittenPhysical(i, j, t);
    if t.estimatedEffort.Some? {
      assert TaskOpeningAsWritten(i, j, t)[0] == TaskHeadingLine(i, j, t.title);
    } else {
      assert TaskOpeningPhysical(i, j, t)[0] == TaskHeadingLine(i, j, t.title);
    }
    assert phys[0] == TaskHeadingLine(i, j, t.title);
    assert TasksPhysical(i, j, tasks)[0] == phys[0];
    TaskHeadingStarts(i, j, t.title);
  }

  /** The stopped loop runs like the full one up to a task heading and
      stops there. */
  lemma {:induction false} ScanEpicHeadAppend(a: seq<string>, b: seq<string>, f: Parser.EpicFields)
    requires forall l <- a :: !StartsWith(l, Parser.TaskHeadingPrefix)
    requires b != [] && StartsWith(b[0], Parser.TaskHeadingPrefix)
    ensures Parser.ScanEpicHead(a + b, f) == Parser.ScanEpic(a, f)
    decreases |a|
  {
    if a == [] {
      assert a + b == b;
    } else {
      assert a[0] in a;
      assert forall l <- a[1..] :: l in a;
      assert (a + b)[0] == a[0] && (a + b)[1..] == a[1..] + b;
      ScanEpicHeadAppend(a[1..], b, Parser.EpicStep(a[0], f));
      ScanEpicCons(a[0], a[1..], f);
      assert a == [a[0]] + a[1..];
    }
  }

  // ---------------------------------------------------------------------
  // A whole epic
  // ---------------------------------------------------------------------

  /** An epic the writer can put on lines the parser reads back. */
  predicate PlainEpic(e: Epic) {
    && SingleLine(e.title)
    && Plain(e.description)
    && (e.businessValue.Some? ==> Plain(e.businessValue.value))
    && PlainTasks(e.tasks)
  }

  /** The business value the loop should collect: the writer leaves out an
      empty one. */
  function BusinessValueField(bv: Option<string>): Option<string> {
    if Truthy(bv) then bv else None
  }

  function BusinessValuePhysical(bv: Option<string>): seq<string> {
    if Truthy(bv) then ["**Business Value**: " + bv.value, ""] else []
  }

  function EpicHeadingLine(i: nat, title: string): string {
    "## Epic " + NatToString(i) + ": " + title
  }

  /** The lines of an epic up to its priority. */
  function EpicHeadPhysical(i: nat, e: Epic): (ls: seq<string>)
    ensures |ls| >= 6
  {
    [EpicHeadingLine(i, e.title), "", "**Description**: " + e.description, ""]
    + BusinessValuePhysical(e.businessValue)
    + ["**Priority**: " + LevelName(e.priority), ""]
  }

  function TasksHeadingLine(n: nat): string {
    "### Tasks (" + NatToString(n) + ")"
  }

  /** The lines of an epic's task list. */
  function EpicTasksPhysical(i: nat, e: Epic): seq<string> {
    if e.tasks != [] then ["", TasksHeadingLine(|e.tasks|), ""] + TasksPhysical(i, 1, e.tasks) else []
  }

  /** The lines an epic is written on. */
  function EpicPhysical(i: nat, e: Epic): seq<string> {
    EpicHeadPhysical(i, e) + EpicTasksPhysical(i, e) + ["", ""]
  }

  lemma LeadingBreakEntry(x: string)
    requires SingleLine(x)
    ensures Split("\n" + x + "\n", '\n') == ["", x, ""]
  {
    SplitAround("", x + "\n", '\n');
    assert "" + ['\n'] + (x + "\n") == "\n" + x + "\n";
    assert Split("", '\n') == [""];
    BreakEntry(x);
  }

  lemma EpicHeadEntries(i: nat, e: Epic)
    requires PlainEpic(e)
    ensures
      var bv := if Truthy(e.businessValue) then ["**Business Value**: " + e.businessValue.value + "\n"] else [];
      var entries := ["## Epic " + NatToString(i) + ": " + e.title + "\n", "**Description**: " + e.description + "\n"]
                     + bv + ["**Priority**: " + LevelName(e.priority) + "\n"];
      Lines(entries) == EpicHeadPhysical(i, e)
  {
    var bv := if Truthy(e.businessValue) then ["**Business Value**: " + e.businessValue.value + "\n"] else [];
    NumberLine(i);
    LacksThree("## Epic ", NatToString(i), ": ", '\n');
    LacksAppend("## Epic " + NatToString(i) + ": ", e.title, '\n');
    LacksAppend("**Description**: ", e.description, '\n');
    LevelNameShape(e.priority);
    LacksAppend("**Priority**: ", LevelName(e.priority), '\n');
    BusinessValueEntries(e.businessValue);
    HeadEntries(EpicHeadingLine(i, e.title), "**Description**: " + e.description, bv,
                BusinessValuePhysical(e.businessValue), "**Priority**: " + LevelName(e.priority));
  }

  /** A one-line entry stands on its line and an empty one. */
  lemma EntryLines(x: string)
    requires SingleLine(x)
    ensures Lines([x + "\n"]) == [x, ""]
  {
    BreakEntry(x);
    LinesCons(x + "\n", []);
  }

  lemma BusinessValueEntries(bv: Option<string>)
    requires bv.Some? ==> Plain(bv.value)
    ensures Lines(if Truthy(bv) then ["**Business Value**: " + bv.value + "\n"] else []) == BusinessValuePhysical(bv)
  {
    if Truthy(bv) {
      LacksAppend("**Business Value**: ", bv.value, '\n');
      EntryLines("**Business Value**: " + bv.value);
    }
  }

  /** A heading, a description, some entries and a priority, each on a
      line of its own. */
  lemma HeadEntries(h: string, d: string, mid: seq<string>, midLines: seq<string>, p: string)
    requires SingleLine(h) && SingleLine(d) && SingleLine(p) && Lines(mid) == midLines
    ensures Lines([h + "\n", d + "\n"] + mid + [p + "\n"]) == [h, "", d, ""] + midLines + [p, ""]
  {
    EntryLines(h);
    EntryLines(d);
    EntryLines(p);
    assert [h + "\n", d + "\n"] == [h + "\n"] + [d + "\n"];
    LinesAppend([h + "\n"], [d + "\n"]);
    LinesThree([h + "\n", d + "\n"], mid, [p + "\n"]);
  }


  lemma EpicTasksEntries(i: nat, e: Epic)
    requires PlainEpic(e)
    ensures
      var entries := if e.tasks != [] then ["\n### Tasks (" + NatToString(|e.tasks|) + ")\n"] + Render.TasksLines(i, 1, e.tasks) else [];
      Lines(entries) == EpicTasksPhysical(i, e)
  {
    if e.tasks != [] {
      var th := "\n### Tasks (" + NatToString(|e.tasks|) + ")\n";
      NumberLine(|e.tasks|);
      LacksThree("### Tasks (", NatToString(|e.tasks|), ")", '\n');
      assert th == "\n" + TasksHeadingLine(|e.tasks|) + "\n";
      LeadingBreakEntry(TasksHeadingLine(|e.tasks|));
      LinesCons(th, Render.TasksLines(i, 1, e.tasks));
      TasksLinesPhysical(i, 1, e.tasks);
    }
  }

  lemma EpicEntries(i: nat, e: Epic)
    ensures
      var bv := if Truthy(e.businessValue) then ["**Business Value**: " + e.businessValue.value + "\n"] else [];
      var head := ["## Epic " + NatToString(i) + ": " + e.title + "\n", "**Description**: " + e.description + "\n"]
                  + bv + ["**Priority**: " + LevelName(e.priority) + "\n"];
      var tasks := if e.tasks != [] then ["\n### Tasks (" + NatToString(|e.tasks|) + ")\n"] + Render.TasksLines(i, 1, e.tasks) else [];
      Render.EpicLines(i, e) == head + tasks + ["\n"]
  {
  }

  /** Joined with line breaks, the entries of an epic stand on its physical
      lines. */
  lemma EpicLinesPhysical(i: nat, e: Epic)
    requires PlainEpic(e)
    ensures Lines(Render.EpicLines(i, e)) == EpicPhysical(i, e)
  {
    var bv := if Truthy(e.businessValue) then ["**Business Value**: " + e.businessValue.value + "\n"] else [];
    var head := ["## Epic " + NatToString(i) + ": " + e.title + "\n", "**Description**: " + e.description + "\n"]
                + bv + ["**Priority**: " + LevelName(e.priority) + "\n"];
    var tasks := if e.tasks != [] then ["\n### Tasks (" + NatToString(|e.tasks|) + ")\n"] + Render.TasksLines(i, 1, e.tasks) else [];
    EpicEntries(i, e);
    EpicHeadEntries(i, e);
    EpicTasksEntries(i, e);
    BlankEntryLines();
    ThreeLines(head, tasks, ["\n"], EpicHeadPhysical(i, e), EpicTasksPhysical(i, e), ["", ""]);
  }

  lemma BlankEntryLines()
    ensures Lines(["\n"]) == ["", ""]
  {
    EntryLines("");
    assert "" + "\n" == "\n";
  }

  /** Three runs of entries, each on known lines. */
  lemma ThreeLines(a: seq<string>, b: seq<string>, c: seq<string>, la: seq<string>, lb: seq<string>, lc: seq<string>)
    requires Lines(a) == la && Lines(b) == lb && Lines(c) == lc
    ensures Lines(a + b + c) == la + lb + lc
  {
    LinesThree(a, b, c);
  }


  lemma BusinessValueScan(bv: Option<string>, f: Parser.EpicFields)
    requires bv.Some? ==> Plain(bv.value)
    ensures Parser.ScanEpic(BusinessValuePhysical(bv), f) ==
      f.(businessValue := if Truthy(bv) then bv else f.businessValue)
  {
    if Truthy(bv) {
      var b := bv.value;
      var line := Parser.BusinessValueLabel + " " + b;
      assert "**Business Value**: " + b == line;
      assert BusinessValuePhysical(bv) == [line] + [""];
      EpicBusinessValueStep(b, f);
      ScanEpicCons(line, [""], f);
      StarFreeInert("");
      ScanEpicInert([""], f.(businessValue := Some(b)));
    }
  }

  /** The epic loop over the epic's own lines after its heading collects
      the epic's fields. */
  lemma EpicHeadScan(i: nat, e: Epic, f: Parser.EpicFields)
    requires PlainEpic(e)
    ensures Parser.ScanEpic(EpicHeadPhysical(i, e)[1..], f) ==
      f.(description := e.description,
         businessValue := if Truthy(e.businessValue) then e.businessValue else f.businessValue,
         priority := LevelName(e.priority))
  {
    var d := "**Description**: " + e.description;
    var bvp := BusinessValuePhysical(e.businessValue);
    var pl := "**Priority**: " + LevelName(e.priority);
    assert d == Parser.DescriptionLabel + " " + e.description;
    assert pl == Parser.PriorityLabel + " " + LevelName(e.priority);
    assert EpicHeadPhysical(i, e)[1..] == ["", d, ""] + (bvp + [pl, ""]);
    ScanEpicAppend(["", d, ""], bvp + [pl, ""], f);
    StarFreeInert("");
    var f1 := f.(description := e.description);
    EpicDescriptionStep(e.description, f);
    calc {
      Parser.ScanEpic(["", d, ""], f);
      { ScanEpicCons("", [d, ""], f); }
      Parser.ScanEpic([d, ""], f);
      { ScanEpicCons(d, [""], f); }
      Parser.ScanEpic([""], f1);
      { ScanEpicInert([""], f1); }
      f1;
    }
    var f2 := f1.(businessValue := if Truthy(e.businessValue) then e.businessValue else f.businessValue);
    ScanEpicAppend(bvp, [pl, ""], f1);
    BusinessValueScan(e.businessValue, f1);
    EpicPriorityStep(e.priority, f2);
    ScanEpicCons(pl, [""], f2);
    ScanEpicInert([""], f2.(priority := LevelName(e.priority)));
  }

  /** None of the epic's own lines is a task heading. */
  lemma EpicHeadNoTask(i: nat, e: Epic)
    ensures forall l <- EpicHeadPhysical(i, e)[1..] :: !StartsWith(l, Parser.TaskHeadingPrefix)
  {
    forall l <- EpicHeadPhysical(i, e)[1..] ensures !StartsWith(l, Parser.TaskHeadingPrefix) {
      if l != [] {
        assert l[0] == '*';
        if |Parser.TaskHeadingPrefix| <= |l| {
          assert l[..|Parser.TaskHeadingPrefix|][0] == l[0];
        }
      }
    }
  }

  /** The line `### Tasks (n)` is neither a field nor a task heading. */
  lemma TasksHeadingInert(n: nat)
    ensures EpicInert(TasksHeadingLine(n))
    ensures !StartsWith(TasksHeadingLine(n), Parser.TaskHeadingPrefix)
  {
    var l := TasksHeadingLine(n);
    assert l[0] == '#' && l[3] == ' ';
    StarFreeInert(l);
    if |Parser.TaskHeadingPrefix| <= |l| {
      assert l[..|Parser.TaskHeadingPrefix|][3] == l[3];
    }
  }

  /** The fields of an epic as its own lines give them. */
  function EpicOwnFields(e: Epic): Parser.EpicFields {
    Parser.EpicFields(e.description, BusinessValueField(e.businessValue), LevelName(e.priority))
  }

  /** The epic's own lines and the task-list heading after them set the
      epic's own fields. */
  lemma EpicOpeningScan(i: nat, e: Epic)
    requires PlainEpic(e) && e.tasks != []
    ensures
      var th := ["", TasksHeadingLine(|e.tasks|), ""];
      Parser.ScanEpic(EpicHeadPhysical(i, e)[1..] + th, Parser.EpicDefaults) == EpicOwnFields(e)
  {
    var head := EpicHeadPhysical(i, e)[1..];
    var th := ["", TasksHeadingLine(|e.tasks|), ""];
    ScanEpicAppend(head, th, Parser.EpicDefaults);
    EpicHeadScan(i, e, Parser.EpicDefaults);
    StarFreeInert("");
    TasksHeadingInert(|e.tasks|);
    ScanEpicInert(th, EpicOwnFields(e));
  }

  /** The lines of an epic with tasks after its heading: its own lines
      with the task-list heading, then the task lines and two empty ones. */
  lemma EpicPhysicalWithTasks(i: nat, e: Epic)
    requires e.tasks != []
    ensures
      var th := ["", TasksHeadingLine(|e.tasks|), ""];
      EpicPhysical(i, e)[1..] == (EpicHeadPhysical(i, e)[1..] + th) + (TasksPhysical(i, 1, e.tasks) + ["", ""])
  {
    var th := ["", TasksHeadingLine(|e.tasks|), ""];
    var tasks := TasksPhysical(i, 1, e.tasks);
    assert EpicTasksPhysical(i, e) == th + tasks;
    DropHead(EpicHeadPhysical(i, e), th, tasks, ["", ""]);
  }

  /** Over the task lines and the two empty lines after them, the epic
      loop ends with the last task's description and priority. */
  lemma EpicOverTasksAndClose(i: nat, tasks: seq<Task>, f: Parser.EpicFields)
    requires tasks != [] && PlainTasks(tasks)
    ensures
      var last := tasks[|tasks| - 1];
      Parser.ScanEpic(TasksPhysical(i, 1, tasks) + ["", ""], f) ==
        f.(description := last.description, priority := LevelName(last.priority))
  {
    var last := tasks[|tasks| - 1];
    ScanEpicAppend(TasksPhysical(i, 1, tasks), ["", ""], f);
    EpicOverTasks(i, 1, tasks, f);
    StarFreeInert("");
    ScanEpicInert(["", ""], f.(description := last.description, priority := LevelName(last.priority)));
  }

  /** The epic loop over the lines of an epic with tasks ends with the
      description and priority of the last task. */
  lemma EpicOverwrittenPhysical(i: nat, e: Epic)
    requires PlainEpic(e) && e.tasks != []
    ensures
      var last := e.tasks[|e.tasks| - 1];
      Parser.ScanEpic(EpicPhysical(i, e)[1..], Parser.EpicDefaults) ==
        Parser.EpicFields(last.description, BusinessValueField(e.businessValue), LevelName(last.priority))
  {
    var th := ["", TasksHeadingLine(|e.tasks|), ""];
    var a := EpicHeadPhysical(i, e)[1..] + th;
    var b := TasksPhysical(i, 1, e.tasks) + ["", ""];
    var g := EpicOwnFields(e);
    var last := e.tasks[|e.tasks| - 1];
    EpicPhysicalWithTasks(i, e);
    EpicOpeningScan(i, e);
    EpicOverTasksAndClose(i, e.tasks, g);
    ScanEpicChain(EpicPhysical(i, e)[1..], a, b, Parser.EpicDefaults, g,
                  g.(description := last.description, priority := LevelName(last.priority)));
  }

  /** The epic loop over two stretches of lines, one after the other. */
  lemma ScanEpicChain(all: seq<string>, a: seq<string>, b: seq<string>,
                      f: Parser.EpicFields, g: Parser.EpicFields, h: Parser.EpicFields)
    requires all == a + b
    requires Parser.ScanEpic(a, f) == g && Parser.ScanEpic(b, g) == h
    ensures Parser.ScanEpic(all, f) == h
  {
    ScanEpicAppend(a, b, f);
  }

  /** As written, the epic loop reads on through the lines of the epic's
      tasks: an epic with tasks comes back with the description and
      priority of its last task in place of its own. */
  lemma EpicFieldsOverwritten(i: nat, e: Epic)
    requires PlainEpic(e) && e.tasks != []
    ensures
      var last := e.tasks[|e.tasks| - 1];
      Parser.ScanEpic(Lines(Render.EpicLines(i, e))[1..], Parser.EpicDefaults) ==
        Parser.EpicFields(last.description, BusinessValueField(e.businessValue), LevelName(last.priority))
  {
    EpicLinesPhysical(i, e);
    EpicOverwrittenPhysical(i, e);
  }

  /** No line before an epic's first task heading is a task heading. */
  lemma EpicOpeningNoTask(i: nat, e: Epic)
    requires PlainEpic(e) && e.tasks != []
    ensures
      var th := ["", TasksHeadingLine(|e.tasks|), ""];
      forall l <- EpicHeadPhysical(i, e)[1..] + th :: !StartsWith(l, Parser.TaskHeadingPrefix)
  {
    EpicHeadNoTask(i, e);
    TasksHeadingInert(|e.tasks|);
    assert !StartsWith("", Parser.TaskHeadingPrefix);
  }

  lemma EpicFieldsRecoveredWithTasks(i: nat, e: Epic)
    requires PlainEpic(e) && e.tasks != []
    ensures Parser.ScanEpicHead(EpicPhysical(i, e)[1..], Parser.EpicDefaults) ==
      Parser.EpicFields(e.description, BusinessValueField(e.businessValue), LevelName(e.priority))
  {
    var hp := EpicHeadPhysical(i, e);
    var th := ["", TasksHeadingLine(|e.tasks|), ""];
    var tasks := TasksPhysical(i, 1, e.tasks);
    EpicPhysicalWithTasks(i, e);
    TasksOpenWithHeading(i, 1, e.tasks);
    assert (tasks + ["", ""])[0] == tasks[0];
    EpicOpeningNoTask(i, e);
    ScanEpicHeadAppend(hp[1..] + th, tasks + ["", ""], Parser.EpicDefaults);
    EpicOpeningScan(i, e);
  }

  /** The lines of an epic without tasks: its own lines and two empty
      ones. */
  lemma EpicPhysicalWithoutTasks(i: nat, e: Epic)
    requires e.tasks == []
    ensures EpicPhysical(i, e)[1..] == EpicHeadPhysical(i, e)[1..] + ["", ""]
  {
    var hp := EpicHeadPhysical(i, e);
    assert EpicTasksPhysical(i, e) == [];
    assert EpicPhysical(i, e) == hp + [] + ["", ""];
    DropHead(hp, [], [], ["", ""]);
  }

  /** The lines of an epic without tasks hold no task heading. */
  lemma EpicWithoutTasksNoTask(i: nat, e: Epic)
    ensures forall l <- EpicHeadPhysical(i, e)[1..] + ["", ""] :: !StartsWith(l, Parser.TaskHeadingPrefix)
  {
    EpicHeadNoTask(i, e);
    assert !StartsWith("", Parser.TaskHeadingPrefix);
  }

  lemma EpicFieldsRecoveredWithoutTasks(i: nat, e: Epic)
    requires PlainEpic(e) && e.tasks == []
    ensures Parser.ScanEpicHead(EpicPhysical(i, e)[1..], Parser.EpicDefaults) ==
      Parser.EpicFields(e.description, BusinessValueField(e.businessValue), LevelName(e.priority))
  {
    var head := EpicHeadPhysical(i, e)[1..];
    var lines := head + ["", ""];
    EpicPhysicalWithoutTasks(i, e);
    EpicWithoutTasksNoTask(i, e);
    Parser.ScanEpicHeadAgrees(lines, Parser.EpicDefaults);
    ScanEpicAppend(head, ["", ""], Parser.EpicDefaults);
    EpicHeadScan(i, e, Parser.EpicDefaults);
    StarFreeInert("");
    ScanEpicInert(["", ""], EpicOwnFields(e));
  }

  /** The lines after the first of `h + (t1 + t2) + z`, regrouped. */
  lemma DropHead(h: seq<string>, t1: seq<string>, t2: seq<string>, z: seq<string>)
    requires h != []
    ensures (h + (t1 + t2) + z)[1..] == h[1..] + t1 + t2 + z
    ensures (h + (t1 + t2) + z)[1..] == (h[1..] + t1) + (t2 + z)
  {
  }

  /** The loop stopped at the first task heading reads the epic's own
      fields back, with or without tasks. */
  lemma EpicFieldsRecovered(i: nat, e: Epic)
    requires PlainEpic(e)
    ensures Parser.ScanEpicHead(Lines(Render.EpicLines(i, e))[1..], Parser.EpicDefaults) ==
      Parser.EpicFields(e.description, BusinessValueField(e.businessValue), LevelName(e.priority))
  {
    EpicLinesPhysical(i, e);
    if e.tasks != [] {
      EpicFieldsRecoveredWithTasks(i, e);
    } else {
      EpicFieldsRecoveredWithoutTasks(i, e);
    }
  }
}

=== FILE: splitting.dfy ===
/** How the reader's `re.split` on a numbered heading cuts a text the
    writer joined from physical lines, and what `section.strip().split('\n')`
    makes of each piece. A heading pattern opens with a line break, so a
    match can only start where a line starts; lines that do not open with
    the heading keyword leave the text between two headings in one piece. */
module Splitting {
  import opened Wrappers
  import opened Strings
  import Parser
  import RoundTrip

  // ---------------------------------------------------------------------
  // Lines
  // ---------------------------------------------------------------------

  /** Every line is a single line. */
  predicate Singles(ls: seq<string>) {
    forall k :: 0 <= k < |ls| ==> SingleLine(ls[k])
  }

  /** No line opens with `w`. */
  predicate Avoids(ls: seq<string>, w: string) {
    forall k :: 0 <= k < |ls| ==> !StartsWith(ls[k], w)
  }

  /** Every line is empty. */
  predicate Blank(ls: seq<string>) {
    forall k :: 0 <= k < |ls| ==> ls[k] == ""
  }

  lemma SinglesAppend(a: seq<string>, b: seq<string>)
    requires Singles(a) && Singles(b)
    ensures Singles(a + b)
  {
    forall k | 0 <= k < |a + b| ensures SingleLine((a + b)[k]) {
      if k >= |a| {
        assert (a + b)[k] == b[k - |a|];
      }
    }
  }

  lemma AvoidsAppend(a: seq<string>, b: seq<string>, w: string)
    requires Avoids(a, w) && Avoids(b, w)
    ensures Avoids(a + b, w)
  {
    forall k | 0 <= k < |a + b| ensures !StartsWith((a + b)[k], w) {
      if k >= |a| {
        assert (a + b)[k] == b[k - |a|];
      }
    }
  }

  /** The pieces `split` cuts at a character hold no such character. */
  lemma {:induction false} SplitSingles(s: string)
    ensures Singles(Split(s, '\n'))
    decreases |s|
  {
    var r := Split(s, '\n');
    if s != [] {
      if StartsWith(s, "\n") {
        assert s[|"\n"|..] == s[1..];
        SplitSingles(s[1..]);
        assert r == [[]] + Split(s[1..], '\n');
        forall k | 0 <= k < |r| ensures SingleLine(r[k]) {
          if k > 0 {
            assert r[k] == Split(s[1..], '\n')[k - 1];
          }
        }
      } else {
        var rest := Split(s[1..], '\n');
        SplitSingles(s[1..]);
        assert s[..1] == [s[0]];
        assert r == [[s[0]] + rest[0]] + rest[1..];
        LacksAppend([s[0]], rest[0], '\n');
        forall k | 0 <= k < |r| ensures SingleLine(r[k]) {
          if k > 0 {
            assert r[k] == rest[k];
          }
        }
      }
    }
  }

  /** The lines of joined entries are single lines. */
  lemma {:induction false} LinesSingles(entries: seq<string>)
    ensures Singles(Lines(entries))
    decreases |entries|
  {
    if entries != [] {
      SplitSingles(entries[0]);
      LinesSingles(entries[1..]);
      SinglesAppend(Split(entries[0], '\n'), Lines(entries[1..]));
    }
  }

  // ---------------------------------------------------------------------
  // Stretches without a match
  // ---------------------------------------------------------------------

  /** No match of `kw` starts at any of the first `n` positions of `s`. */
  predicate ClearBefore(s: string, n: nat, kw: string)
    requires n <= |s|
    decreases n
  {
    n == 0 || (!StartsWith(s, kw) && ClearBefore(s[1..], n - 1, kw))
  }

  /** The split runs over a stretch without a match into the first piece. */
  lemma {:induction false} SplitPastClear(s: string, n: nat, kw: string, dotted: bool)
    requires n <= |s| && ClearBefore(s, n, kw)
    ensures
      var rest := Parser.RegexSplit(s[n..], kw, dotted);
      Parser.RegexSplit(s, kw, dotted) == [s[..n] + rest[0]] + rest[1..]
    decreases n
  {
    if n == 0 {
      SplitPastNothing(Parser.RegexSplit(s, kw, dotted), s);
    } else {
      var rest := Parser.RegexSplit(s[n..], kw, dotted);
      var s1 := s[1..];
      SplitUnmatched(s, kw, dotted);
      SplitPastClear(s1, n - 1, kw, dotted);
      SliceAfterHead(s, n);
      PastRegroup(s[0], s1[..n - 1], rest[0], rest[1..], Parser.RegexSplit(s1, kw, dotted));
    }
  }

  lemma SplitPastNothing(r: seq<string>, s: string)
    requires |r| >= 1
    ensures r == [s[..0] + r[0]] + r[1..]
  {
    assert s[..0] + r[0] == r[0];
  }

  /** Where no match starts, the first character joins the first piece. */
  lemma SplitUnmatched(s: string, kw: string, dotted: bool)
    requires s != [] && !StartsWith(s, kw)
    ensures var rest := Parser.RegexSplit(s[1..], kw, dotted);
      Parser.RegexSplit(s, kw, dotted) == [[s[0]] + rest[0]] + rest[1..]
  {
    assert Parser.MatchLength(s, kw, dotted) == 0;
  }

  lemma SliceAfterHead(s: string, n: nat)
    requires 0 < n <= |s|
    ensures s[1..][n - 1..] == s[n..]
    ensures s[..n] == [s[0]] + s[1..][..n - 1]
  {
  }

  lemma PastRegroup(c: char, p: string, r0: string, more: seq<string>, r1: seq<string>)
    requires r1 == [p + r0] + more
    ensures [[c] + r1[0]] + r1[1..] == [([c] + p) + r0] + more
  {
    assert r1[1..] == more;
    assert [c] + r1[0] == ([c] + p) + r0;
  }

  /** Two stretches without a match, one after the other. */
  lemma {:induction false} ClearJoin(s: string, a: nat, b: nat, kw: string)
    requires a + b <= |s|
    requires ClearBefore(s, a, kw) && ClearBefore(s[a..], b, kw)
    ensures ClearBefore(s, a + b, kw)
    decreases a
  {
    if a > 0 {
      assert s[1..][a - 1..] == s[a..];
      ClearJoin(s[1..], a - 1, b, kw);
    }
  }

  /** A single line holds no match of a pattern that opens with a line
      break, whatever follows it. */
  lemma {:induction false} ClearLine(l: string, x: string, kw: string)
    requires SingleLine(l)
    requires kw != [] && kw[0] == '\n'
    ensures ClearBefore(l + x, |l|, kw)
    decreases |l|
  {
    if l != [] {
      assert (l + x)[0] == l[0];
      if |kw| <= |l + x| {
        assert (l + x)[..|kw|][0] == l[0];
      }
      assert (l + x)[1..] == l[1..] + x;
      ClearLine(l[1..], x, kw);
    }
  }

  /** A line break followed by text that does not open with `w`. */
  lemma BreakClear(x: string, n: nat, w: string)
    requires n <= |x|
    requires !StartsWith(x, w) && ClearBefore(x, n, "\n" + w)
    ensures ClearBefore("\n" + x, n + 1, "\n" + w)
  {
    var s := "\n" + x;
    assert s[1..] == x;
    if |w| <= |x| {
      assert s[..|w| + 1][1..] == x[..|w|];
    }
  }

  /** A single line that does not open with `w`, followed by nothing or by
      a line break, does not open with `w` either. */
  lemma LineThenBreak(l: string, z: string, w: string)
    requires SingleLine(l) && SingleLine(w)
    requires !StartsWith(l, w)
    requires z == [] || z[0] == '\n'
    ensures !StartsWith(l + z, w)
  {
    if |w| <= |l| {
      assert (l + z)[..|w|] == l[..|w|];
    } else if |w| <= |l| + |z| {
      assert (l + z)[..|w|][|l|] == '\n';
      assert w[|l|] != '\n';
    }
  }

  /** What follows the first of some joined lines. */
  function AfterFirstLine(lines: seq<string>, y: string): string
    requires lines != []
  {
    if |lines| == 1 then y else "\n" + Join(lines[1..], "\n") + y
  }

  lemma JoinFirst(lines: seq<string>, y: string)
    requires lines != []
    requires y == [] || y[0] == '\n'
    ensures Join(lines, "\n") + y == lines[0] + AfterFirstLine(lines, y)
    ensures AfterFirstLine(lines, y) == [] || AfterFirstLine(lines, y)[0] == '\n'
  {
  }

  /** Lines joined by line breaks hold no match of `"\n" + w` when no line
      after the first opens with `w`. */
  lemma {:induction false} JoinClear(lines: seq<string>, y: string, w: string)
    requires lines != []
    requires Singles(lines) && Avoids(lines[1..], w)
    requires SingleLine(w)
    requires y == [] || y[0] == '\n'
    ensures ClearBefore(Join(lines, "\n") + y, |Join(lines, "\n")|, "\n" + w)
    decreases |lines|
  {
    var kw := "\n" + w;
    var l := lines[0];
    if |lines| == 1 {
      assert Join(lines, "\n") == l;
      ClearLine(l, y, kw);
    } else {
      var more := lines[1..];
      var j := Join(more, "\n");
      var s := Join(lines, "\n") + y;
      assert Join(lines, "\n") == l + "\n" + j;
      assert s == l + ("\n" + (j + y));
      ClearLine(l, "\n" + (j + y), kw);
      assert more[0] == lines[1];
      JoinClear(more, y, w);
      JoinFirst(more, y);
      LineThenBreak(more[0], AfterFirstLine(more, y), w);
      BreakClear(j + y, |j|, w);
      assert s[|l|..] == "\n" + (j + y);
      ClearJoin(s, |l|, |j| + 1, kw);
    }
  }

  // ---------------------------------------------------------------------
  // A match at a heading
  // ---------------------------------------------------------------------

  /** A digit run that stops inside a string stops at the same place
      whatever follows. */
  lemma {:induction false} DigitRunExtends(t: string, x: string)
    requires Parser.DigitRun(t) < |t|
    ensures Parser.DigitRun(t + x) == Parser.DigitRun(t)
    decreases |t|
  {
    assert (t + x)[0] == t[0];
    if Parser.DigitRun(t) > 0 {
      assert (t + x)[1..] == t[1..] + x;
      DigitRunExtends(t[1..], x);
    }
  }

  /** A heading the pattern matches in full is matched in full whatever
      follows it: the pattern ends at the colon. */
  lemma MatchExtends(mark: string, x: string, kw: string, dotted: bool)
    requires Parser.MatchLength(mark, kw, dotted) == |mark| > 0
    ensures Parser.MatchLength(mark + x, kw, dotted) == |mark|
  {
    KeywordExtends(mark, x, kw);
    MatchByNumber(mark, kw, dotted);
    MatchByNumber(mark + x, kw, dotted);
    NumberExtends(mark[|kw|..], x, dotted);
  }

  /** The part of a heading match after the keyword: the number, or the
      two numbers and the dot, and the colon. */
  function NumberMatch(t: string, dotted: bool): nat {
    var d := Parser.DigitRun(t);
    if d == 0 || d == |t| then 0
    else if !dotted then (if t[d] == ':' then d + 1 else 0)
    else if t[d] != '.' then 0
    else
      var u := t[d + 1..];
      var e := Parser.DigitRun(u);
      if e == 0 || e == |u| || u[e] != ':' then 0 else d + 1 + e + 1
  }

  lemma MatchByNumber(s: string, kw: string, dotted: bool)
    requires StartsWith(s, kw)
    ensures Parser.MatchLength(s, kw, dotted) ==
      (if NumberMatch(s[|kw|..], dotted) == 0 then 0 else |kw| + NumberMatch(s[|kw|..], dotted))
  {
  }

  /** A number match that takes all of its text takes the same before
      more text. */
  lemma NumberExtends(t: string, x: string, dotted: bool)
    requires NumberMatch(t, dotted) == |t| > 0
    ensures NumberMatch(t + x, dotted) == |t|
  {
    var d := Parser.DigitRun(t);
    DigitRunExtends(t, x);
    assert (t + x)[d] == t[d];
    if dotted {
      DottedExtends(t, x, d);
    }
  }

  /** The keyword a match opens with stays in front of more text. */
  lemma KeywordExtends(mark: string, x: string, kw: string)
    requires StartsWith(mark, kw)
    ensures StartsWith(mark + x, kw) && (mark + x)[|kw|..] == mark[|kw|..] + x
  {
    assert (mark + x)[..|kw|] == mark[..|kw|];
  }

  /** The second number of a dotted mark stays the same before more
      text. */
  lemma DottedExtends(t: string, x: string, d: nat)
    requires d < |t| && Parser.DigitRun(t[d + 1..]) < |t[d + 1..]|
    ensures (t + x)[d + 1..] == t[d + 1..] + x
    ensures Parser.DigitRun((t + x)[d + 1..]) == Parser.DigitRun(t[d + 1..])
    ensures (t + x)[d + 1..][Parser.DigitRun(t[d + 1..])] == t[d + 1..][Parser.DigitRun(t[d + 1..])]
  {
    var u := t[d + 1..];
    assert (t + x)[d + 1..] == u + x;
    DigitRunExtends(u, x);
  }



  /** Text that opens with a full heading match splits there. */
  lemma SplitAtMark(mark: string, x: string, kw: string, dotted: bool)
    requires Parser.MatchLength(mark, kw, dotted) == |mark| > 0
    ensures Parser.RegexSplit(mark + x, kw, dotted) == [[]] + Parser.RegexSplit(x, kw, dotted)
  {
    MatchExtends(mark, x, kw, dotted);
    assert (mark + x)[|mark|..] == x;
  }

  /** A keyword, a number and a colon are a full match of the plain
      heading pattern. */
  lemma NumberedMark(kw: string, n: string)
    requires n != [] && AllDigits(n)
    ensures Parser.MatchLength(kw + n + [':'], kw, false) == |kw| + |n| + 1
  {
    var mark := kw + n + [':'];
    assert mark[..|kw|] == kw;
    assert mark[|kw|..] == n + [':'];
    RoundTrip.DigitRunOfNumber(n, [':']);
  }

  /** A keyword, two numbers joined by a dot and a colon are a full match
      of the dotted heading pattern. */
  lemma DottedMark(kw: string, n: string, m: string)
    requires n != [] && AllDigits(n)
    requires m != [] && AllDigits(m)
    ensures Parser.MatchLength(kw + n + ['.'] + m + [':'], kw, true) == |kw| + |n| + |m| + 2
  {
    var mark := kw + n + ['.'] + m + [':'];
    assert mark[..|kw|] == kw;
    var t := mark[|kw|..];
    assert t == n + (['.'] + m + [':']);
    RoundTrip.DigitRunOfNumber(n, ['.'] + m + [':']);
    assert t[|n|] == '.';
    assert t[|n| + 1..] == m + [':'];
    RoundTrip.DigitRunOfNumber(m, [':']);
  }

  // ---------------------------------------------------------------------
  // Blocks that open with a heading
  // ---------------------------------------------------------------------

  /** A stretch of lines that opens with a heading line `mark + rest`; the
      pattern consumes a line break and `mark`. */
  datatype Block = Block(mark: string, rest: string, body: seq<string>)

  /** The lines of one block. */
  function BlockOwnLines(b: Block): seq<string> {
    [b.mark + b.rest] + b.body
  }

  /** The lines of the blocks, one after the other. */
  function BlockLines(bs: seq<Block>): seq<string>
    decreases |bs|
  {
    if bs == [] then [] else BlockOwnLines(bs[0]) + BlockLines(bs[1..])
  }

  /** What the split leaves of a block: the heading after the match, and
      the lines of the body. */
  function Piece(b: Block): string {
    Join([b.rest] + b.body, "\n")
  }

  function Pieces(bs: seq<Block>): (r: seq<string>)
    ensures |r| == |bs|
    decreases |bs|
  {
    if bs == [] then [] else [Piece(bs[0])] + Pieces(bs[1..])
  }

  /** The text of the blocks when they follow other lines. */
  function BlocksText(bs: seq<Block>): (r: string)
    ensures r == [] || r[0] == '\n'
    decreases |bs|
  {
    if bs == [] then [] else "\n" + (bs[0].mark + Piece(bs[0]) + BlocksText(bs[1..]))
  }

  /** The heading of a block is a full match of `"\n" + w`, and no line of
      its body opens with `w`. */
  predicate WellMarked(b: Block, w: string, dotted: bool) {
    && Parser.MatchLength("\n" + b.mark, "\n" + w, dotted) == |b.mark| + 1
    && SingleLine(b.rest)
    && Singles(b.body)
    && Avoids(b.body, w)
  }

  /** Every block is well-marked. */
  predicate AllWellMarked(bs: seq<Block>, w: string, dotted: bool)
    decreases |bs|
  {
    bs == [] || (WellMarked(bs[0], w, dotted) && AllWellMarked(bs[1..], w, dotted))
  }

  /** Joining lines separately from the lines after them. */
  lemma {:induction false} JoinAppend(a: seq<string>, b: seq<string>, sep: string)
    requires a != [] && b != []
    ensures Join(a + b, sep) == Join(a, sep) + sep + Join(b, sep)
    decreases |a|
  {
    if |a| == 1 {
      assert (a + b)[1..] == b;
    } else {
      assert (a + b)[1..] == a[1..] + b;
      JoinAppend(a[1..], b, sep);
    }
  }

  /** A prefix of the first line is a prefix of the joined text. */
  lemma JoinHeadPrefix(x: string, y: string, more: seq<string>, sep: string)
    ensures Join([x + y] + more, sep) == x + Join([y] + more, sep)
  {
    if more != [] {
      JoinAppend([x + y], more, sep);
      JoinAppend([y], more, sep);
    }
  }

  /** One block after some lines. */
  lemma JoinBlock(a: seq<string>, b: Block)
    requires a != []
    ensures Join(a + BlockOwnLines(b), "\n") == Join(a, "\n") + "\n" + (b.mark + Piece(b))
  {
    JoinAppend(a, BlockOwnLines(b), "\n");
    JoinHeadPrefix(b.mark, b.rest, b.body, "\n");
  }

  /** Lines followed by blocks, joined, are the joined lines and then the
      text of the blocks. */
  lemma {:induction false} JoinBlockLines(a: seq<string>, bs: seq<Block>)
    requires a != []
    ensures Join(a + BlockLines(bs), "\n") == Join(a, "\n") + BlocksText(bs)
    decreases |bs|
  {
    if bs == [] {
      assert a + BlockLines(bs) == a;
    } else {
      var b := bs[0];
      var a1 := a + BlockOwnLines(b);
      BlockLinesCons(a, bs);
      JoinBlockLines(a1, bs[1..]);
      JoinBlock(a, b);
      BlocksTextCons(bs);
      BreakRegroup(Join(a, "\n"), b.mark + Piece(b), BlocksText(bs[1..]));
    }
  }

  lemma BlockLinesCons(a: seq<string>, bs: seq<Block>)
    requires bs != []
    ensures a + BlockLines(bs) == (a + BlockOwnLines(bs[0])) + BlockLines(bs[1..])
  {
  }

  lemma BlocksTextCons(bs: seq<Block>)
    requires bs != []
    ensures BlocksText(bs) == "\n" + ((bs[0].mark + Piece(bs[0])) + BlocksText(bs[1..]))
  {
  }

  lemma BreakRegroup(j: string, m: string, tail: string)
    ensures j + "\n" + m + tail == j + ("\n" + (m + tail))
  {
  }

  /** One well-marked block and the text after it. */
  lemma SplitBlock(b: Block, after: string, w: string, dotted: bool)
    requires SingleLine(w) && WellMarked(b, w, dotted)
    requires after == [] || after[0] == '\n'
    ensures
      var rest := Parser.RegexSplit(after, "\n" + w, dotted);
      Parser.RegexSplit("\n" + (b.mark + Piece(b) + after), "\n" + w, dotted) ==
      [[]] + ([Piece(b) + rest[0]] + rest[1..])
  {
    var kw := "\n" + w;
    var p := Piece(b);
    assert "\n" + (b.mark + p + after) == ("\n" + b.mark) + (p + after);
    SplitAtMark("\n" + b.mark, p + after, kw, dotted);
    SinglesAppend([b.rest], b.body);
    assert ([b.rest] + b.body)[1..] == b.body;
    JoinClear([b.rest] + b.body, after, w);
    SplitPastClear(p + after, |p|, kw, dotted);
    assert (p + after)[..|p|] == p && (p + after)[|p|..] == after;
  }

  /** The text of well-marked blocks splits into an empty piece and one
      piece per block. */
  lemma {:induction false} SplitBlocks(bs: seq<Block>, w: string, dotted: bool)
    requires SingleLine(w)
    requires AllWellMarked(bs, w, dotted)
    ensures Parser.RegexSplit(BlocksText(bs), "\n" + w, dotted) == [[]] + Pieces(bs)
    decreases |bs|
  {
    if bs != [] {
      var rest := Parser.RegexSplit(BlocksText(bs[1..]), "\n" + w, dotted);
      SplitBlock(bs[0], BlocksText(bs[1..]), w, dotted);
      SplitBlocks(bs[1..], w, dotted);
      assert rest[0] == [] && rest[1..] == Pieces(bs[1..]);
      assert Piece(bs[0]) + rest[0] == Piece(bs[0]);
    }
  }

  /** The sections the reader finds in lines followed by well-marked
      blocks are the pieces of the blocks: the lines before the first
      heading are dropped. */
  lemma SectionsOfBlocks(a: seq<string>, bs: seq<Block>, w: string, dotted: bool)
    requires a != []
    requires Singles(a) && Avoids(a[1..], w)
    requires SingleLine(w)
    requires AllWellMarked(bs, w, dotted)
    ensures Parser.Sections(Join(a + BlockLines(bs), "\n"), "\n" + w, dotted) == Pieces(bs)
  {
    var kw := "\n" + w;
    var head := Join(a, "\n");
    var text := BlocksText(bs);
    JoinBlockLines(a, bs);
    JoinClear(a, text, w);
    SplitPastClear(head + text, |head|, kw, dotted);
    assert (head + text)[..|head|] == head && (head + text)[|head|..] == text;
    SplitBlocks(bs, w, dotted);
  }

  // ---------------------------------------------------------------------
  // strip and split of a piece
  // ---------------------------------------------------------------------

  /** A run of line breaks. */
  function Breaks(n: nat): (r: string)
    ensures |r| == n
    ensures AllSpace(r)
  {
    if n == 0 then [] else "\n" + Breaks(n - 1)
  }

  /** Empty lines at the end of joined lines are line breaks at the end of
      the text. */
  lemma {:induction false} JoinBlanks(a: seq<string>, blanks: seq<string>)
    requires a != []
    requires Blank(blanks)
    ensures Join(a + blanks, "\n") == Join(a, "\n") + Breaks(|blanks|)
    decreases |blanks|
  {
    if blanks == [] {
      assert a + blanks == a;
    } else {
      assert a + blanks == (a + [""]) + blanks[1..];
      JoinBlanks(a + [""], blanks[1..]);
      JoinAppend(a, [""], "\n");
    }
  }

  /** The first character of joined lines is that of the first line. */
  lemma JoinFirstChar(a: seq<string>)
    requires a != [] && a[0] != []
    ensures Join(a, "\n") != [] && Join(a, "\n")[0] == a[0][0]
  {
  }

  /** The last character of joined lines is that of the last line. */
  lemma {:induction false} JoinLastChar(a: seq<string>)
    requires a != [] && a[|a| - 1] != []
    ensures Join(a, "\n") != []
    ensures Join(a, "\n")[|Join(a, "\n")| - 1] == a[|a| - 1][|a[|a| - 1]| - 1]
    decreases |a|
  {
    if |a| > 1 {
      JoinLastChar(a[1..]);
      assert Join(a, "\n") == a[0] + "\n" + Join(a[1..], "\n");
    }
  }

  /** Lines whose text neither starts nor ends with whitespace. */
  predicate Solid(a: seq<string>) {
    && a != [] && a[0] != [] && a[|a| - 1] != []
    && !IsSpace(a[0][0])
    && !IsSpace(a[|a| - 1][|a[|a| - 1]| - 1])
  }

  /** The text of solid lines is stripped. */
  lemma SolidStripped(a: seq<string>)
    requires Solid(a)
    ensures IsStripped(Join(a, "\n"))
  {
    JoinFirstChar(a);
    JoinLastChar(a);
  }

  /** Every line of `[title] + core` is a single line. */
  lemma SinglesOf(title: string, core: seq<string>)
    requires SingleLine(title) && Singles(core)
    ensures forall x <- [title] + core :: SingleLine(x)
  {
    forall x <- [title] + core ensures SingleLine(x) {
      var k :| 0 <= k < |[title] + core| && ([title] + core)[k] == x;
      if k > 0 {
        assert x == core[k - 1];
      }
    }
  }

  lemma PieceText(title: string, core: seq<string>, blanks: seq<string>)
    requires Blank(blanks)
    ensures Join([" " + title] + core + blanks, "\n") == " " + Join([title] + core, "\n") + Breaks(|blanks|)
  {
    JoinBlanks([" " + title] + core, blanks);
    JoinHeadPrefix(" ", title, core, "\n");
  }

  /** The heading after the match is a blank and the title; the lines after
      it end with empty ones. `strip()` removes the blank and the empty
      lines, and the split gives back the title and the other lines. */
  lemma PieceLines(title: string, core: seq<string>, blanks: seq<string>)
    requires SingleLine(title) && Singles(core) && Blank(blanks)
    requires Solid([title] + core)
    ensures Parser.SectionLines(Join([" " + title] + core + blanks, "\n")) == [title] + core
  {
    var lines := [title] + core;
    var j := Join(lines, "\n");
    PieceText(title, core, blanks);
    SolidStripped(lines);
    StripPadded(" ", j, Breaks(|blanks|));
    SplitJoinLines(lines);
    SinglesOf(title, core);
    RoundTrip.LinesOfSingles(lines);
  }

  // ---------------------------------------------------------------------
  // Empty lines at the end of a section change nothing
  // ---------------------------------------------------------------------

  /** An inner run stops at a line it does not take, whether or not that
      line is there. */
  lemma {:induction false} RunStopsAtEnd(lines: seq<string>, y: string, p: string -> bool)
    requires !p(y)
    ensures Parser.Run(lines + [y], p) == Parser.Run(lines, p)
    decreases |lines|
  {
    if lines == [] {
      assert lines + [y] == [y];
    } else {
      assert (lines + [y])[0] == lines[0];
      assert (lines + [y])[1..] == lines[1..] + [y];
      RunStopsAtEnd(lines[1..], y, p);
    }
  }

  /** A line the task loop reads as the opening of the criteria list. */
  predicate OpensTaskCriteria(line: string) {
    && !StartsWith(line, Parser.DescriptionLabel)
    && !StartsWith(line, Parser.PriorityLabel)
    && StartsWith(line, Parser.CriteriaLabel)
  }

  /** What the task loop makes of any other line. */
  function TaskStep(line: string, f: Parser.TaskFields): Parser.TaskFields {
    if StartsWith(line, Parser.DescriptionLabel) then
      f.(description := Parser.FieldValue(line, Parser.DescriptionLabel))
    else if StartsWith(line, Parser.PriorityLabel) then
      var v := Parser.FieldValue(line, Parser.PriorityLabel);
      var effort := if Contains(v, "|") && Parser.EffortAfterBar(v).Some? then Parser.EffortAfterBar(v) else f.effort;
      f.(priority := Parser.BeforeBar(v), effort := effort)
    else if StartsWith(line, Parser.NotesLabel) then
      f.(notes := Some(Parser.FieldValue(line, Parser.NotesLabel)))
    else f
  }

  lemma ScanTaskStep(lines: seq<string>, f: Parser.TaskFields)
    requires lines != [] && !OpensTaskCriteria(lines[0])
    ensures Parser.ScanTask(lines, f) == Parser.ScanTask(lines[1..], TaskStep(lines[0], f))
  {
  }

  lemma ScanTaskCriteria(lines: seq<string>, f: Parser.TaskFields)
    requires lines != [] && OpensTaskCriteria(lines[0])
    ensures
      var k := Parser.Run(lines[1..], Parser.IsBulletLine);
      Parser.ScanTask(lines, f) ==
      Parser.ScanTask(lines[1 + k..], f.(criteria := f.criteria + Parser.BulletTexts(lines[1..1 + k])))
  {
  }

  /** The slices of lines with one more line at the end. */
  lemma AppendSlices(lines: seq<string>, y: string, k: nat)
    requires 1 + k <= |lines|
    ensures
      var all := lines + [y];
      && all[0] == lines[0]
      && all[1..] == lines[1..] + [y]
      && all[1..1 + k] == lines[1..1 + k]
      && all[1 + k..] == lines[1 + k..] + [y]
  {
  }

  /** The criteria branch of the task loop reads the same bullet run
      whether or not an empty line follows the section. */
  lemma TaskCriteriaShift(lines: seq<string>, f: Parser.TaskFields)
    requires lines != [] && OpensTaskCriteria(lines[0])
    ensures
      var k := Parser.Run(lines[1..], Parser.IsBulletLine);
      var g := f.(criteria := f.criteria + Parser.BulletTexts(lines[1..1 + k]));
      Parser.ScanTask(lines + [""], f) == Parser.ScanTask(lines[1 + k..] + [""], g)
  {
    var all := lines + [""];
    var k := Parser.Run(lines[1..], Parser.IsBulletLine);
    AppendSlices(lines, "", k);
    RunStopsAtEnd(lines[1..], "", Parser.IsBulletLine);
    ScanTaskCriteria(all, f);
    TaskCriteriaRewrite(all, lines, f, Parser.Run(all[1..], Parser.IsBulletLine), k);
  }

  lemma TaskCriteriaRewrite(all: seq<string>, lines: seq<string>, f: Parser.TaskFields, n: nat, k: nat)
    requires n == k && 1 + k <= |lines| && 1 + n <= |all|
    requires all[1..1 + n] == lines[1..1 + k] && all[1 + n..] == lines[1 + k..] + [""]
    ensures Parser.ScanTask(all[1 + n..], f.(criteria := f.criteria + Parser.BulletTexts(all[1..1 + n]))) ==
      Parser.ScanTask(lines[1 + k..] + [""], f.(criteria := f.criteria + Parser.BulletTexts(lines[1..1 + k])))
  {
  }

  /** Any other line, given the loop after it passes over the empty last
      line. */
  lemma TaskStepBlank(lines: seq<string>, f: Parser.TaskFields)
    requires lines != [] && !OpensTaskCriteria(lines[0])
    requires
      var g := TaskStep(lines[0], f);
      Parser.ScanTask(lines[1..] + [""], g) == Parser.ScanTask(lines[1..], g)
    ensures Parser.ScanTask(lines + [""], f) == Parser.ScanTask(lines, f)
  {
    var all := lines + [""];
    assert all[0] == lines[0] && all[1..] == lines[1..] + [""];
    ScanTaskStep(lines, f);
    ScanTaskStep(all, f);
  }

  lemma TaskLoneBlank(f: Parser.TaskFields)
    ensures Parser.ScanTask([""], f) == f
  {
    assert !OpensTaskCriteria("");
    ScanTaskStep([""], f);
    assert TaskStep("", f) == f;
  }

  /** The task loop passes over an empty last line. */
  lemma {:induction false} ScanTaskBlank(lines: seq<string>, f: Parser.TaskFields)
    ensures Parser.ScanTask(lines + [""], f) == Parser.ScanTask(lines, f)
    decreases |lines|
  {
    if lines == [] {
      assert lines + [""] == [""];
      TaskLoneBlank(f);
    } else if OpensTaskCriteria(lines[0]) {
      var k := Parser.Run(lines[1..], Parser.IsBulletLine);
      TaskCriteriaShift(lines, f);
      ScanTaskCriteria(lines, f);
      ScanTaskBlank(lines[1 + k..], f.(criteria := f.criteria + Parser.BulletTexts(lines[1..1 + k])));
    } else {
      ScanTaskBlank(lines[1..], TaskStep(lines[0], f));
      TaskStepBlank(lines, f);
    }
  }

  lemma ScanStoryCriteria(lines: seq<string>, f: Parser.StoryFields)
    requires lines != [] && Parser.OpensStoryCriteria(lines[0])
    ensures
      var k := Parser.Run(lines[1..], Parser.IsBulletLine);
      Parser.ScanStory(lines, f) ==
      Parser.ScanStory(lines[1 + k..], f.(criteria := f.criteria + Parser.BulletTexts(lines[1..1 + k])))
  {
  }

  lemma ScanStoryOther(lines: seq<string>, f: Parser.StoryFields)
    requires lines != [] && !Parser.OpensStoryCriteria(lines[0])
    ensures Parser.ScanStory(lines, f) == Parser.ScanStory(lines[1..], Parser.StoryStep(lines[0], f))
  {
  }

  /** The criteria branch of the story loop reads the same bullet run
      whether or not an empty line follows the section. */
  lemma StoryCriteriaShift(lines: seq<string>, f: Parser.StoryFields)
    requires lines != [] && Parser.OpensStoryCriteria(lines[0])
    ensures
      var k := Parser.Run(lines[1..], Parser.IsBulletLine);
      var g := f.(criteria := f.criteria + Parser.BulletTexts(lines[1..1 + k]));
      Parser.ScanStory(lines + [""], f) == Parser.ScanStory(lines[1 + k..] + [""], g)
  {
    var all := lines + [""];
    var k := Parser.Run(lines[1..], Parser.IsBulletLine);
    AppendSlices(lines, "", k);
    RunStopsAtEnd(lines[1..], "", Parser.IsBulletLine);
    ScanStoryCriteria(all, f);
    StoryCriteriaRewrite(all, lines, f, Parser.Run(all[1..], Parser.IsBulletLine), k);
  }

  lemma StoryCriteriaRewrite(all: seq<string>, lines: seq<string>, f: Parser.StoryFields, n: nat, k: nat)
    requires n == k && 1 + k <= |lines| && 1 + n <= |all|
    requires all[1..1 + n] == lines[1..1 + k] && all[1 + n..] == lines[1 + k..] + [""]
    ensures Parser.ScanStory(all[1 + n..], f.(criteria := f.criteria + Parser.BulletTexts(all[1..1 + n]))) ==
      Parser.ScanStory(lines[1 + k..] + [""], f.(criteria := f.criteria + Parser.BulletTexts(lines[1..1 + k])))
  {
  }

  lemma StoryStepBlank(lines: seq<string>, f: Parser.StoryFields)
    requires lines != [] && !Parser.OpensStoryCriteria(lines[0])
    requires
      var g := Parser.StoryStep(lines[0], f);
      Parser.ScanStory(lines[1..] + [""], g) == Parser.ScanStory(lines[1..], g)
    ensures Parser.ScanStory(lines + [""], f) == Parser.ScanStory(lines, f)
  {
    var all := lines + [""];
    assert all[0] == lines[0] && all[1..] == lines[1..] + [""];
    ScanStoryOther(lines, f);
    ScanStoryOther(all, f);
  }

  lemma StoryLoneBlank(f: Parser.StoryFields)
    ensures Parser.ScanStory([""], f) == f
  {
    assert !Parser.OpensStoryCriteria("");
    ScanStoryOther([""], f);
    assert Parser.StoryStep("", f) == f;
  }

  /** The story loop passes over an empty last line. */
  lemma {:induction false} ScanStoryBlank(lines: seq<string>, f: Parser.StoryFields)
    ensures Parser.ScanStory(lines + [""], f) == Parser.ScanStory(lines, f)
    decreases |lines|
  {
    if lines == [] {
      assert lines + [""] == [""];
      StoryLoneBlank(f);
    } else if Parser.OpensStoryCriteria(lines[0]) {
      var k := Parser.Run(lines[1..], Parser.IsBulletLine);
      StoryCriteriaShift(lines, f);
      ScanStoryCriteria(lines, f);
      ScanStoryBlank(lines[1 + k..], f.(criteria := f.criteria + Parser.BulletTexts(lines[1..1 + k])));
    } else {
      ScanStoryBlank(lines[1..], Parser.StoryStep(lines[0], f));
      StoryStepBlank(lines, f);
    }
  }
}

=== FILE: story_roundtrip.dfy ===
/** A user story through the writer and back through the story loop of the
    parser. The story loop looks for the role, goal and benefit labels
    anywhere in a line before it looks at the other labels, so a line is
    read as a priority, criteria or notes line only when it mentions none of
    the three. A story written with its effort on the priority line comes
    back whole; written the original way, with the effort on a line of its
    own, it comes back without its effort. */
module StoryRoundTrip {
  import opened Wrappers
  import opened Strings
  import opened Models
  import Render
  import Parser
  import RoundTrip

  /** A line in which the story loop finds none of `**As a**:`,
      `**I want to**:` and `**So that**:`. */
  predicate Tripless(line: string) {
    && !Contains(line, Parser.AsALabel)
    && !Contains(line, Parser.IWantToLabel)
    && !Contains(line, Parser.SoThatLabel)
  }

  /** Without `A`, `I` and `S` a line mentions no part of the triad. */
  lemma TriplessByLetters(line: string)
    requires Lacks(line, 'A') && Lacks(line, 'I') && Lacks(line, 'S')
    ensures Tripless(line)
  {
    AbsentChar(line, Parser.AsALabel, 2);
    AbsentChar(line, Parser.IWantToLabel, 2);
    AbsentChar(line, Parser.SoThatLabel, 2);
  }

  /** Without a small `s`, `I` and `S` a line mentions no part of the
      triad. */
  lemma TriplessWithoutS(line: string)
    requires Lacks(line, 's') && Lacks(line, 'I') && Lacks(line, 'S')
    ensures Tripless(line)
  {
    AbsentChar(line, Parser.AsALabel, 3);
    AbsentChar(line, Parser.IWantToLabel, 2);
    AbsentChar(line, Parser.SoThatLabel, 2);
  }

  /** Without `A` and `I`, and with no `S` followed by `o`, a line mentions
      no part of the triad. */
  lemma TriplessByPair(line: string)
    requires Lacks(line, 'A') && Lacks(line, 'I') && PairFree(line, 'S', 'o')
    ensures Tripless(line)
  {
    AbsentChar(line, Parser.AsALabel, 2);
    AbsentChar(line, Parser.IWantToLabel, 2);
    AbsentPair(line, Parser.SoThatLabel, 2);
  }

  /** The names of levels and efforts hold no capital `A` or `I`; the level
      names hold no `S`, and the only `S` of an effort name is not followed
      by `o`. */
  lemma NamesLetters(p: Level, e: EffortSize)
    ensures Lacks(LevelName(p), 'A') && Lacks(LevelName(p), 'I') && Lacks(LevelName(p), 'S')
    ensures Lacks(EffortName(e), 'A') && Lacks(EffortName(e), 'I') && Lacks(EffortName(e), 'h')
    ensures PairFree(EffortName(e), 'S', 'o')
  {
  }

  /** One step of the story loop over a line that mentions no part of the
      triad and opens with no `*`: nothing is read. */
  lemma StoryNeutral(line: string, rest: seq<string>, f: Parser.StoryFields)
    requires Tripless(line)
    requires line == [] || line[0] != '*'
    ensures Parser.ScanStory([line] + rest, f) == Parser.ScanStory(rest, f)
  {
    RoundTrip.StarFree(line, Parser.PriorityLabel);
    RoundTrip.StarFree(line, Parser.CriteriaLabel);
    RoundTrip.StarFree(line, Parser.NotesLabel);
    Parser.ScanStoryLine(line, rest, f);
  }

  /** One step of the story loop over a priority line that mentions no part
      of the triad and whose value has a bar followed by an effort part. */
  lemma StoryPriorityStep(line: string, rest: seq<string>, f: Parser.StoryFields)
    requires Tripless(line) && StartsWith(line, Parser.PriorityLabel)
    requires
      var v := Parser.FieldValue(line, Parser.PriorityLabel);
      Contains(v, "|") && |Split(v, '|')| > 1 && Contains(Split(v, '|')[1], Parser.EffortLabel)
    ensures
      var v := Parser.FieldValue(line, Parser.PriorityLabel);
      Parser.ScanStory([line] + rest, f) ==
        Parser.ScanStory(rest, f.(priority := Strip(Split(v, '|')[0]),
                                  effort := Some(Parser.FieldValue(Split(v, '|')[1], Parser.EffortLabel))))
  {
    var lines := [line] + rest;
    assert lines[0] == line && lines[1..] == rest;
  }

  /** `**Priority**: P` alone sets the priority of the story and leaves its
      effort. */
  lemma StoryPriorityLine(p: Level, rest: seq<string>, f: Parser.StoryFields)
    ensures Parser.ScanStory([Parser.PriorityLabel + " " + LevelName(p)] + rest, f) ==
            Parser.ScanStory(rest, f.(priority := LevelName(p)))
  {
    var v := LevelName(p);
    var line := Parser.PriorityLabel + " " + v;
    RoundTrip.LevelNameShape(p);
    NamesLetters(p, EffortSize.Small);
    RoundTrip.LacksThree(Parser.PriorityLabel, " ", v, 'A');
    RoundTrip.LacksThree(Parser.PriorityLabel, " ", v, 'I');
    RoundTrip.LacksThree(Parser.PriorityLabel, " ", v, 'S');
    TriplessByLetters(line);
    RoundTrip.PriorityPlain(v);
    Parser.ScanStoryLine(line, rest, f);
  }

  /** The one-line `**Priority**: P | **Effort**: E` mentions no part of
      the triad. */
  lemma PriorityEffortTripless(p: Level, e: EffortSize)
    ensures Tripless(Parser.PriorityLabel + " " + LevelName(p) + " | " + Parser.EffortLabel + " " + EffortName(e))
  {
    var front := Parser.PriorityLabel + " " + LevelName(p) + " | " + Parser.EffortLabel + " ";
    var line := front + EffortName(e);
    NamesLetters(p, e);
    assert front == (Parser.PriorityLabel + " ") + LevelName(p) + (" | " + Parser.EffortLabel + " ");
    forall x | x in {'A', 'I', 'S'} ensures Lacks(front, x) {
      RoundTrip.LacksThree(Parser.PriorityLabel + " ", LevelName(p), " | " + Parser.EffortLabel + " ", x);
    }
    LacksAppend(front, EffortName(e), 'A');
    LacksAppend(front, EffortName(e), 'I');
    PairFreeAppend(front, EffortName(e), 'S', 'o');
    TriplessByPair(line);
  }

  /** `**Priority**: P | **Effort**: E` sets both. */
  lemma StoryPriorityEffortLine(p: Level, e: EffortSize, rest: seq<string>, f: Parser.StoryFields)
    ensures
      var line := Parser.PriorityLabel + " " + LevelName(p) + " | " + Parser.EffortLabel + " " + EffortName(e);
      Parser.ScanStory([line] + rest, f) ==
        Parser.ScanStory(rest, f.(priority := LevelName(p), effort := Some(EffortName(e))))
  {
    var pv := LevelName(p);
    var ev := EffortName(e);
    var line := Parser.PriorityLabel + " " + pv + " | " + Parser.EffortLabel + " " + ev;
    RoundTrip.LevelNameShape(p);
    RoundTrip.EffortNameShape(e);
    RoundTrip.PriorityBar(pv, ev);
    PriorityEffortTripless(p, e);
    StoryPriorityStep(line, rest, f);
  }

  /** The priority entry of the corrected story writer, read back by the
      story loop: the priority comes back, and so does the effort when
      there is one; without one the effort read so far is kept. */
  lemma StoryPriorityEntryBack(p: Level, e: Option<EffortSize>, rest: seq<string>, f: Parser.StoryFields)
    ensures Parser.ScanStory([Render.PriorityEntry(p, e)] + rest, f) ==
            Parser.ScanStory(rest, f.(priority := LevelName(p),
                                      effort := if e.Some? then EffortField(e) else f.effort))
  {
    if e.Some? {
      RoundTrip.PriorityEntrySome(p, e.value);
      StoryPriorityEffortLine(p, e.value, rest, f);
    } else {
      RoundTrip.PriorityEntryNone(p);
      StoryPriorityLine(p, rest, f);
    }
  }

  /** The line ` | **Effort**: E` of the story writer as written mentions no
      part of the triad and opens with a blank, so the story loop skips it. */
  lemma EffortLineSkipped(e: EffortSize, rest: seq<string>, f: Parser.StoryFields)
    ensures Parser.ScanStory([" | **Effort**: " + EffortName(e)] + rest, f) == Parser.ScanStory(rest, f)
  {
    var line := " | **Effort**: " + EffortName(e);
    NamesLetters(Level.Low, e);
    LacksAppend(" | **Effort**: ", EffortName(e), 'A');
    LacksAppend(" | **Effort**: ", EffortName(e), 'I');
    LacksAppend(" | **Effort**: ", EffortName(e), 'h');
    AbsentChar(line, Parser.AsALabel, 2);
    AbsentChar(line, Parser.IWantToLabel, 2);
    AbsentChar(line, Parser.SoThatLabel, 6);
    StoryNeutral(line, rest, f);
  }

  /** As written, a story with an effort has the priority and the effort as
      two entries, so two lines, right after the benefit. */
  lemma StoryEffortEntries(i: nat, st: UserStory)
    requires st.estimatedEffort.Some?
    ensures Render.StoryLinesAsWritten(i, st)[5..7] ==
      ["**Priority**: " + LevelName(st.priority), " | **Effort**: " + EffortName(st.estimatedEffort.value)]
  {
  }

  /** As written, the effort of a story stands on the line after the
      priority, where the story loop never looks for it: the priority comes
      back and the effort read so far is left as it was. */
  lemma StoryEffortLost(p: Level, e: EffortSize, rest: seq<string>, f: Parser.StoryFields)
    ensures
      var entries := ["**Priority**: " + LevelName(p), " | **Effort**: " + EffortName(e)];
      Parser.ScanStory(entries + rest, f) == Parser.ScanStory(rest, f.(priority := LevelName(p)))
  {
    var second := " | **Effort**: " + EffortName(e);
    var entries := ["**Priority**: " + LevelName(p), second];
    assert "**Priority**: " + LevelName(p) == Parser.PriorityLabel + " " + LevelName(p);
    assert entries + rest == [Parser.PriorityLabel + " " + LevelName(p)] + ([second] + rest);
    StoryPriorityLine(p, [second] + rest, f);
    EffortLineSkipped(e, rest, f.(priority := LevelName(p)));
  }

  // ---------------------------------------------------------------------
  // The lines of a story
  // ---------------------------------------------------------------------

  /** A line in which no `*` is followed by the first letter of a triad
      label mentions no part of the triad. */
  lemma TriplessByStars(line: string)
    requires PairFree(line, '*', 'A') && PairFree(line, '*', 'I') && PairFree(line, '*', 'S')
    ensures Tripless(line)
  {
    AbsentPair(line, Parser.AsALabel, 1);
    AbsentPair(line, Parser.IWantToLabel, 1);
    AbsentPair(line, Parser.SoThatLabel, 1);
  }

  /** `prefix + v` keeps the `*` pairs of a prefix that ends in a blank,
      when `v` has no `*`. */
  lemma StarPairs(prefix: string, v: string, y: char)
    requires PairFree(prefix, '*', y) && prefix != [] && prefix[|prefix| - 1] == ' '
    requires Lacks(v, '*')
    ensures PairFree(prefix + v, '*', y)
  {
    PairFreeJoin(prefix, v, '*', y);
  }

  lemma DashShape(field: string, a: string)
    ensures "- " + field + " " + a == ['-'] + ([' '] + (field + (" " + a)))
  {
  }

  /** `- **Label**: a` holds the label, and the text after it is `a`. */
  lemma DashedLabel(field: string, a: string)
    requires field != [] && field[0] == '*'
    requires RoundTrip.Plain(a)
    ensures Contains("- " + field + " " + a, field)
    ensures Parser.AfterLabel("- " + field + " " + a, field) == a
  {
    var w := " " + a;
    var tail := field + w;
    var s1 := [' '] + tail;
    var s2 := ['-'] + s1;
    DashShape(field, a);
    LacksAppend(" ", a, '*');
    AbsentChar(w, field, 0);
    SplitOnLead(field, w);
    SplitOnCons(' ', tail, field);
    assert SplitOn(s1, field)[1] == w;
    SplitOnCons('-', s1, field);
    assert SplitOn(s2, field)[1] == w;
    ContainsAppend([' '], tail, field);
    ContainsAppend(['-'], s1, field);
    RoundTrip.StripBlank(a);
  }

  /** The role line sets the role. */
  lemma AsALine(a: string, rest: seq<string>, f: Parser.StoryFields)
    requires RoundTrip.Plain(a)
    ensures Parser.ScanStory(["- **As a**: " + a] + rest, f) == Parser.ScanStory(rest, f.(asA := a))
  {
    var line := "- **As a**: " + a;
    assert line == "- " + Parser.AsALabel + " " + a;
    DashedLabel(Parser.AsALabel, a);
    Parser.ScanStoryLine(line, rest, f);
  }

  /** The goal line sets the goal: it holds no `**A`, so no role label. */
  lemma IWantToLine(w: string, rest: seq<string>, f: Parser.StoryFields)
    requires RoundTrip.Plain(w)
    ensures Parser.ScanStory(["- **I want to**: " + w] + rest, f) == Parser.ScanStory(rest, f.(iWantTo := w))
  {
    var line := "- **I want to**: " + w;
    assert line == "- " + Parser.IWantToLabel + " " + w;
    DashedLabel(Parser.IWantToLabel, w);
    IWantToAlone(w);
    Parser.ScanStoryLine(line, rest, f);
  }

  /** A goal line does not name the role. */
  lemma IWantToAlone(w: string)
    requires RoundTrip.Plain(w)
    ensures !Contains("- **I want to**: " + w, Parser.AsALabel)
  {
    StarPairs("- **I want to**: ", w, 'A');
    AbsentPair("- **I want to**: " + w, Parser.AsALabel, 1);
  }

  /** The benefit line sets the benefit: it holds neither `**A` nor `**I`. */
  lemma SoThatLine(b: string, rest: seq<string>, f: Parser.StoryFields)
    requires RoundTrip.Plain(b)
    ensures Parser.ScanStory(["- **So that**: " + b] + rest, f) == Parser.ScanStory(rest, f.(soThat := b))
  {
    var line := "- **So that**: " + b;
    assert line == "- " + Parser.SoThatLabel + " " + b;
    DashedLabel(Parser.SoThatLabel, b);
    SoThatAlone(b);
    Parser.ScanStoryLine(line, rest, f);
  }

  /** A benefit line names neither the role nor the goal. */
  lemma SoThatAlone(b: string)
    requires RoundTrip.Plain(b)
    ensures !Contains("- **So that**: " + b, Parser.AsALabel)
    ensures !Contains("- **So that**: " + b, Parser.IWantToLabel)
  {
    var line := "- **So that**: " + b;
    StarPairs("- **So that**: ", b, 'A');
    StarPairs("- **So that**: ", b, 'I');
    AbsentPair(line, Parser.AsALabel, 1);
    AbsentPair(line, Parser.IWantToLabel, 1);
  }

  /** One step of the story loop over a line that mentions no part of the
      triad and starts with none of the other labels the loop reads. */
  lemma StoryOtherLine(line: string, rest: seq<string>, f: Parser.StoryFields)
    requires Tripless(line)
    requires !StartsWith(line, Parser.PriorityLabel)
    requires !StartsWith(line, Parser.CriteriaLabel)
    requires !StartsWith(line, Parser.NotesLabel)
    ensures Parser.ScanStory([line] + rest, f) == Parser.ScanStory(rest, f)
  {
    Parser.ScanStoryLine(line, rest, f);
  }

  /** `**User Story**:` has no `A`, no `I` and no `h`, and its third
      character is none of the third characters of the other labels. */
  lemma UserStoryShape(line: string)
    requires line == "**User Story**:"
    ensures Tripless(line)
    ensures !StartsWith(line, Parser.PriorityLabel)
    ensures !StartsWith(line, Parser.CriteriaLabel)
    ensures !StartsWith(line, Parser.NotesLabel)
  {
    UserStoryTripless(line);
    assert line[..|Parser.PriorityLabel|][2] == 'U';
  }

  lemma UserStoryTripless(line: string)
    requires line == "**User Story**:"
    ensures Tripless(line)
  {
    UserStoryLetters(line);
    TriplessWithoutH(line);
  }

  lemma UserStoryLetters(line: string)
    requires line == "**User Story**:"
    ensures Lacks(line, 'A') && Lacks(line, 'I') && Lacks(line, 'h')
  {
  }

  /** Without `A`, `I` and `h` a line mentions no part of the triad. */
  lemma TriplessWithoutH(line: string)
    requires Lacks(line, 'A') && Lacks(line, 'I') && Lacks(line, 'h')
    ensures Tripless(line)
  {
    AbsentChar(line, Parser.AsALabel, 2);
    AbsentChar(line, Parser.IWantToLabel, 2);
    AbsentChar(line, Parser.SoThatLabel, 6);
  }

  /** The `**User Story**:` line introduces the triad and sets nothing. */
  lemma UserStoryLine(rest: seq<string>, f: Parser.StoryFields)
    ensures Parser.ScanStory(["**User Story**:"] + rest, f) == Parser.ScanStory(rest, f)
  {
    UserStoryShape("**User Story**:");
    StoryOtherLine("**User Story**:", rest, f);
  }

  /** An empty line changes nothing. */
  lemma BlankLine(rest: seq<string>, f: Parser.StoryFields)
    ensures Parser.ScanStory([""] + rest, f) == Parser.ScanStory(rest, f)
  {
    TriplessByLetters("");
    StoryNeutral("", rest, f);
  }

  /** The closing separator of a story changes nothing. */
  lemma StoryClosing(f: Parser.StoryFields)
    ensures Parser.ScanStory(["---", ""], f) == f
  {
    TriplessByLetters("---");
    StoryNeutral("---", [""], f);
    BlankLine([], f);
    assert ["---", ""] == ["---"] + [""];
    assert [""] == [""] + [];
  }

  /** The criteria heading has no `s`, no `I` and no `S`, so it mentions
      no part of the triad. */
  lemma CriteriaTripless()
    ensures Tripless(Parser.CriteriaLabel)
  {
    CriteriaLetters();
    TriplessWithoutS(Parser.CriteriaLabel);
  }

  /** The criteria heading is not a priority line. */
  lemma CriteriaNotPriority()
    ensures StartsWith(Parser.CriteriaLabel, Parser.CriteriaLabel)
    ensures !StartsWith(Parser.CriteriaLabel, Parser.PriorityLabel)
  {
    assert Parser.CriteriaLabel + [] == Parser.CriteriaLabel;
    RoundTrip.LabelledLine(Parser.CriteriaLabel, Parser.PriorityLabel, [], 2);
  }

  lemma CriteriaLetters()
    ensures Lacks(Parser.CriteriaLabel, 's')
    ensures Lacks(Parser.CriteriaLabel, 'I')
    ensures Lacks(Parser.CriteriaLabel, 'S')
  {
  }

  /** One step of the story loop over an acceptance-criteria heading. */
  lemma StoryCriteriaStep(lines: seq<string>, f: Parser.StoryFields)
    requires lines != [] && lines[0] == Parser.CriteriaLabel
    ensures
      var k := Parser.Run(lines[1..], Parser.IsBulletLine);
      Parser.ScanStory(lines, f) ==
        Parser.ScanStory(lines[1 + k..], f.(criteria := f.criteria + Parser.BulletTexts(lines[1..1 + k])))
  {
    CriteriaTripless();
    CriteriaNotPriority();
  }

  /** A criteria block adds exactly its items to the criteria read. */
  lemma StoryCriteriaBlock(items: seq<string>, rest: seq<string>, f: Parser.StoryFields)
    requires items != []
    requires forall x <- items :: IsStripped(x)
    ensures Parser.ScanStory(Render.CriteriaBlock(Render.CriteriaLabel, items) + rest, f) ==
            Parser.ScanStory(rest, f.(criteria := f.criteria + items))
  {
    RoundTrip.CriteriaRun(items, rest);
    RoundTrip.SameCriteriaLabel();
    CriteriaLines(Render.CriteriaBlock(Render.CriteriaLabel, items) + rest, items, rest, f);
  }

  /** The story loop over a criteria heading, its bullets and a blank line
      adds exactly the bullets' texts. */
  lemma CriteriaLines(ls: seq<string>, items: seq<string>, rest: seq<string>, f: Parser.StoryFields)
    requires ls != [] && ls[0] == Parser.CriteriaLabel
    requires Parser.Run(ls[1..], Parser.IsBulletLine) == |items|
    requires Parser.BulletTexts(ls[1..1 + |items|]) == items
    requires ls[1 + |items|..] == [""] + rest
    ensures Parser.ScanStory(ls, f) == Parser.ScanStory(rest, f.(criteria := f.criteria + items))
  {
    StoryCriteriaStep(ls, f);
    BlankLine(rest, f.(criteria := f.criteria + items));
  }

  /** The notes line sets the notes. */
  lemma StoryNotesLine(n: string, rest: seq<string>, f: Parser.StoryFields)
    requires RoundTrip.Plain(n)
    ensures Parser.ScanStory([Parser.NotesLabel + " " + n] + rest, f) ==
            Parser.ScanStory(rest, f.(notes := Some(n)))
  {
    NotesLineFacts(n);
    NotesStep(Parser.NotesLabel + " " + n, n, rest, f);
  }

  /** What the scan can tell of a notes line. */
  lemma NotesLineFacts(n: string)
    requires RoundTrip.Plain(n)
    ensures Tripless(Parser.NotesLabel + " " + n)
    ensures StartsWith(Parser.NotesLabel + " " + n, Parser.NotesLabel)
    ensures !StartsWith(Parser.NotesLabel + " " + n, Parser.PriorityLabel)
    ensures !StartsWith(Parser.NotesLabel + " " + n, Parser.CriteriaLabel)
    ensures Parser.FieldValue(Parser.NotesLabel + " " + n, Parser.NotesLabel) == n
  {
    NotesTripless(n);
    assert Parser.NotesLabel + " " + n == Parser.NotesLabel + (" " + n);
    RoundTrip.LabelledLine(Parser.NotesLabel, Parser.PriorityLabel, " " + n, 2);
    RoundTrip.LabelledLine(Parser.NotesLabel, Parser.CriteriaLabel, " " + n, 2);
    RoundTrip.FieldLine(Parser.NotesLabel, n);
  }

  lemma NotesTripless(n: string)
    requires RoundTrip.Plain(n)
    ensures Tripless(Parser.NotesLabel + " " + n)
  {
    var head := Parser.NotesLabel + " ";
    NotesLetters(head);
    LacksPairFree(head, '*', 'A');
    LacksPairFree(head, '*', 'I');
    LacksPairFree(head, '*', 'S');
    StarPairs(head, n, 'A');
    StarPairs(head, n, 'I');
    StarPairs(head, n, 'S');
    TriplessByStars(head + n);
  }

  lemma NotesLetters(head: string)
    requires head == "**Technical Notes**: "
    ensures Lacks(head, 'A') && Lacks(head, 'I') && Lacks(head, 'S')
    ensures head != [] && head[|head| - 1] == ' '
  {
  }

  lemma LacksPairFree(s: string, x: char, y: char)
    requires Lacks(s, y)
    ensures PairFree(s, x, y)
  {
    forall i | 0 <= i < |s| - 1 ensures !(s[i] == x && s[i + 1] == y) {
      assert s[i + 1] != y;
    }
  }

  lemma NotesStep(line: string, n: string, rest: seq<string>, f: Parser.StoryFields)
    requires Tripless(line) && StartsWith(line, Parser.NotesLabel)
    requires !StartsWith(line, Parser.PriorityLabel) && !StartsWith(line, Parser.CriteriaLabel)
    requires Parser.FieldValue(line, Parser.NotesLabel) == n
    ensures Parser.ScanStory([line] + rest, f) == Parser.ScanStory(rest, f.(notes := Some(n)))
  {
    Parser.ScanStoryLine(line, rest, f);
  }

  lemma StoryNotesScan(notes: Option<string>, f: Parser.StoryFields)
    requires notes.Some? ==> RoundTrip.Plain(notes.value)
    ensures Parser.ScanStory(RoundTrip.NotesPhysical(notes) + ["---", ""], f) ==
            f.(notes := if Truthy(notes) then notes else f.notes)
  {
    var closing := ["---", ""];
    if Truthy(notes) {
      var n := notes.value;
      var g := f.(notes := Some(n));
      assert "**Technical Notes**: " + n == Parser.NotesLabel + " " + n;
      assert RoundTrip.NotesPhysical(notes) + closing == [Parser.NotesLabel + " " + n] + ([""] + closing);
      StoryNotesLine(n, [""] + closing, f);
      BlankLine(closing, g);
      StoryClosing(g);
    } else {
      assert RoundTrip.NotesPhysical(notes) + closing == closing;
      StoryClosing(f);
    }
  }

  /** After the priority: the criteria block and the notes. */
  lemma StoryTailScan(items: seq<string>, notes: Option<string>, f: Parser.StoryFields)
    requires forall x <- items :: IsStripped(x)
    requires notes.Some? ==> RoundTrip.Plain(notes.value)
    ensures
      var tail := Render.CriteriaBlock(Render.CriteriaLabel, items) + RoundTrip.NotesPhysical(notes) + ["---", ""];
      Parser.ScanStory(tail, f) ==
        f.(criteria := f.criteria + items, notes := if Truthy(notes) then notes else f.notes)
  {
    var rest := RoundTrip.NotesPhysical(notes) + ["---", ""];
    var block := Render.CriteriaBlock(Render.CriteriaLabel, items);
    assert block + RoundTrip.NotesPhysical(notes) + ["---", ""] == block + rest;
    if items != [] {
      StoryCriteriaBlock(items, rest, f);
      StoryNotesScan(notes, f.(criteria := f.criteria + items));
    } else {
      assert block + rest == rest;
      assert f.criteria + items == f.criteria;
      StoryNotesScan(notes, f);
    }
  }

  // ---------------------------------------------------------------------
  // A whole story
  // ---------------------------------------------------------------------

  /** A story the writer can put on lines the parser reads back: one-line
      title, plain role, goal, benefit and notes, stripped one-line
      criteria. */
  predicate PlainStory(st: UserStory) {
    && SingleLine(st.title)
    && RoundTrip.Plain(st.asA)
    && RoundTrip.Plain(st.iWantTo)
    && RoundTrip.Plain(st.soThat)
    && (forall x <- st.acceptanceCriteria :: IsStripped(x) && SingleLine(x))
    && (st.technicalNotes.Some? ==> RoundTrip.Plain(st.technicalNotes.value))
  }

  /** What the story loop should collect for a story. */
  function StoryFieldsOf(st: UserStory): Parser.StoryFields {
    Parser.StoryFields(st.asA, st.iWantTo, st.soThat, LevelName(st.priority), EffortField(st.estimatedEffort),
                       st.acceptanceCriteria, if Truthy(st.technicalNotes) then st.technicalNotes else None)
  }

  /** The heading line of story `i`. */
  function StoryHeadingLine(i: nat, title: string): string {
    "## Story " + NatToString(i) + ": " + title
  }

  lemma StoryHeadingShape(i: nat, title: string)
    requires SingleLine(title)
    ensures SingleLine(StoryHeadingLine(i, title))
    ensures Render.StoryHeading(i, title) == StoryHeadingLine(i, title) + "\n"
  {
    RoundTrip.NumberLine(i);
    RoundTrip.LacksThree("## Story ", NatToString(i), ": ", '\n');
    LacksAppend("## Story " + NatToString(i) + ": ", title, '\n');
  }

  /** The lines of the heading and the triad of a story. */
  function StoryHeadPhysical(i: nat, st: UserStory): seq<string> {
    [StoryHeadingLine(i, st.title), "", "**User Story**:",
     "- **As a**: " + st.asA, "- **I want to**: " + st.iWantTo, "- **So that**: " + st.soThat, ""]
  }

  /** The triad entries stand on five lines, the last one empty. */
  lemma TriadLines(st: UserStory)
    requires PlainStory(st)
    ensures Lines(Render.StoryTriad(st)) ==
      ["**User Story**:", "- **As a**: " + st.asA, "- **I want to**: " + st.iWantTo,
       "- **So that**: " + st.soThat, ""]
  {
    var u := "**User Story**:";
    var a := "- **As a**: " + st.asA;
    var w := "- **I want to**: " + st.iWantTo;
    var b := "- **So that**: " + st.soThat;
    TriadSingles(st);
    assert Render.StoryTriad(st) == [u, a, w] + [b + "\n"];
    LinesAppend([u, a, w], [b + "\n"]);
    RoundTrip.LinesOfSingles([u, a, w]);
    LastEntryLines(b);
  }

  /** A last entry ending in a line break stands on its line and an empty
      one. */
  lemma LastEntryLines(b: string)
    requires SingleLine(b)
    ensures Lines([b + "\n"]) == [b, ""]
  {
    BreakEntry(b);
    RoundTrip.LinesCons(b + "\n", []);
  }

  lemma TriadPrefixes()
    ensures SingleLine("**User Story**:")
    ensures SingleLine("- **As a**: ")
    ensures SingleLine("- **I want to**: ")
    ensures SingleLine("- **So that**: ")
  {
  }

  lemma TriadSingles(st: UserStory)
    requires PlainStory(st)
    ensures SingleLine("**User Story**:")
    ensures SingleLine("- **As a**: " + st.asA)
    ensures SingleLine("- **I want to**: " + st.iWantTo)
    ensures SingleLine("- **So that**: " + st.soThat)
  {
    TriadPrefixes();
    LacksAppend("- **As a**: ", st.asA, '\n');
    LacksAppend("- **I want to**: ", st.iWantTo, '\n');
    LacksAppend("- **So that**: ", st.soThat, '\n');
  }

  lemma StoryHeadLines(i: nat, st: UserStory)
    requires PlainStory(st)
    ensures Lines([Render.StoryHeading(i, st.title)] + Render.StoryTriad(st)) == StoryHeadPhysical(i, st)
  {
    var h := Render.StoryHeading(i, st.title);
    StoryHeadingShape(i, st.title);
    BreakEntry(StoryHeadingLine(i, st.title));
    TriadLines(st);
    RoundTrip.LinesCons(h, Render.StoryTriad(st));
  }

  lemma BreakEntry(x: string)
    requires SingleLine(x)
    ensures Split(x + "\n", '\n') == [x, ""]
  {
    RoundTrip.BreakEntry(x);
  }

  /** After the heading, the triad lines set role, goal and benefit. */
  lemma StoryHeadScan(i: nat, st: UserStory, rest: seq<string>, f: Parser.StoryFields)
    requires PlainStory(st)
    ensures Parser.ScanStory(StoryHeadPhysical(i, st)[1..] + rest, f) ==
      Parser.ScanStory(rest, f.(asA := st.asA, iWantTo := st.iWantTo, soThat := st.soThat))
  {
    var a := "- **As a**: " + st.asA;
    var w := "- **I want to**: " + st.iWantTo;
    var b := "- **So that**: " + st.soThat;
    var f1 := f.(asA := st.asA);
    var f2 := f1.(iWantTo := st.iWantTo);
    var f3 := f2.(soThat := st.soThat);
    assert StoryHeadPhysical(i, st)[1..] + rest ==
      [""] + (["**User Story**:"] + ([a] + ([w] + ([b] + ([""] + rest)))));
    BlankLine(["**User Story**:"] + ([a] + ([w] + ([b] + ([""] + rest)))), f);
    UserStoryLine([a] + ([w] + ([b] + ([""] + rest))), f);
    AsALine(st.asA, [w] + ([b] + ([""] + rest)), f);
    IWantToLine(st.iWantTo, [b] + ([""] + rest), f1);
    SoThatLine(st.soThat, [""] + rest, f2);
    BlankLine(rest, f3);
  }

  /** The lines of the criteria block, the notes and the separator. */
  function StoryTailPhysical(st: UserStory): seq<string> {
    Render.CriteriaBlock(Render.CriteriaLabel, st.acceptanceCriteria)
    + RoundTrip.NotesPhysical(st.technicalNotes) + ["---", ""]
  }

  lemma StoryTailLines(st: UserStory)
    requires PlainStory(st)
    ensures
      var tail := Render.CriteriaBlock(Render.CriteriaLabel, st.acceptanceCriteria)
                  + Render.NotesLine(st.technicalNotes) + [Render.Separator];
      Lines(tail) == StoryTailPhysical(st)
  {
    assert forall x <- st.acceptanceCriteria :: SingleLine(x);
    RoundTrip.CriteriaTailLines(st.acceptanceCriteria, st.technicalNotes);
  }


  /** The priority entry and the empty entry after it. */
  lemma PriorityLines(p: Level, e: Option<EffortSize>)
    ensures Lines([Render.PriorityEntry(p, e), "\n"]) == [Render.PriorityEntry(p, e), "", ""]
  {
    var pe := Render.PriorityEntry(p, e);
    RoundTrip.PriorityEntryLine(p, e);
    SplitSingleLine(pe);
    BreakEntry("");
    assert "" + "\n" == "\n";
    RoundTrip.LinesCons("\n", []);
    RoundTrip.LinesCons(pe, ["\n"]);
    assert [pe, "\n"] == [pe] + ["\n"];
  }

  /** The entries of a story, grouped as its head, its priority entry and
      its tail. */
  lemma StoryEntries(i: nat, st: UserStory)
    ensures Render.StoryLines(i, st) ==
      ([Render.StoryHeading(i, st.title)] + Render.StoryTriad(st))
      + [Render.PriorityEntry(st.priority, st.estimatedEffort), "\n"]
      + (Render.CriteriaBlock(Render.CriteriaLabel, st.acceptanceCriteria)
         + Render.NotesLine(st.technicalNotes) + [Render.Separator])
  {
  }

  /** Joined with line breaks, the entries of a story stand on its physical
      lines. */
  lemma StoryLinesPhysical(i: nat, st: UserStory)
    requires PlainStory(st)
    ensures Lines(Render.StoryLines(i, st)) ==
      StoryHeadPhysical(i, st) + [Render.PriorityEntry(st.priority, st.estimatedEffort), "", ""]
      + StoryTailPhysical(st)
  {
    var head := [Render.StoryHeading(i, st.title)] + Render.StoryTriad(st);
    var mid := [Render.PriorityEntry(st.priority, st.estimatedEffort), "\n"];
    var tail := Render.CriteriaBlock(Render.CriteriaLabel, st.acceptanceCriteria)
                + Render.NotesLine(st.technicalNotes) + [Render.Separator];
    StoryEntries(i, st);
    LinesThree(head, mid, tail);
    StoryHeadLines(i, st);
    PriorityLines(st.priority, st.estimatedEffort);
    StoryTailLines(st);
  }

  lemma ThreeEntries(x: string, y: string, z: string, tail: seq<string>)
    ensures [x, y, z] + tail == [x] + ([y] + ([z] + tail))
  {
  }

  lemma DropFirst(head: seq<string>, mid: seq<string>, tail: seq<string>)
    requires head != []
    ensures (head + mid + tail)[1..] == head[1..] + (mid + tail)
  {
  }

  /** After the priority entry, the two empty lines and the tail of a
      story give the story loop its criteria and its notes. */
  lemma StoryCloseScan(st: UserStory, f: Parser.StoryFields)
    requires PlainStory(st)
    ensures Parser.ScanStory([""] + ([""] + StoryTailPhysical(st)), f) ==
      f.(criteria := f.criteria + st.acceptanceCriteria,
         notes := if Truthy(st.technicalNotes) then st.technicalNotes else f.notes)
  {
    var tail := StoryTailPhysical(st);
    BlankLine([""] + tail, f);
    BlankLine(tail, f);
    forall x <- st.acceptanceCriteria ensures IsStripped(x) {
    }
    StoryTailScan(st.acceptanceCriteria, st.technicalNotes, f);
  }

  lemma FourEntries(x: string, y: string, tail: seq<string>)
    ensures [x, y, "", ""] + tail == [x, y] + ([""] + ([""] + tail))
  {
  }

  /** A story written by the story writer and read by the story loop, from
      the line after its heading, gives back every field of the story: its
      role, goal, benefit, priority, effort, criteria, and notes when they
      are non-empty. */
  lemma StoryRoundTrip(i: nat, st: UserStory)
    requires PlainStory(st)
    ensures Parser.ScanStory(Lines(Render.StoryLines(i, st))[1..], Parser.StoryDefaults) == StoryFieldsOf(st)
  {
    StoryLinesPhysical(i, st);
    var pe := Render.PriorityEntry(st.priority, st.estimatedEffort);
    var head := StoryHeadPhysical(i, st);
    var tail := StoryTailPhysical(st);
    DropFirst(head, [pe, "", ""], tail);
    ThreeEntries(pe, "", "", tail);
    var f1 := Parser.StoryDefaults.(asA := st.asA, iWantTo := st.iWantTo, soThat := st.soThat);
    StoryHeadScan(i, st, [pe] + ([""] + ([""] + tail)), Parser.StoryDefaults);
    StoryPriorityEntryBack(st.priority, st.estimatedEffort, [""] + ([""] + tail), f1);
    var f2 := f1.(priority := LevelName(st.priority), effort := EffortField(st.estimatedEffort));
    StoryCloseScan(st, f2);
    assert [] + st.acceptanceCriteria == st.acceptanceCriteria;
  }

  /** The entries of a story with an effort, as written, grouped. */
  lemma StoryEntriesAsWritten(i: nat, st: UserStory)
    requires st.estimatedEffort.Some?
    ensures Render.StoryLinesAsWritten(i, st) ==
      ([Render.StoryHeading(i, st.title)] + Render.StoryTriad(st))
      + ["**Priority**: " + LevelName(st.priority), " | **Effort**: " + EffortName(st.estimatedEffort.value), "\n"]
      + (Render.CriteriaBlock(Render.CriteriaLabel, st.acceptanceCriteria)
         + Render.NotesLine(st.technicalNotes) + [Render.Separator])
  {
    var e := st.estimatedEffort.value;
    assert Render.EffortEntry(st.estimatedEffort) == [" | **Effort**: " + EffortName(e)];
    EntriesRegroup([Render.StoryHeading(i, st.title)], Render.StoryTriad(st),
                   ["**Priority**: " + LevelName(st.priority)], [" | **Effort**: " + EffortName(e)], ["\n"],
                   Render.CriteriaBlock(Render.CriteriaLabel, st.acceptanceCriteria),
                   Render.NotesLine(st.technicalNotes), [Render.Separator]);
  }

  lemma EntriesRegroup(a: seq<string>, b: seq<string>, c: seq<string>, d: seq<string>,
                       e: seq<string>, f: seq<string>, g: seq<string>, h: seq<string>)
    ensures a + b + c + d + e + f + g + h == (a + b) + (c + d + e) + (f + g + h)
  {
  }

  /** The priority and effort entries as written, and the empty entry after
      them. */
  lemma PriorityLinesAsWritten(p: Level, e: EffortSize)
    ensures
      var pl := "**Priority**: " + LevelName(p);
      var el := " | **Effort**: " + EffortName(e);
      Lines([pl, el, "\n"]) == [pl, el, "", ""]
  {
    var pl := "**Priority**: " + LevelName(p);
    var el := " | **Effort**: " + EffortName(e);
    RoundTrip.PriorityEntryLine(p, None);
    RoundTrip.PriorityEntryNone(p);
    RoundTrip.EffortNameShape(e);
    LacksAppend(" | **Effort**: ", EffortName(e), '\n');
    TwoSinglesThenBreak(pl, el);
  }

  lemma TwoSinglesThenBreak(a: string, b: string)
    requires SingleLine(a) && SingleLine(b)
    ensures Lines([a, b, "\n"]) == [a, b, "", ""]
  {
    SplitSingleLine(a);
    SplitSingleLine(b);
    BreakEntry("");
    assert "" + "\n" == "\n";
    RoundTrip.LinesCons("\n", []);
    RoundTrip.LinesCons(b, ["\n"]);
    RoundTrip.LinesCons(a, [b, "\n"]);
    assert [a, b, "\n"] == [a] + [b, "\n"];
    assert [b, "\n"] == [b] + ["\n"];
  }

  /** The lines a story with an effort is written on, as written. */
  lemma StoryLinesPhysicalAsWritten(i: nat, st: UserStory)
    requires PlainStory(st) && st.estimatedEffort.Some?
    ensures Lines(Render.StoryLinesAsWritten(i, st)) ==
      StoryHeadPhysical(i, st)
      + ["**Priority**: " + LevelName(st.priority), " | **Effort**: " + EffortName(st.estimatedEffort.value), "", ""]
      + StoryTailPhysical(st)
  {
    var e := st.estimatedEffort.value;
    var pl := "**Priority**: " + LevelName(st.priority);
    var el := " | **Effort**: " + EffortName(e);
    var head := [Render.StoryHeading(i, st.title)] + Render.StoryTriad(st);
    var tail := Render.CriteriaBlock(Render.CriteriaLabel, st.acceptanceCriteria)
                + Render.NotesLine(st.technicalNotes) + [Render.Separator];
    StoryEntriesAsWritten(i, st);
    LinesThree(head, [pl, el, "\n"], tail);
    StoryHeadLines(i, st);
    PriorityLinesAsWritten(st.priority, e);
    StoryTailLines(st);
  }

  /** A story with an effort, written as the story writer writes it and
      read by the story loop, comes back with everything but its effort:
      the effort line is skipped. */
  lemma StoryEffortLostInStory(i: nat, st: UserStory)
    requires PlainStory(st) && st.estimatedEffort.Some?
    ensures Parser.ScanStory(Lines(Render.StoryLinesAsWritten(i, st))[1..], Parser.StoryDefaults) ==
            StoryFieldsOf(st).(effort := None)
    ensures StoryFieldsOf(st).effort != None
  {
    var e := st.estimatedEffort.value;
    var pl := "**Priority**: " + LevelName(st.priority);
    var el := " | **Effort**: " + EffortName(e);
    var hp := StoryHeadPhysical(i, st);
    var tp := StoryTailPhysical(st);
    StoryLinesPhysicalAsWritten(i, st);
    DropFirst(hp, [pl, el, "", ""], tp);
    FourEntries(pl, el, tp);
    var f1 := Parser.StoryDefaults.(asA := st.asA, iWantTo := st.iWantTo, soThat := st.soThat);
    StoryHeadScan(i, st, [pl, el] + ([""] + ([""] + tp)), Parser.StoryDefaults);
    StoryEffortLost(st.priority, e, [""] + ([""] + tp), f1);
    var f2 := f1.(priority := LevelName(st.priority));
    StoryCloseScan(st, f2);
    assert [] + st.acceptanceCriteria == st.acceptanceCriteria;
  }
}

=== FILE: strings.dfy ===
/** The handful of Python `str` operations the ticket generator relies on,
    written out over `seq<char>`: `strip`, ASCII `lower`, `startswith`, `in`,
    `replace`, `split`, `join`, slicing and decimal formatting of integers. */
module Strings {

  type String = seq<char>

  /** Python's `str.isspace()`: the characters `strip()` removes and the
      regular-expression class `\s` matches. */
  predicate IsSpace(c: char) {
    || c == ' '
    || ('\t' <= c <= '\r')
    || ('\U{1C}' <= c <= '\U{1F}')
    || c == '\U{85}' || c == '\U{A0}' || c == '\U{1680}'
    || ('\U{2000}' <= c <= '\U{200A}')
    || c == '\U{2028}' || c == '\U{2029}' || c == '\U{202F}' || c == '\U{205F}'
    || c == '\U{3000}'
  }

  predicate IsDigit(c: char) {
    '0' <= c <= '9'
  }

  predicate IsUpper(c: char) {
    'A' <= c <= 'Z'
  }

  predicate AllSpace(s: String) {
    forall i :: 0 <= i < |s| ==> IsSpace(s[i])
  }

  predicate AllDigits(s: String) {
    forall i :: 0 <= i < |s| ==> IsDigit(s[i])
  }

  /** No whitespace at either end: what `strip()` leaves behind. */
  predicate IsStripped(s: String) {
    s == [] || (!IsSpace(s[0]) && !IsSpace(s[|s| - 1]))
  }

  // ---------------------------------------------------------------------
  // strip
  // ---------------------------------------------------------------------

  /** Length of the run of whitespace that starts the string. */
  function LeadingSpace(s: String): (k: nat)
    ensures k <= |s|
    ensures forall i :: 0 <= i < k ==> IsSpace(s[i])
    ensures k < |s| ==> !IsSpace(s[k])
  {
    if s == [] || !IsSpace(s[0]) then 0 else 1 + LeadingSpace(s[1..])
  }

  /** Length of the run of whitespace that ends the string. */
  function TrailingSpace(s: String): (k: nat)
    ensures k <= |s|
    ensures forall i :: |s| - k <= i < |s| ==> IsSpace(s[i])
    ensures k < |s| ==> !IsSpace(s[|s| - k - 1])
  {
    if s == [] || !IsSpace(s[|s| - 1]) then 0 else 1 + TrailingSpace(s[..|s| - 1])
  }

  /** Python's `s.strip()`. */
  function Strip(s: String): (r: String)
    ensures IsStripped(r)
    ensures |r| <= |s|
    ensures r == [] <==> AllSpace(s)
    ensures IsStripped(s) ==> r == s
  {
    var a := LeadingSpace(s);
    var t := s[a..];
    var r := t[..|t| - TrailingSpace(t)];
    r
  }

  lemma StripIdempotent(s: String)
    ensures Strip(Strip(s)) == Strip(s)
  {
  }

  // ---------------------------------------------------------------------
  // lower, prefixes, substrings
  // ---------------------------------------------------------------------

  /** ASCII case folding; every other character is left alone. */
  function LowerChar(c: char): char {
    if 'A' <= c <= 'Z' then (c as int - 'A' as int + 'a' as int) as char else c
  }

  /** Python's `s.lower()`, restricted to ASCII letters. */
  function Lower(s: String): (r: String)
    ensures |r| == |s|
    ensures forall i :: 0 <= i < |s| ==> r[i] == LowerChar(s[i])
  {
    seq(|s|, i requires 0 <= i < |s| => LowerChar(s[i]))
  }

  /** Python's `s.startswith(p)`. */
  predicate StartsWith(s: String, p: String) {
    |p| <= |s| && s[..|p|] == p
  }

  /** Python's `sub in s`. */
  predicate Contains(s: String, sub: String)
    decreases |s|
  {
    StartsWith(s, sub) || (s != [] && Contains(s[1..], sub))
  }

  lemma ContainsPrefix(s: String, sub: String)
    requires StartsWith(s, sub)
    ensures Contains(s, sub)
  {
  }

  /** Containment survives putting text in front. */
  lemma {:induction false} ContainsAppend(a: String, s: String, sub: String)
    requires Contains(s, sub)
    ensures Contains(a + s, sub)
    decreases |a|
  {
    if a != [] {
      assert (a + s)[1..] == a[1..] + s;
      ContainsAppend(a[1..], s, sub);
    } else {
      assert a + s == s;
    }
  }

  /** Python's `s.replace(pat, rep)`: every leftmost, non-overlapping
      occurrence of `pat` is replaced. */
  function ReplaceAll(s: String, pat: String, rep: String): (r: String)
    requires pat != []
    ensures !Contains(s, pat) ==> r == s
    decreases |s|
  {
    if StartsWith(s, pat) then rep + ReplaceAll(s[|pat|..], pat, rep)
    else if s == [] then []
    else [s[0]] + ReplaceAll(s[1..], pat, rep)
  }

  /** `line.replace(p, '')` on a line that starts with `p` and holds no
      other copy of it is the rest of the line. */
  lemma ReplacePrefix(p: String, rest: String)
    requires p != []
    requires !Contains(rest, p)
    ensures ReplaceAll(p + rest, p, []) == rest
  {
    assert StartsWith(p + rest, p);
    assert (p + rest)[|p|..] == rest;
  }

  // ---------------------------------------------------------------------
  // split and join
  // ---------------------------------------------------------------------

  /** Python's `s.split(sep)` for a non-empty separator: the pieces between
      leftmost, non-overlapping occurrences of `sep`. */
  function SplitOn(s: String, sep: String): (r: seq<String>)
    requires sep != []
    ensures |r| >= 1
    decreases |s|
  {
    if s == [] then [[]]
    else if StartsWith(s, sep) then [[]] + SplitOn(s[|sep|..], sep)
    else
      var rest := SplitOn(s[1..], sep);
      [[s[0]] + rest[0]] + rest[1..]
  }

  /** Python's `s.split(c)` for a one-character separator. */
  function Split(s: String, c: char): (r: seq<String>)
    ensures |r| >= 1
  {
    SplitOn(s, [c])
  }

  /** Python's `sep.join(parts)`. */
  function Join(parts: seq<String>, sep: String): String
  {
    if parts == [] then []
    else if |parts| == 1 then parts[0]
    else parts[0] + sep + Join(parts[1..], sep)
  }

  /** Splitting and joining with the same separator gives the string back. */
  lemma {:induction false} JoinSplitOn(s: String, sep: String)
    requires sep != []
    ensures Join(SplitOn(s, sep), sep) == s
    decreases |s|
  {
    if s == [] {
    } else if StartsWith(s, sep) {
      var rest := SplitOn(s[|sep|..], sep);
      JoinSplitOn(s[|sep|..], sep);
      assert SplitOn(s, sep) == [[]] + rest;
      assert s == sep + s[|sep|..];
    } else {
      var rest := SplitOn(s[1..], sep);
      JoinSplitOn(s[1..], sep);
      var r := [[s[0]] + rest[0]] + rest[1..];
      assert SplitOn(s, sep) == r;
      if |rest| == 1 {
        assert Join(r, sep) == [s[0]] + rest[0];
      } else {
        assert Join(rest, sep) == rest[0] + sep + Join(rest[1..], sep);
        assert r[1..] == rest[1..];
        assert Join(r, sep) == [s[0]] + rest[0] + sep + Join(rest[1..], sep);
      }
      assert s == [s[0]] + s[1..];
    }
  }

  /** A string that holds no separator splits into itself alone. */
  lemma {:induction false} SplitOnNoSeparator(s: String, sep: String)
    requires sep != []
    requires !Contains(s, sep)
    ensures SplitOn(s, sep) == [s]
    decreases |s|
  {
    if s != [] {
      SplitOnNoSeparator(s[1..], sep);
      assert [s[0]] + s[1..] == s;
    }
  }

  /** `split` over a character that cannot start the separator adds the
      character to the first piece. */
  lemma SplitOnCons(c: char, s: String, sep: String)
    requires sep != [] && sep[0] != c
    ensures SplitOn([c] + s, sep) == [[c] + SplitOn(s, sep)[0]] + SplitOn(s, sep)[1..]
  {
    var t := [c] + s;
    assert t[1..] == s;
    assert !StartsWith(t, sep) by {
      if |sep| <= |t| {
        assert t[..|sep|][0] == c;
      }
    }
  }

  /** A string that opens with the separator and holds no other copy of it
      splits into an empty piece and the rest. */
  lemma SplitOnLead(sep: String, s: String)
    requires sep != [] && !Contains(s, sep)
    ensures Contains(sep + s, sep)
    ensures SplitOn(sep + s, sep) == [[], s]
  {
    var t := sep + s;
    assert StartsWith(t, sep) by {
      assert t[..|sep|] == sep;
    }
    assert t[|sep|..] == s;
    SplitOnNoSeparator(s, sep);
  }

  /** When the separator occurs, `split` yields at least two pieces, so
      `s.split(sep)[1]` is defined. */
  lemma {:induction false} SplitOnContains(s: String, sep: String)
    requires sep != []
    requires Contains(s, sep)
    ensures |SplitOn(s, sep)| >= 2
    decreases |s|
  {
    if !StartsWith(s, sep) {
      SplitOnContains(s[1..], sep);
    }
  }

  /** No line break inside. */
  predicate SingleLine(s: String) {
    Lacks(s, '\n')
  }

  /** The character `c` does not occur in `s`. */
  predicate Lacks(s: String, c: char) {
    forall i :: 0 <= i < |s| ==> s[i] != c
  }

  lemma LacksAppend(a: String, b: String, c: char)
    requires Lacks(a, c) && Lacks(b, c)
    ensures Lacks(a + b, c)
  {
    forall i | 0 <= i < |a + b| ensures (a + b)[i] != c {
      if i >= |a| {
        assert (a + b)[i] == b[i - |a|];
      }
    }
  }

  /** A substring holding a character the string lacks does not occur. */
  lemma {:induction false} AbsentChar(s: String, sub: String, j: nat)
    requires j < |sub|
    requires Lacks(s, sub[j])
    ensures !Contains(s, sub)
    decreases |s|
  {
    if s != [] {
      AbsentChar(s[1..], sub, j);
    }
  }

  /** No `x` in `s` is directly followed by `y`. */
  predicate PairFree(s: String, x: char, y: char) {
    forall i :: 0 <= i < |s| - 1 ==> !(s[i] == x && s[i + 1] == y)
  }

  /** A string in which two neighbouring characters of `sub` never stand
      side by side does not contain `sub`. */
  lemma {:induction false} AbsentPair(s: String, sub: String, j: nat)
    requires j + 1 < |sub|
    requires PairFree(s, sub[j], sub[j + 1])
    ensures !Contains(s, sub)
    decreases |s|
  {
    if |sub| <= |s| {
      assert s[..|sub|][j] == s[j] && s[..|sub|][j + 1] == s[j + 1];
      assert !(s[j] == sub[j] && s[j + 1] == sub[j + 1]);
    }
    if s != [] {
      assert PairFree(s[1..], sub[j], sub[j + 1]) by {
        forall i | 0 <= i < |s[1..]| - 1
          ensures !(s[1..][i] == sub[j] && s[1..][i + 1] == sub[j + 1])
        {
          assert s[1..][i] == s[i + 1] && s[1..][i + 1] == s[i + 2];
        }
      }
      AbsentPair(s[1..], sub, j);
    }
  }

  /** A prefix without `x` adds no `x y` pair. */
  lemma PairFreeAppend(a: String, b: String, x: char, y: char)
    requires Lacks(a, x) && PairFree(b, x, y)
    ensures PairFree(a + b, x, y)
  {
    forall i | 0 <= i < |a + b| - 1 ensures !((a + b)[i] == x && (a + b)[i + 1] == y) {
      if i >= |a| {
        assert (a + b)[i] == b[i - |a|] && (a + b)[i + 1] == b[i + 1 - |a|];
      }
    }
  }

  /** Joining a suffix without `x` to a string that does not end in `x`
      adds no `x y` pair. */
  lemma PairFreeJoin(a: String, b: String, x: char, y: char)
    requires PairFree(a, x, y) && (a == [] || a[|a| - 1] != x) && Lacks(b, x)
    ensures PairFree(a + b, x, y)
  {
    forall i | 0 <= i < |a + b| - 1 ensures !((a + b)[i] == x && (a + b)[i + 1] == y) {
      if i + 1 < |a| {
        assert (a + b)[i] == a[i] && (a + b)[i + 1] == a[i + 1];
      } else if i + 1 == |a| {
        assert (a + b)[i] == a[i];
      } else {
        assert (a + b)[i] == b[i - |a|];
      }
    }
  }

  /** Whitespace on either side of a stripped string is what `strip()`
      removes. */
  lemma StripPadded(left: String, s: String, right: String)
    requires AllSpace(left) && AllSpace(right) && IsStripped(s)
    ensures Strip(left + s + right) == s
  {
    var all := left + s + right;
    if s == [] {
      assert all == left + right;
      assert AllSpace(all) by {
        forall i | 0 <= i < |all| ensures IsSpace(all[i]) {
          if i >= |left| {
            assert all[i] == right[i - |left|];
          }
        }
      }
    } else {
      var a := LeadingSpace(all);
      assert all[|left|] == s[0];
      assert a == |left|;
      var t := all[a..];
      assert t == s + right;
      var b := TrailingSpace(t);
      assert t[|s| - 1] == s[|s| - 1];
      assert b == |right|;
      assert t[..|t| - b] == s;
    }
  }

  /** A single line splits on line breaks into itself. */
  lemma SplitSingleLine(s: String)
    requires SingleLine(s)
    ensures Split(s, '\n') == [s]
  {
    AbsentChar(s, "\n", 0);
    SplitOnNoSeparator(s, "\n");
  }

  /** Splitting distributes over a separator in the middle. */
  lemma {:induction false} SplitAround(a: String, b: String, c: char)
    ensures Split(a + [c] + b, c) == Split(a, c) + Split(b, c)
    decreases |a|
  {
    var s := a + [c] + b;
    if a == [] {
      assert s == [c] + b;
      assert StartsWith(s, [c]);
      assert s[1..] == b;
    } else {
      assert s[0] == a[0];
      assert s[1..] == a[1..] + [c] + b;
      SplitAround(a[1..], b, c);
      if a[0] == c {
        assert StartsWith(s, [c]);
        assert StartsWith(a, [c]);
      } else {
        assert !StartsWith(s, [c]);
        assert !StartsWith(a, [c]);
      }
    }
  }

  /** The physical lines of a list of entries that may themselves hold line
      breaks: what `'\n'.join(entries).split('\n')` yields. */
  function Lines(entries: seq<String>): seq<String> {
    if entries == [] then [] else Split(entries[0], '\n') + Lines(entries[1..])
  }

  lemma {:induction false} LinesAppend(a: seq<String>, b: seq<String>)
    ensures Lines(a + b) == Lines(a) + Lines(b)
    decreases |a|
  {
    if a != [] {
      assert (a + b)[1..] == a[1..] + b;
      LinesAppend(a[1..], b);
    } else {
      assert a + b == b;
    }
  }

  lemma LinesThree(a: seq<String>, b: seq<String>, c: seq<String>)
    ensures Lines(a + b + c) == Lines(a) + Lines(b) + Lines(c)
  {
    LinesAppend(a + b, c);
    LinesAppend(a, b);
  }

  /** Joining entries with line breaks and splitting the result again gives
      their physical lines. */
  lemma {:induction false} SplitJoinLines(entries: seq<String>)
    requires entries != []
    ensures Split(Join(entries, "\n"), '\n') == Lines(entries)
    decreases |entries|
  {
    if |entries| > 1 {
      SplitJoinLines(entries[1..]);
      assert Join(entries, "\n") == entries[0] + ['\n'] + Join(entries[1..], "\n");
      SplitAround(entries[0], Join(entries[1..], "\n"), '\n');
    } else {
      assert Lines(entries[1..]) == [];
    }
  }

  /** Index of the first `c` in `s`, or `|s|` when there is none. */
  function IndexOf(s: String, c: char): (k: nat)
    ensures k <= |s|
    ensures forall i :: 0 <= i < k ==> s[i] != c
    ensures k < |s| ==> s[k] == c
  {
    if s == [] || s[0] == c then 0 else 1 + IndexOf(s[1..], c)
  }

  // ---------------------------------------------------------------------
  // slicing and numbers
  // ---------------------------------------------------------------------

  /** Python's `s[:n]`. */
  function Take<T>(s: seq<T>, n: nat): (r: seq<T>)
    ensures |r| == if |s| <= n then |s| else n
    ensures r == s[..|r|]
  {
    if |s| <= n then s else s[..n]
  }

  /** Python's `s[n:]`: empty when the string is shorter than `n`. */
  function Drop<T>(s: seq<T>, n: nat): (r: seq<T>)
    ensures |s| <= n ==> r == []
    ensures |s| > n ==> s == s[..n] + r
  {
    if |s| <= n then [] else s[n..]
  }

  function DigitChar(d: nat): (c: char)
    requires d < 10
    ensures IsDigit(c)
  {
    ('0' as int + d) as char
  }

  /** Decimal rendering of a natural number, as in `f"{n}"`. */
  function NatToString(n: nat): (r: String)
    ensures |r| >= 1
    ensures AllDigits(r)
    ensures r[0] == '0' ==> n == 0
  {
    if n < 10 then [DigitChar(n)] else NatToString(n / 10) + [DigitChar(n % 10)]
  }
}

=== FILE: wrappers.dfy ===
/** Failure-compatible wrappers shared by every module of the model.

    The Python code signals failure by raising; the model returns a `Result`
    whose `Err` carries the exception that would have been raised. */
module Wrappers {

  /** An optional value: Python's `None` or a present value. */
  datatype Option<+T> = None | Some(value: T)

  /** The exceptions the modelled code can raise. */
  datatype Error =
    /** pydantic's `ValidationError`, naming the model class whose field constraints failed */
    | ValidationError(model: string)
    /** `ValueError` raised explicitly by the markdown parser */
    | ValueError(message: string)
    /** `AttributeError` raised by reading a field the object does not have */
    | AttributeError(attribute: string)

  /** Either a value or the exception that replaced it; usable with `:-`. */
  datatype Result<+T> = Ok(value: T) | Err(error: Error) {

    predicate IsFailure() {
      Err?
    }

    function PropagateFailure<U>(): Result<U>
      requires Err?
    {
      Err(error)
    }

    function Extract(): T
      requires Ok?
    {
      value
    }
  }
}
